=== FILE: README.md ===
# NBA bronze → silver → gold pipeline, modelled in Dafny

This project models the data pipeline of an NBA statistics warehouse. It has three layers:

- **Bronze.** Raw JSON from the NBA stats API: per-game box scores, play-by-play and shot charts, plus one manifest per date.
- **Silver.** Typed, validated Parquet partitions per season and date.
- **Gold.** PostgreSQL fact and dimension tables, loaded by staging-table upserts.

A backfill script drives the three layers date by date, with retries, counters and cooldowns. The project also models the older single-file copies of the bronze and silver steps, the first `etl_pipeline.py` loader, and the season/game splitter of `ingest.py`.

Everything is pure functions over immutable data:

- A data frame is a `Frame(columns, rows)`. A row is a `map<string, Value>`, and an absent key reads as null.
- The file system is a `Store`, a `map` from path to `File`. A file is a JSON document, a manifest or a Parquet frame.
- A database is a `map` from table name to `Table`. A table has a primary key and rows keyed by their key cells.
- The API, the attempt outcomes, the random jitter and pacing, and the database's readiness are oracles passed in as parameters.
- Sleeps are recorded as a list of durations, and Python exceptions are a `Failure` datatype carried in a `Result`.

Modules, one per file:

| module | file | models |
|---|---|---|
| `Wrappers` | wrappers.dfy | `Option` / `Result` |
| `Text` | text.dfy | the string operations the source relies on (`str`, `split`, `rstrip`, `float` on decimals, `basename`, `lower`) |
| `Frames` | frames.dfy | the pandas operations (`DataFrame(records)`, `concat`, column assignment, `to_numeric`, `Int64`, keep-first `drop_duplicates`) |
| `Calendar` | calendar.dfy | Gregorian days, `date_range`, the season rule, `%Y-%m-%d` and `%Y%m%d` text |
| `Validation` | validation.dfy | `ValidationResult` and its checks, and the validation report |
| `Store` | store.dfy | decoded JSON, the bronze/silver path layout, the file store |
| `Bronze` | bronze.dfy | `src/nba_etl/bronze/ingestion.py` |
| `Silver` | silver.dfy | `src/nba_etl/silver/extraction.py` |
| `Tables` | tables.dfy | `INSERT … SELECT … JOIN … ON CONFLICT` on keyed tables |
| `Gold` | gold.dfy | `src/gold.py` |
| `Backfill` | backfill.dfy | `scripts/backfill.py` |
| `LegacyExtraction` | legacy_extraction.dfy | `src/data_extraction.py` |
| `LegacyIngestion` | legacy_ingestion.dfy | `src/ingestion.py` |
| `LegacyPipeline` | legacy_pipeline.dfy | `etl_pipeline.py` |
| `SeasonIngest` | season_ingest.dfy | `ingest.py`'s `generate_season_strings` and `process_games_data` |

Where a doc comment and the code disagree, the model follows the code:

- **FK violations.** `src/gold.py:11-12` and `src/gold.py:160-162` say the database rejects rows that violate foreign keys. The statement actually pre-filters staged rows with inner JOINs (`src/gold.py:187-194`), so such rows are silently not loaded.
- **Backoff comment.** The comment at `scripts/backfill.py:51` lists a 480-second backoff. The loop never sleeps it: the fifth failure gives up at once.

`scripts/backfill.py` imports `load_date` and `init_schema` from `nba_etl.gold.loading`, which is not part of this model. `src/gold.py`'s functions of the same names stand in for them.

The older copies are modelled as they are, and lemmas relate them to the current ones:

- The older `ingest_date` writes no manifest for a day without games. The backfill therefore never sees such a day as done, and silver raises `FileNotFoundError` for it.
- The older `process_date` has no early return for an empty manifest. It reads the manifest first, as the current one does, but then computes the season even when the manifest lists no games.
- The older `convert_shotchart` casts an empty table and so can raise `KeyError` on it.
- The older `convert_*` functions do not validate.

## Model

| member | source | states |
|---|---|---|
| Text.ParseNatText | ingest.py:48 | reading back the digits `str(n)` prints gives `n` again |
| Text.ParseNatPadded | scripts/backfill.py:61 | zero-padding a digit string (as `%m`/`%d` do) keeps the number it denotes |
| Text.PadLeft | scripts/backfill.py:61 | the padded text has the requested width (or the original length), ends with the original and starts with only '0's |
| Text.LastN | ingest.py:48 | `s[-n:]` has `min(n, len(s))` characters and is the suffix of `s` |
| Text.Split | src/nba_etl/silver/extraction.py:236 | `str.split(sep)` always yields at least one piece |
| Text.ParseDecimal | src/nba_etl/silver/extraction.py:237 | a decimal text reads as a non-negative number, or not at all |
| Text.IntText | src/gold.py:285 | `str(i)` is non-empty and starts with '-' exactly when `i` is negative; what follows the sign is all digits |
| Text.SplitShape | src/nba_etl/silver/extraction.py:236 | `split` yields one more piece than there are separators, and no piece contains the separator |
| Text.JoinSplit | src/nba_etl/silver/extraction.py:236 | joining the pieces of `split` with the separator restores the string |
| Text.SplitJoin | src/gold.py:300 | splitting undoes joining when no piece contains the separator |
| Text.RStrip | src/nba_etl/silver/extraction.py:237 | `rstrip(c)` is a prefix that does not end in `c`, and only `c`s were removed |
| Text.RStripAppended | src/nba_etl/silver/extraction.py:237 | appending any number of `c`s to a text not ending in `c` is exactly what `rstrip(c)` undoes |
| Text.RemoveAllSuffix | src/nba_etl/silver/extraction.py:132 | `replace(".json", "")` on `name + ".json"` gives `name` back when `name` holds no ".json" |
| Text.BasenameOfJoin | src/nba_etl/silver/extraction.py:132 | `basename(dir + "/" + name)` is `name` when `name` has no '/' |
| Text.Basename | src/nba_etl/silver/extraction.py:132 | a basename never contains '/' |
| Text.DecimalOfDigits | src/nba_etl/silver/extraction.py:237 | `float` of a plain digit string is the integer those digits spell |
| Text.DecimalOfFraction | src/nba_etl/silver/extraction.py:237 | `float("w.f")` is the whole part plus the fraction scaled by its number of digits |
| Text.ToLower | etl_pipeline.py:61 | on ASCII text (the fixed column names lowered here), `lower()` keeps the length and lower-cases each letter in place |
| Text.LowerLetters | etl_pipeline.py:61 | a text of the same length whose every character is the lower-case form of the other's is its `lower()` |
| Frames.FromRecords | src/nba_etl/silver/extraction.py:182 | `DataFrame(records)` has one row per record, the union of the record keys as columns, and each record's cells |
| Frames.KeysOfFromRecords | src/nba_etl/silver/extraction.py:182 | every column of the built frame comes from some record |
| Frames.Concat | src/nba_etl/silver/extraction.py:393 | `concat(ignore_index=True)` has the sum of the frames' row counts and the union of their columns |
| Frames.AllRowsAt | src/nba_etl/silver/extraction.py:393 | row `k` of frame `i` comes right after all the rows of the frames before it |
| Frames.ConcatRow | src/nba_etl/silver/extraction.py:393 | in the concatenation, that row is the frame's row widened to every frame's columns, null where its own frame lacks a column |
| Frames.Assign | src/nba_etl/silver/extraction.py:183 | `df[c] = …` sets column `c` on every row and leaves every other cell as it was |
| Frames.Recast | src/nba_etl/silver/extraction.py:227 | casting a column raises KeyError exactly when it is absent, else rewrites that column's cells only |
| Frames.CastInt64 | src/nba_etl/silver/extraction.py:184 | `to_numeric(…).astype("Int64")` raises KeyError for an absent column and TypeError exactly when a value has a fractional part; otherwise only that column changes, each cell becoming its Int64 reading |
| Frames.ToInt64 | src/nba_etl/silver/extraction.py:184 | an Int64 cell is an integer or `<NA>` |
| Frames.ToNumeric | src/nba_etl/silver/extraction.py:190 | `to_numeric(errors="coerce")` keeps numbers and booleans and yields a number or null |
| Frames.Derive | src/nba_etl/silver/extraction.py:241 | `df[dst] = df[src].apply(f)` raises KeyError exactly when `src` is absent, else sets `dst` to `f` of each source cell and changes nothing else |
| Frames.NumericExcept | src/nba_etl/silver/extraction.py:186-190 | the columns outside the kept list become `to_numeric` of their cells, and the kept ones are unchanged |
| Frames.FromTable | src/nba_etl/silver/extraction.py:270 | `DataFrame(rowSet, columns=headers)` raises ValueError exactly when a row is too wide or, with rows, all are too short; otherwise cells sit under their headers and are null-padded |
| Frames.PositionalCell | src/nba_etl/silver/extraction.py:270 | a positional row read under header `j` is its `j`-th cell, or null past its end |
| Frames.IsFirstIffNew | src/nba_etl/silver/extraction.py:55 | `duplicated()` marks the last row exactly when an earlier row has its key |
| Frames.FirstOccurrencesKeys | src/nba_etl/silver/extraction.py:191 | keep-first de-duplication keeps exactly the set of keys the input had |
| Frames.FirstOccurrencesUnique | src/nba_etl/silver/extraction.py:191 | after de-duplication no two rows share a key |
| Frames.FirstOccurrencesAreFirst | src/nba_etl/silver/extraction.py:191 | every kept row is an input row that was the first with its key |
| Frames.FirstOccurrencesCount | src/nba_etl/silver/extraction.py:55 | kept rows plus pandas' duplicate count equal the input length |
| Frames.FirstOccurrencesOfUnique | src/nba_etl/silver/extraction.py:191 | rows that already have unique keys pass de-duplication unchanged |
| Frames.FirstOccurrencesIdempotent | src/nba_etl/silver/extraction.py:191 | de-duplicating twice is the same as once |
| Frames.DuplicateCountZero | src/nba_etl/silver/extraction.py:55-56 | the duplicate count is zero exactly when every key is unique |
| Frames.DropDuplicatesHashed | src/nba_etl/silver/extraction.py:191 | a one-pass seen-set implementation computes the same rows as the keep-first reference definition |
| Frames.DropDuplicates | src/nba_etl/silver/extraction.py:191 | `drop_duplicates(subset=…)` raises exactly when a subset column is absent, else keeps the columns and the first row per key |
| Frames.EachRow | ingest.py:181-225 | a per-row loop succeeds exactly when every row's record builds, returns them in order, and otherwise raises the first failing row's exception |
| Calendar.NextDay | scripts/backfill.py:62 | `+ timedelta(days=1)` gives a valid, strictly later day |
| Calendar.NextDayIsAdjacent | scripts/backfill.py:62 | no valid day lies strictly between a day and the next one |
| Calendar.DateRange | scripts/backfill.py:56-62 | the days from `start` to `end`, starting at `start`, each the next day of the one before; empty exactly when `start` is after `end` |
| Calendar.DateRangeComplete | scripts/backfill.py:56-62 | a day is in the range exactly when it lies between the two ends |
| Calendar.DateRangeIncreasing | scripts/backfill.py:56-62 | the range is strictly increasing, so no day repeats |
| Calendar.Season | src/nba_etl/silver/extraction.py:112-114 | the season named `s` contains the day: from October 1st of `s` up to October 1st of `s + 1` |
| Calendar.ParseDateTextRoundTrip | src/nba_etl/silver/extraction.py:113 | `strptime(…, "%Y-%m-%d")` of the text `strftime` printed is the same day |
| Calendar.DateTextInjective | src/nba_etl/silver/extraction.py:136 | distinct days print differently, so per-day paths never collide |
| Calendar.ParseDateText | src/nba_etl/silver/extraction.py:113 | a parsed date is a valid calendar day |
| Calendar.ParseCompactTextRoundTrip | src/nba_etl/silver/extraction.py:283 | `to_datetime(…, format="%Y%m%d")` of an eight-digit API date is the day it names |
| Calendar.ParseCompactText | src/nba_etl/silver/extraction.py:283 | a compact date parses only from eight digits, and only to a valid day |
| Validation.Fresh | src/nba_etl/silver/extraction.py:103-107 | a fresh result carries its source and passes |
| Validation.PassedIffNothingAdded | src/nba_etl/silver/extraction.py:50-52 | a passing result stays passing exactly when the checks appended nothing |
| Validation.ExtendsTransitive | src/nba_etl/silver/extraction.py:44-52 | checks only append issues, and the issues added by two runs concatenate |
| Validation.CheckPkUnique | src/nba_etl/silver/extraction.py:54-58 | raises KeyError exactly when a key column is absent; otherwise adds nothing when keys are unique, else exactly one DUPLICATE PK issue carrying pandas' duplicate count |
| Validation.NullCountPositive | src/nba_etl/silver/extraction.py:66-67 | the null count is positive exactly when some row has a null in the column |
| Validation.CheckNotNull | src/nba_etl/silver/extraction.py:60-70 | only appends, and appends exactly the issues of the flagged columns, in the listed order |
| Validation.FlaggedIssuesExact | src/nba_etl/silver/extraction.py:60-70 | a listed column gets an issue exactly when it is missing or holds a null, and every added issue belongs to such a column |
| Validation.NotNullIssueNamesColumn | src/nba_etl/silver/extraction.py:63-68 | two columns never produce the same issue |
| Validation.CheckRange | src/nba_etl/silver/extraction.py:72-85 | nothing for an absent or non-numeric column; otherwise a below-issue exactly when some value is under `lo` and an above-issue exactly when some value is over `hi` |
| Validation.RangeBoundsInclusive | src/nba_etl/silver/extraction.py:78-84 | values on the bounds themselves never produce a RANGE issue |
| Validation.CheckMinRows | src/nba_etl/silver/extraction.py:87-90 | a ROW COUNT issue exactly when the frame is shorter than the minimum, else nothing |
| Validation.IssueLines | src/nba_etl/silver/extraction.py:413-416 | one report line per issue, each naming the source of a result that holds that issue |
| Validation.CountsAddUp | src/nba_etl/silver/extraction.py:403-404 | passed plus failed is the number checked, and nothing failed exactly when there are no issues |
| Validation.ValidationReport | src/nba_etl/silver/extraction.py:398-419 | no report when nothing was registered; otherwise `passed` is the number of results that passed and `failed` the number that did not, they add up to the total, and there is one line per issue of a failed result, with none exactly when nothing failed |
| Validation.CountsAreIndices | src/nba_etl/silver/extraction.py:403-404 | the two running counts are the sizes of the sets of passing and failing positions |
| Store.Index | src/nba_etl/bronze/ingestion.py:55 | `j[key]` succeeds exactly on an object holding the key, raises KeyError for a missing key and TypeError on a non-object |
| Store.Item | src/nba_etl/silver/extraction.py:265 | `j[i]` indexes lists (IndexError past the end), looks numbers up as dict keys (KeyError) and raises TypeError on scalars |
| Store.Get | src/nba_etl/silver/extraction.py:158 | `.get(key, default)` exists only on dicts (AttributeError otherwise) and yields the value or the default |
| Store.Iterate | src/nba_etl/silver/extraction.py:162 | a `for` loop over a list visits its items; over a scalar it raises TypeError |
| Store.RecordOf | src/nba_etl/silver/extraction.py:221 | a JSON object becomes a record with the same keys and each value's cell |
| Store.CellOf | src/nba_etl/silver/extraction.py:221 | a JSON value becomes a null cell exactly when it is null, a list or an object |
| Store.AsJson | src/nba_etl/silver/extraction.py:126 | `json.load` of a document or manifest succeeds, and of a Parquet file fails |
| Store.JsonIsNotParquet | src/nba_etl/silver/extraction.py:138 | a `.json` path is never a `.parquet` path |
| Store.ArtifactPath | src/nba_etl/bronze/ingestion.py:69 | bronze artifacts are `.json` files |
| Store.ManifestPath | src/nba_etl/bronze/ingestion.py:152 | manifests are `.json` files |
| Store.TeamHistoryPath | src/nba_etl/bronze/ingestion.py:120 | team histories are `.json` files |
| Store.PlayersPath | src/nba_etl/bronze/ingestion.py:135 | the player list is a `.json` file |
| Store.PartitionPath | src/nba_etl/silver/extraction.py:136-138 | silver partitions are `.parquet` files |
| Store.ParquetWritesKeepJson | src/nba_etl/silver/extraction.py:139 | writing Parquet partitions leaves every `.json` file as it was |
| Bronze.NameIs | src/nba_etl/bronze/ingestion.py:55 | `rs["name"] == name` succeeds exactly on a named object and compares its name |
| Bronze.Filter | src/nba_etl/bronze/ingestion.py:54-56 | a comprehension with a raising test succeeds exactly when every test succeeds, keeps exactly the passing elements, and its first kept element comes before every other passing one |
| Bronze.FilterSkips | src/nba_etl/bronze/ingestion.py:54-56 | when every earlier element fails the test, the first element that passes comes first |
| Bronze.Named | src/nba_etl/bronze/ingestion.py:54-56 | the result sets named `name`, in order; fails when a set has no name |
| Bronze.NamedSkipsOthers | src/nba_etl/bronze/ingestion.py:54-56 | `[0]` of the filter is the first GameHeader set when every set before it is named otherwise |
| Bronze.IndexOf | src/nba_etl/bronze/ingestion.py:59 | `list.index(x)` is the first position holding `x`, and fails exactly when `x` is absent |
| Bronze.IndexOfFirst | src/nba_etl/bronze/ingestion.py:59 | `list.index` finds the first occurrence |
| Bronze.ColumnAt | src/nba_etl/bronze/ingestion.py:60 | `[row[gi_idx] for row in rows]` has one id per row, each the row's cell at that position; a cell that is not text raises TypeError (see Left out) |
| Bronze.ColumnAtCells | src/nba_etl/bronze/ingestion.py:60 | rows whose cell at the position is a game id give exactly those ids |
| Bronze.GameIdsOfScoreboard | src/nba_etl/bronze/ingestion.py:54-60 | on a scoreboard whose first GameHeader set has a GAME_ID column, discovery returns that column in row order; earlier sets are ignored |
| Bronze.GameHeader | src/nba_etl/bronze/ingestion.py:54-56 | the chosen set is the first named GameHeader, every set before it named otherwise; none raises IndexError |
| Bronze.GameIdsForDateShape | src/nba_etl/bronze/ingestion.py:54-60 | discovery fails as finding GameHeader fails, raises ValueError when GAME_ID is not a header, and otherwise returns one id per row of that set |
| Bronze.GameIdsForDateSteps | src/nba_etl/bronze/ingestion.py:54-60 | discovery is the GAME_ID column of the rows of the first GameHeader set |
| Bronze.DownloadArtifact | src/nba_etl/bronze/ingestion.py:68-78 | an existing artifact is never overwritten; a missing one is saved exactly when the endpoint answers, and a raising endpoint leaves nothing behind |
| Bronze.DownloadGamesMonotone | src/nba_etl/bronze/ingestion.py:156-159 | the download loop never overwrites a stored file, and every new file is a fetched artifact of a listed game |
| Bronze.DownloadGamesSettles | src/nba_etl/bronze/ingestion.py:156-159 | after the loop every artifact of every listed game is stored, unless its endpoint fails |
| Bronze.DownloadGamesSettledNoop | src/nba_etl/bronze/ingestion.py:68-71 | on a settled store the download loop changes nothing |
| Bronze.IngestDate | src/nba_etl/bronze/ingestion.py:145-163 | fails exactly when discovery fails; on success the manifest lists every discovered id, and a day without games writes only the empty manifest |
| Bronze.IngestDateKeepsFiles | src/nba_etl/bronze/ingestion.py:145-163 | ingestion never overwrites a stored file other than the day's manifest |
| Bronze.IngestDateSettles | src/nba_etl/bronze/ingestion.py:155-163 | after ingestion every artifact of every discovered game is stored, unless its endpoint fails |
| Bronze.IngestDateIdempotent | src/nba_etl/bronze/ingestion.py:145-163 | re-running a day with the same endpoint answers leaves the store exactly as the first run did |
| Bronze.DownloadAllTeams | src/nba_etl/bronze/ingestion.py:114-131 | stored team files are kept, every team ends with a file unless its endpoint fails, and each new file is a fetched team history |
| Bronze.DownloadAllPlayers | src/nba_etl/bronze/ingestion.py:134-140 | the player list is always rewritten when fetched; a failed fetch changes nothing |
| Silver.SeasonOf | src/nba_etl/silver/extraction.py:112-114 | raises ValueError exactly when the text is not a date, else gives the season containing the date |
| Silver.SeasonOfDateText | src/nba_etl/silver/extraction.py:112-114 | the season of a printed date is its year from October on, the year before otherwise |
| Silver.LoadManifest | src/nba_etl/silver/extraction.py:119-126 | raises FileNotFoundError exactly when the manifest is absent; a written manifest gives its `game_ids`; a stored document gives its `game_ids` exactly when it is an object holding a list of text there, and raises KeyError or TypeError otherwise |
| Silver.TextList | src/nba_etl/silver/extraction.py:124-126 | a JSON list of strings is read exactly when every item is a string, each in its place |
| Silver.GameIdOfArtifact | src/nba_etl/silver/extraction.py:131-132 | the id recovered from an artifact's path is the id it was saved under |
| Silver.ParseClock | src/nba_etl/silver/extraction.py:231-239 | None for a non-string, a text not starting with `PT`, or a count of 'M' other than one; any result is non-negative; nothing raises |
| Silver.ParseClockOfParts | src/nba_etl/silver/extraction.py:231-239 | `PT<m>M<s>S` reads as m·60 + s when both are decimals |
| Silver.SplitMinutes | src/nba_etl/silver/extraction.py:236 | `m + "M" + rest` splits on 'M' into exactly its two sides |
| Silver.ParseClockExample | src/nba_etl/silver/extraction.py:231-239 | `PT12M34.50S` is 754.5 seconds |
| Silver.ApplyCheck | src/nba_etl/silver/extraction.py:196-202 | the checks after the PK check only append, and never a DUPLICATE PK issue |
| Silver.KeepsNoDuplicate | src/nba_etl/silver/extraction.py:195-202 | appending only other issues keeps a result free of DUPLICATE PK issues |
| Silver.RunChecks | src/nba_etl/silver/extraction.py:196-202 | the remaining checks only append and never introduce a DUPLICATE PK issue |
| Silver.Validate | src/nba_etl/silver/extraction.py:194-202 | raises exactly when a key column is missing; the result is free of a DUPLICATE PK issue exactly when the keys are unique |
| Silver.Stamp | src/nba_etl/silver/extraction.py:183 | every row carries the game id under GAME_ID, and nothing else changes |
| Silver.StampKept | src/nba_etl/silver/extraction.py:184-190 | a step that changes only another column keeps the stamp |
| Silver.DedupAndValidate | src/nba_etl/silver/extraction.py:191-202 | de-duplication before the PK check means the check never reports a duplicate key; the frame is the first row per key and stays non-empty |
| Silver.DedupKeepsStamp | src/nba_etl/silver/extraction.py:191 | de-duplication keeps the stamp |
| Silver.TailContracted | src/nba_etl/silver/extraction.py:191-202 | a stamped non-empty frame leaves the converter tail stamped, de-duplicated and validated without a DUPLICATE PK issue |
| Silver.DateCellOfCompact | src/nba_etl/silver/extraction.py:283 | an API `YYYYMMDD` date reads as the day it names |
| Silver.DateCell | src/nba_etl/silver/extraction.py:283 | a converted GAME_DATE is a date or `NaT` |
| Silver.ApplyCasts | src/nba_etl/silver/extraction.py:223-229 | a cast plan on an absent column fails; otherwise every column the plan does not name keeps its cells |
| Silver.ApplyCast | src/nba_etl/silver/extraction.py:223-229 | one cast raises KeyError when its column is absent, and otherwise changes only that column |
| Silver.CastsKeepStamp | src/nba_etl/silver/extraction.py:223-229 | a plan that leaves GAME_ID alone keeps the stamp |
| Silver.PlayerRecord | src/nba_etl/silver/extraction.py:163-176 | a player record builds exactly when the player and its statistics are dicts; statistics overwrite identity fields of the same name; TEAM_TYPE, TEAM_ID and PERSON_ID come from the team or the player otherwise |
| Silver.PlayerRecords | src/nba_etl/silver/extraction.py:162-177 | one record per player, in order, or the first bad player's error |
| Silver.TeamPlayers | src/nba_etl/silver/extraction.py:158-162 | a missing team has no players, and a non-dict box score raises |
| Silver.TeamRecords | src/nba_etl/silver/extraction.py:157-177 | one record per team player, each tagged with the side unless its statistics carry TEAM_TYPE |
| Silver.Flatten | src/nba_etl/silver/extraction.py:156-177 | the home side's records, then the away side's; fails exactly when either side fails |
| Silver.FlattenHomeThenAway | src/nba_etl/silver/extraction.py:157-177 | one row per player, the first tagged HOME and the rest AWAY |
| Silver.BoxscoreFrame | src/nba_etl/silver/extraction.py:182-190 | the typed frame has one row per record, is stamped, and holds each record's Int64 ids |
| Silver.BoxscoreIdCells | src/nba_etl/silver/extraction.py:184-185 | the two id casts keep the stamp and make each id the Int64 reading of its record's |
| Silver.ConvertBoxscore | src/nba_etl/silver/extraction.py:145-205 | no `boxScoreAdvanced` or no players gives an empty, unvalidated frame; a validated frame is stamped, unique on (GAME_ID, PERSON_ID) and free of DUPLICATE PK issues |
| Silver.ActionRecords | src/nba_etl/silver/extraction.py:221 | for a list of action objects, one record per action, in order; anything else is rejected (see Left out) |
| Silver.Actions | src/nba_etl/silver/extraction.py:213-217 | `data["game"]["actions"]` succeeds exactly when both keys exist on objects |
| Silver.PbpFrame | src/nba_etl/silver/extraction.py:221-241 | the typed action frame has one row per action, is stamped, and `clock_seconds` is the parsed clock of each action |
| Silver.ClockSurvivesCasts | src/nba_etl/silver/extraction.py:222-229 | the pbp casts keep the row count, the stamp and the `clock` cells |
| Silver.PbpCastsSpare | src/nba_etl/silver/extraction.py:223-229 | the pbp cast plan touches neither `clock` nor GAME_ID |
| Silver.ConvertPbp | src/nba_etl/silver/extraction.py:208-256 | missing or falsy actions give an empty, unvalidated frame; a validated frame is stamped, unique on (GAME_ID, actionNumber) and free of DUPLICATE PK issues |
| Silver.FirstResultSet | src/nba_etl/silver/extraction.py:264-268 | `data["resultSets"][0]` is the first result set, and its failures are only KeyError, IndexError or TypeError |
| Silver.ColumnNames | src/nba_etl/silver/extraction.py:270 | the headers are read as a list of text, in order; the model also rejects repeated names (see Left out) |
| Silver.CellRows | src/nba_etl/silver/extraction.py:270 | `rowSet` is a list of rows, each holding its cells in order |
| Silver.ShotCastsSpare | src/nba_etl/silver/extraction.py:274-283 | the shot casts leave GAME_ID alone |
| Silver.ShotTable | src/nba_etl/silver/extraction.py:270 | a missing `rowSet` raises, and a built table is well-formed |
| Silver.ConvertShotchart | src/nba_etl/silver/extraction.py:259-296 | no first result set gives an empty frame, and so does an empty table; a validated frame is stamped, unique on (GAME_ID, GAME_EVENT_ID) and free of DUPLICATE PK issues |
| Silver.ConvertFile | src/nba_etl/silver/extraction.py:389 | a converter validates exactly the frames it returns non-empty, each stamped with the id from the file name |
| Silver.Gather | src/nba_etl/silver/extraction.py:385-391 | the loop raises exactly when some game's conversion raises; it keeps only non-empty frames, one validation each |
| Silver.GatherFrames | src/nba_etl/silver/extraction.py:385-392 | without an exception, frames are kept exactly when some game yields one |
| Silver.GatherRows | src/nba_etl/silver/extraction.py:385-393 | without an exception, the kept frames hold the sum of the yielded rows |
| Silver.Outcomes | src/nba_etl/silver/extraction.py:386-391 | one outcome per manifest game, in order |
| Silver.OutcomesTail | src/nba_etl/silver/extraction.py:386 | the outcomes of a manifest's tail are the tail of its outcomes |
| Silver.ConvertGames | src/nba_etl/silver/extraction.py:385-391 | a kind's loop raises exactly when some present artifact's converter raises; the kept frames are non-empty, one validation each |
| Silver.ConvertGamesFrames | src/nba_etl/silver/extraction.py:385-392 | without an exception, a kind has frames exactly when some game yields one |
| Silver.ConvertGamesRows | src/nba_etl/silver/extraction.py:385-393 | without an exception, the kind's frames hold every yielded row |
| Silver.ConvertGamesReadsJson | src/nba_etl/silver/extraction.py:387-389 | conversion reads only `.json` files, so stores that agree on them convert alike |
| Silver.KindPartition | src/nba_etl/silver/extraction.py:135-138 | a kind's partition is a `.parquet` file |
| Silver.KindPartitionsDistinct | src/nba_etl/silver/extraction.py:380-384 | the three kinds write to three different files |
| Silver.ProcessKinds | src/nba_etl/silver/extraction.py:380-395 | the loop over kinds writes only Parquet files at the day's partitions |
| Silver.ProcessKindsWrite | src/nba_etl/silver/extraction.py:392-393 | without an exception, a kind's partition is written exactly when its loop gathered a frame, and holds their concatenation |
| Silver.KindPartitionOnly | src/nba_etl/silver/extraction.py:380-393 | every write is the partition of a listed kind |
| Silver.ProcessKindsStep | src/nba_etl/silver/extraction.py:380-395 | a clean run over the kinds is the first kind's partition over the rest's writes |
| Silver.ConvertGamesClean | src/nba_etl/silver/extraction.py:380-395 | a run that raised nothing raised nothing in any kind's loop |
| Silver.ProcessDate | src/nba_etl/silver/extraction.py:370-395 | a missing manifest raises FileNotFoundError with no writes; an empty manifest writes nothing; no `.json` file is ever changed |
| Silver.ProcessDatePartition | src/nba_etl/silver/extraction.py:370-395 | without an exception on a non-empty manifest, a kind's partition is written exactly when some game yields a frame, holding the sum of their rows; otherwise the file is left as it was |
| Silver.ProcessDateTouchesPartitions | src/nba_etl/silver/extraction.py:370-395 | a run deletes nothing, and every file it adds or replaces is one of the day's partitions |
| Silver.LoadManifestReadsJson | src/nba_etl/silver/extraction.py:119-126 | the manifest read depends only on `.json` files |
| Silver.ProcessKindsReadsJson | src/nba_etl/silver/extraction.py:380-395 | the kinds loop depends only on `.json` files |
| Silver.ProcessDateIdempotent | src/nba_etl/silver/extraction.py:370-395 | re-running a day on the store a run left behind changes nothing, and reproduces the same validations and exception |
| Tables.Joined | src/gold.py:193-194 | the inner JOINs keep, in order, exactly the staged rows whose reference cells are keys of their dimension; null never matches |
| Tables.Updated | src/gold.py:182 | `SET c = EXCLUDED.c` takes the listed columns from the incoming row and keeps the other old cells |
| Tables.Run | src/gold.py:191-197 | the INSERT adds exactly the staged keys, counts at most one per staged row, and leaves every key it does not stage alone |
| Tables.RunOk | src/gold.py:191-197 | the INSERT fails exactly when a key cell is NULL, or when DO UPDATE meets a key twice |
| Tables.NoNullKeyExtend | src/gold.py:191-197 | no NULL key holds for a row list exactly when it holds for its prefix and last row |
| Tables.UniqueKeysExtend | src/gold.py:191-197 | unique keys hold for a row list exactly when they hold for its prefix and its last row is first with its key |
| Tables.RunLanded | src/gold.py:191-197 | the row left under a key is what the first staged row with that key makes of the old row |
| Tables.RunCountUpdate | src/gold.py:201 | under DO UPDATE `rowcount` counts every proposed row |
| Tables.RunCountNothing | src/gold.py:185 | under DO NOTHING `rowcount` counts the staged keys the table did not have |
| Tables.UpdatedAbsorbs | src/gold.py:182 | writing the same SET cells again leaves the row as it is |
| Tables.RunIdempotent | src/gold.py:191-197 | running the same INSERT over its own result changes nothing |
| Tables.RunKeyed | src/gold.py:191-197 | the INSERT keeps every row stored under its own key |
| Tables.MissingDim | src/gold.py:194 | the reported table is one a JOIN names and the database lacks |
| Tables.Staged | src/gold.py:172 | `to_sql` stages exactly the frame's rows under its columns |
| Tables.Execute | src/gold.py:191-197 | only the target table changes, its keys grow by exactly the proposed keys, unproposed keys keep their rows, and the count is at most the proposed rows |
| Tables.ExecuteOk | src/gold.py:191-197 | the statement succeeds exactly when its names resolve, no proposed key is NULL and DO UPDATE meets each key once |
| Tables.ExecuteKeyed | src/gold.py:191-197 | the target keeps every row under its own key |
| Tables.ExecuteStagedRow | src/gold.py:191-197 | every staged row that passes the JOINs is stored under its key, and under DO UPDATE with its SET cells |
| Tables.ExecutePrepared | src/gold.py:191-197 | once the names resolve, the statement is the row-by-row INSERT committed into the target |
| Tables.ExecuteIdempotent | src/gold.py:191-197 | running the same statement on its own result leaves the database as it is |
| Tables.ExecuteKeepsForeignKeys | src/gold.py:187-194 | the JOINs keep every reference of the target resolving in its dimension |
| Tables.JoinedUnique | src/gold.py:193-194 | a JOIN only drops rows, so unique staged keys stay unique |
| Tables.ExecuteLocal | src/gold.py:191-197 | the statement reads only its target and the dimensions it joins |
| Gold.FkJoins | src/gold.py:213-241 | one JOIN per FOREIGN KEY of the table, each on its dimension's one-column primary key; dimensions get none |
| Gold.InitSchema | src/gold.py:131-135 | existing tables and rows are kept, and missing tables are created empty |
| Gold.InitSchemaIdempotent | src/gold.py:131-135 | running the schema script twice is the same as once |
| Gold.ConflictFor | src/gold.py:176-185 | DO NOTHING exactly when every column is a key column, otherwise DO UPDATE of exactly the non-key columns |
| Gold.Upsert | src/gold.py:158-210 | an empty frame returns 0 and writes nothing; `loaded` never exceeds `staged`, `staged` is the row count, and only the target table changes |
| Gold.Warning | src/gold.py:202-206 | a warning exactly when `loaded < staged`, reporting the difference |
| Gold.UpsertWarning | src/gold.py:199-206 | with a column to update, the warning fires exactly when some staged row misses a dimension row, and reports how many did |
| Gold.UpsertStagedRow | src/gold.py:187-197 | every staged row that finds its dimension rows is stored under its key with all of the frame's cells |
| Gold.UpsertTouchesOnlyStagedKeys | src/gold.py:187-197 | a new key comes from a staged row that passed the JOINs, and any other key keeps its old row |
| Gold.UpsertIdempotent | src/gold.py:158-210 | loading the same frame again changes nothing |
| Gold.UpsertKeepsForeignKeys | src/gold.py:187-194 | a table whose references all resolve still has that property after the load |
| Gold.UpsertOfUniqueKeys | src/gold.py:191-197 | a frame with unique keys loads exactly when its names resolve and no row passing the JOINs has a null key cell |
| Gold.UpsertLocal | src/gold.py:158-210 | `upsert` reads only its table and the dimensions it joins |
| Gold.RoundHalfEven | src/gold.py:301 | the result is an integer nearest the value, and an exact half goes to the even one |
| Gold.Round2 | src/gold.py:301 | `round(x, 2)` moves the value by at most half a hundredth |
| Gold.Minutes | src/gold.py:301-305 | minutes are null exactly when either part did not parse, else a value rounded to hundredths |
| Gold.Round2OfInt | src/gold.py:306 | rounding a whole number to hundredths leaves it unchanged |
| Gold.Round2Idempotent | src/gold.py:301 | rounding twice is rounding once |
| Gold.MinutesOfText | src/gold.py:299-306 | the text is tried as `m:s`, then as `PTmMsS`, then as a plain number |
| Gold.ParseMinutes | src/gold.py:293-308 | null, empty text and booleans give null; an integer gives itself; every result is null or a value already rounded to hundredths |
| Gold.MinutesAgreeWithClock | src/gold.py:302-305 | the `PTmMsS` form is the silver clock's seconds over sixty, rounded, or null for both |
| Gold.MinutesOfColonText | src/gold.py:299-301 | `m:s` reads its first piece as minutes and its second as seconds, ignoring further pieces |
| Gold.MinutesOfColon | src/gold.py:299-301 | any text with a ':' and without `PT` reads its first two pieces as minutes and seconds |
| Gold.NoLetterNoPrefix | src/gold.py:299 | text without a 'P' does not contain `PT` |
| Gold.MinutesOfNatText | src/gold.py:306 | a whole number printed as text reads back as that many minutes |
| Gold.ReadParquet | src/gold.py:153 | a missing file raises, and a non-Parquet file raises ValueError |
| Gold.ReadSilverPartition | src/gold.py:147-153 | a bad date raises ValueError, and a missing partition reads as an empty frame |
| Gold.GoldReadsSilver | src/gold.py:147-153 | after the silver run each kind that yielded rows reads back with exactly silver's rows, and one that yielded none, with no earlier partition, reads empty |
| Gold.RenamedFrom | src/gold.py:317-324 | the source column renamed to a target is a present column mapped to it |
| Gold.SourceOf | src/gold.py:317-324 | after renaming, the column carrying a target name is a present column |
| Gold.SourceOfPair | src/gold.py:317-324 | a listed pair whose old name is present is where its new name comes from |
| Gold.FirstUnsourced | src/gold.py:329 | the reported column is one no present column supplies |
| Gold.RenameSelect | src/gold.py:317-329 | `rename(…)[cols]` raises KeyError exactly when a requested name is missing after renaming; each kept cell is its source column's |
| Gold.SameKeys | src/gold.py:329-331 | rows whose keys correspond one to one have the same key set and the same uniqueness |
| Gold.ZeroToNull | src/gold.py:357-358 | `replace(0, None)` makes a numeric zero null and leaves every other cell, in both directions |
| Gold.Adjust | src/gold.py:330-358 | every cell of every row is the per-loader rewrite of the same cell: minutes parsed for player stats, zero team and player ids nulled for play-by-play, shots untouched; key cells never change |
| Gold.Prepare | src/gold.py:317-331 | a fact frame fails exactly when the rename-select fails; otherwise it has the target columns, unique keys and the same key set, and every row conforms |
| Gold.PrepareRows | src/gold.py:329-331 | each prepared row is the rewrite of a selected row that is the first with its key, cell by cell |
| Gold.FirstAdjusted | src/gold.py:330-331 | de-duplicating after the rewrite keeps rewrites of rows that were first with their key before it |
| Gold.LoadFact | src/gold.py:311-333 | a fact load changes only its own table and keeps the set of tables |
| Gold.LoadFactLands | src/gold.py:311-333 | after a successful load of a non-empty partition, every prepared row whose dimension references resolve is in the fact table under its key, with its cells |
| Gold.LoadFactOk | src/gold.py:311-333 | against the schema a fact load succeeds exactly when no row passing the JOINs has a null key cell |
| Gold.PreparedOnSchema | src/gold.py:326-332 | the statement a fact loader builds names only what the schema declares |
| Gold.LoadFactLocal | src/gold.py:311-333 | a fact load reads only its own table and the dimensions |
| Gold.LoadFactIdempotent | src/gold.py:311-333 | loading a date's fact twice is the same as once |
| Gold.LoadFacts | src/gold.py:416-419 | a run of loaders keeps the set of tables and changes only the tables they load |
| Gold.LoadFactsCons | src/gold.py:416-419 | a failed first loader ends the run with its error and nothing written; a successful one is followed by the rest on the database it left |
| Gold.LoadDate | src/gold.py:416-419 | `load_date` changes only the three fact tables |
| Gold.LoadDateInOrder | src/gold.py:416-419 | `load_date` is player stats, then play-by-play on what that left, then shots on what that left, each exception ending the date with what committed before it |
| Gold.PlayerStatsFailureStops | src/gold.py:416-417 | a failed player-stats load ends `load_date` with its error and the database untouched |
| Gold.LoadFactsRerun | src/gold.py:416-419 | re-running the loads where the first run's tables are present changes nothing and ends the same way |
| Gold.LoadDateIdempotent | src/gold.py:416-419 | `load_date` twice is `load_date` once |
| Gold.RenameAll | src/gold.py:262-266 | renaming a frame that has every old name succeeds, each new column carrying its old column's cells |
| Gold.SelectDedupRename | src/gold.py:259-267 | KeyError exactly when an old name is missing; otherwise the new columns, unique keys, and every key of the input |
| Gold.PickSources | src/gold.py:260 | selecting the old names succeeds exactly when all exist, and keeps the rows' keys |
| Gold.IntOfText | src/gold.py:285 | `int()` of a non-empty run of digits is their decimal value (see Left out for the other texts `int()` accepts) |
| Gold.IntOfIntText | src/gold.py:285 | `int(str(i)) == i`: the text `str` prints reads back as the same integer |
| Gold.SeasonIdOf | src/gold.py:284-286 | `season_id` is an integer, and texts of at most four characters convert exactly when the modelled `int()` accepts them (see Left out) |
| Gold.SeasonIdOfNat | src/gold.py:284-286 | a SEASON_ID of at least four digits, integer or text, becomes its last four digits' number |
| Gold.LastFourDigits | src/gold.py:285 | from four digits on, the last four characters of `str(n)` spell `n % 10000` |
| Gold.SeasonIdExample | src/gold.py:284-286 | the API's `22023` is season 2023 |
| Gold.SeasonIdRejectsSeasonText | src/gold.py:285 | a season string such as `2023-24` is rejected by `int()` |
| Gold.SeasonIds | src/gold.py:284-286 | every row's `season_id` is converted, the first bad cell raising |
| Gold.SeasonIdSet | src/gold.py:284-286 | one row's `season_id` converts exactly when its cell does, and only that cell changes |
| Gold.SeasonIdsKeys | src/gold.py:284-287 | converting `season_id` leaves every other key cell unchanged |
| Gold.MappingTargets | src/gold.py:398-404 | the renamed columns are the target tables' columns; team stats select exactly game, team, matchup, result, minutes, points and plus-minus, in order |
| Gold.Numeric | src/gold.py:405-407 | `to_numeric` rewrites one column of every row and nothing else |
| Gold.TeamsFrame | src/gold.py:256-267 | one row per TEAM_ID under the `teams` columns |
| Gold.PlayersFrame | src/gold.py:246-251 | `id` renamed to `player_id`, four columns, one row per player |
| Gold.GamesFrame | src/gold.py:272-286 | one row per GAME_ID, with an integer `season_id` |
| Gold.TeamStatsFrame | src/gold.py:394-408 | fails exactly when a renamed column is missing; otherwise exactly the seven selected columns, the three statistics numeric, one row per (game, team), and the same (game, team) keys as the renamed selection |
| Gold.StatsTargetsPresent | src/gold.py:403-407 | the three converted statistics are among the selected columns |
| Gold.NumericKeepsKey | src/gold.py:405-407 | `to_numeric` on a non-key column keeps every row's key |
| Gold.NumericSameColumns | src/gold.py:405-407 | `to_numeric` on a present column keeps the columns |
| Gold.NumericKeepsKeys | src/gold.py:405-408 | the three conversions and `drop_duplicates` keep the columns and exactly the selection's (game, team) keys |
| Gold.LoadRefresh | src/gold.py:246-288 | a dimension load reads, shapes and upserts, and a missing file raises |
| Gold.RefreshFrame | src/gold.py:246-286 | a shaped dimension frame has unique keys and only the target table's columns |
| Gold.Refreshes | src/gold.py:445-449 | the `--dims` loads run in order, the first exception stopping the rest |
| Gold.Cli | src/gold.py:443-451 | the command creates every schema table, and without `--dims` leaves the dimensions as the schema step left them |
| Gold.CliOrder | src/gold.py:443-451 | after `init_schema`, without `--dims` the command is `load_date`'s three loads in order; with it, a failed refresh ends the command and otherwise the loads run on what the refreshes left |
| Gold.CliIdempotent | src/gold.py:443-451 | running the command twice for a date, without `--dims`, is the same as once |
| Backfill.DateRange | scripts/backfill.py:56-62 | fails exactly when an end does not parse or the end is 9999-12-31; otherwise the printed days from start to end |
| Backfill.DateRangeExact | scripts/backfill.py:56-62 | a text is listed exactly when it prints a day between the two ends |
| Backfill.Texts | scripts/backfill.py:61 | one `%Y-%m-%d` text per day, in order |
| Backfill.DateRangeChronological | scripts/backfill.py:56-62 | the listed texts parse to strictly later and later days |
| Backfill.DonePathIsBoxscorePartition | scripts/backfill.py:76 | the path `is_already_done` checks is the file silver writes for the day's boxscores |
| Backfill.IsAlreadyDone | scripts/backfill.py:65-77 | false without a manifest; true when it lists no games; otherwise whether the boxscore partition exists |
| Backfill.ProcessSingleDate | scripts/backfill.py:80-84 | the day raises nothing exactly when bronze, silver and gold all succeed; the first failure ends it; no table is dropped and validations only grow |
| Backfill.DoneAfterSuccess | scripts/backfill.py:65-84 | after a clean day the backfill considers it done exactly when there were no games or the boxscore partition exists |
| Backfill.Tries | scripts/backfill.py:90-109 | from attempt k the loop records at most 5 − k + 1 failures; it gives up exactly when every attempt up to the fifth failed, and is interrupted exactly when an interrupt comes before that; a success ends on a call; one backoff follows each failure but the last |
| Backfill.TriesFailures | scripts/backfill.py:90-96 | each recorded failure is the exception its attempt raised, run on the system the attempts before it left |
| Backfill.TriesVerdict | scripts/backfill.py:90-93 | the loop succeeds exactly when the attempt after its recorded failures, within the last, is a call that raises nothing |
| Backfill.TriesSystem | scripts/backfill.py:90-100 | the loop leaves what its clean attempt left when it succeeds, and otherwise what its failed attempts, one on top of the other, left |
| Backfill.TriesBackoffs | scripts/backfill.py:101-106 | the backoff after attempt k follows a call and waits 30·2^(k−1) seconds plus the jitter drawn then |
| Backfill.ProcessWithRetry | scripts/backfill.py:87-109 | 1 to 5 attempts of `process_single_date`; gives up exactly after five failures; an interrupt ends it at once; every failed attempt was a call; it sleeps once fewer than it attempts, 30·2^(k−1) seconds plus jitter after attempt k |
| Backfill.RetryFollowsAttempts | scripts/backfill.py:90-100 | attempt by attempt `process_with_retry` folds `process_single_date`: failure j is what attempt j + 1 raised on what the attempts before it left; it returns true exactly when the attempt after the failures raises nothing; it leaves what the last attempt left |
| Backfill.SucceededIffCleanAttempt | scripts/backfill.py:87-109 | `process_with_retry` returns true exactly when some attempt within the five, reached without an interrupt, runs `process_single_date` clean |
| Backfill.TriesSucceededIff | scripts/backfill.py:92-109 | the attempt loop succeeds exactly when some attempt it can reach (within the five, after calls only) runs its step clean |
| Backfill.GiveUpSleeps | scripts/backfill.py:99-108 | a day that never succeeds sleeps exactly 30, 60, 120 and 240 seconds plus jitter, and never 480 |
| Backfill.FourBackoffs | scripts/backfill.py:103 | the first four backoffs are 30, 60, 120 and 240 seconds plus jitter |
| Backfill.VisitDay | scripts/backfill.py:157-172 | a day is skipped exactly when `skip_existing` is set and it is done, and a skip touches nothing; a due day counts as processed exactly when `process_with_retry` returns true and as failed exactly when it gives up; the loop is left exactly when the done check raises or an attempt is interrupted; a visited day carries the retry loop's system, failures and backoffs |
| Backfill.ProcessedIffAttemptClean | scripts/backfill.py:157-172 | a day counts as processed exactly when it was due and one of the attempts reached ran `process_single_date` clean |
| Backfill.Loop | scripts/backfill.py:155-197 | the days are finished in order, and the loop stops early exactly when a visit raises |
| Backfill.LoopCounts | scripts/backfill.py:157-176 | each counter is the number of finished days with its mark |
| Backfill.CountsAddUp | scripts/backfill.py:155-176 | skipped plus processed plus failed is the number of days |
| Backfill.LoopFailedDates | scripts/backfill.py:173-175 | `failed_dates` lists the failed days in visiting order |
| Backfill.LoopStreak | scripts/backfill.py:170-176 | `consecutive_errors` resets on success, grows on failure and stays on a skip |
| Backfill.LoopSkips | scripts/backfill.py:157-162 | with visits that never skip, nothing is counted as skipped |
| Backfill.LoopPauses | scripts/backfill.py:178-190 | no pause after a skip; after any other day the cooldown exactly when it failed with three or more in a row, then the pace delay |
| Backfill.MarkedFrom | scripts/backfill.py:173-175 | every text in `failed_dates` is the date of a day marked failed |
| Backfill.MarkedOrdered | scripts/backfill.py:175 | days visited in an order list the days of one mark in that order too |
| Backfill.FailedLine | scripts/backfill.py:207-210 | at most 30 failed dates are shown, as a prefix, with the count of the rest, which is positive exactly when there are more than 30 |
| Backfill.RunDates | scripts/backfill.py:133-214 | a summary exactly when nothing raised; the days finished are a prefix of the range; the summary's counts match the days and the validation list is cleared |
| Backfill.Summarize | scripts/backfill.py:199-210 | the summary's counts, totals and shown failures agree with the finished days |
| Backfill.RunBackfill | scripts/backfill.py:133-136 | a bad or overflowing range raises before anything is touched |
| Backfill.RunTally | scripts/backfill.py:155-176 | the loop's counters are the reference counts over the days it finished |
| Backfill.ShownAreFailed | scripts/backfill.py:207-210 | a date a summary shows as failed is a day the summary counted as failed |
| Backfill.ShownFailuresAreFailedDays | scripts/backfill.py:207-210 | every date the summary shows as failed is a day of the range, at its place in the range, that the loop marked failed |
| Backfill.FailedDatesChronological | scripts/backfill.py:207-208 | the `Failed dates` line lists failed days oldest first |
| LegacyExtraction.ConvertBoxscore | src/data_extraction.py:69-115 | the same frame as the current converter, raising exactly when it does |
| LegacyExtraction.ConvertPbp | src/data_extraction.py:118-152 | the same frame as the current converter, raising exactly when it does |
| LegacyExtraction.ConvertShotchart | src/data_extraction.py:155-177 | an empty table is cast and de-duplicated like any other; otherwise it agrees with the current converter |
| LegacyExtraction.EmptyShotTableRaises | src/data_extraction.py:166-177 | on an empty table without PLAYER_ID the older converter raises and the current one returns the table |
| LegacyExtraction.ConvertFile | src/data_extraction.py:245 | an older conversion that finishes gives the current frame, when non-empty |
| LegacyExtraction.ConvertGames | src/data_extraction.py:241-247 | one kind's loop keeps the non-empty frames in manifest order |
| LegacyExtraction.ConvertGamesAgree | src/data_extraction.py:241-247 | when the older loop finishes, the current one finishes with the same frames |
| LegacyExtraction.ProcessKindsAgree | src/data_extraction.py:236-251 | when the older kinds loop finishes, the current one does too, with the same writes |
| LegacyExtraction.ProcessDate | src/data_extraction.py:231-251 | a missing manifest raises; the season is computed even for an empty manifest; then each kind's partition is written |
| LegacyExtraction.ProcessDateAgrees | src/data_extraction.py:231-251 | a day the older copy finishes, the current one finishes too, leaving the same store |
| LegacyExtraction.ProcessDatePartition | src/data_extraction.py:231-251 | a finished day writes a kind's partition exactly when some game yields rows, holding all of them |
| LegacyIngestion.IngestDate | src/ingestion.py:157-177 | discovery raises before anything is written; a day without games writes nothing; otherwise a manifest listing every id |
| LegacyIngestion.IngestDateAgrees | src/ingestion.py:165-167 | the two copies agree on every day with games; without games the current one writes an empty manifest the older one leaves out |
| LegacyIngestion.IngestDateKeepsFiles | src/ingestion.py:169-177 | ingestion never overwrites a stored file other than the day's manifest |
| LegacyIngestion.IngestDateIdempotent | src/ingestion.py:157-177 | re-running a day with the same answers changes nothing |
| LegacyIngestion.NoGameDayLeavesNoManifest | src/ingestion.py:165-167 | a day without games leaves no manifest, so silver raises FileNotFoundError for it and the backfill never counts it as done |
| LegacyPipeline.GameRenamesLower | etl_pipeline.py:60-61 | the renaming is `str.lower()` of each selected column, in order |
| LegacyPipeline.GameRenamesShape | etl_pipeline.py:60-61 | the eight selected columns, and where the key and date land |
| LegacyPipeline.GameTargetsDistinct | etl_pipeline.py:61 | no two lower-cased names coincide |
| LegacyPipeline.DropNa | etl_pipeline.py:64 | `dropna(subset=…)` keeps, in order, exactly the rows with no null among the columns |
| LegacyPipeline.DropNaKeys | etl_pipeline.py:64 | dropping incomplete rows keeps exactly the complete keys |
| LegacyPipeline.DropNaOfComplete | etl_pipeline.py:64 | rows without a null key cell pass unchanged |
| LegacyPipeline.ParseGameDate | etl_pipeline.py:67 | null stays null, a `YYYY-MM-DD` text becomes that day, anything else raises ValueError |
| LegacyPipeline.ParseGameDateIdempotent | etl_pipeline.py:67 | a converted date converts to itself |
| LegacyPipeline.ParseDates | etl_pipeline.py:67 | one unparsable cell fails the whole column; otherwise every row's date is converted |
| LegacyPipeline.ParseDatesKeys | etl_pipeline.py:67 | converting dates leaves every other cell, and so the key, as it was |
| LegacyPipeline.CleanGames | etl_pipeline.py:60-67 | KeyError for a missing column; otherwise complete, unique (game, team) keys that are exactly the input's complete keys, each row an input row renamed |
| LegacyPipeline.Deduped | etl_pipeline.py:64-65 | after `dropna` and `drop_duplicates` the keys are complete, unique and the input's complete keys |
| LegacyPipeline.FirstOccurrencesComplete | etl_pipeline.py:65 | de-duplicating complete keys leaves them complete |
| LegacyPipeline.CleanResult | etl_pipeline.py:67 | converting the cleaned rows' dates keeps the same complete, unique keys |
| LegacyPipeline.CleanRows | etl_pipeline.py:60-67 | each cleaned row is an input row renamed with its date converted |
| LegacyPipeline.SelectColumns | etl_pipeline.py:54-60 | `df[cols]` raises KeyError naming a listed missing column |
| LegacyPipeline.TransformData | etl_pipeline.py:51-69 | teams and players selected, games cleaned; the first missing column or bad date raises |
| LegacyPipeline.UpsertViaStaging | etl_pipeline.py:71-104 | fails when a name does not resolve, a staged key is null or two staged rows share a key; otherwise only the target changes |
| LegacyPipeline.UpsertOk | etl_pipeline.py:94-99 | succeeds exactly when names resolve and the staged keys are complete and unique |
| LegacyPipeline.UpsertStagedRow | etl_pipeline.py:94-99 | a new key gets the staged row; an existing key gets the SET columns and keeps its other cells |
| LegacyPipeline.LandedCells | etl_pipeline.py:97-98 | DO UPDATE's row is the staged row for a fresh key, the SET cells over the old row otherwise |
| LegacyPipeline.UpsertIdempotent | etl_pipeline.py:94-104 | the same upsert twice leaves the database as once |
| LegacyPipeline.UpsertLocal | etl_pipeline.py:94-104 | the upsert reads only its target |
| LegacyPipeline.Upsert | etl_pipeline.py:112-133 | only the upsert's table changes, and no table loses a key |
| LegacyPipeline.LoadAll | etl_pipeline.py:106-139 | the upserts only add keys, and tables no step names are left alone |
| LegacyPipeline.TableInjective | etl_pipeline.py:112-133 | different loads write different tables |
| LegacyPipeline.LoadData | etl_pipeline.py:106-139 | teams, then players, then games unless empty; a failure keeps earlier upserts and is re-raised |
| LegacyPipeline.LoadAllCons | etl_pipeline.py:106-139 | a failed first upsert ends the load with its error and nothing written; a successful one is followed by the rest on the database it left |
| LegacyPipeline.LoadGamesInOrder | etl_pipeline.py:126-133 | the games upsert runs only on a non-empty frame |
| LegacyPipeline.LoadPlayersInOrder | etl_pipeline.py:118-133 | players, then games on what the players upsert left |
| LegacyPipeline.LoadDataInOrder | etl_pipeline.py:106-139 | `load_data` is teams, then players on what that left, then games (when any) on what that left, each exception ending it with what committed before |
| LegacyPipeline.PlayersFailureStops | etl_pipeline.py:118-139 | a failed players upsert ends `load_data` with its error, the teams upsert committed and the games table untouched |
| LegacyPipeline.LoadAllCommits | etl_pipeline.py:106-139 | a failed upsert stops the load; a successful one keeps its table whatever follows |
| LegacyPipeline.LoadDataCommits | etl_pipeline.py:106-139 | a failed teams upsert writes nothing; once it succeeds its table stays |
| LegacyPipeline.LoadDataStaged | etl_pipeline.py:106-139 | a clean `load_data` leaves every staged team, player and (game, team) key in its table, the games only when there were any |
| LegacyPipeline.LoadDataIdempotent | etl_pipeline.py:106-139 | a second `load_data` changes nothing and ends the same way |
| LegacyPipeline.TeamIds | etl_pipeline.py:159 | `teams_df['id'].tolist()`, in order |
| LegacyPipeline.FetchLogs | etl_pipeline.py:44-48 | the game logs of the teams in order, the first raising request stopping the loop |
| LegacyPipeline.ExtractGames | etl_pipeline.py:41-49 | every team's log concatenated; `concat([])` raises when there are no teams |
| LegacyPipeline.ExtractGamesRow | etl_pipeline.py:41-49 | row `k` of team `i`'s log sits in the extracted frame after the rows of every earlier team's log, widened to all the logs' columns |
| LegacyPipeline.CreateTables | etl_pipeline.py:21-29 | the schema creates only tables that do not exist |
| LegacyPipeline.CreateTablesPresent | etl_pipeline.py:21-29 | a database with every table is left alone |
| LegacyPipeline.InitFrom | etl_pipeline.py:145-153 | the retry stops at the first success and gives up silently after the last try, sleeping after every failure |
| LegacyPipeline.Prepare | etl_pipeline.py:155-162 | team ids, game logs and transformed frames; the first failure wins |
| LegacyPipeline.RunPipeline | etl_pipeline.py:141-164 | waits for the database (carrying on if it never answers), then extract, transform and load; an extraction or transform failure loads nothing |
| LegacyPipeline.RunPipelineLoads | etl_pipeline.py:141-164 | once extraction and transformation succeed, the run ends as the three upserts do, in order, on the database the wait left: clean exactly when each of them is |
| LegacyPipeline.RunPipelineStaged | etl_pipeline.py:155-164 | a clean run leaves every transformed team, player and (game, team) key in its table, the games only when there were any |
| LegacyPipeline.RunPipelineIdempotent | etl_pipeline.py:141-164 | a second run against the same sources and a ready database changes nothing |
| SeasonIngest.GenerateSeasonStrings | ingest.py:44-51 | one label per year from start to end inclusive, in order |
| SeasonIngest.LastTwoDigits | ingest.py:48 | from two digits on, `str(n)[-2:]` is `n % 100` on two digits |
| SeasonIngest.SeasonStringShape | ingest.py:47-50 | from year 9 on a label is the year, a dash, and the next year modulo 100 on two digits |
| SeasonIngest.SeasonStringStart | ingest.py:49 | the first dash-separated piece of a label is the starting year |
| SeasonIngest.SeasonStringInjective | ingest.py:47-50 | different years give different labels |
| SeasonIngest.GenerateSeasonStringsDistinct | ingest.py:44-51 | a year range never yields the same season twice |
| SeasonIngest.Record | ingest.py:149-173 | a team-stats record has exactly the 23 team-stats fields, and carries its row's game and team ids |
| SeasonIngest.Fields | ingest.py:149-173 | the record's fields are exactly the names, each holding the cell of the column paired with it |
| SeasonIngest.StatNamesDistinct | ingest.py:149-173 | the 23 field names are distinct, one per column read |
| SeasonIngest.StatNamesLower | ingest.py:149-173 | each field name is `str.lower()` of the game-log column it reads |
| SeasonIngest.RecordLowersSources | ingest.py:149-173 | a record holds every game-log column it reads under that column's lower-case name |
| SeasonIngest.Matching | ingest.py:192 | the rows whose column equals the value, in order; null never matches |
| SeasonIngest.SidesFollowMatchup | ingest.py:193-207 | with exactly one visitor row, that row's team and points are away and the other's are home, in either order |
| SeasonIngest.SidesAreTheTeams | ingest.py:193-207 | a two-row game's home and away teams are its two rows' teams |
| SeasonIngest.GameOf | ingest.py:215-225 | the nine columns of a `games` record, with `game_status` `Final` and the given season |
| SeasonIngest.GameDate | ingest.py:219 | `pd.to_datetime(v).date()`: a null cell raises AttributeError, any other cell is parsed as a date and a result is never null |
| SeasonIngest.GameRecord | ingest.py:181-225 | one `games` record per first row, failing on the first bad MATCHUP, missing SEASON_ID or GAME_DATE column, or bad date; a null GAME_DATE raises AttributeError, and a built record's date is the parsed day |
| SeasonIngest.GameRows | ingest.py:178-225 | the records of the first rows, in order, exactly when each builds |
| SeasonIngest.GameRecords | ingest.py:181-225 | building one record per row gives every record or the first failure |
| SeasonIngest.StatRows | ingest.py:147-175 | one team-stats record per log row, in order |
| SeasonIngest.ProcessGamesData | ingest.py:141-229 | an empty log gives two empty frames; otherwise one stat row per log row and one `games` row per game |
| SeasonIngest.ProcessGamesDataOk | ingest.py:141-229 | succeeds exactly for an empty log, or one with every stat column and a well-formed record per game |
| SeasonIngest.RecordKey | ingest.py:150-151 | a team-stats record carries its row's game and team ids |
| SeasonIngest.StatRowsKeys | ingest.py:147-175 | the team-stats records hold exactly the log's (game, team) pairs and game ids |
| SeasonIngest.GameRowsKeys | ingest.py:178-181 | the `games` records hold every game id of the log once, and no other |
| SeasonIngest.SplitCoversSameGames | ingest.py:141-229 | each game id has exactly one `games` row and at least one team-stats row |
| SeasonIngest.GameHomeAway | ingest.py:193-207 | for one visitor row and one host row, in either order, the host is home and the visitor away, each with its points |
| SeasonIngest.GameWithoutPair | ingest.py:208-213 | a game without exactly two rows has its first row's team and points as home and no away side |

## Left out

- The network: every `nba_api` endpoint is an oracle argument. An endpoint is either a JSON answer or nothing (it raised). Rate-limit sleeps after a download, and retries inside `nba_api`, are not modelled.
- File I/O: JSON and Parquet files are values in a `Store` map. Directory creation, file permissions and partial writes are not modelled.
- SQL execution: a database is a map of keyed tables. The statements are modelled by what they do. SQL text, column types, `DROP TABLE`, connection handling and the staging table left behind after a failed INSERT are left out.
- Logging, `print` and the progress messages: they have no effect on state.
- `time.sleep` and `random.uniform`: sleeps are recorded as durations. Jitter and the pace delay are oracle values, and the model does not constrain them to [0, 5] or [1.0, 2.5].
- `KeyboardInterrupt` is an oracle outcome of an attempt. Other signals are not modelled.
- `load_dimensions` (scripts/backfill.py:112-130) is a parameter of the backfill. Its parts are modelled separately, in Bronze and Gold. `nba_etl.gold.loading` is not part of this model, and `src/gold.py` stands in for it.
- Silver's `process_players` and `process_teams` (src/nba_etl/silver/extraction.py:301-365, src/data_extraction.py:182-226) are not modelled. Their input is whatever the player and team endpoints return, and the fact path does not read their output. Gold's dimension loaders read the Parquet they would write as a given frame.
- The command-line entry points (`argparse`, `__main__`) of every script are left out. The exception is gold's, which is `Gold.Cli`.
- ingest.py's API extractors, `run_full_ingestion` and `print_summary` (ingest.py:53-139 and 231-359), and the unused `is_home` flag (ingest.py:183-189) are not modelled.
- transform.py, db_utils.py, run_etl.py, dags/nba_pipeline_dag.py, config.py, src/nba_etl/config.py, the root ingestion.py and the tests are not part of this model.
- schema.sql, read by etl_pipeline.py:24, is not part of this model. `LegacyPipeline.CreateTables` takes its table set as a parameter.
- Text.ParseDecimal: `float()` is modelled only for plain decimal text (digits with at most one '.'). Signs, exponents, whitespace, underscores, `inf` and `nan` read as unparsable, so `_parse_clock` and `_parse_minutes_str` give null on them, where Python might return a number.
- Gold.Round2: `round(x, 2)` is taken on the exact decimal value. Binary floating-point representation and its rounding artefacts are not modelled.
- Calendar.ParseDateText: `strptime("%Y-%m-%d")` is modelled for the zero-padded form with a four-digit year. Python also accepts non-padded months and days, which the model rejects.
- LegacyPipeline.ParseGameDate: `pd.to_datetime` accepts many formats. The model accepts only `YYYY-MM-DD` and raises ValueError on anything else.
- SeasonIngest.GameRecord: a null GAME_DATE is read as Python's None, for which `.date()` raises AttributeError. A float NaN cell, which `pd.to_datetime` turns into NaT, is not told apart from None.
- Frames.ToNumeric: `pd.to_numeric(errors="coerce")` is modelled for numbers, booleans and plain decimal text. Text with a sign, an exponent or surrounding whitespace (`"-5"`, `"+3"`, `"1e3"`, `" 7"`) becomes null here, although pandas parses it.
- Silver.ColumnNames: a `Frame` cannot hold two columns of one name, so the model rejects repeated headers with ValueError. `pd.DataFrame(rows, columns=headers)` accepts them and builds a frame with duplicate columns.
- Silver.LoadManifest: a stored `game_ids` must be a list of text, and anything else raises TypeError. Python returns the value unchecked and fails only later, if at all, when it builds paths from it. Game ids are text throughout the model.
- Bronze.ColumnAt: a GAME_ID cell that is not text (a number, null) raises TypeError. Python returns the cell whatever its type and writes it to the manifest as it is. The model keeps game ids as text throughout, since they name bronze files and silver partitions.
- Store.CellOf: nested JSON arrays and objects become null cells, since no modelled step reads them.
- Frames.ToInt64: only integral numbers convert. A non-integral float raises TypeError in `Frames.CastInt64`, as pandas does, and the message text is not modelled.
- `astype(bool)` treats a null cell as false. pandas gives `True` for a NaN in a float column and `False` for `None` in an object column, and the model does not tell the two apart.
- Gold.SeasonIdOf: a float SEASON_ID raises ValueError. Python would print it as text with a decimal point and then fail in `int()` for the same reason.
- Gold.IntOfText: `int()` is modelled for an optional sign followed by decimal digits. Python also accepts surrounding whitespace and single underscores between digits (`" 2023"`, `"20_23"`); the model rejects them, so `Gold.SeasonIdOf` raises ValueError on such a SEASON_ID where Python would convert it.
- Silver.ActionRecords: `pd.DataFrame(actions)` also accepts a dict of equal-length lists (one column per key) and a list of lists. The model accepts only a list of objects and raises ValueError on anything else, since the play-by-play payload holds a list of action objects.
- Exception messages: a `Failure` records the exception class and, where it matters, the key or path. The message text is not modelled.
- Python's `datetime` year limit is modelled only where the backfill's range reaches 9999-12-31. The step past that day overflows.

=== FILE: backfill.dfy ===
/**
 * The standalone backfill (scripts/backfill.py): every day of a range goes
 * bronze → silver → gold, days already done are skipped, a failing day is
 * retried with exponential backoff, and a run of failed days triggers a long
 * cooldown. The NBA API, `random.uniform` and keyboard interrupts are oracles:
 * each attempt of each day is handed what the API answers and what is drawn,
 * and every `time.sleep` is recorded instead of slept.
 */
module Backfill {
  import opened Wrappers
  import opened Frames
  import opened Store
  import Text
  import Calendar
  import Validation
  import Bronze
  import Silver
  import Tables
  import Gold

  // ── Rate-limit and retry settings ───────────────────────────────────

  const MaxRetries: nat := 5
  const BaseBackoff: nat := 30
  /** `random.uniform(0, 5)`: the jitter added to every backoff. */
  const JitterMax: real := 5.0
  /** `INTER_DATE_DELAY`. */
  const PaceMin: real := 1.0
  const PaceMax: real := 2.5
  const CooldownAfterErrors: nat := 120
  /** The number of consecutive failed days from which every failure cools down. */
  const CooldownStreak: nat := 3
  /** The summary lists this many failed days and counts the rest. */
  const ShownFailures: nat := 30

  // ── The day range ───────────────────────────────────────────────────

  /** The last day `datetime` can hold: stepping past it raises OverflowError. */
  const LastDay: Calendar.Date := Calendar.Date(9999, 12, 31)

  /**
   * `list(date_range(start, end))`: both ends are parsed first; then every day
   * from `start` to `end` inclusive, printed back. Reaching 9999-12-31 yields it
   * and then overflows on the step past it, so the whole list raises.
   */
  function DateRange(start: string, end: string): (r: Result<seq<string>, Failure>)
    ensures r.Ok? <==> Calendar.ParseDateText(start).Some? && Calendar.ParseDateText(end).Some?
                       && Calendar.ParseDateText(end).value != LastDay
    ensures r.Ok? ==> r.value == Texts(Calendar.DateRange(Calendar.ParseDateText(start).value, Calendar.ParseDateText(end).value))
  {
    match Calendar.ParseDateText(start)
    case None => Err(ValueError("time data does not match format '%Y-%m-%d'"))
    case Some(s) =>
      match Calendar.ParseDateText(end)
      case None => Err(ValueError("time data does not match format '%Y-%m-%d'"))
      case Some(e) =>
        if e == LastDay then Err(OverflowError("date value out of range"))
        else Ok(Texts(Calendar.DateRange(s, e)))
  }

  /** `strftime("%Y-%m-%d")`, on any day the range can produce. */
  function DayText(d: Calendar.Date): string {
    if Calendar.Valid(d) then Calendar.DateText(d) else ""
  }

  /** `f` applied to every element, in order. */
  function Map<A, B>(xs: seq<A>, f: A -> B): (ys: seq<B>)
    ensures |ys| == |xs|
    ensures forall i :: 0 <= i < |xs| ==> ys[i] == f(xs[i])
  {
    if xs == [] then [] else [f(xs[0])] + Map(xs[1..], f)
  }

  /** Every day printed, in order. */
  function Texts(days: seq<Calendar.Date>): (ts: seq<string>)
    ensures |ts| == |days|
    ensures forall i :: 0 <= i < |days| ==> ts[i] == DayText(days[i])
  {
    Map(days, DayText)
  }

  /**
   * The texts are exactly the days from `start` to `end`: a text is listed
   * iff it is the printed form of a day in between, and no day is listed twice.
   */
  lemma DateRangeExact(start: string, end: string, t: string)
    requires DateRange(start, end).Ok?
    ensures var s := Calendar.ParseDateText(start).value;
            var e := Calendar.ParseDateText(end).value;
            (t in DateRange(start, end).value
             <==> exists d :: Calendar.Valid(d) && Calendar.AtMost(s, d) && Calendar.AtMost(d, e) && t == DayText(d))
  {
    TextsMember(Calendar.ParseDateText(start).value, Calendar.ParseDateText(end).value, t);
  }

  /** The listed texts parse back to strictly later and later days. */
  lemma DateRangeChronological(start: string, end: string)
    requires DateRange(start, end).Ok?
    ensures var ts := DateRange(start, end).value;
            forall i, j :: 0 <= i < j < |ts| ==> Later(ts[i], ts[j])
  {
    var s := Calendar.ParseDateText(start).value;
    var e := Calendar.ParseDateText(end).value;
    Calendar.ParsedYear(end);
    TextsChronological(s, e);
    assert DateRange(start, end).value == Texts(Calendar.DateRange(s, e));
  }

  /** `b` names a day after the day `a` names. */
  predicate Later(a: string, b: string) {
    Calendar.ParseDateText(a).Some? && Calendar.ParseDateText(b).Some?
    && Calendar.Before(Calendar.ParseDateText(a).value, Calendar.ParseDateText(b).value)
  }

  lemma TextsParse(days: seq<Calendar.Date>, e: Calendar.Date)
    requires e.year <= 9999
    requires forall i :: 0 <= i < |days| ==> Calendar.Valid(days[i]) && Calendar.AtMost(days[i], e)
    ensures forall i :: 0 <= i < |days| ==> Calendar.ParseDateText(Texts(days)[i]) == Some(days[i])
  {
    forall i | 0 <= i < |days|
      ensures Calendar.ParseDateText(Texts(days)[i]) == Some(days[i])
    {
      Calendar.ParseDateTextRoundTrip(days[i]);
    }
  }

  lemma TextsMember(s: Calendar.Date, e: Calendar.Date, t: string)
    requires Calendar.Valid(s)
    ensures t in Texts(Calendar.DateRange(s, e))
            <==> exists d :: Calendar.Valid(d) && Calendar.AtMost(s, d) && Calendar.AtMost(d, e) && t == DayText(d)
  {
    if t in Texts(Calendar.DateRange(s, e)) {
      TextsMemberDay(s, e, t);
    }
    if exists d :: Calendar.Valid(d) && Calendar.AtMost(s, d) && Calendar.AtMost(d, e) && t == DayText(d) {
      var d :| Calendar.Valid(d) && Calendar.AtMost(s, d) && Calendar.AtMost(d, e) && t == DayText(d);
      DayTextMember(s, e, d);
    }
  }

  lemma TextsMemberDay(s: Calendar.Date, e: Calendar.Date, t: string)
    requires Calendar.Valid(s) && t in Texts(Calendar.DateRange(s, e))
    ensures exists d :: Calendar.Valid(d) && Calendar.AtMost(s, d) && Calendar.AtMost(d, e) && t == DayText(d)
  {
    var days := Calendar.DateRange(s, e);
    var ts := Texts(days);
    var i :| 0 <= i < |ts| && ts[i] == t;
    assert Calendar.Valid(days[i]) && Calendar.AtMost(s, days[i]) && Calendar.AtMost(days[i], e) && t == DayText(days[i]);
  }

  lemma DayTextMember(s: Calendar.Date, e: Calendar.Date, d: Calendar.Date)
    requires Calendar.Valid(s) && Calendar.Valid(d) && Calendar.AtMost(s, d) && Calendar.AtMost(d, e)
    ensures DayText(d) in Texts(Calendar.DateRange(s, e))
  {
    var days := Calendar.DateRange(s, e);
    Calendar.DateRangeComplete(s, e, d);
    var i :| 0 <= i < |days| && days[i] == d;
    assert Texts(days)[i] == DayText(d);
  }

  lemma TextsChronological(s: Calendar.Date, e: Calendar.Date)
    requires Calendar.Valid(s) && e.year <= 9999
    ensures var ts := Texts(Calendar.DateRange(s, e));
            forall i, j :: 0 <= i < j < |ts| ==> Later(ts[i], ts[j])
  {
    var days := Calendar.DateRange(s, e);
    var ts := Texts(days);
    TextsParse(days, e);
    Calendar.DateRangeIncreasing(s, e);
  }

  // ── is_already_done ─────────────────────────────────────────────────

  /** The boxscore partition the check looks for, formatted as the backfill formats it. */
  function DonePath(l: Layout, season: int, gameDate: string): string {
    l.silver + "/boxscores/season=" + Text.IntText(season) + "/game_date=" + gameDate + "/data.parquet"
  }

  /** It is the very file silver's `_save_partitioned` writes for the day's boxscores. */
  lemma DonePathIsBoxscorePartition(l: Layout, season: int, gameDate: string)
    ensures DonePath(l, season, gameDate) == Silver.KindPartition(l, Boxscore, season, gameDate)
  {
    var x := l.silver;
    assert (x + "/") + "boxscores" == x + "/boxscores";
    assert (x + "/boxscores") + "/season=" == x + "/boxscores/season=";
  }

  /**
   * `is_already_done`: false without a manifest; true when its `game_ids` is
   * missing or empty (a day without games); otherwise true iff the day's
   * boxscore partition exists. A manifest that does not decode, or is not an
   * object, raises; so does a day that is not `YYYY-MM-DD`.
   */
  function IsAlreadyDone(s: Store, l: Layout, gameDate: string): (r: Result<bool, Failure>)
    ensures ManifestPath(l, gameDate) !in s ==> r == Ok(false)
    ensures ManifestPath(l, gameDate) in s && s[ManifestPath(l, gameDate)].Manifest? ==>
              var ids := s[ManifestPath(l, gameDate)].gameIds;
              (ids == [] ==> r == Ok(true))
              && (ids != [] ==> r == match Silver.SeasonOf(gameDate)
                                     case Err(e) => Err(e)
                                     case Ok(season) => Ok(Silver.KindPartition(l, Boxscore, season, gameDate) in s))
    ensures ManifestPath(l, gameDate) in s && s[ManifestPath(l, gameDate)].Parquet? ==> r.Err?
  {
    var manifest := ManifestPath(l, gameDate);
    if manifest !in s then Ok(false)
    else
      var data :- AsJson(s[manifest]);
      var ids :- Get(data, "game_ids", JNull);
      if !JTruthy(ids) then Ok(true)
      else
        var season :- Silver.SeasonOf(gameDate);
        DonePathIsBoxscorePartition(l, season, gameDate);
        Ok(DonePath(l, season, gameDate) in s)
  }

  // ── One day, bronze → silver → gold ─────────────────────────────────

  /** Everything a day's run reads and writes: the lake, the warehouse, and silver's registered validations. */
  datatype System = System(store: Store, db: Tables.Db, validations: seq<Validation.ValidationResult>)

  /** What the NBA API answers during one attempt: the day's scoreboard, and each game's artifacts. */
  datatype Api = Api(scoreboard: Result<Json, Failure>, fetch: Bronze.Fetch)

  /** The system after a step, and the exception the step raised, if any. */
  datatype Step = Step(sys: System, error: Option<Failure>)

  /**
   * `process_single_date`: `ingest_date`, `process_date`, then `load_date`;
   * the first exception ends the day with whatever the earlier stages wrote.
   * Silver's validations are registered as it runs.
   */
  function ProcessSingleDate(sys: System, l: Layout, gameDate: string, api: Api): (r: Step)
    ensures Bronze.IngestDate(sys.store, l, gameDate, api.scoreboard, api.fetch).Err? ==>
              r == Step(sys, Some(Bronze.IngestDate(sys.store, l, gameDate, api.scoreboard, api.fetch).error))
    ensures r.error.None? <==>
              && Bronze.IngestDate(sys.store, l, gameDate, api.scoreboard, api.fetch).Ok?
              && var s1 := Bronze.IngestDate(sys.store, l, gameDate, api.scoreboard, api.fetch).value;
                 && Silver.ProcessDate(s1, l, gameDate).error.None?
                 && Gold.LoadDate(sys.db, Silver.ProcessDate(s1, l, gameDate).store, l, gameDate).error.None?
    ensures r.sys.db.Keys == sys.db.Keys
    ensures sys.validations <= r.sys.validations
  {
    match Bronze.IngestDate(sys.store, l, gameDate, api.scoreboard, api.fetch)
    case Err(e) => Step(sys, Some(e))
    case Ok(s1) =>
      var silver := Silver.ProcessDate(s1, l, gameDate);
      var sys1 := System(silver.store, sys.db, sys.validations + silver.validations);
      if silver.error.Some? then Step(sys1, silver.error)
      else
        var gold := Gold.LoadDate(sys.db, silver.store, l, gameDate);
        Step(sys1.(db := gold.db), gold.error)
  }

  /**
   * After a day that raised nothing, the backfill considers it done exactly
   * when the API listed no games, or when its boxscore partition exists:
   * because a listed game's boxscore converted to rows, or because the
   * partition was already there.
   */
  lemma DoneAfterSuccess(sys: System, l: Layout, gameDate: string, api: Api)
    requires ProcessSingleDate(sys, l, gameDate, api).error.None?
    ensures var s1 := Bronze.IngestDate(sys.store, l, gameDate, api.scoreboard, api.fetch).value;
            var ids := Bronze.GameIdsForDate(api.scoreboard.value).value;
            IsAlreadyDone(ProcessSingleDate(sys, l, gameDate, api).sys.store, l, gameDate)
              == Ok(ids == []
                    || (exists i :: 0 <= i < |ids| && Silver.Yields(s1, l, Boxscore, ids[i]))
                    || (Silver.SeasonOf(gameDate).Ok?
                        && Silver.KindPartition(l, Boxscore, Silver.SeasonOf(gameDate).value, gameDate) in s1))
  {
    var s1 := Bronze.IngestDate(sys.store, l, gameDate, api.scoreboard, api.fetch).value;
    var ids := Bronze.GameIdsForDate(api.scoreboard.value).value;
    var m := ManifestPath(l, gameDate);
    var silver := Silver.ProcessDate(s1, l, gameDate);
    var out := ProcessSingleDate(sys, l, gameDate, api).sys.store;
    assert out == silver.store;
    assert s1[m] == Manifest(gameDate, ids);
    assert Silver.LoadManifest(s1, l, gameDate) == Ok(ids);
    assert SameJson(s1, silver.store);
    assert m in out && out[m] == Manifest(gameDate, ids) by {
      assert EndsWith(m, ".json");
    }
    if ids != [] {
      Silver.ProcessDatePartition(s1, l, gameDate, Boxscore);
    }
  }

  // ── process_with_retry ──────────────────────────────────────────────

  /** A recorded `time.sleep`: a backoff after a failed attempt, the cooldown, or the pace between days. */
  datatype Sleep = Backoff(attempt: nat, seconds: real) | Cooldown | Pace(seconds: real)

  function Pow2(n: nat): (p: nat)
    ensures p >= 1
  {
    if n == 0 then 1 else 2 * Pow2(n - 1)
  }

  /** The wait after failed attempt `k`: 30·2^(k−1) seconds plus the jitter drawn. */
  function Wait(k: nat, jitter: real): real
    requires k >= 1
  {
    (BaseBackoff * Pow2(k - 1)) as real + jitter
  }

  /** One attempt as the oracle plays it: interrupted from the keyboard, or a call to the API, with the jitter a failure would draw. */
  datatype Try = Interrupt | Call(api: Api, jitter: real)

  datatype Verdict = Succeeded | GaveUp | Interrupted

  /** How the attempts ended, the system they left, each failed attempt's exception, and the backoffs slept. */
  datatype Retry = Retry(sys: System, verdict: Verdict, failures: seq<Failure>, sleeps: seq<Sleep>)

  /**
   * The system the attempts `k` … `k + n − 1` leave behind, each a call
   * running `step` on what the one before left; an interrupt stops the fold.
   */
  function AfterAttempts(sys: System, step: (System, Api) -> Step, tries: nat -> Try, k: nat, n: nat): System
    decreases n
  {
    if n == 0 then sys
    else
      match tries(k)
      case Interrupt => sys
      case Call(api, _) => AfterAttempts(step(sys, api).sys, step, tries, k + 1, n - 1)
  }

  /** Attempt `k + j`, run on what the `j` attempts before it left, is a call that raises `f`. */
  predicate FailedAttempt(sys: System, step: (System, Api) -> Step, tries: nat -> Try, k: nat, j: nat, f: Failure) {
    tries(k + j).Call? && step(AfterAttempts(sys, step, tries, k, j), tries(k + j).api).error == Some(f)
  }

  /** Attempt `k + j` raised `fs[j]`, for every recorded failure. */
  predicate FailedAttempts(sys: System, step: (System, Api) -> Step, tries: nat -> Try, k: nat, fs: seq<Failure>) {
    forall j :: 0 <= j < |fs| ==> FailedAttempt(sys, step, tries, k, j, fs[j])
  }

  /** Attempt `k + n`, run on what the `n` attempts before it left, is a call that raises nothing. */
  predicate CleanAttempt(sys: System, step: (System, Api) -> Step, tries: nat -> Try, k: nat, n: nat) {
    tries(k + n).Call? && step(AfterAttempts(sys, step, tries, k, n), tries(k + n).api).error.None?
  }

  /**
   * The attempt loop from attempt `k` on, each attempt running `step`: a
   * success or an interrupt ends it; a failure is recorded and, before the
   * last attempt, followed by a backoff. What each attempt ran on and raised
   * is stated by `TriesFailures`, `TriesVerdict`, `TriesSystem` and `TriesBackoffs`.
   */
  function Tries(sys: System, step: (System, Api) -> Step, tries: nat -> Try, k: nat): (r: Retry)
    requires 1 <= k <= MaxRetries
    ensures |r.failures| <= MaxRetries - k + 1
    ensures r.verdict == GaveUp <==> |r.failures| == MaxRetries - k + 1
    ensures r.verdict == Interrupted <==> |r.failures| <= MaxRetries - k && tries(k + |r.failures|).Interrupt?
    ensures r.verdict == Succeeded ==> tries(k + |r.failures|).Call?
    ensures |r.sleeps| == if r.verdict == GaveUp then |r.failures| - 1 else |r.failures|
    decreases MaxRetries - k
  {
    match tries(k)
    case Interrupt => Retry(sys, Interrupted, [], [])
    case Call(api, jitter) =>
      var st := step(sys, api);
      match st.error
      case None => Retry(st.sys, Succeeded, [], [])
      case Some(e) =>
        if k == MaxRetries then Retry(st.sys, GaveUp, [e], [])
        else
          var rest := Tries(st.sys, step, tries, k + 1);
          Retry(rest.sys, rest.verdict, [e] + rest.failures, [Backoff(k, Wait(k, jitter))] + rest.sleeps)
  }

  /** Folding from attempt `k`, a call, is folding from attempt `k + 1` on what that call left. */
  lemma AfterAttemptsShift(sys: System, step: (System, Api) -> Step, tries: nat -> Try, k: nat, n: nat)
    requires tries(k).Call?
    ensures AfterAttempts(sys, step, tries, k, n + 1) == AfterAttempts(step(sys, tries(k).api).sys, step, tries, k + 1, n)
  {
  }

  /** A failed attempt `k` followed by the failures from `k + 1` on: the fold simply starts one attempt later. */
  lemma FailedAttemptsCons(sys: System, step: (System, Api) -> Step, tries: nat -> Try, k: nat, e: Failure, fs: seq<Failure>)
    requires tries(k).Call? && step(sys, tries(k).api).error == Some(e)
    requires FailedAttempts(step(sys, tries(k).api).sys, step, tries, k + 1, fs)
    ensures FailedAttempts(sys, step, tries, k, [e] + fs)
  {
    var s1 := step(sys, tries(k).api).sys;
    var all := [e] + fs;
    forall j | 0 <= j < |all|
      ensures FailedAttempt(sys, step, tries, k, j, all[j])
    {
      if j == 0 {
        assert AfterAttempts(sys, step, tries, k, 0) == sys && k + 0 == k && all[0] == e;
      } else {
        var q := j - 1;
        assert FailedAttempt(s1, step, tries, k + 1, q, fs[q]);
        AfterAttemptsShift(sys, step, tries, k, q);
        assert (k + 1) + q == k + j && all[j] == fs[q];
      }
    }
    assert FailedAttempts(sys, step, tries, k, all);
  }

  /** Attempt `k`, a call, then attempt `k + 1 + n`: whether it runs clean is judged on the fold shifted by one. */
  lemma CleanAttemptShift(sys: System, step: (System, Api) -> Step, tries: nat -> Try, k: nat, n: nat)
    requires tries(k).Call?
    ensures CleanAttempt(sys, step, tries, k, n + 1) <==> CleanAttempt(step(sys, tries(k).api).sys, step, tries, k + 1, n)
  {
    AfterAttemptsShift(sys, step, tries, k, n);
    assert k + (n + 1) == (k + 1) + n;
  }

  /** Every recorded failure is what its attempt raised, run on what the attempts before it left. */
  lemma {:induction false} TriesFailures(sys: System, step: (System, Api) -> Step, tries: nat -> Try, k: nat)
    requires 1 <= k <= MaxRetries
    ensures FailedAttempts(sys, step, tries, k, Tries(sys, step, tries, k).failures)
    decreases MaxRetries - k
  {
    match tries(k)
    case Interrupt =>
    case Call(api, _) =>
      var st := step(sys, api);
      if st.error.Some? {
        if k == MaxRetries {
          assert AfterAttempts(sys, step, tries, k, 0) == sys && k + 0 == k;
        } else {
          TriesFailures(st.sys, step, tries, k + 1);
          FailedAttemptsCons(sys, step, tries, k, st.error.value, Tries(st.sys, step, tries, k + 1).failures);
        }
      }
  }

  /** `r` succeeded exactly when the attempt after its failures, from attempt `k` on and within the last, ran clean. */
  predicate SucceedsIffClean(sys: System, step: (System, Api) -> Step, tries: nat -> Try, k: nat, r: Retry) {
    r.verdict == Succeeded <==> |r.failures| <= MaxRetries - k && CleanAttempt(sys, step, tries, k, |r.failures|)
  }

  /** A failed call at attempt `k` in front of a loop from `k + 1`: the clean attempt, if any, is one further on. */
  lemma SucceedsIffCleanCons(sys: System, step: (System, Api) -> Step, tries: nat -> Try, k: nat, e: Failure, rest: Retry, sleeps: seq<Sleep>)
    requires tries(k).Call? && step(sys, tries(k).api).error == Some(e)
    requires SucceedsIffClean(step(sys, tries(k).api).sys, step, tries, k + 1, rest)
    ensures SucceedsIffClean(sys, step, tries, k, Retry(rest.sys, rest.verdict, [e] + rest.failures, sleeps))
  {
    CleanAttemptShift(sys, step, tries, k, |rest.failures|);
    assert |[e] + rest.failures| == |rest.failures| + 1;
  }

  /** The loop succeeds exactly when the attempt after its recorded failures, within the last, runs clean. */
  lemma {:induction false} TriesVerdict(sys: System, step: (System, Api) -> Step, tries: nat -> Try, k: nat)
    requires 1 <= k <= MaxRetries
    ensures SucceedsIffClean(sys, step, tries, k, Tries(sys, step, tries, k))
    decreases MaxRetries - k
  {
    match tries(k)
    case Interrupt =>
    case Call(api, jitter) =>
      var st := step(sys, api);
      if st.error.None? {
        assert AfterAttempts(sys, step, tries, k, 0) == sys && k + 0 == k;
      } else if k < MaxRetries {
        var rest := Tries(st.sys, step, tries, k + 1);
        TriesVerdict(st.sys, step, tries, k + 1);
        SucceedsIffCleanCons(sys, step, tries, k, st.error.value, rest, [Backoff(k, Wait(k, jitter))] + rest.sleeps);
      }
  }

  /**
   * `r` leaves the system its clean attempt left when it succeeded, and
   * otherwise what its failed attempts, from attempt `k` on, left.
   */
  predicate LeavesFold(sys: System, step: (System, Api) -> Step, tries: nat -> Try, k: nat, r: Retry) {
    var n := |r.failures|;
    if r.verdict == Succeeded
    then tries(k + n).Call? && r.sys == step(AfterAttempts(sys, step, tries, k, n), tries(k + n).api).sys
    else r.sys == AfterAttempts(sys, step, tries, k, n)
  }

  /** A failed call at attempt `k` in front of a loop from `k + 1`: the fold starts one attempt earlier. */
  lemma LeavesFoldCons(sys: System, step: (System, Api) -> Step, tries: nat -> Try, k: nat, e: Failure, rest: Retry, sleeps: seq<Sleep>)
    requires tries(k).Call? && step(sys, tries(k).api).error == Some(e)
    requires LeavesFold(step(sys, tries(k).api).sys, step, tries, k + 1, rest)
    ensures LeavesFold(sys, step, tries, k, Retry(rest.sys, rest.verdict, [e] + rest.failures, sleeps))
  {
    var m := |rest.failures|;
    AfterAttemptsShift(sys, step, tries, k, m);
    assert |[e] + rest.failures| == m + 1 && k + (m + 1) == (k + 1) + m;
  }

  /** The loop leaves what its clean attempt left on success, and otherwise what its failed attempts left. */
  lemma {:induction false} TriesSystem(sys: System, step: (System, Api) -> Step, tries: nat -> Try, k: nat)
    requires 1 <= k <= MaxRetries
    ensures LeavesFold(sys, step, tries, k, Tries(sys, step, tries, k))
    decreases MaxRetries - k
  {
    match tries(k)
    case Interrupt =>
      assert AfterAttempts(sys, step, tries, k, 0) == sys;
    case Call(api, jitter) =>
      var st := step(sys, api);
      if st.error.None? {
        assert AfterAttempts(sys, step, tries, k, 0) == sys && k + 0 == k;
      } else if k == MaxRetries {
        assert AfterAttempts(sys, step, tries, k, 1) == st.sys;
      } else {
        var rest := Tries(st.sys, step, tries, k + 1);
        TriesSystem(st.sys, step, tries, k + 1);
        LeavesFoldCons(sys, step, tries, k, st.error.value, rest, [Backoff(k, Wait(k, jitter))] + rest.sleeps);
      }
  }

  /** `sleep` is the backoff after call `k`, as long as that attempt's number and jitter say. */
  predicate BackoffAfter(sleep: Sleep, tries: nat -> Try, k: nat)
    requires k >= 1
  {
    tries(k).Call? && sleep == Backoff(k, Wait(k, tries(k).jitter))
  }

  /** Backoff `i` follows call `k + i`, for every backoff. */
  predicate BackoffsFrom(sleeps: seq<Sleep>, tries: nat -> Try, k: nat)
    requires k >= 1
  {
    forall i :: 0 <= i < |sleeps| ==> BackoffAfter(sleeps[i], tries, k + i)
  }

  /** A backoff after call `k` followed by the backoffs from `k + 1` on. */
  lemma BackoffsCons(tries: nat -> Try, k: nat, rest: seq<Sleep>)
    requires k >= 1 && tries(k).Call? && BackoffsFrom(rest, tries, k + 1)
    ensures BackoffsFrom([Backoff(k, Wait(k, tries(k).jitter))] + rest, tries, k)
  {
    var all := [Backoff(k, Wait(k, tries(k).jitter))] + rest;
    forall i | 0 <= i < |all|
      ensures BackoffAfter(all[i], tries, k + i)
    {
      if i == 0 {
        assert all[0] == Backoff(k, Wait(k, tries(k).jitter)) && k + 0 == k;
      } else {
        assert BackoffAfter(rest[i - 1], tries, (k + 1) + (i - 1));
        assert all[i] == rest[i - 1] && k + i == (k + 1) + (i - 1);
      }
    }
    assert BackoffsFrom(all, tries, k);
  }

  /** Each backoff the loop sleeps follows a failed call and waits as long as that attempt's number and jitter say. */
  lemma {:induction false} TriesBackoffs(sys: System, step: (System, Api) -> Step, tries: nat -> Try, k: nat)
    requires 1 <= k <= MaxRetries
    ensures BackoffsFrom(Tries(sys, step, tries, k).sleeps, tries, k)
    decreases MaxRetries - k
  {
    match tries(k)
    case Interrupt =>
    case Call(api, jitter) =>
      var st := step(sys, api);
      if st.error.Some? && k < MaxRetries {
        var rest := Tries(st.sys, step, tries, k + 1);
        TriesBackoffs(st.sys, step, tries, k + 1);
        BackoffsCons(tries, k, rest.sleeps);
      }
  }

  /** The number of attempts the loop made. */
  function Attempts(r: Retry): nat {
    if r.verdict == GaveUp then |r.failures| else |r.failures| + 1
  }

  /** One attempt of `process_with_retry`: a call of `process_single_date`. */
  function Attempt(l: Layout, gameDate: string): (System, Api) -> Step {
    (x: System, api: Api) => ProcessSingleDate(x, l, gameDate, api)
  }

  /**
   * `process_with_retry`: at most five attempts, each running
   * `process_single_date` on what the attempt before left, stopping at the
   * first that raises nothing; true iff an attempt did. An interrupt ends the
   * loop at once. After failed attempt k < 5 it sleeps 30·2^(k−1) seconds plus
   * jitter. What each attempt ran on and raised is `RetryFollowsAttempts`.
   */
  function ProcessWithRetry(sys: System, l: Layout, gameDate: string, tries: nat -> Try): (r: Retry)
    ensures 1 <= Attempts(r) <= MaxRetries
    ensures r.verdict == GaveUp <==> |r.failures| == MaxRetries
    ensures r.verdict == Interrupted <==> |r.failures| < MaxRetries && tries(1 + |r.failures|).Interrupt?
    ensures r.verdict == Succeeded ==> tries(1 + |r.failures|).Call?
    ensures forall k :: 1 <= k <= |r.failures| ==> tries(k).Call?
    ensures |r.sleeps| == Attempts(r) - 1
    ensures BackoffsFrom(r.sleeps, tries, 1)
  {
    var r := Tries(sys, Attempt(l, gameDate), tries, 1);
    TriesFailures(sys, Attempt(l, gameDate), tries, 1);
    TriesBackoffs(sys, Attempt(l, gameDate), tries, 1);
    FailedAttemptsCalls(sys, Attempt(l, gameDate), tries, r.failures);
    r
  }

  /**
   * Attempt by attempt, `process_with_retry` is the fold of
   * `process_single_date`: each recorded failure is what its attempt raised on
   * what the attempts before it left, it succeeds exactly when the attempt
   * after them runs clean, and it leaves what the last attempt left.
   */
  lemma RetryFollowsAttempts(sys: System, l: Layout, gameDate: string, tries: nat -> Try)
    ensures var r := ProcessWithRetry(sys, l, gameDate, tries);
            r.verdict == Succeeded <==> |r.failures| < MaxRetries && CleanAttempt(sys, Attempt(l, gameDate), tries, 1, |r.failures|)
    ensures FailedAttempts(sys, Attempt(l, gameDate), tries, 1, ProcessWithRetry(sys, l, gameDate, tries).failures)
    ensures LeavesFold(sys, Attempt(l, gameDate), tries, 1, ProcessWithRetry(sys, l, gameDate, tries))
  {
    TriesFailures(sys, Attempt(l, gameDate), tries, 1);
    TriesVerdict(sys, Attempt(l, gameDate), tries, 1);
    TriesSystem(sys, Attempt(l, gameDate), tries, 1);
  }

  /** Every recorded failure was a call: no interrupt came before it. */
  lemma FailedAttemptsCalls(sys: System, step: (System, Api) -> Step, tries: nat -> Try, fs: seq<Failure>)
    requires FailedAttempts(sys, step, tries, 1, fs)
    ensures forall i :: 1 <= i <= |fs| ==> tries(i).Call?
  {
    forall i | 1 <= i <= |fs|
      ensures tries(i).Call?
    {
      assert FailedAttempt(sys, step, tries, 1, i - 1, fs[i - 1]);
      assert 1 + (i - 1) == i;
    }
  }

  /** Some attempt within the five, reached after calls only, runs clean. */
  predicate SomeCleanAttempt(sys: System, step: (System, Api) -> Step, tries: nat -> Try) {
    exists j :: 0 <= j < MaxRetries && (forall i :: 1 <= i <= j ==> tries(i).Call?) && CleanAttempt(sys, step, tries, 1, j)
  }

  /** The attempt loop succeeds exactly when some attempt it can reach runs clean. */
  lemma TriesSucceededIff(sys: System, step: (System, Api) -> Step, tries: nat -> Try)
    ensures Tries(sys, step, tries, 1).verdict == Succeeded <==> SomeCleanAttempt(sys, step, tries)
  {
    var r := Tries(sys, step, tries, 1);
    var n := |r.failures|;
    TriesFailures(sys, step, tries, 1);
    TriesVerdict(sys, step, tries, 1);
    FailedAttemptsCalls(sys, step, tries, r.failures);
    if r.verdict == Succeeded {
      assert 0 <= n < MaxRetries && CleanAttempt(sys, step, tries, 1, n);
    } else {
      forall j | 0 <= j < MaxRetries && (forall i :: 1 <= i <= j ==> tries(i).Call?)
        ensures !CleanAttempt(sys, step, tries, 1, j)
      {
        var next: nat := n + 1;
        assert j < n ==> FailedAttempt(sys, step, tries, 1, j, r.failures[j]);
        assert n < j ==> tries(next).Call?;
      }
    }
  }

  /**
   * `process_with_retry` returns true iff some attempt it reaches runs clean:
   * an attempt, within the five, after only calls (no interrupt), whose
   * `process_single_date` raises nothing on what the earlier attempts left.
   */
  lemma SucceededIffCleanAttempt(sys: System, l: Layout, gameDate: string, tries: nat -> Try)
    ensures ProcessWithRetry(sys, l, gameDate, tries).verdict == Succeeded
            <==> SomeCleanAttempt(sys, Attempt(l, gameDate), tries)
  {
    TriesSucceededIff(sys, Attempt(l, gameDate), tries);
  }

  /**
   * A day that never succeeds sleeps exactly four backoffs, of 30, 60, 120
   * and 240 seconds plus jitter: the fifth failure gives up without sleeping.
   */
  lemma GiveUpSleeps(sys: System, l: Layout, gameDate: string, tries: nat -> Try)
    requires ProcessWithRetry(sys, l, gameDate, tries).verdict == GaveUp
    ensures var r := ProcessWithRetry(sys, l, gameDate, tries);
            |r.sleeps| == 4
            && r.sleeps == [Backoff(1, 30.0 + tries(1).jitter), Backoff(2, 60.0 + tries(2).jitter),
                            Backoff(3, 120.0 + tries(3).jitter), Backoff(4, 240.0 + tries(4).jitter)]
  {
    FourBackoffs(ProcessWithRetry(sys, l, gameDate, tries).sleeps, tries);
  }

  /** Four backoffs after attempts 1 to 4 wait 30, 60, 120 and 240 seconds plus their jitter. */
  lemma FourBackoffs(sleeps: seq<Sleep>, tries: nat -> Try)
    requires |sleeps| == 4 && BackoffsFrom(sleeps, tries, 1) && forall k :: 1 <= k <= 4 ==> tries(k).Call?
    ensures sleeps == [Backoff(1, 30.0 + tries(1).jitter), Backoff(2, 60.0 + tries(2).jitter),
                       Backoff(3, 120.0 + tries(3).jitter), Backoff(4, 240.0 + tries(4).jitter)]
  {
    assert Pow2(0) == 1 && Pow2(1) == 2 && Pow2(2) == 4 && Pow2(3) == 8;
    assert BackoffAfter(sleeps[0], tries, 1) && BackoffAfter(sleeps[1], tries, 2);
    assert BackoffAfter(sleeps[2], tries, 3) && BackoffAfter(sleeps[3], tries, 4);
    assert sleeps[0] == Backoff(1, 30.0 + tries(1).jitter);
    assert sleeps[1] == Backoff(2, 60.0 + tries(2).jitter);
    assert sleeps[2] == Backoff(3, 120.0 + tries(3).jitter);
    assert sleeps[3] == Backoff(4, 240.0 + tries(4).jitter);
  }

  // ── run_backfill ────────────────────────────────────────────────────

  /** Where a day of the range ended up. */
  datatype Mark = Skipped | Processed | Failed

  /**
   * What visiting one day did: it raised out of the loop, or it finished
   * with a mark, the exceptions of its failed attempts and its backoffs.
   */
  datatype Visit = Halt(sys: System, error: Failure) | Visited(sys: System, mark: Mark, failures: seq<Failure>, backoffs: seq<Sleep>)

  /** The day goes to the retry loop: `skip_existing` is off, or the done check said it is not done. */
  predicate Pending(sys: System, l: Layout, gameDate: string, skipExisting: bool) {
    !skipExisting || IsAlreadyDone(sys.store, l, gameDate) == Ok(false)
  }

  /**
   * The loop body up to the bookkeeping: with `skipExisting`, a day already
   * done is skipped at once; any other day goes through the retry loop. An
   * exception from the done check and a keyboard interrupt leave the loop.
   */
  function VisitDay(sys: System, l: Layout, gameDate: string, tries: nat -> Try, skipExisting: bool): (v: Visit)
    ensures !skipExisting ==> v.Halt? || v.mark != Skipped
    ensures v.Visited? && v.mark == Skipped ==> v.sys == sys && v.failures == [] && v.backoffs == []
    ensures v.Visited? ==> forall i :: 0 <= i < |v.backoffs| ==> v.backoffs[i].Backoff?
    ensures v.Visited? && v.mark == Skipped <==> skipExisting && IsAlreadyDone(sys.store, l, gameDate) == Ok(true)
    ensures v.Visited? && v.mark == Processed
            <==> Pending(sys, l, gameDate, skipExisting) && ProcessWithRetry(sys, l, gameDate, tries).verdict == Succeeded
    ensures v.Visited? && v.mark == Failed
            <==> Pending(sys, l, gameDate, skipExisting) && ProcessWithRetry(sys, l, gameDate, tries).verdict == GaveUp
    ensures v.Halt? <==> (skipExisting && IsAlreadyDone(sys.store, l, gameDate).Err?)
                         || (Pending(sys, l, gameDate, skipExisting) && ProcessWithRetry(sys, l, gameDate, tries).verdict == Interrupted)
    ensures v.Visited? && v.mark != Skipped ==>
              var t := ProcessWithRetry(sys, l, gameDate, tries);
              v.sys == t.sys && v.failures == t.failures && v.backoffs == t.sleeps
  {
    match if skipExisting then IsAlreadyDone(sys.store, l, gameDate) else Ok(false)
    case Err(e) => Halt(sys, e)
    case Ok(done) =>
      if done then Visited(sys, Skipped, [], [])
      else
        var t := ProcessWithRetry(sys, l, gameDate, tries);
        match t.verdict
        case Interrupted => Halt(t.sys, KeyboardInterrupt)
        case Succeeded => Visited(t.sys, Processed, t.failures, t.sleeps)
        case GaveUp => Visited(t.sys, Failed, t.failures, t.sleeps)
  }

  /**
   * A day is counted as processed exactly when it was due and one of the
   * attempts the retry loop reached ran `process_single_date` clean.
   */
  lemma ProcessedIffAttemptClean(sys: System, l: Layout, gameDate: string, tries: nat -> Try, skipExisting: bool)
    ensures var v := VisitDay(sys, l, gameDate, tries, skipExisting);
            v.Visited? && v.mark == Processed
            <==> Pending(sys, l, gameDate, skipExisting) && SomeCleanAttempt(sys, Attempt(l, gameDate), tries)
  {
    SucceededIffCleanAttempt(sys, l, gameDate, tries);
  }

  /**
   * A finished day: its text, where it ended up, its attempts' exceptions, its
   * backoffs, and the pauses after it (the cooldown, then the pace delay).
   */
  datatype Day = Day(date: string, mark: Mark, failures: seq<Failure>, backoffs: seq<Sleep>, pauses: seq<Sleep>) {
    /** Every `time.sleep` the day caused, in order. */
    function Sleeps(): seq<Sleep> {
      backoffs + pauses
    }
  }

  /** What the oracles hand a day: its attempts, and the pace `random.uniform(1.0, 2.5)` draws after it. */
  datatype DayEnv = DayEnv(tries: nat -> Try, pace: real)

  /** `run_backfill`'s counters, its `failed_dates`, and `consecutive_errors`. */
  datatype Tally = Tally(skipped: nat, processed: nat, failed: nat, failedDates: seq<string>, consecutive: nat)

  const NoTally: Tally := Tally(0, 0, 0, [], 0)

  /** The counters after a day: a success resets the streak of failures, a failure extends it, a skip leaves it. */
  function Tallied(acc: Tally, date: string, mark: Mark): Tally {
    match mark
    case Skipped => acc.(skipped := acc.skipped + 1)
    case Processed => acc.(processed := acc.processed + 1, consecutive := 0)
    case Failed => acc.(failed := acc.failed + 1, failedDates := acc.failedDates + [date], consecutive := acc.consecutive + 1)
  }

  /** The pauses after a day: none after a skip; otherwise the cooldown when the streak reached three, then the pace. */
  function Pauses(mark: Mark, streak: nat, pace: real): seq<Sleep> {
    if mark == Skipped then []
    else (if mark == Failed && streak >= CooldownStreak then [Cooldown] else []) + [Pace(pace)]
  }

  /** The loop's end: the system, the days finished, the counters, and the exception that ended it early, if any. */
  datatype Run = Run(sys: System, days: seq<Day>, tally: Tally, error: Option<Failure>)

  /**
   * The loop over the days, each visited by `visit` and followed by the
   * bookkeeping: the counters, `failed_dates`, `consecutive_errors`, and the
   * pauses. A visit that raises ends the loop.
   */
  function Loop(sys: System, dates: seq<string>, visit: (System, string) -> Visit, pace: string -> real, acc: Tally): (r: Run)
    ensures |r.days| <= |dates|
    ensures forall i :: 0 <= i < |r.days| ==> r.days[i].date == dates[i]
    ensures r.error.None? <==> |r.days| == |dates|
    decreases |dates|
  {
    if dates == [] then Run(sys, [], acc, None)
    else
      var d := dates[0];
      match visit(sys, d)
      case Halt(x, e) => Run(x, [], acc, Some(e))
      case Visited(x, mark, failures, backoffs) =>
        var next := Tallied(acc, d, mark);
        var day := Day(d, mark, failures, backoffs, Pauses(mark, next.consecutive, pace(d)));
        var rest := Loop(x, dates[1..], visit, pace, next);
        rest.(days := [day] + rest.days)
  }

  /** Reference count: the days with a given mark. */
  function Count(days: seq<Day>, m: Mark): nat {
    if days == [] then 0 else (if days[0].mark == m then 1 else 0) + Count(days[1..], m)
  }

  /** Reference list: the texts of the days with a given mark, in the days' order. */
  function Marked(days: seq<Day>, m: Mark): seq<string> {
    if days == [] then [] else (if days[0].mark == m then [days[0].date] else []) + Marked(days[1..], m)
  }

  /**
   * Reference streak, read from the end: the failed days since the last
   * processed one, skips not counted; `start` when no day was processed.
   */
  function StreakOf(start: nat, days: seq<Day>): nat {
    if days == [] then start
    else
      match days[|days| - 1].mark
      case Processed => 0
      case Failed => StreakOf(start, days[..|days| - 1]) + 1
      case Skipped => StreakOf(start, days[..|days| - 1])
  }

  lemma {:induction false} StreakOfPrepend(start: nat, d: Day, days: seq<Day>)
    ensures StreakOf(start, [d] + days) == StreakOf(StreakOf(start, [d]), days)
    decreases |days|
  {
    if days != [] {
      assert ([d] + days)[..|[d] + days| - 1] == [d] + days[..|days| - 1];
      StreakOfPrepend(start, d, days[..|days| - 1]);
    }
  }

  lemma {:induction false} CountsAddUp(days: seq<Day>)
    ensures Count(days, Skipped) + Count(days, Processed) + Count(days, Failed) == |days|
    ensures |Marked(days, Failed)| == Count(days, Failed)
  {
    if days != [] {
      CountsAddUp(days[1..]);
    }
  }

  /**
   * The running counters agree with the reference counts of the finished
   * days: each day is counted once, under its mark.
   */
  lemma {:induction false} LoopCounts(sys: System, dates: seq<string>, visit: (System, string) -> Visit, pace: string -> real, acc: Tally)
    ensures var r := Loop(sys, dates, visit, pace, acc);
            && r.tally.skipped == acc.skipped + Count(r.days, Skipped)
            && r.tally.processed == acc.processed + Count(r.days, Processed)
            && r.tally.failed == acc.failed + Count(r.days, Failed)
    decreases |dates|
  {
    if dates != [] && visit(sys, dates[0]).Visited? {
      var v := visit(sys, dates[0]);
      var r := Loop(sys, dates, visit, pace, acc);
      var next := Tallied(acc, dates[0], v.mark);
      var rest := Loop(v.sys, dates[1..], visit, pace, next);
      LoopCounts(v.sys, dates[1..], visit, pace, next);
      assert r.days[1..] == rest.days && r.days[0].mark == v.mark;
    }
  }

  /** `failed_dates` lists the failed days, in the order they were visited. */
  lemma {:induction false} LoopFailedDates(sys: System, dates: seq<string>, visit: (System, string) -> Visit, pace: string -> real, acc: Tally)
    ensures var r := Loop(sys, dates, visit, pace, acc);
            r.tally.failedDates == acc.failedDates + Marked(r.days, Failed)
    decreases |dates|
  {
    if dates != [] && visit(sys, dates[0]).Visited? {
      var v := visit(sys, dates[0]);
      var r := Loop(sys, dates, visit, pace, acc);
      var next := Tallied(acc, dates[0], v.mark);
      var rest := Loop(v.sys, dates[1..], visit, pace, next);
      LoopFailedDates(v.sys, dates[1..], visit, pace, next);
      assert r.days[1..] == rest.days && r.days[0].mark == v.mark && r.days[0].date == dates[0];
    }
  }

  /** `consecutive_errors` at the end is the reference streak of the finished days. */
  lemma {:induction false} LoopStreak(sys: System, dates: seq<string>, visit: (System, string) -> Visit, pace: string -> real, acc: Tally)
    ensures var r := Loop(sys, dates, visit, pace, acc);
            r.tally.consecutive == StreakOf(acc.consecutive, r.days)
    decreases |dates|
  {
    if dates != [] && visit(sys, dates[0]).Visited? {
      var v := visit(sys, dates[0]);
      var r := Loop(sys, dates, visit, pace, acc);
      var next := Tallied(acc, dates[0], v.mark);
      var rest := Loop(v.sys, dates[1..], visit, pace, next);
      LoopStreak(v.sys, dates[1..], visit, pace, next);
      assert r.days == [r.days[0]] + rest.days && r.days[0].mark == v.mark;
      StreakOfPrepend(acc.consecutive, r.days[0], rest.days);
    }
  }

  /** A day is skipped only when its visit skipped it: with visits that never skip, no day is counted as skipped. */
  lemma {:induction false} LoopSkips(sys: System, dates: seq<string>, visit: (System, string) -> Visit, pace: string -> real, acc: Tally)
    requires forall x, d :: visit(x, d).Visited? ==> visit(x, d).mark != Skipped
    ensures Count(Loop(sys, dates, visit, pace, acc).days, Skipped) == 0
    decreases |dates|
  {
    if dates != [] && visit(sys, dates[0]).Visited? {
      var v := visit(sys, dates[0]);
      var r := Loop(sys, dates, visit, pace, acc);
      var rest := Loop(v.sys, dates[1..], visit, pace, Tallied(acc, dates[0], v.mark));
      LoopSkips(v.sys, dates[1..], visit, pace, Tallied(acc, dates[0], v.mark));
      assert r.days[1..] == rest.days && r.days[0].mark == v.mark != Skipped;
    }
  }

  /**
   * The pauses after each finished day: none after a skip; after any other,
   * the cooldown exactly when it failed with the reference streak at three or
   * more, then the pace delay drawn for it, last.
   */
  lemma {:induction false} LoopPauses(sys: System, dates: seq<string>, visit: (System, string) -> Visit, pace: string -> real, acc: Tally)
    ensures var r := Loop(sys, dates, visit, pace, acc);
            forall i :: 0 <= i < |r.days| ==> DayPauses(r.days[i], pace(dates[i]), StreakOf(acc.consecutive, r.days[..i + 1]))
    decreases |dates|
  {
    if dates != [] && visit(sys, dates[0]).Visited? {
      var v := visit(sys, dates[0]);
      var r := Loop(sys, dates, visit, pace, acc);
      var next := Tallied(acc, dates[0], v.mark);
      var rest := Loop(v.sys, dates[1..], visit, pace, next);
      LoopPauses(v.sys, dates[1..], visit, pace, next);
      assert r.days == [r.days[0]] + rest.days;
      assert next.consecutive == StreakOf(acc.consecutive, r.days[..1]);
      forall i | 0 <= i < |r.days|
        ensures DayPauses(r.days[i], pace(dates[i]), StreakOf(acc.consecutive, r.days[..i + 1]))
      {
        if i > 0 {
          assert r.days[..i + 1] == [r.days[0]] + rest.days[..i];
          StreakOfPrepend(acc.consecutive, r.days[0], rest.days[..i]);
          assert r.days[i] == rest.days[i - 1] && dates[i] == dates[1..][i - 1];
        }
      }
    }
  }

  /** The pauses a finished day caused, given its pace draw and the streak after it. */
  predicate DayPauses(day: Day, pace: real, streak: nat) {
    && (day.mark == Skipped ==> day.pauses == [])
    && (day.mark != Skipped ==> |day.pauses| > 0 && day.pauses[|day.pauses| - 1] == Pace(pace))
    && (Cooldown in day.pauses <==> day.mark == Failed && streak >= CooldownStreak)
  }

  /** Every listed text is the text of a day with that mark. */
  lemma {:induction false} MarkedFrom(days: seq<Day>, m: Mark, x: string)
    requires x in Marked(days, m)
    ensures exists k :: 0 <= k < |days| && days[k].date == x && days[k].mark == m
  {
    if !(days[0].mark == m && x == days[0].date) {
      MarkedFrom(days[1..], m, x);
      var k :| 0 <= k < |days[1..]| && days[1..][k].date == x && days[1..][k].mark == m;
      assert days[k + 1] == days[1..][k];
    }
  }

  /** A text that comes before every visited day comes before every listed one. */
  lemma {:induction false} MarkedAfter(days: seq<Day>, m: Mark, lt: (string, string) -> bool, x: string)
    requires forall k :: 0 <= k < |days| ==> lt(x, days[k].date)
    ensures forall j :: 0 <= j < |Marked(days, m)| ==> lt(x, Marked(days, m)[j])
  {
    if days != [] {
      var tail := days[1..];
      assert forall k :: 0 <= k < |tail| ==> lt(x, tail[k].date) by {
        forall k | 0 <= k < |tail| ensures lt(x, tail[k].date) {
          assert tail[k] == days[k + 1];
        }
      }
      MarkedAfter(tail, m, lt, x);
    }
  }

  /** Days visited in an order `lt` list the days of one mark in that order too. */
  lemma {:induction false} MarkedOrdered(days: seq<Day>, m: Mark, lt: (string, string) -> bool)
    requires forall i, j :: 0 <= i < j < |days| ==> lt(days[i].date, days[j].date)
    ensures forall i, j :: 0 <= i < j < |Marked(days, m)| ==> lt(Marked(days, m)[i], Marked(days, m)[j])
  {
    if days != [] {
      var tail := days[1..];
      assert forall i, j :: 0 <= i < j < |tail| ==> lt(tail[i].date, tail[j].date) by {
        forall i, j | 0 <= i < j < |tail|
          ensures lt(tail[i].date, tail[j].date)
        {
          assert tail[i] == days[i + 1] && tail[j] == days[j + 1];
        }
      }
      MarkedOrdered(tail, m, lt);
      var rest := Marked(tail, m);
      if days[0].mark == m {
        assert forall k :: 0 <= k < |tail| ==> lt(days[0].date, tail[k].date) by {
          forall k | 0 <= k < |tail| ensures lt(days[0].date, tail[k].date) {
            assert tail[k] == days[k + 1];
          }
        }
        MarkedAfter(tail, m, lt, days[0].date);
        PrependOrdered(days[0].date, rest, lt);
      }
    }
  }

  /** A text before every element of an ordered list keeps the list ordered when put in front. */
  lemma PrependOrdered(x: string, rest: seq<string>, lt: (string, string) -> bool)
    requires forall i, j :: 0 <= i < j < |rest| ==> lt(rest[i], rest[j])
    requires forall j :: 0 <= j < |rest| ==> lt(x, rest[j])
    ensures forall i, j :: 0 <= i < j < |[x] + rest| ==> lt(([x] + rest)[i], ([x] + rest)[j])
  {
    var ms := [x] + rest;
    forall i, j | 0 <= i < j < |ms| ensures lt(ms[i], ms[j]) {
      if i == 0 {
        assert ms[j] == rest[j - 1];
      } else {
        assert ms[i] == rest[i - 1] && ms[j] == rest[j - 1];
      }
    }
  }

  // ── The run and its summary ─────────────────────────────────────────

  /** The final summary's counts, and its `Failed dates` line: the first 30 failed days, then how many more. */
  datatype Summary = Summary(total: nat, processed: nat, skipped: nat, failed: nat, shown: seq<string>, more: nat)

  /** `failed_dates[:30]`, and `len(failed_dates) - 30` when there are more. */
  function FailedLine(failedDates: seq<string>): (r: (seq<string>, nat))
    ensures |r.0| == if |failedDates| <= ShownFailures then |failedDates| else ShownFailures
    ensures r.0 + failedDates[|r.0|..] == failedDates
    ensures r.1 == |failedDates| - |r.0|
    ensures r.1 > 0 <==> |failedDates| > ShownFailures
  {
    var shown := if |failedDates| <= ShownFailures then failedDates else failedDates[..ShownFailures];
    assert shown + failedDates[|shown|..] == failedDates;
    (shown, |failedDates| - |shown|)
  }

  /**
   * How a run ended: the system it left, the days it finished, and either
   * the summary and the validation report, or the exception that ended it.
   */
  datatype Outcome = Outcome(sys: System, days: seq<Day>, summary: Option<Summary>,
                             report: Option<Validation.Report>, error: Option<Failure>)

  function Visitor(l: Layout, env: string -> DayEnv, skipExisting: bool): (System, string) -> Visit {
    (x: System, d: string) => VisitDay(x, l, d, env(d).tries, skipExisting)
  }

  function Paces(env: string -> DayEnv): string -> real {
    (d: string) => env(d).pace
  }

  /**
   * `run_backfill` once the day range is known: `init_schema`, the
   * dimensions when asked (`dims` stands for `load_dimensions`, whose
   * exception ends the run), then the loop over the days; at the end the
   * summary, the validation report, and the clearing of the registered
   * validations.
   */
  function RunDates(sys: System, l: Layout, dates: seq<string>, skipExisting: bool, loadDims: bool,
                    dims: System -> Step, env: string -> DayEnv): (r: Outcome)
    ensures r.error.None? <==> r.summary.Some?
    ensures |r.days| <= |dates|
    ensures forall i :: 0 <= i < |r.days| ==> r.days[i].date == dates[i]
    ensures r.summary.Some? ==> Summarizes(r.summary.value, r.days, |dates|, skipExisting) && r.sys.validations == []
  {
    var sys0 := sys.(db := Gold.InitSchema(sys.db));
    var st := if loadDims then dims(sys0) else Step(sys0, None);
    if st.error.Some? then Outcome(st.sys, [], None, None, st.error)
    else
      var visit := Visitor(l, env, skipExisting);
      var run := Loop(st.sys, dates, visit, Paces(env), NoTally);
      if run.error.Some? then Outcome(run.sys, run.days, None, None, run.error)
      else
        RunTally(st.sys, l, dates, env, skipExisting);
        Outcome(run.sys.(validations := []), run.days, Some(Summarize(run.days, |dates|, run.tally, skipExisting)),
                Validation.ValidationReport(run.sys.validations), None)
  }

  /** The loop's counters agree with the days it finished. */
  predicate CountsMatch(days: seq<Day>, t: Tally, skipExisting: bool) {
    && t.skipped == Count(days, Skipped)
    && t.processed == Count(days, Processed)
    && t.failed == Count(days, Failed)
    && t.failedDates == Marked(days, Failed)
    && |t.failedDates| == t.failed
    && t.skipped + t.processed + t.failed == |days|
    && (!skipExisting ==> t.skipped == 0)
  }

  /**
   * What the final summary of a run over `total` days promises: every day was
   * counted under its mark, and the `Failed dates` line lists the first
   * failed days in visiting order and how many more there were.
   */
  predicate Summarizes(m: Summary, days: seq<Day>, total: nat, skipExisting: bool) {
    && m.total == total == |days|
    && m.total == m.processed + m.skipped + m.failed
    && (!skipExisting ==> m.skipped == 0)
    && m.skipped == Count(days, Skipped) && m.processed == Count(days, Processed)
    && m.failed == Count(days, Failed)
    && |Marked(days, Failed)| == m.failed
    && |m.shown| == (if m.failed <= ShownFailures then m.failed else ShownFailures)
    && m.shown == Marked(days, Failed)[..|m.shown|]
    && m.more == m.failed - |m.shown|
  }

  /** The summary a finished loop prints: its counters, and the first failed dates with how many more there were. */
  function Summarize(days: seq<Day>, total: nat, t: Tally, skipExisting: bool): (m: Summary)
    requires CountsMatch(days, t, skipExisting) && total == |days|
    ensures Summarizes(m, days, total, skipExisting)
  {
    var line := FailedLine(t.failedDates);
    Summary(total, t.processed, t.skipped, t.failed, line.0, line.1)
  }

  /** `run_backfill`: a bad or overflowing day range raises before anything else is touched. */
  function RunBackfill(sys: System, l: Layout, start: string, end: string, skipExisting: bool, loadDims: bool,
                       dims: System -> Step, env: string -> DayEnv): (r: Outcome)
    ensures DateRange(start, end).Err? ==> r == Outcome(sys, [], None, None, Some(DateRange(start, end).error))
    ensures DateRange(start, end).Ok? ==> r == RunDates(sys, l, DateRange(start, end).value, skipExisting, loadDims, dims, env)
  {
    match DateRange(start, end)
    case Err(e) => Outcome(sys, [], None, None, Some(e))
    case Ok(dates) => RunDates(sys, l, dates, skipExisting, loadDims, dims, env)
  }

  /** The loop's counters, read as reference counts over the days it finished. */
  lemma RunTally(sys: System, l: Layout, dates: seq<string>, env: string -> DayEnv, skipExisting: bool)
    ensures var r := Loop(sys, dates, Visitor(l, env, skipExisting), Paces(env), NoTally);
            CountsMatch(r.days, r.tally, skipExisting)
  {
    var visit := Visitor(l, env, skipExisting);
    var r := Loop(sys, dates, visit, Paces(env), NoTally);
    LoopCounts(sys, dates, visit, Paces(env), NoTally);
    LoopFailedDates(sys, dates, visit, Paces(env), NoTally);
    CountsAddUp(r.days);
    if !skipExisting {
      forall x, d | visit(x, d).Visited?
        ensures visit(x, d).mark != Skipped
      {
        assert visit(x, d) == VisitDay(x, l, d, env(d).tries, false);
      }
      LoopSkips(sys, dates, visit, Paces(env), NoTally);
    }
  }
  /** The summary's `Failed dates` line lists failed days oldest first, as the range visits them. */
  lemma FailedDatesChronological(sys: System, l: Layout, start: string, end: string, skipExisting: bool,
                                 loadDims: bool, dims: System -> Step, env: string -> DayEnv)
    requires DateRange(start, end).Ok?
    ensures var r := RunBackfill(sys, l, start, end, skipExisting, loadDims, dims, env);
            r.summary.Some? ==>
              forall i, j :: 0 <= i < j < |r.summary.value.shown| ==>
                Later(r.summary.value.shown[i], r.summary.value.shown[j])
  {
    var dates := DateRange(start, end).value;
    var r := RunBackfill(sys, l, start, end, skipExisting, loadDims, dims, env);
    if r.summary.Some? {
      DateRangeChronological(start, end);
      var lt := (a: string, b: string) => Later(a, b);
      forall i, j | 0 <= i < j < |r.days|
        ensures lt(r.days[i].date, r.days[j].date)
      {
        assert Later(dates[i], dates[j]);
      }
      MarkedOrdered(r.days, Failed, lt);
      var ms := Marked(r.days, Failed);
      var shown := r.summary.value.shown;
      assert shown == ms[..|shown|];
      forall i, j | 0 <= i < j < |shown|
        ensures Later(shown[i], shown[j])
      {
        assert shown[i] == ms[i] && shown[j] == ms[j];
        assert lt(ms[i], ms[j]);
      }
    }
  }

  /** Every date a summary shows as failed is a day it counted as failed. */
  lemma ShownAreFailed(m: Summary, days: seq<Day>, total: nat, skipExisting: bool, x: string)
    requires Summarizes(m, days, total, skipExisting) && x in m.shown
    ensures exists k :: 0 <= k < |days| && days[k].mark == Failed && days[k].date == x
  {
    var ms := Marked(days, Failed);
    var i :| 0 <= i < |m.shown| && m.shown[i] == x;
    assert m.shown == ms[..|m.shown|];
    assert x == ms[i];
    MarkedFrom(days, Failed, x);
  }

  /** Every date the summary shows as failed is a day of the range that the loop marked failed. */
  lemma ShownFailuresAreFailedDays(sys: System, l: Layout, dates: seq<string>, skipExisting: bool,
                                   loadDims: bool, dims: System -> Step, env: string -> DayEnv, x: string)
    requires var r := RunDates(sys, l, dates, skipExisting, loadDims, dims, env);
             r.summary.Some? && x in r.summary.value.shown
    ensures var r := RunDates(sys, l, dates, skipExisting, loadDims, dims, env);
            exists k :: 0 <= k < |r.days| && r.days[k].mark == Failed && r.days[k].date == x == dates[k]
  {
    var r := RunDates(sys, l, dates, skipExisting, loadDims, dims, env);
    ShownAreFailed(r.summary.value, r.days, |dates|, skipExisting, x);
  }
}

=== FILE: bronze.dfy ===
/**
 * Bronze ingestion as store transitions (src/nba_etl/bronze/ingestion.py).
 * The NBA endpoints are oracles: `Fetch(kind, game_id)` is the payload, or
 * None when the endpoint raised; download failures are swallowed, so a
 * failed download leaves the store as it was.
 */
module Bronze {
  import opened Wrappers
  import opened Frames
  import opened Store
  import Text

  /** The per-game endpoints: the payload, or None when the call raised. */
  type Fetch = (Kind, string) -> Option<Json>

  // ── Game discovery: the GameHeader projection ───────────────────────

  /** `rs["name"] == name` for one result set. */
  function NameIs(rs: Json, name: string): (r: Result<bool, Failure>)
    ensures r.Ok? <==> rs.JObj? && "name" in rs.fields
    ensures r.Ok? ==> r.value == (rs.fields["name"] == JStr(name))
  {
    var n :- Index(rs, "name");
    Ok(n == JStr(name))
  }

  /** A list comprehension whose test may raise: the elements that pass, in order, or the first exception. */
  function Filter<T(==,!new)>(test: T -> Result<bool, Failure>, xs: seq<T>): (r: Result<seq<T>, Failure>)
    ensures r.Ok? <==> forall i :: 0 <= i < |xs| ==> test(xs[i]).Ok?
    ensures r.Ok? ==> forall x :: x in r.value <==> x in xs && test(x) == Ok(true)
    ensures r.Ok? && |r.value| > 0 ==>
              exists i :: 0 <= i < |xs| && xs[i] == r.value[0] && test(xs[i]) == Ok(true)
                          && forall j :: 0 <= j < i ==> test(xs[j]) == Ok(false)
    decreases |xs|
  {
    if xs == [] then Ok([])
    else
      var here :- test(xs[0]);
      var rest :- Filter(test, xs[1..]);
      assert forall i :: 1 <= i < |xs| ==> xs[i] == xs[1..][i - 1];
      if here then
        assert ([xs[0]] + rest)[0] == xs[0];
        Ok([xs[0]] + rest)
      else
        assert |rest| > 0 ==> rest[0] in xs[1..];
        Ok(rest)
  }

  /** The filter keeps `x` first when every element before it fails the test without raising. */
  lemma {:induction false} FilterSkips<T(!new)>(test: T -> Result<bool, Failure>, pre: seq<T>, x: T, after: seq<T>)
    requires forall i :: 0 <= i < |pre| ==> test(pre[i]) == Ok(false)
    requires test(x) == Ok(true)
    requires forall j :: 0 <= j < |after| ==> test(after[j]).Ok?
    ensures Filter(test, pre + [x] + after).Ok?
    ensures |Filter(test, pre + [x] + after).value| > 0
    ensures Filter(test, pre + [x] + after).value[0] == x
    decreases |pre|
  {
    var all := pre + [x] + after;
    if pre == [] {
      assert all == [x] + after;
      assert all[1..] == after;
    } else {
      FilterSkips(test, pre[1..], x, after);
      assert all[0] == pre[0];
      assert all[1..] == pre[1..] + [x] + after;
    }
  }

  /** `[rs for rs in sets if rs["name"] == name]`: fails on the first set without a name. */
  function Named(sets: seq<Json>, name: string): (r: Result<seq<Json>, Failure>)
    ensures r.Ok? <==> forall i :: 0 <= i < |sets| ==> NameIs(sets[i], name).Ok?
    ensures r.Ok? ==> forall x :: x in r.value <==> x in sets && NameIs(x, name) == Ok(true)
    ensures r.Ok? && |r.value| > 0 ==>
              exists i :: 0 <= i < |sets| && sets[i] == r.value[0] && NameIs(sets[i], name) == Ok(true)
                          && forall j :: 0 <= j < i ==> NameIs(sets[j], name) == Ok(false)
  {
    Filter(rs => NameIs(rs, name), sets)
  }

  /** Python's `list.index(x)`: the first position holding `x`. */
  function IndexOf(xs: seq<Json>, x: Json): (r: Option<nat>)
    ensures r.Some? ==> r.value < |xs| && xs[r.value] == x && forall j :: 0 <= j < r.value ==> xs[j] != x
    ensures r.None? <==> x !in xs
  {
    if xs == [] then None
    else if xs[0] == x then Some(0)
    else match IndexOf(xs[1..], x)
      case None => None
      case Some(i) => Some(i + 1)
  }

  /** The game id a GameHeader cell holds. */
  function GameIdText(cell: Json): Result<string, Failure> {
    match cell
    case JStr(s) => Ok(s)
    case _ => Err(TypeError("GAME_ID is not text"))
  }

  /** `[row[gi_idx] for row in rows]`. */
  function ColumnAt(rows: seq<Json>, gi: nat): (r: Result<seq<string>, Failure>)
    ensures r.Ok? ==> |r.value| == |rows|
    ensures r.Ok? ==> forall i :: 0 <= i < |rows| ==>
              Item(rows[i], gi).Ok? && GameIdText(Item(rows[i], gi).value) == Ok(r.value[i])
  {
    if rows == [] then Ok([])
    else
      var cell :- Item(rows[0], gi);
      var id :- GameIdText(cell);
      var rest :- ColumnAt(rows[1..], gi);
      assert forall i :: 1 <= i < |rows| ==> rows[i] == rows[1..][i - 1];
      Ok([id] + rest)
  }

  /** The exception iterating a text value by string key raises. */
  const NotIndexable := TypeError("string indices must be integers")

  /**
   * `[rs for rs in data["resultSets"] if rs["name"] == "GameHeader"][0]`: the
   * first result set named GameHeader, every set before it having another name.
   */
  function GameHeader(doc: Json): (r: Result<Json, Failure>)
    ensures r.Ok? ==> Index(doc, "resultSets").Ok? && Iterate(Index(doc, "resultSets").value, NotIndexable).Ok?
    ensures r.Ok? ==> var all := Iterate(Index(doc, "resultSets").value, NotIndexable).value;
                      exists i :: 0 <= i < |all| && all[i] == r.value && NameIs(all[i], "GameHeader") == Ok(true)
                                  && forall j :: 0 <= j < i ==> NameIs(all[j], "GameHeader") == Ok(false)
    ensures Index(doc, "resultSets").Ok? && Iterate(Index(doc, "resultSets").value, NotIndexable).Ok?
            && Named(Iterate(Index(doc, "resultSets").value, NotIndexable).value, "GameHeader") == Ok([])
            ==> r == Err(IndexError("list index out of range"))
  {
    var sets :- Index(doc, "resultSets");
    var all :- Iterate(sets, NotIndexable);
    var headers :- Named(all, "GameHeader");
    if headers == [] then Err(IndexError("list index out of range")) else Ok(headers[0])
  }

  /**
   * `get_game_ids_for_date` on the ScoreboardV2 payload: the GAME_ID column of
   * the first result set named GameHeader, in row order.
   */
  function GameIdsForDate(doc: Json): (r: Result<seq<string>, Failure>)
  {
    var gh :- GameHeader(doc);
    var hs :- Index(gh, "headers");
    var hlist :- (if hs.JArr? then Ok(hs.items) else Err(TypeError("headers is not a list")));
    var gi :- (match IndexOf(hlist, JStr("GAME_ID"))
               case Some(i) => Ok(i)
               case None => Err(ValueError("'GAME_ID' is not in list")));
    var rows :- Index(gh, "rowSet");
    var rlist :- Iterate(rows, NotIndexable);
    ColumnAt(rlist, gi)
  }

  /**
   * Discovery fails as finding the GameHeader set fails, raises ValueError when
   * that set has no GAME_ID header, and otherwise returns one id per row of it.
   */
  lemma GameIdsForDateShape(doc: Json)
    ensures GameHeader(doc).Err? ==> GameIdsForDate(doc) == Err(GameHeader(doc).error)
    ensures GameHeader(doc).Ok? && Index(GameHeader(doc).value, "headers").Ok?
            && Index(GameHeader(doc).value, "headers").value.JArr?
            && JStr("GAME_ID") !in Index(GameHeader(doc).value, "headers").value.items
            ==> GameIdsForDate(doc) == Err(ValueError("'GAME_ID' is not in list"))
    ensures GameIdsForDate(doc).Ok? ==>
              && GameHeader(doc).Ok?
              && Index(GameHeader(doc).value, "headers").Ok?
              && Index(GameHeader(doc).value, "headers").value.JArr?
              && JStr("GAME_ID") in Index(GameHeader(doc).value, "headers").value.items
              && Index(GameHeader(doc).value, "rowSet").Ok?
              && Iterate(Index(GameHeader(doc).value, "rowSet").value, NotIndexable).Ok?
              && |GameIdsForDate(doc).value| == |Iterate(Index(GameHeader(doc).value, "rowSet").value, NotIndexable).value|
  {
  }

  /** A result set as the stats API returns it. */
  function ResultSetJson(name: string, headers: seq<string>, rows: seq<seq<Json>>): Json {
    JObj(map[
      "name" := JStr(name),
      "headers" := JArr(seq(|headers|, i requires 0 <= i < |headers| => JStr(headers[i]))),
      "rowSet" := JArr(seq(|rows|, i requires 0 <= i < |rows| => JArr(rows[i])))])
  }

  /**
   * On a well-formed scoreboard, discovery returns the GAME_ID cell of every
   * row of the first GameHeader set, in order; sets before it are ignored.
   */
  lemma GameIdsOfScoreboard(before: seq<(string, seq<string>, seq<seq<Json>>)>,
                            headers: seq<string>, rows: seq<seq<Json>>,
                            after: seq<Json>, g: nat, ids: seq<string>)
    requires forall i :: 0 <= i < |before| ==> before[i].0 != "GameHeader"
    requires g < |headers| && headers[g] == "GAME_ID" && forall j :: 0 <= j < g ==> headers[j] != "GAME_ID"
    requires forall j :: 0 <= j < |after| ==> NameIs(after[j], "GameHeader").Ok?
    requires |ids| == |rows|
    requires forall i :: 0 <= i < |rows| ==> g < |rows[i]| && rows[i][g] == JStr(ids[i])
    ensures GameIdsForDate(JObj(map["resultSets" := JArr(
              seq(|before|, i requires 0 <= i < |before| => ResultSetJson(before[i].0, before[i].1, before[i].2))
              + [ResultSetJson("GameHeader", headers, rows)] + after)])) == Ok(ids)
  {
    var pre := seq(|before|, i requires 0 <= i < |before| => ResultSetJson(before[i].0, before[i].1, before[i].2));
    var gh := ResultSetJson("GameHeader", headers, rows);
    var all := pre + [gh] + after;
    var doc := JObj(map["resultSets" := JArr(all)]);
    forall i | 0 <= i < |pre|
      ensures NameIs(pre[i], "GameHeader") == Ok(false)
    {
      assert pre[i].fields["name"] == JStr(before[i].0);
    }
    NamedSkipsOthers(pre, gh, after);
    var hlist := seq(|headers|, i requires 0 <= i < |headers| => JStr(headers[i]));
    IndexOfFirst(hlist, JStr("GAME_ID"), g);
    var rlist := seq(|rows|, i requires 0 <= i < |rows| => JArr(rows[i]));
    GameIdsForDateSteps(doc, all, gh, hlist, g, rlist);
    ColumnAtCells(rlist, g, ids);
  }

  /** Discovery unfolded: the result is the id column of the rows of the first GameHeader set. */
  lemma GameIdsForDateSteps(doc: Json, all: seq<Json>, gh: Json, hlist: seq<Json>, g: nat, rlist: seq<Json>)
    requires Index(doc, "resultSets") == Ok(JArr(all))
    requires Named(all, "GameHeader").Ok? && |Named(all, "GameHeader").value| > 0
    requires Named(all, "GameHeader").value[0] == gh
    requires Index(gh, "headers") == Ok(JArr(hlist))
    requires IndexOf(hlist, JStr("GAME_ID")) == Some(g)
    requires Index(gh, "rowSet") == Ok(JArr(rlist))
    ensures GameIdsForDate(doc) == ColumnAt(rlist, g)
  {
  }

  /** The filter keeps the GameHeader set first when every set before it has another name. */
  lemma NamedSkipsOthers(pre: seq<Json>, gh: Json, after: seq<Json>)
    requires forall i :: 0 <= i < |pre| ==> NameIs(pre[i], "GameHeader") == Ok(false)
    requires NameIs(gh, "GameHeader") == Ok(true)
    requires forall j :: 0 <= j < |after| ==> NameIs(after[j], "GameHeader").Ok?
    ensures Named(pre + [gh] + after, "GameHeader").Ok?
    ensures |Named(pre + [gh] + after, "GameHeader").value| > 0
    ensures Named(pre + [gh] + after, "GameHeader").value[0] == gh
  {
    FilterSkips(rs => NameIs(rs, "GameHeader"), pre, gh, after);
  }

  lemma IndexOfFirst(xs: seq<Json>, x: Json, g: nat)
    requires g < |xs| && xs[g] == x && forall j :: 0 <= j < g ==> xs[j] != x
    ensures IndexOf(xs, x) == Some(g)
  {
    var r := IndexOf(xs, x);
    assert x in xs;
  }

  lemma {:induction false} ColumnAtCells(rows: seq<Json>, g: nat, ids: seq<string>)
    requires |ids| == |rows|
    requires forall i :: 0 <= i < |rows| ==> rows[i].JArr? && g < |rows[i].items| && rows[i].items[g] == JStr(ids[i])
    ensures ColumnAt(rows, g) == Ok(ids)
  {
    if rows != [] {
      ColumnAtCells(rows[1..], g, ids[1..]);
      assert [ids[0]] + ids[1..] == ids;
    }
  }

  // ── Write-once downloads ────────────────────────────────────────────

  /**
   * `download_boxscore` / `download_pbp` / `download_shotchart`: nothing when the
   * artifact exists, otherwise the payload is saved, or nothing is left behind
   * when the endpoint raised.
   */
  function DownloadArtifact(s: Store, l: Layout, k: Kind, gid: string, fetch: Fetch): (r: Store)
    ensures ArtifactPath(l, k, gid) in r <==> ArtifactPath(l, k, gid) in s || fetch(k, gid).Some?
    ensures forall p :: p in s ==> p in r && r[p] == s[p]
    ensures forall p :: p in r && p !in s ==> p == ArtifactPath(l, k, gid) && r[p] == Doc(fetch(k, gid).value)
  {
    var path := ArtifactPath(l, k, gid);
    if path in s then s
    else match fetch(k, gid)
      case None => s
      case Some(payload) => s[path := Doc(payload)]
  }

  /** Boxscore, then play-by-play, then shot chart, for one game. */
  function DownloadGame(s: Store, l: Layout, gid: string, fetch: Fetch): Store {
    var s1 := DownloadArtifact(s, l, Boxscore, gid, fetch);
    var s2 := DownloadArtifact(s1, l, Pbp, gid, fetch);
    DownloadArtifact(s2, l, ShotChart, gid, fetch)
  }

  /** The per-game loop of `ingest_date`, in discovery order. */
  function DownloadGames(s: Store, l: Layout, gids: seq<string>, fetch: Fetch): Store
    decreases |gids|
  {
    if gids == [] then s else DownloadGames(DownloadGame(s, l, gids[0], fetch), l, gids[1..], fetch)
  }

  /** Every artifact of every listed game is present, unless its endpoint fails. */
  ghost predicate Settled(s: Store, l: Layout, gids: seq<string>, fetch: Fetch) {
    forall gid, k :: gid in gids ==> ArtifactPath(l, k, gid) in s || fetch(k, gid).None?
  }

  /** What was already stored is never overwritten; new files are fetched artifacts of listed games. */
  lemma {:induction false} DownloadGamesMonotone(s: Store, l: Layout, gids: seq<string>, fetch: Fetch)
    ensures forall p :: p in s ==> p in DownloadGames(s, l, gids, fetch) && DownloadGames(s, l, gids, fetch)[p] == s[p]
    ensures forall p :: p in DownloadGames(s, l, gids, fetch) && p !in s ==>
              exists gid, k :: gid in gids && p == ArtifactPath(l, k, gid) && fetch(k, gid).Some?
                               && DownloadGames(s, l, gids, fetch)[p] == Doc(fetch(k, gid).value)
    decreases |gids|
  {
    if gids != [] {
      var s1 := DownloadGame(s, l, gids[0], fetch);
      DownloadGamesMonotone(s1, l, gids[1..], fetch);
      var r := DownloadGames(s, l, gids, fetch);
      forall p | p in r && p !in s
        ensures exists gid, k :: gid in gids && p == ArtifactPath(l, k, gid) && fetch(k, gid).Some?
                                 && r[p] == Doc(fetch(k, gid).value)
      {
        if p !in s1 {
          var gid, k :| gid in gids[1..] && p == ArtifactPath(l, k, gid) && fetch(k, gid).Some?
                        && r[p] == Doc(fetch(k, gid).value);
          assert gid in gids;
        } else {
          var a := DownloadArtifact(s, l, Boxscore, gids[0], fetch);
          var b := DownloadArtifact(a, l, Pbp, gids[0], fetch);
          if p in b && p !in a {
            assert p == ArtifactPath(l, Pbp, gids[0]);
          } else if p in a && p !in s {
            assert p == ArtifactPath(l, Boxscore, gids[0]);
          } else {
            assert p == ArtifactPath(l, ShotChart, gids[0]);
          }
        }
      }
    }
  }

  /** After the loop every artifact of every listed game is present or its endpoint fails. */
  lemma {:induction false} DownloadGamesSettles(s: Store, l: Layout, gids: seq<string>, fetch: Fetch)
    ensures Settled(DownloadGames(s, l, gids, fetch), l, gids, fetch)
    decreases |gids|
  {
    if gids != [] {
      var s1 := DownloadGame(s, l, gids[0], fetch);
      DownloadGamesSettles(s1, l, gids[1..], fetch);
      DownloadGamesMonotone(s1, l, gids[1..], fetch);
      var r := DownloadGames(s, l, gids, fetch);
      forall gid, k | gid in gids
        ensures ArtifactPath(l, k, gid) in r || fetch(k, gid).None?
      {
        if gid !in gids[1..] {
          assert gid == gids[0];
          assert ArtifactPath(l, k, gid) in s1 || fetch(k, gid).None?;
        }
      }
    }
  }

  /** On a settled store the download loop changes nothing: every artifact is skipped or fails again. */
  lemma {:induction false} DownloadGamesSettledNoop(s: Store, l: Layout, gids: seq<string>, fetch: Fetch)
    requires Settled(s, l, gids, fetch)
    ensures DownloadGames(s, l, gids, fetch) == s
    decreases |gids|
  {
    if gids != [] {
      assert DownloadGame(s, l, gids[0], fetch) == s;
      DownloadGamesSettledNoop(s, l, gids[1..], fetch);
    }
  }

  /**
   * `ingest_date`: discovery, then for a day with games the downloads and a
   * manifest listing every discovered id whatever the individual failures;
   * for a day without games only an empty manifest. A discovery failure
   * raises before anything is written.
   */
  function IngestDate(s: Store, l: Layout, gameDate: string, scoreboard: Result<Json, Failure>, fetch: Fetch): (r: Result<Store, Failure>)
    ensures scoreboard.Err? || GameIdsForDate(scoreboard.value).Err? <==> r.Err?
    ensures r.Ok? ==> (ManifestPath(l, gameDate) in r.value
                       && r.value[ManifestPath(l, gameDate)] == Manifest(gameDate, GameIdsForDate(scoreboard.value).value))
    ensures r.Ok? && GameIdsForDate(scoreboard.value).value == [] ==> r.value == s[ManifestPath(l, gameDate) := Manifest(gameDate, [])]
  {
    var doc :- scoreboard;
    var ids :- GameIdsForDate(doc);
    var manifest := ManifestPath(l, gameDate);
    if ids == [] then Ok(s[manifest := Manifest(gameDate, [])])
    else Ok(DownloadGames(s, l, ids, fetch)[manifest := Manifest(gameDate, ids)])
  }

  /** Ingestion never overwrites a stored file other than the day's manifest. */
  lemma IngestDateKeepsFiles(s: Store, l: Layout, gameDate: string, scoreboard: Result<Json, Failure>, fetch: Fetch)
    requires IngestDate(s, l, gameDate, scoreboard, fetch).Ok?
    ensures forall p :: p in s && p != ManifestPath(l, gameDate) ==>
              p in IngestDate(s, l, gameDate, scoreboard, fetch).value
              && IngestDate(s, l, gameDate, scoreboard, fetch).value[p] == s[p]
  {
    var ids := GameIdsForDate(scoreboard.value).value;
    DownloadGamesMonotone(s, l, ids, fetch);
  }

  /** After ingestion every artifact of every discovered game is stored, unless its endpoint fails. */
  lemma IngestDateSettles(s: Store, l: Layout, gameDate: string, scoreboard: Result<Json, Failure>, fetch: Fetch)
    requires IngestDate(s, l, gameDate, scoreboard, fetch).Ok?
    ensures Settled(IngestDate(s, l, gameDate, scoreboard, fetch).value, l, GameIdsForDate(scoreboard.value).value, fetch)
  {
    var ids := GameIdsForDate(scoreboard.value).value;
    var r := IngestDate(s, l, gameDate, scoreboard, fetch).value;
    DownloadGamesSettles(s, l, ids, fetch);
    var d := DownloadGames(s, l, ids, fetch);
    forall gid, k | gid in ids
      ensures ArtifactPath(l, k, gid) in r || fetch(k, gid).None?
    {
      assert ArtifactPath(l, k, gid) in d || fetch(k, gid).None?;
    }
  }

  /** Re-running a day with the same endpoint answers leaves the store exactly as the first run did. */
  lemma IngestDateIdempotent(s: Store, l: Layout, gameDate: string, scoreboard: Result<Json, Failure>, fetch: Fetch)
    requires IngestDate(s, l, gameDate, scoreboard, fetch).Ok?
    ensures IngestDate(IngestDate(s, l, gameDate, scoreboard, fetch).value, l, gameDate, scoreboard, fetch)
         == IngestDate(s, l, gameDate, scoreboard, fetch)
  {
    var ids := GameIdsForDate(scoreboard.value).value;
    var r := IngestDate(s, l, gameDate, scoreboard, fetch).value;
    var m := ManifestPath(l, gameDate);
    assert r[m := Manifest(gameDate, ids)] == r;
    if ids != [] {
      IngestDateSettles(s, l, gameDate, scoreboard, fetch);
      DownloadGamesSettledNoop(r, l, ids, fetch);
    }
  }


  // ── Dimension downloads ─────────────────────────────────────────────

  /** `download_all_teams`: one history per team, skipping teams already stored. */
  function DownloadAllTeams(s: Store, l: Layout, teamIds: seq<int>, fetchTeam: int -> Option<Json>): (r: Store)
    ensures forall p :: p in s ==> p in r && r[p] == s[p]
    ensures forall t :: t in teamIds ==> TeamHistoryPath(l, t) in r || fetchTeam(t).None?
    ensures forall p :: p in r && p !in s ==>
              exists t :: t in teamIds && p == TeamHistoryPath(l, t) && fetchTeam(t).Some? && r[p] == Doc(fetchTeam(t).value)
    decreases |teamIds|
  {
    if teamIds == [] then s
    else
      var t := teamIds[0];
      var path := TeamHistoryPath(l, t);
      var s1 := if path in s then s
                else match fetchTeam(t) case None => s case Some(payload) => s[path := Doc(payload)];
      var r := DownloadAllTeams(s1, l, teamIds[1..], fetchTeam);
      assert forall u :: u in teamIds[1..] ==> u in teamIds;
      r
  }

  /** `download_all_players`: the player list is rewritten on every call; a failed call leaves the store alone. */
  function DownloadAllPlayers(s: Store, l: Layout, players: Option<Json>): (r: Store)
    ensures players.Some? ==> PlayersPath(l) in r && r[PlayersPath(l)] == Doc(players.value)
    ensures players.None? ==> r == s
    ensures forall p :: p in s && p != PlayersPath(l) ==> p in r && r[p] == s[p]
    ensures r.Keys == s.Keys + (if players.Some? then {PlayersPath(l)} else {})
  {
    match players
    case None => s
    case Some(payload) => s[PlayersPath(l) := Doc(payload)]
  }
}

=== FILE: calendar.dfy ===
/**
 * Proleptic Gregorian calendar days, the unit of idempotent work: the
 * backfill's inclusive day range, the `YYYY-MM-DD` rendering used in every
 * path, and the season a game day belongs to.
 */
module Calendar {
  import opened Wrappers
  import Text

  datatype Date = Date(year: int, month: int, day: int)

  predicate LeapYear(y: int) {
    y % 4 == 0 && (y % 100 != 0 || y % 400 == 0)
  }

  function DaysInMonth(y: int, m: int): (n: int)
    requires 1 <= m <= 12
    ensures 28 <= n <= 31
  {
    if m == 2 then (if LeapYear(y) then 29 else 28)
    else if m == 4 || m == 6 || m == 9 || m == 11 then 30
    else 31
  }

  /** A day Python's `datetime` can hold (its upper year limit is not modelled). */
  predicate Valid(d: Date) {
    1 <= d.year && 1 <= d.month <= 12 && 1 <= d.day <= DaysInMonth(d.year, d.month)
  }

  /** Chronological order; on valid dates it is the order `datetime` compares by. */
  predicate Before(a: Date, b: Date) {
    a.year < b.year
    || (a.year == b.year && a.month < b.month)
    || (a.year == b.year && a.month == b.month && a.day < b.day)
  }

  predicate AtMost(a: Date, b: Date) {
    a == b || Before(a, b)
  }

  /** `d + timedelta(days=1)`. */
  function NextDay(d: Date): (n: Date)
    requires Valid(d)
    ensures Valid(n) && Before(d, n)
  {
    if d.day < DaysInMonth(d.year, d.month) then Date(d.year, d.month, d.day + 1)
    else if d.month < 12 then Date(d.year, d.month + 1, 1)
    else Date(d.year + 1, 1, 1)
  }

  /** No valid day lies strictly between a day and the next one. */
  lemma NextDayIsAdjacent(d: Date, e: Date)
    requires Valid(d) && Valid(e) && Before(d, e)
    ensures AtMost(NextDay(d), e)
  {
  }

  lemma BeforeTransitive(a: Date, b: Date, c: Date)
    requires Before(a, b) && AtMost(b, c)
    ensures Before(a, c)
  {
  }

  /**
   * The backfill's `date_range(start, end)`: every day from `start` to `end`
   * inclusive, one day apart, and nothing when `start` is after `end`.
   */
  function DateRange(start: Date, end: Date): (r: seq<Date>)
    requires Valid(start)
    ensures forall i :: 0 <= i < |r| ==> Valid(r[i]) && AtMost(start, r[i]) && AtMost(r[i], end)
    ensures |r| > 0 <==> AtMost(start, end)
    ensures |r| > 0 ==> r[0] == start
    ensures forall i :: 0 <= i < |r| - 1 ==> r[i + 1] == NextDay(r[i])
    decreases end.year - start.year, 13 - start.month, 32 - start.day
  {
    if AtMost(start, end) then
      var rest := DateRange(NextDay(start), end);
      assert forall i :: 0 <= i < |rest| ==> AtMost(start, rest[i]) by {
        forall i | 0 <= i < |rest|
          ensures AtMost(start, rest[i])
        {
          BeforeTransitive(start, NextDay(start), rest[i]);
        }
      }
      [start] + rest
    else []
  }

  /** A day is in the range exactly when it lies between the two ends. */
  lemma {:induction false} DateRangeComplete(start: Date, end: Date, d: Date)
    requires Valid(start) && Valid(d)
    ensures d in DateRange(start, end) <==> AtMost(start, d) && AtMost(d, end)
    decreases end.year - start.year, 13 - start.month, 32 - start.day
  {
    var r := DateRange(start, end);
    if AtMost(start, d) && AtMost(d, end) {
      if d != start {
        NextDayIsAdjacent(start, d);
        DateRangeComplete(NextDay(start), end, d);
        assert d in r[1..];
      }
    }
  }

  /** The range is strictly chronological, so no day appears twice. */
  lemma {:induction false} DateRangeIncreasing(start: Date, end: Date)
    requires Valid(start)
    ensures forall i, j :: 0 <= i < j < |DateRange(start, end)|
              ==> Before(DateRange(start, end)[i], DateRange(start, end)[j])
    decreases end.year - start.year, 13 - start.month, 32 - start.day
  {
    var r := DateRange(start, end);
    if AtMost(start, end) {
      DateRangeIncreasing(NextDay(start), end);
      assert r[1..] == DateRange(NextDay(start), end);
      forall i, j | 0 <= i < j < |r|
        ensures Before(r[i], r[j])
      {
        if i == 0 {
          assert r[j] == r[1..][j - 1];
          BeforeTransitive(start, NextDay(start), r[j]);
        } else {
          assert r[i] == r[1..][i - 1] && r[j] == r[1..][j - 1];
        }
      }
    }
  }

  /**
   * `get_nba_season`: October and later belong to the season named by the
   * calendar year, January to September to the one before; equivalently, a
   * season runs from one October 1st up to the next.
   */
  function Season(d: Date): (s: int)
    requires Valid(d)
    ensures AtMost(Date(s, 10, 1), d) && Before(d, Date(s + 1, 10, 1))
  {
    if d.month >= 10 then d.year else d.year - 1
  }

  /** `strftime("%Y-%m-%d")`. */
  function DateText(d: Date): string
    requires Valid(d)
  {
    Text.PadLeft(Text.NatText(d.year), 4) + "-"
      + Text.PadLeft(Text.NatText(d.month), 2) + "-"
      + Text.PadLeft(Text.NatText(d.day), 2)
  }

  /** `strptime(s, "%Y-%m-%d")` for the zero-padded form `DateText` writes. */
  function ParseDateText(s: string): (r: Option<Date>)
    ensures r.Some? ==> Valid(r.value)
  {
    if |s| == 10 && s[4] == '-' && s[7] == '-'
       && Text.AllDigits(s[..4]) && Text.AllDigits(s[5..7]) && Text.AllDigits(s[8..]) then
      var d := Date(Text.ParseNat(s[..4]), Text.ParseNat(s[5..7]), Text.ParseNat(s[8..]));
      if Valid(d) then Some(d) else None
    else None
  }

  /** A parsed day has a four-digit year. */
  lemma ParsedYear(t: string)
    requires ParseDateText(t).Some?
    ensures ParseDateText(t).value.year <= 9999
  {
    Text.ParseNatBound(t[..4]);
    assert Text.Pow10(4) == 10000;
  }

  /** The printed digits of a field, zero-padded to `width`, read back as the field. */
  lemma PaddedField(n: nat, width: nat)
    requires 1 <= width && n < Text.Pow10(width)
    ensures |Text.PadLeft(Text.NatText(n), width)| == width
    ensures Text.AllDigits(Text.PadLeft(Text.NatText(n), width))
    ensures Text.ParseNat(Text.PadLeft(Text.NatText(n), width)) == n
  {
    Text.NatTextLength(n, width);
    Text.ParseNatPadded(Text.NatText(n), width);
    Text.ParseNatText(n);
  }

  /** Where the three fields sit in `YYYY-MM-DD`. */
  lemma DateTextShape(y: string, m: string, dd: string)
    requires |y| == 4 && |m| == 2 && |dd| == 2
    ensures |y + "-" + m + "-" + dd| == 10
    ensures (y + "-" + m + "-" + dd)[4] == '-' && (y + "-" + m + "-" + dd)[7] == '-'
    ensures (y + "-" + m + "-" + dd)[..4] == y
    ensures (y + "-" + m + "-" + dd)[5..7] == m
    ensures (y + "-" + m + "-" + dd)[8..] == dd
  {
  }

  /** Parsing what `DateText` printed gives the day back, for four-digit years. */
  lemma ParseDateTextRoundTrip(d: Date)
    requires Valid(d) && d.year <= 9999
    ensures ParseDateText(DateText(d)) == Some(d)
  {
    var y := Text.PadLeft(Text.NatText(d.year), 4);
    var m := Text.PadLeft(Text.NatText(d.month), 2);
    var dd := Text.PadLeft(Text.NatText(d.day), 2);
    PaddedField(d.year, 4);
    PaddedField(d.month, 2);
    PaddedField(d.day, 2);
    DateTextShape(y, m, dd);
    var s := DateText(d);
    assert s == y + "-" + m + "-" + dd;
    assert Date(Text.ParseNat(s[..4]), Text.ParseNat(s[5..7]), Text.ParseNat(s[8..])) == d;
  }

  /** Distinct days print differently, so per-day paths never collide. */
  lemma DateTextInjective(a: Date, b: Date)
    requires Valid(a) && Valid(b) && a.year <= 9999 && b.year <= 9999
    requires DateText(a) == DateText(b)
    ensures a == b
  {
    ParseDateTextRoundTrip(a);
    ParseDateTextRoundTrip(b);
  }

  /** `strftime("%Y%m%d")`: the stats API's compact GAME_DATE. */
  function CompactText(d: Date): string
    requires Valid(d)
  {
    Text.PadLeft(Text.NatText(d.year), 4)
      + Text.PadLeft(Text.NatText(d.month), 2)
      + Text.PadLeft(Text.NatText(d.day), 2)
  }

  /** `to_datetime(s, format="%Y%m%d")` for the eight-digit form; anything else is no day. */
  function ParseCompactText(s: string): (r: Option<Date>)
    ensures r.Some? ==> Valid(r.value) && |s| == 8 && Text.AllDigits(s)
  {
    if |s| == 8 && Text.AllDigits(s) then
      var d := Date(Text.ParseNat(s[..4]), Text.ParseNat(s[4..6]), Text.ParseNat(s[6..]));
      if Valid(d) then Some(d) else None
    else None
  }

  lemma CompactTextShape(y: string, m: string, dd: string)
    requires |y| == 4 && |m| == 2 && |dd| == 2
    requires Text.AllDigits(y) && Text.AllDigits(m) && Text.AllDigits(dd)
    ensures |y + m + dd| == 8 && Text.AllDigits(y + m + dd)
    ensures (y + m + dd)[..4] == y && (y + m + dd)[4..6] == m && (y + m + dd)[6..] == dd
  {
    var s := y + m + dd;
    forall i | 0 <= i < 8
      ensures Text.IsDigit(s[i])
    {
      if i < 4 { assert s[i] == y[i]; }
      else if i < 6 { assert s[i] == m[i - 4]; }
      else { assert s[i] == dd[i - 6]; }
    }
  }

  /** Parsing what `CompactText` printed gives the day back, for four-digit years. */
  lemma ParseCompactTextRoundTrip(d: Date)
    requires Valid(d) && d.year <= 9999
    ensures ParseCompactText(CompactText(d)) == Some(d)
  {
    var y := Text.PadLeft(Text.NatText(d.year), 4);
    var m := Text.PadLeft(Text.NatText(d.month), 2);
    var dd := Text.PadLeft(Text.NatText(d.day), 2);
    PaddedField(d.year, 4);
    PaddedField(d.month, 2);
    PaddedField(d.day, 2);
    CompactTextShape(y, m, dd);
    var s := CompactText(d);
    assert s == y + m + dd;
    assert Date(Text.ParseNat(s[..4]), Text.ParseNat(s[4..6]), Text.ParseNat(s[6..])) == d;
  }
}

=== FILE: frames.dfy ===
/**
 * pandas DataFrames as values: a column set and a sequence of rows, each row a
 * map from column name to cell. A cell missing from a row's map reads as null
 * (NaN / None / <NA>), which is how pandas fills records that lack a key.
 */
module Frames {
  import opened Wrappers
  import Text

  datatype Value = VNull | VInt(i: int) | VNum(r: real) | VStr(s: string) | VBool(b: bool)

  type Row = map<string, Value>

  datatype Frame = Frame(columns: set<string>, rows: seq<Row>)

  /** The exceptions the modelled code can raise, by Python / PostgreSQL class. */
  datatype Failure =
    | KeyError(key: string)
    | IndexError(what: string)
    | ValueError(what: string)
    | TypeError(what: string)
    | AttributeError(what: string)
    | FileNotFound(path: string)
    | UndefinedTable(table: string)
    | NotNullViolation(table: string)
    | CardinalityViolation(table: string)
    | UndefinedColumn(col: string)
    | InvalidConflictTarget(table: string)
    | SyntaxError(what: string)
    | OverflowError(what: string)
    | KeyboardInterrupt

  function Cell(r: Row, c: string): Value {
    if c in r then r[c] else VNull
  }

  /** The tuple of a row's cells at the given columns: `df[cols]` for one row. */
  function KeyOf(r: Row, cols: seq<string>): (k: seq<Value>)
    ensures |k| == |cols|
    ensures forall i :: 0 <= i < |cols| ==> k[i] == Cell(r, cols[i])
  {
    seq(|cols|, i requires 0 <= i < |cols| => Cell(r, cols[i]))
  }

  /** `df.empty`: no rows or no columns. */
  predicate IsEmpty(df: Frame) {
    |df.rows| == 0 || df.columns == {}
  }

  /** Every row carries exactly the frame's columns (pandas' rectangular shape). */
  predicate WellFormed(df: Frame) {
    forall i :: 0 <= i < |df.rows| ==> df.rows[i].Keys == df.columns
  }

  function EmptyFrame(): Frame {
    Frame({}, [])
  }

  /** A row widened or narrowed to exactly `cols`, absent cells becoming null. */
  function Normalize(r: Row, cols: set<string>): (n: Row)
    ensures n.Keys == cols
    ensures forall c :: c in cols ==> n[c] == Cell(r, c)
  {
    map c | c in cols :: Cell(r, c)
  }

  /** The union of the keys of a list of records. */
  function KeysOf(rs: seq<Row>): (ks: set<string>)
    ensures forall i :: 0 <= i < |rs| ==> rs[i].Keys <= ks
  {
    if rs == [] then {} else KeysOf(rs[..|rs| - 1]) + rs[|rs| - 1].Keys
  }

  /** Every column of the built frame came from some record. */
  lemma {:induction false} KeysOfFromRecords(rs: seq<Row>, c: string)
    requires c in KeysOf(rs)
    ensures exists i :: 0 <= i < |rs| && c in rs[i]
  {
    var n := |rs| - 1;
    if c !in rs[n] {
      KeysOfFromRecords(rs[..n], c);
      var i :| 0 <= i < n && c in rs[..n][i];
      assert rs[..n][i] == rs[i];
    }
  }

  function NormalizeAll(rs: seq<Row>, cols: set<string>): (out: seq<Row>)
    ensures |out| == |rs|
    ensures forall i :: 0 <= i < |rs| ==> out[i] == Normalize(rs[i], cols)
  {
    seq(|rs|, i requires 0 <= i < |rs| => Normalize(rs[i], cols))
  }

  /** `pd.DataFrame(records)`: the columns are every key any record has. */
  function FromRecords(rs: seq<Row>): (df: Frame)
    ensures WellFormed(df)
    ensures |df.rows| == |rs|
    ensures df.columns == KeysOf(rs)
    ensures forall i, c :: 0 <= i < |rs| ==> Cell(df.rows[i], c) == Cell(rs[i], c)
  {
    Frame(KeysOf(rs), NormalizeAll(rs, KeysOf(rs)))
  }

  function AllRows(fs: seq<Frame>): seq<Row> {
    if fs == [] then [] else AllRows(fs[..|fs| - 1]) + fs[|fs| - 1].rows
  }

  function AllColumns(fs: seq<Frame>): set<string> {
    if fs == [] then {} else AllColumns(fs[..|fs| - 1]) + fs[|fs| - 1].columns
  }

  function TotalRows(fs: seq<Frame>): nat {
    if fs == [] then 0 else TotalRows(fs[..|fs| - 1]) + |fs[|fs| - 1].rows|
  }

  lemma {:induction false} AllRowsLength(fs: seq<Frame>)
    ensures |AllRows(fs)| == TotalRows(fs)
  {
    if fs != [] {
      AllRowsLength(fs[..|fs| - 1]);
    }
  }

  /**
   * `pd.concat(frames, ignore_index=True)`: rows one frame after another,
   * columns the union, cells a frame lacks filled with null.
   */
  function Concat(fs: seq<Frame>): (df: Frame)
    ensures WellFormed(df)
    ensures |df.rows| == TotalRows(fs)
    ensures df.columns == AllColumns(fs)
  {
    AllRowsLength(fs);
    Frame(AllColumns(fs), NormalizeAll(AllRows(fs), AllColumns(fs)))
  }

  /** Row `k` of frame `i` sits after the rows of the frames before it. */
  lemma {:induction false} AllRowsAt(fs: seq<Frame>, i: nat, k: nat)
    requires i < |fs| && k < |fs[i].rows|
    ensures TotalRows(fs[..i]) + k < TotalRows(fs) == |AllRows(fs)|
    ensures AllRows(fs)[TotalRows(fs[..i]) + k] == fs[i].rows[k]
  {
    var n := |fs| - 1;
    var pre := fs[..n];
    AllRowsLength(fs);
    AllRowsLength(pre);
    if i == n {
      assert fs[..i] == pre;
    } else {
      AllRowsAt(pre, i, k);
      assert pre[..i] == fs[..i];
    }
  }

  /**
   * Row `k` of frame `i` lands in the concatenation after every row of the
   * frames before it, widened to the union of the columns: a column its frame
   * lacks reads null.
   */
  lemma ConcatRow(fs: seq<Frame>, i: nat, k: nat)
    requires i < |fs| && k < |fs[i].rows|
    ensures TotalRows(fs[..i]) + k < |Concat(fs).rows|
    ensures Concat(fs).rows[TotalRows(fs[..i]) + k] == Normalize(fs[i].rows[k], AllColumns(fs))
    ensures forall c :: Cell(Concat(fs).rows[TotalRows(fs[..i]) + k], c)
                        == if c in AllColumns(fs) then Cell(fs[i].rows[k], c) else VNull
  {
    AllRowsAt(fs, i, k);
  }

  /** `out` holds `df`'s rows with, at most, column `c` changed. */
  ghost predicate SameExcept(df: Frame, out: Frame, c: string) {
    |out.rows| == |df.rows|
    && forall i, d :: 0 <= i < |df.rows| && d != c ==> Cell(out.rows[i], d) == Cell(df.rows[i], d)
  }

  /** `df[c] = expr(row)`: adds or overwrites column `c` on every row. */
  function Assign(df: Frame, c: string, f: Row -> Value): (out: Frame)
    ensures out.columns == df.columns + {c}
    ensures |out.rows| == |df.rows|
    ensures forall i :: 0 <= i < |df.rows| ==> out.rows[i] == df.rows[i][c := f(df.rows[i])]
    ensures forall i :: 0 <= i < |df.rows| ==> Cell(out.rows[i], c) == f(df.rows[i])
    ensures SameExcept(df, out, c)
    ensures WellFormed(df) ==> WellFormed(out)
  {
    Frame(df.columns + {c}, seq(|df.rows|, i requires 0 <= i < |df.rows| => df.rows[i][c := f(df.rows[i])]))
  }

  /** `df[c] = cast(df[c])`: raises KeyError when the column is absent. */
  function Recast(df: Frame, c: string, cast: Value -> Value): (r: Result<Frame, Failure>)
    ensures c !in df.columns <==> r == Err(KeyError(c))
    ensures r.Ok? ==> r.value.columns == df.columns && SameExcept(df, r.value, c)
    ensures r.Ok? ==> forall i :: 0 <= i < |df.rows| ==> Cell(r.value.rows[i], c) == cast(Cell(df.rows[i], c))
  {
    if c !in df.columns then Err(KeyError(c))
    else Ok(Assign(df, c, (row: Row) => cast(Cell(row, c))))
  }

  /** The first of `cols` the frame lacks, if any (the column a KeyError names). */
  function FirstMissing(cols: seq<string>, present: set<string>): (m: Option<string>)
    ensures m.None? <==> forall i :: 0 <= i < |cols| ==> cols[i] in present
    ensures m.Some? ==> m.value in cols && m.value !in present
  {
    if cols == [] then None
    else if cols[0] !in present then Some(cols[0])
    else FirstMissing(cols[1..], present)
  }

  // ── Casts with coerce-to-null semantics ─────────────────────────────

  /** `pd.to_numeric(v, errors="coerce")`: numbers and booleans stay, text is parsed, the rest is null. */
  function ToNumeric(v: Value): (r: Value)
    ensures r.VNull? || r.VInt? || r.VNum? || r.VBool?
    ensures v.VInt? || v.VNum? || v.VBool? ==> r == v
  {
    match v
    case VStr(s) =>
      if |s| > 0 && Text.AllDigits(s) then VInt(Text.ParseNat(s))
      else (match Text.ParseDecimal(s) case Some(x) => VNum(x) case None => VNull)
    case _ => v
  }

  /** `pd.to_numeric(v, errors="coerce").astype("Int64")`. */
  function ToInt64(v: Value): (r: Value)
    ensures r.VNull? || r.VInt?
  {
    match ToNumeric(v)
    case VInt(i) => VInt(i)
    case VBool(b) => VInt(if b then 1 else 0)
    case VNum(x) => if x == x.Floor as real then VInt(x.Floor) else VNull
    case _ => VNull
  }

  /** `astype(bool)` on one cell: Python truthiness. */
  function Truthy(v: Value): bool {
    match v
    case VNull => false
    case VInt(i) => i != 0
    case VNum(x) => x != 0.0
    case VStr(s) => s != ""
    case VBool(b) => b
  }

  function AsBool(v: Value): Value {
    VBool(Truthy(v))
  }

  /** A cell `to_numeric` turns into a float with a fractional part. */
  predicate NonIntegral(v: Value) {
    ToNumeric(v).VNum? && ToNumeric(v).r != ToNumeric(v).r.Floor as real
  }

  /**
   * `df[c] = pd.to_numeric(df[c], errors="coerce").astype("Int64")`: KeyError
   * when the column is absent, TypeError when a value has a fractional part
   * (pandas refuses to cast a non-equivalent float), otherwise every cell
   * becomes an integer or null.
   */
  function CastInt64(df: Frame, c: string): (r: Result<Frame, Failure>)
    ensures c !in df.columns ==> r == Err(KeyError(c))
    ensures c in df.columns ==>
              (r.Err? <==> exists i :: 0 <= i < |df.rows| && NonIntegral(Cell(df.rows[i], c)))
    ensures r.Err? ==> r.error.KeyError? || r.error.TypeError?
    ensures r.Ok? ==> r.value.columns == df.columns && |r.value.rows| == |df.rows|
    ensures r.Ok? ==> forall i :: 0 <= i < |df.rows| ==> Cell(r.value.rows[i], c) == ToInt64(Cell(df.rows[i], c))
    ensures r.Ok? ==> SameExcept(df, r.value, c)
  {
    if c !in df.columns then Err(KeyError(c))
    else if exists i :: 0 <= i < |df.rows| && NonIntegral(Cell(df.rows[i], c)) then
      Err(TypeError("cannot safely cast non-equivalent float64 to int64"))
    else Ok(Assign(df, c, (row: Row) => ToInt64(Cell(row, c))))
  }

  /** `df[dst] = df[src].apply(f)`: KeyError when the source column is absent. */
  function Derive(df: Frame, src: string, dst: string, f: Value -> Value): (r: Result<Frame, Failure>)
    ensures src !in df.columns <==> r == Err(KeyError(src))
    ensures r.Ok? ==> r.value.columns == df.columns + {dst} && |r.value.rows| == |df.rows|
    ensures r.Ok? ==> forall i :: 0 <= i < |df.rows| ==> Cell(r.value.rows[i], dst) == f(Cell(df.rows[i], src))
    ensures r.Ok? ==> SameExcept(df, r.value, dst)
  {
    if src !in df.columns then Err(KeyError(src))
    else Ok(Assign(df, dst, (row: Row) => f(Cell(row, src))))
  }

  /** `df[c] = pd.to_numeric(df[c], errors="coerce")` for every column outside `keep`. */
  function NumericExcept(df: Frame, keep: set<string>): (out: Frame)
    ensures out.columns == df.columns && |out.rows| == |df.rows|
    ensures forall i, c :: 0 <= i < |df.rows| && c in keep ==> Cell(out.rows[i], c) == Cell(df.rows[i], c)
    ensures forall i, c :: 0 <= i < |df.rows| && c in df.columns && c !in keep ==>
              Cell(out.rows[i], c) == ToNumeric(Cell(df.rows[i], c))
  {
    Frame(df.columns, seq(|df.rows|, i requires 0 <= i < |df.rows| =>
      map c | c in df.rows[i] :: if c in df.columns && c !in keep then ToNumeric(df.rows[i][c]) else df.rows[i][c]))
  }

  /** No column name is listed twice. */
  predicate Distinct(names: seq<string>) {
    forall i, j :: 0 <= i < j < |names| ==> names[i] != names[j]
  }

  /** One positional record under distinct column names; cells past its end are absent. */
  function Positional(names: seq<string>, cells: seq<Value>): (r: Row)
    requires Distinct(names) && |cells| <= |names|
    ensures r.Keys == set j | 0 <= j < |cells| :: names[j]
    ensures forall j :: 0 <= j < |cells| ==> r[names[j]] == cells[j]
  {
    map j | 0 <= j < |cells| :: names[j] := cells[j]
  }

  /** A positional record read at column `j`: its cell there, or null past its end. */
  lemma PositionalCell(names: seq<string>, cells: seq<Value>, j: nat)
    requires Distinct(names) && |cells| <= |names| && j < |names|
    ensures Cell(Positional(names, cells), names[j]) == if j < |cells| then cells[j] else VNull
  {
  }

  /** The positional records of a table, each widened to every column. */
  function TableRows(names: seq<string>, rows: seq<seq<Value>>): (out: seq<Row>)
    requires Distinct(names) && forall i :: 0 <= i < |rows| ==> |rows[i]| <= |names|
    ensures |out| == |rows|
    ensures forall i :: 0 <= i < |rows| ==> out[i].Keys == set c | c in names
    ensures forall i, j :: 0 <= i < |rows| && 0 <= j < |names| ==>
              Cell(out[i], names[j]) == if j < |rows[i]| then rows[i][j] else VNull
  {
    var cols := set c | c in names;
    var out := seq(|rows|, i requires 0 <= i < |rows| => Normalize(Positional(names, rows[i]), cols));
    forall i, j | 0 <= i < |rows| && 0 <= j < |names|
      ensures Cell(out[i], names[j]) == if j < |rows[i]| then rows[i][j] else VNull
    {
      PositionalCell(names, rows[i], j);
    }
    out
  }

  /**
   * `pd.DataFrame(rows, columns=names)`: the widest row must match the column
   * count (ValueError otherwise); shorter rows are padded with nulls.
   */
  function FromTable(names: seq<string>, rows: seq<seq<Value>>): (r: Result<Frame, Failure>)
    requires Distinct(names)
    ensures r.Err? <==> (exists i :: 0 <= i < |rows| && |rows[i]| > |names|)
                        || (|rows| > 0 && forall i :: 0 <= i < |rows| ==> |rows[i]| < |names|)
    ensures r.Ok? ==> WellFormed(r.value) && r.value.columns == set c | c in names
    ensures r.Ok? ==> |r.value.rows| == |rows|
    ensures r.Ok? ==> forall i, j :: 0 <= i < |rows| && 0 <= j < |names| ==>
              Cell(r.value.rows[i], names[j]) == if j < |rows[i]| then rows[i][j] else VNull
  {
    if exists i :: 0 <= i < |rows| && |rows[i]| > |names| then Err(ValueError("more cells than columns"))
    else if |rows| > 0 && forall i :: 0 <= i < |rows| ==> |rows[i]| < |names| then
      Err(ValueError("fewer cells than columns"))
    else Ok(Frame((set c | c in names), TableRows(names, rows)))
  }

  /** The number a cell contributes after `to_numeric(errors="coerce").dropna()`, if any. */
  function NumericOf(v: Value): Option<real> {
    match ToNumeric(v)
    case VInt(i) => Some(i as real)
    case VNum(x) => Some(x)
    case VBool(b) => Some(if b then 1.0 else 0.0)
    case _ => None
  }

  // ── Keep-first de-duplication (`drop_duplicates(subset=cols)`) ──────

  /** Row `i` is the first row carrying its key. */
  predicate IsFirst(rows: seq<Row>, cols: seq<string>, i: int)
    requires 0 <= i < |rows|
  {
    forall j :: 0 <= j < i ==> KeyOf(rows[j], cols) != KeyOf(rows[i], cols)
  }

  /** No two rows share a key. */
  predicate UniqueKeys(rows: seq<Row>, cols: seq<string>) {
    forall i :: 0 <= i < |rows| ==> IsFirst(rows, cols, i)
  }

  function KeySet(rows: seq<Row>, cols: seq<string>): set<seq<Value>> {
    set i | 0 <= i < |rows| :: KeyOf(rows[i], cols)
  }

  /** Reference definition: the rows that are first with their key, in their original order. */
  function FirstOccurrences(rows: seq<Row>, cols: seq<string>): seq<Row> {
    if rows == [] then []
    else
      FirstOccurrences(rows[..|rows| - 1], cols)
        + (if IsFirst(rows, cols, |rows| - 1) then [rows[|rows| - 1]] else [])
  }

  /** `df.duplicated(subset=cols).sum()`: rows whose key an earlier row already had. */
  function DuplicateCount(rows: seq<Row>, cols: seq<string>): nat {
    if rows == [] then 0
    else
      DuplicateCount(rows[..|rows| - 1], cols)
        + (if IsFirst(rows, cols, |rows| - 1) then 0 else 1)
  }

  lemma KeySetExtend(rows: seq<Row>, cols: seq<string>, n: nat)
    requires n < |rows|
    ensures KeySet(rows[..n + 1], cols) == KeySet(rows[..n], cols) + {KeyOf(rows[n], cols)}
  {
    var a := KeySet(rows[..n + 1], cols);
    var b := KeySet(rows[..n], cols) + {KeyOf(rows[n], cols)};
    forall k | k in a
      ensures k in b
    {
      var i :| 0 <= i < n + 1 && KeyOf(rows[..n + 1][i], cols) == k;
      if i < n {
        assert rows[..n][i] == rows[i];
      }
    }
    forall k | k in b
      ensures k in a
    {
      if k == KeyOf(rows[n], cols) {
        assert rows[..n + 1][n] == rows[n];
      } else {
        var i :| 0 <= i < n && KeyOf(rows[..n][i], cols) == k;
        assert rows[..n + 1][i] == rows[i];
      }
    }
  }

  /** The last row is first with its key exactly when the earlier rows lack that key. */
  lemma IsFirstIffNew(rows: seq<Row>, cols: seq<string>)
    requires |rows| > 0
    ensures IsFirst(rows, cols, |rows| - 1)
        <==> KeyOf(rows[|rows| - 1], cols) !in KeySet(rows[..|rows| - 1], cols)
  {
    var n := |rows| - 1;
    if KeyOf(rows[n], cols) in KeySet(rows[..n], cols) {
      var j :| 0 <= j < n && KeyOf(rows[..n][j], cols) == KeyOf(rows[n], cols);
      assert rows[..n][j] == rows[j];
    } else {
      forall j | 0 <= j < n
        ensures KeyOf(rows[j], cols) != KeyOf(rows[n], cols)
      {
        assert rows[j] == rows[..n][j];
      }
    }
  }

  /** Whether an earlier row is first with its key does not depend on later rows. */
  lemma IsFirstPrefix(rows: seq<Row>, cols: seq<string>, n: nat, i: nat)
    requires i < n <= |rows|
    ensures IsFirst(rows[..n], cols, i) <==> IsFirst(rows, cols, i)
  {
    assert forall j :: 0 <= j <= i ==> rows[..n][j] == rows[j];
  }

  /** De-duplication keeps exactly the keys the input had. */
  lemma {:induction false} FirstOccurrencesKeys(rows: seq<Row>, cols: seq<string>)
    ensures KeySet(FirstOccurrences(rows, cols), cols) == KeySet(rows, cols)
  {
    if rows != [] {
      var n := |rows| - 1;
      var rp := FirstOccurrences(rows[..n], cols);
      var r := FirstOccurrences(rows, cols);
      FirstOccurrencesKeys(rows[..n], cols);
      IsFirstIffNew(rows, cols);
      assert rows[..n + 1] == rows;
      KeySetExtend(rows, cols, n);
      if IsFirst(rows, cols, n) {
        assert r == rp + [rows[n]];
        assert r[..|rp|] == rp;
        assert r[..|rp| + 1] == r;
        KeySetExtend(r, cols, |rp|);
      } else {
        assert r == rp;
      }
    }
  }

  /** After de-duplication no two rows share a key. */
  lemma {:induction false} FirstOccurrencesUnique(rows: seq<Row>, cols: seq<string>)
    ensures UniqueKeys(FirstOccurrences(rows, cols), cols)
  {
    if rows != [] {
      var n := |rows| - 1;
      var rp := FirstOccurrences(rows[..n], cols);
      var r := FirstOccurrences(rows, cols);
      FirstOccurrencesUnique(rows[..n], cols);
      if IsFirst(rows, cols, n) {
        FirstOccurrencesKeys(rows[..n], cols);
        IsFirstIffNew(rows, cols);
        assert r == rp + [rows[n]];
        assert r[..|rp|] == rp;
        forall i | 0 <= i < |r|
          ensures IsFirst(r, cols, i)
        {
          if i < |rp| {
            IsFirstPrefix(r, cols, |rp|, i);
          } else {
            forall j | 0 <= j < i
              ensures KeyOf(r[j], cols) != KeyOf(r[i], cols)
            {
              assert r[j] == rp[j];
              assert KeyOf(rp[j], cols) in KeySet(rp, cols);
            }
          }
        }
      } else {
        assert r == rp;
      }
    }
  }

  /** Every kept row is an input row that was the first with its key. */
  lemma {:induction false} FirstOccurrencesAreFirst(rows: seq<Row>, cols: seq<string>, k: nat)
    requires k < |FirstOccurrences(rows, cols)|
    ensures exists i :: 0 <= i < |rows| && FirstOccurrences(rows, cols)[k] == rows[i]
                        && IsFirst(rows, cols, i)
  {
    var n := |rows| - 1;
    var rp := FirstOccurrences(rows[..n], cols);
    if k < |rp| {
      FirstOccurrencesAreFirst(rows[..n], cols, k);
      var i :| 0 <= i < n && rp[k] == rows[..n][i] && IsFirst(rows[..n], cols, i);
      IsFirstPrefix(rows, cols, n, i);
    }
  }

  /** The dropped rows are exactly the ones pandas counts as duplicated. */
  lemma {:induction false} FirstOccurrencesCount(rows: seq<Row>, cols: seq<string>)
    ensures |FirstOccurrences(rows, cols)| + DuplicateCount(rows, cols) == |rows|
  {
    if rows != [] {
      FirstOccurrencesCount(rows[..|rows| - 1], cols);
    }
  }

  /** Rows that already have unique keys are left exactly as they are. */
  lemma {:induction false} FirstOccurrencesOfUnique(rows: seq<Row>, cols: seq<string>)
    requires UniqueKeys(rows, cols)
    ensures FirstOccurrences(rows, cols) == rows
  {
    if rows != [] {
      var n := |rows| - 1;
      forall i | 0 <= i < n
        ensures IsFirst(rows[..n], cols, i)
      {
        IsFirstPrefix(rows, cols, n, i);
      }
      FirstOccurrencesOfUnique(rows[..n], cols);
      assert rows[..n] + [rows[n]] == rows;
    }
  }

  /** De-duplicating twice is the same as once. */
  lemma FirstOccurrencesIdempotent(rows: seq<Row>, cols: seq<string>)
    ensures FirstOccurrences(FirstOccurrences(rows, cols), cols) == FirstOccurrences(rows, cols)
  {
    FirstOccurrencesUnique(rows, cols);
    FirstOccurrencesOfUnique(FirstOccurrences(rows, cols), cols);
  }

  /** pandas counts no duplicate exactly when every key is unique. */
  lemma {:induction false} DuplicateCountZero(rows: seq<Row>, cols: seq<string>)
    ensures DuplicateCount(rows, cols) == 0 <==> UniqueKeys(rows, cols)
  {
    if rows != [] {
      var n := |rows| - 1;
      DuplicateCountZero(rows[..n], cols);
      forall i | 0 <= i < n
        ensures IsFirst(rows[..n], cols, i) <==> IsFirst(rows, cols, i)
      {
        IsFirstPrefix(rows, cols, n, i);
      }
    }
  }

  /**
   * pandas' hash-based `drop_duplicates(keep="first")`: one pass with a set of
   * seen keys. It computes the reference definition.
   */
  method DropDuplicatesHashed(rows: seq<Row>, cols: seq<string>) returns (out: seq<Row>)
    ensures out == FirstOccurrences(rows, cols)
  {
    out := [];
    var seen: set<seq<Value>> := {};
    for i := 0 to |rows|
      invariant out == FirstOccurrences(rows[..i], cols)
      invariant seen == KeySet(rows[..i], cols)
    {
      var k := KeyOf(rows[i], cols);
      var p := rows[..i + 1];
      assert p[..i] == rows[..i];
      IsFirstIffNew(p, cols);
      KeySetExtend(rows, cols, i);
      if k !in seen {
        out := out + [rows[i]];
        seen := seen + {k};
      }
    }
    assert rows[..|rows|] == rows;
  }

  /** `df.drop_duplicates(subset=cols)`: KeyError when a subset column is absent. */
  function DropDuplicates(df: Frame, cols: seq<string>): (r: Result<Frame, Failure>)
    ensures FirstMissing(cols, df.columns).Some? <==> r.Err?
    ensures r.Ok? ==> r.value == Frame(df.columns, FirstOccurrences(df.rows, cols))
  {
    match FirstMissing(cols, df.columns)
    case Some(c) => Err(KeyError(c))
    case None => Ok(Frame(df.columns, FirstOccurrences(df.rows, cols)))
  }

  /** A loop that builds one record per row, in order; the first row whose record fails raises. */
  function EachRow(f: Row -> Result<Row, Failure>, rows: seq<Row>): (r: Result<seq<Row>, Failure>)
    ensures r.Ok? <==> forall k :: 0 <= k < |rows| ==> f(rows[k]).Ok?
    ensures r.Ok? ==> |r.value| == |rows| && forall k :: 0 <= k < |rows| ==> r.value[k] == f(rows[k]).value
    ensures r.Err? ==> exists k :: 0 <= k < |rows| && f(rows[k]).Err? && r.error == f(rows[k]).error
                                   && forall m :: 0 <= m < k ==> f(rows[m]).Ok?
    decreases |rows|
  {
    if rows == [] then Ok([])
    else
      var g :- f(rows[0]);
      var rest :- EachRow(f, rows[1..]);
      assert forall k :: 1 <= k < |rows| ==> rows[k] == rows[1..][k - 1];
      Ok([g] + rest)
  }
}

=== FILE: gold.dfy ===
/**
 * The gold layer: silver partitions loaded into PostgreSQL. Every load stages a
 * frame and runs one `INSERT … SELECT … JOIN … ON CONFLICT` statement, modelled by
 * `Tables.Execute`; the dimension JOINs mirror the schema's FOREIGN KEY clauses.
 */
module Gold {
  import opened Wrappers
  import opened Frames
  import opened Tables
  import opened Store
  import Text
  import Silver

  // ── Schema ───────────────────────────────────────────────────────────

  const Dims: set<string> := {"teams", "games", "players"}

  const TeamsColumns: seq<string> := ["id", "abbreviation", "team_name"]

  const GamesColumns: seq<string> := ["game_id", "season_id", "game_date"]

  const PlayersColumns: seq<string> := ["player_id", "first_name", "last_name", "is_active"]

  const PlayerStatsColumns: seq<string> :=
    ["game_id", "player_id", "team_id", "start_position", "comment", "minutes", "off_rating",
     "def_rating", "net_rating", "usg_pct", "ts_pct", "efg_pct", "pie"]

  const TeamStatsColumns: seq<string> :=
    ["game_id", "team_id", "matchup", "wl", "minutes", "pts", "plus_minus", "off_rating",
     "def_rating", "net_rating", "pace"]

  const PlayByPlayColumns: seq<string> :=
    ["game_id", "action_number", "period", "clock_seconds", "team_id", "player_id", "action_type",
     "sub_type", "description", "shot_distance", "score_home", "score_away", "is_field_goal"]

  const ShotsColumns: seq<string> :=
    ["game_id", "game_event_id", "player_id", "team_id", "period", "loc_x", "loc_y", "shot_distance",
     "shot_attempted_flag", "shot_made_flag", "shot_zone_basic", "shot_zone_area", "shot_zone_range"]

  /** `SCHEMA_SQL`: each table's columns and primary key, every table created empty. */
  const Schema: map<string, Table> := map[
    "teams" := Table(SetOf(TeamsColumns), ["id"], map[]),
    "games" := Table(SetOf(GamesColumns), ["game_id"], map[]),
    "players" := Table(SetOf(PlayersColumns), ["player_id"], map[]),
    "fact_player_stats" := Table(SetOf(PlayerStatsColumns), ["game_id", "player_id"], map[]),
    "fact_team_stats" := Table(SetOf(TeamStatsColumns), ["game_id", "team_id"], map[]),
    "fact_play_by_play" := Table(SetOf(PlayByPlayColumns), ["game_id", "action_number"], map[]),
    "fact_shots" := Table(SetOf(ShotsColumns), ["game_id", "game_event_id"], map[])
  ]

  /** A `col … REFERENCES dim(refCol)` clause of the schema. */
  datatype ForeignKey = ForeignKey(col: string, dim: string, refCol: string)

  /** The FOREIGN KEY clauses each table declares. */
  function Constraints(table: string): seq<ForeignKey> {
    if table == "fact_player_stats" then
      [ForeignKey("game_id", "games", "game_id"), ForeignKey("player_id", "players", "player_id"),
       ForeignKey("team_id", "teams", "id")]
    else if table == "fact_team_stats" then
      [ForeignKey("game_id", "games", "game_id"), ForeignKey("team_id", "teams", "id")]
    else if table == "fact_play_by_play" then
      [ForeignKey("game_id", "games", "game_id")]
    else if table == "fact_shots" then
      [ForeignKey("game_id", "games", "game_id"), ForeignKey("player_id", "players", "player_id")]
    else []
  }

  /**
   * `_build_fk_joins`: the JOINs that pre-filter staged rows, one per FOREIGN KEY
   * clause, each on the referenced dimension's one-column primary key. Tables the
   * map does not list get no JOIN, and no table joins itself.
   */
  function FkJoins(table: string): (joins: seq<Join>)
    ensures |joins| == |Constraints(table)|
    ensures forall i :: 0 <= i < |joins| ==>
              joins[i] == Join(Constraints(table)[i].dim, Constraints(table)[i].col)
              && joins[i].dim in Dims && joins[i].dim != table
              && Schema[joins[i].dim].pk == [Constraints(table)[i].refCol]
  {
    if table == "fact_player_stats" then
      [Join("games", "game_id"), Join("players", "player_id"), Join("teams", "team_id")]
    else if table == "fact_team_stats" then
      [Join("games", "game_id"), Join("teams", "team_id")]
    else if table == "fact_play_by_play" then
      [Join("games", "game_id")]
    else if table == "fact_shots" then
      [Join("games", "game_id"), Join("players", "player_id")]
    else []
  }

  /**
   * `init_schema`: `CREATE TABLE IF NOT EXISTS` for each table. Existing tables and
   * their rows are kept; missing ones are created empty, already satisfying their key.
   */
  function InitSchema(db: Db): (out: Db)
    ensures out.Keys == db.Keys + Schema.Keys
    ensures forall n :: n in db ==> out[n] == db[n]
    ensures forall n :: n in Schema && n !in db ==> out[n] == Schema[n] && Keyed(out[n]) && out[n].rows == map[]
  {
    db + map n | n in Schema.Keys && n !in db :: Schema[n]
  }

  /** Running the schema script twice is the same as once. */
  lemma InitSchemaIdempotent(db: Db)
    ensures InitSchema(InitSchema(db)) == InitSchema(db)
  {
  }

  // ── upsert ───────────────────────────────────────────────────────────

  /** DO UPDATE SET every non-key column, or DO NOTHING when the frame has only key columns. */
  function ConflictFor(columns: set<string>, pks: seq<string>): (oc: OnConflict)
    ensures oc.DoNothing? <==> columns <= SetOf(pks)
    ensures oc.DoUpdate? ==> forall c :: c in oc.cols <==> c in columns && c !in pks
  {
    if columns <= SetOf(pks) then DoNothing else DoUpdate(columns - SetOf(pks))
  }

  /** The statement `upsert` builds for a frame. */
  function Statement(df: Frame, table: string, pks: seq<string>): Merge {
    Merge(table, pks, FkJoins(table), ConflictFor(df.columns, pks))
  }

  /** What `upsert` leaves behind: the database, `rowcount`, and the staging table's size. */
  datatype Report = Report(db: Db, loaded: nat, staged: nat)

  /**
   * `upsert`: an empty frame writes nothing and returns 0; otherwise the frame is
   * staged and the statement runs in one transaction, so a failure commits nothing.
   */
  function Upsert(db: Db, df: Frame, table: string, pks: seq<string>): (r: Result<Report, Failure>)
    ensures IsEmpty(df) ==> r == Ok(Report(db, 0, 0))
    ensures r.Ok? ==> r.value.loaded <= r.value.staged
    ensures r.Ok? && !IsEmpty(df) ==> r.value.staged == |df.rows|
    ensures r.Ok? ==> r.value.db.Keys == db.Keys
    ensures r.Ok? ==> forall n :: n in db && n != table ==> r.value.db[n] == db[n]
  {
    if IsEmpty(df) then Ok(Report(db, 0, 0))
    else
      var l :- Execute(db, df, Statement(df, table, pks));
      Ok(Report(l.db, l.count, |df.rows|))
  }

  /** The warning `upsert` logs: how many staged rows did not load, when any. */
  function Warning(rep: Report): (w: Option<nat>)
    ensures w.None? <==> rep.loaded >= rep.staged
    ensures w.Some? ==> rep.loaded + w.value == rep.staged
  {
    if rep.loaded < rep.staged then Some(rep.staged - rep.loaded) else None
  }

  /**
   * With a non-key column to update, `rowcount` counts every row the JOINs let
   * through, so the warning fires exactly when some staged row misses a dimension
   * row, and reports how many did.
   */
  lemma UpsertWarning(db: Db, df: Frame, table: string, pks: seq<string>)
    requires Upsert(db, df, table, pks).Ok? && !IsEmpty(df)
    requires !(df.columns <= SetOf(pks))
    ensures var w := Warning(Upsert(db, df, table, pks).value);
            && (w.None? <==> forall i :: 0 <= i < |df.rows| ==> ResolvesAll(db, FkJoins(table), Staged(df)[i]))
            && (w.Some? ==> w.value == |df.rows| - |Proposed(db, df, Statement(df, table, pks))|)
  {
    var m := Statement(df, table, pks);
    var t := db[table];
    ExecutePrepared(db, df, m);
    RunCountUpdate(Pass(t.rows, {}, 0), ShapeOf(t), m.onConflict.cols, table, Proposed(db, df, m));
  }

  /**
   * Every staged row that finds its dimension rows is stored under its key with all
   * of the frame's cells: the SET list writes the non-key cells, the key holds the rest.
   */
  lemma UpsertStagedRow(db: Db, df: Frame, table: string, pks: seq<string>, i: nat)
    requires Upsert(db, df, table, pks).Ok? && !IsEmpty(df)
    requires table in db && Keyed(db[table])
    requires i < |df.rows| && ResolvesAll(db, FkJoins(table), Staged(df)[i])
    ensures var out := Upsert(db, df, table, pks).value.db[table].rows;
            var k := KeyOf(Staged(df)[i], db[table].pk);
            && k in out
            && forall c :: c in df.columns ==> Cell(out[k], c) == Cell(df.rows[i], c)
  {
    var m := Statement(df, table, pks);
    var t := db[table];
    var out := Upsert(db, df, table, pks).value.db[table].rows;
    var k := KeyOf(Staged(df)[i], t.pk);
    ExecuteStagedRow(db, df, m, i);
    ExecuteKeyed(db, df, m);
    forall c | c in df.columns
      ensures Cell(out[k], c) == Cell(df.rows[i], c)
    {
      if c in SetOf(pks) {
        assert c in SetOf(t.pk);
        var j :| 0 <= j < |t.pk| && t.pk[j] == c;
        assert KeyOf(out[k], t.pk) == k;
        assert KeyOf(out[k], t.pk)[j] == Cell(out[k], c);
      } else {
        assert m.onConflict.DoUpdate? && c in m.onConflict.cols;
      }
    }
  }

  /**
   * The statement touches only keys it stages: a new key comes from a staged row
   * that passed the JOINs, and a key no such row carries keeps its old row.
   */
  lemma UpsertTouchesOnlyStagedKeys(db: Db, df: Frame, table: string, pks: seq<string>, k: Key)
    requires Upsert(db, df, table, pks).Ok? && table in db
    ensures var out := Upsert(db, df, table, pks).value.db[table].rows;
            && (k in out && k !in db[table].rows ==>
                  exists i :: 0 <= i < |df.rows| && ResolvesAll(db, FkJoins(table), Staged(df)[i])
                              && KeyOf(Staged(df)[i], db[table].pk) == k)
            && (k in db[table].rows
                && (forall i :: 0 <= i < |df.rows| && ResolvesAll(db, FkJoins(table), Staged(df)[i])
                                ==> KeyOf(Staged(df)[i], db[table].pk) != k)
                ==> out[k] == db[table].rows[k])
  {
    if !IsEmpty(df) {
      var m := Statement(df, table, pks);
      var t := db[table];
      var rows := Proposed(db, df, m);
      var out := Upsert(db, df, table, pks).value.db[table].rows;
      if k in KeySet(rows, t.pk) {
        var j :| 0 <= j < |rows| && KeyOf(rows[j], t.pk) == k;
        assert rows[j] in Staged(df) && ResolvesAll(db, FkJoins(table), rows[j]);
        var i :| 0 <= i < |Staged(df)| && Staged(df)[i] == rows[j];
        assert 0 <= i < |df.rows|;
      }
    }
  }

  /** Loading the same frame again changes nothing: `upsert` is idempotent. */
  lemma UpsertIdempotent(db: Db, df: Frame, table: string, pks: seq<string>)
    requires Upsert(db, df, table, pks).Ok?
    ensures Upsert(Upsert(db, df, table, pks).value.db, df, table, pks).Ok?
    ensures Upsert(Upsert(db, df, table, pks).value.db, df, table, pks).value.db
         == Upsert(db, df, table, pks).value.db
  {
    if !IsEmpty(df) {
      ExecuteIdempotent(db, df, Statement(df, table, pks));
    }
  }

  /**
   * Because the JOINs mirror the FOREIGN KEY clauses, a table whose references all
   * resolve still has that property after the load.
   */
  lemma UpsertKeepsForeignKeys(db: Db, df: Frame, table: string, pks: seq<string>)
    requires Upsert(db, df, table, pks).Ok?
    requires ForeignKeysHold(db, table, FkJoins(table))
    ensures ForeignKeysHold(Upsert(db, df, table, pks).value.db, table, FkJoins(table))
  {
    if !IsEmpty(df) {
      ExecuteKeepsForeignKeys(db, df, Statement(df, table, pks));
    }
  }

  /**
   * A frame whose keys are unique loads exactly when its names resolve and no row
   * that passes the JOINs has a null key cell: the JOINs only drop rows, so DO
   * UPDATE never meets a key twice.
   */
  lemma UpsertOfUniqueKeys(db: Db, df: Frame, table: string, pks: seq<string>)
    requires !IsEmpty(df) && table in db && pks == db[table].pk
    requires UniqueKeys(Staged(df), pks)
    ensures Upsert(db, df, table, pks).Ok?
        <==> Prepared(db, df, Statement(df, table, pks))
             && NoNullKey(Proposed(db, df, Statement(df, table, pks)), pks)
  {
    var m := Statement(df, table, pks);
    JoinedUnique(db, m.joins, Staged(df), pks);
    ExecuteOk(db, df, m);
  }

  /** `upsert` reads only its table and the dimensions it joins. */
  lemma UpsertLocal(db: Db, db2: Db, df: Frame, table: string, pks: seq<string>)
    requires AgreeOn(db, db2, {table} + Dims)
    ensures Upsert(db2, df, table, pks)
         == match Upsert(db, df, table, pks)
            case Err(e) => Err(e)
            case Ok(rep) => Ok(Report(Overlay(db2, rep.db, table), rep.loaded, rep.staged))
  {
    if IsEmpty(df) {
      assert Overlay(db2, db, table) == db2;
    } else {
      var m := Statement(df, table, pks);
      assert DimsOf(m.joins) <= Dims;
      ExecuteLocal(db, db2, df, m);
    }
  }

  // ── _parse_minutes_str ───────────────────────────────────────────────

  /** The integer nearest `s`, an exact half going to the even neighbour (Python's `round`). */
  function RoundHalfEven(s: real): (n: int)
    ensures -0.5 <= n as real - s <= 0.5
    ensures (n as real - s == 0.5 || s - n as real == 0.5) ==> n % 2 == 0
  {
    var f := s.Floor;
    var frac := s - f as real;
    if frac < 0.5 then f
    else if frac > 0.5 then f + 1
    else if f % 2 == 0 then f
    else f + 1
  }

  /** `round(x, 2)` on the exact value: the nearest hundredth, halves to the even hundredth. */
  function Round2(x: real): (y: real)
    ensures -0.005 <= y - x <= 0.005
  {
    RoundHalfEven(x * 100.0) as real / 100.0
  }

  lemma RoundHalfEvenOfInt(n: int)
    ensures RoundHalfEven(n as real) == n
  {
  }

  /** Rounding to hundredths is a no-op on whole numbers. */
  lemma Round2OfInt(i: int)
    ensures Round2(i as real) == i as real
  {
    assert (i as real) * 100.0 == (i * 100) as real;
    RoundHalfEvenOfInt(i * 100);
  }

  /** Rounding twice is rounding once. */
  lemma Round2Idempotent(x: real)
    ensures Round2(Round2(x)) == Round2(x)
  {
    var n := RoundHalfEven(x * 100.0);
    assert Round2(x) * 100.0 == n as real;
    RoundHalfEvenOfInt(n);
  }

  /** A number `round(…, 2)` returned. */
  function Rounded(x: real): (v: Value)
    ensures v.VNum? && Round2(v.r) == v.r && -0.005 <= v.r - x <= 0.005
  {
    Round2Idempotent(x);
    VNum(Round2(x))
  }

  /** `round(float(whole) + float(secs) / 60, 2)`, None when either `float` raises. */
  function Minutes(whole: Option<real>, secs: Option<real>): (v: Value)
    ensures v.VNull? <==> whole.None? || secs.None?
    ensures v.VNum? ==> Round2(v.r) == v.r
  {
    if whole.Some? && secs.Some? then Rounded(whole.value + secs.value / 60.0) else VNull
  }

  /** `_parse_minutes_str` on text: `m:s`, then `PTmMsS`, then a plain number. */
  function MinutesOfText(s: string): (v: Value)
    ensures v.VNull? || (v.VNum? && Round2(v.r) == v.r)
    ensures s == "" ==> v.VNull?
  {
    if s == "" then VNull
    else if ':' in s && !Text.Contains(s, "PT") then
      var parts := Text.Split(s, ':');
      Text.SplitShape(s, ':');
      assert Text.Count(s, ':') >= 1;
      Minutes(Text.ParseDecimal(parts[0]), Text.ParseDecimal(parts[1]))
    else if Text.StartsWith(s, "PT") then
      var parts := Text.Split(s[2..], 'M');
      if |parts| != 2 then VNull
      else Minutes(Text.ParseDecimal(parts[0]), Text.ParseDecimal(Text.RStrip(parts[1], 'S')))
    else
      match Text.ParseDecimal(s)
      case Some(x) => Rounded(x)
      case None => VNull
  }

  /**
   * `_parse_minutes_str`: a minutes cell as decimal minutes rounded to hundredths.
   * Null, empty text, and anything `float` rejects become null; nothing raises.
   */
  function ParseMinutes(v: Value): (r: Value)
    ensures r.VNull? || (r.VNum? && Round2(r.r) == r.r)
    ensures v.VNull? || v.VBool? || v == VStr("") ==> r == VNull
    ensures v.VInt? ==> r == VNum(v.i as real)
  {
    match v
    case VNull => VNull
    case VStr(s) => MinutesOfText(s)
    case VInt(i) => Round2OfInt(i); Rounded(i as real)
    case VNum(x) => Rounded(x)
    case VBool(_) => VNull
  }

  /**
   * The `PTmMsS` form agrees with the silver clock parser: the same text gives the
   * clock's seconds divided by sixty and rounded, or null for both.
   */
  lemma MinutesAgreeWithClock(s: string)
    requires Text.StartsWith(s, "PT")
    ensures ParseMinutes(VStr(s))
         == match Silver.ParseClock(VStr(s))
            case Some(x) => VNum(Round2(x / 60.0))
            case None => VNull
  {
    assert Text.OccursAt(s, "PT", 0);
    var parts := Text.Split(s[2..], 'M');
    if |parts| == 2 {
      var whole := Text.ParseDecimal(parts[0]);
      var secs := Text.ParseDecimal(Text.RStrip(parts[1], 'S'));
      if whole.Some? && secs.Some? {
        assert (whole.value * 60.0 + secs.value) / 60.0 == whole.value + secs.value / 60.0;
      }
    }
  }

  /** Joining pieces that avoid a character gives text without it, separators aside. */
  lemma {:induction false} JoinAvoids(parts: seq<string>, sep: char, c: char)
    requires |parts| >= 1 && c != sep
    requires forall k :: 0 <= k < |parts| ==> c !in parts[k]
    ensures c !in Text.Join(parts, sep)
  {
    if |parts| > 1 {
      JoinAvoids(parts[1..], sep, c);
    }
  }

  /**
   * The `m:s` form: text joined from pieces by ':' (without a 'P', so no `PT`) reads
   * its first piece as minutes and its second as seconds; further pieces are ignored.
   */
  lemma MinutesOfColonText(parts: seq<string>)
    requires |parts| >= 2
    requires forall k :: 0 <= k < |parts| ==> ':' !in parts[k] && 'P' !in parts[k]
    ensures ParseMinutes(VStr(Text.Join(parts, ':')))
         == Minutes(Text.ParseDecimal(parts[0]), Text.ParseDecimal(parts[1]))
  {
    var s := Text.Join(parts, ':');
    Text.SplitJoin(parts, ':');
    assert s == parts[0] + [':'] + Text.Join(parts[1..], ':');
    assert s[|parts[0]|] == ':';
    JoinAvoids(parts, ':', 'P');
    NoLetterNoPrefix(s);
    MinutesOfColon(s);
  }

  /** Text without a 'P' does not contain `PT`. */
  lemma NoLetterNoPrefix(s: string)
    requires 'P' !in s
    ensures !Text.Contains(s, "PT")
  {
    forall i | 0 <= i <= |s| - 2
      ensures !Text.OccursAt(s, "PT", i)
    {
      assert s[i..i + 2][0] == s[i];
    }
  }

  /** The `m:s` branch taken: the first two pieces are the minutes and the seconds. */
  lemma MinutesOfColon(s: string)
    requires ':' in s && !Text.Contains(s, "PT")
    ensures |Text.Split(s, ':')| >= 2
    ensures ParseMinutes(VStr(s))
         == Minutes(Text.ParseDecimal(Text.Split(s, ':')[0]), Text.ParseDecimal(Text.Split(s, ':')[1]))
  {
    Text.SplitShape(s, ':');
    assert Text.Count(s, ':') >= 1;
  }

  /** A whole number printed as text reads back as that many minutes. */
  lemma MinutesOfNatText(n: nat)
    ensures ParseMinutes(VStr(Text.NatText(n))) == VNum(n as real)
  {
    var s := Text.NatText(n);
    Text.DigitsExclude(s, ':');
    assert Text.IsDigit(s[0]);
    assert !Text.StartsWith(s, "PT");
    Text.DecimalOfNatText(n);
    Round2OfInt(n);
  }

  // ── Reading silver ───────────────────────────────────────────────────

  /** `pd.read_parquet`: a missing file raises; a file that is not parquet raises ValueError. */
  function ReadParquet(s: Store, path: string): (r: Result<Frame, Failure>)
    ensures path !in s <==> r == Err(FileNotFound(path))
    ensures r.Ok? <==> path in s && s[path].Parquet?
    ensures r.Ok? ==> r.value == s[path].frame
  {
    if path !in s then Err(FileNotFound(path))
    else match s[path]
      case Parquet(f) => Ok(f)
      case _ => Err(ValueError(path))
  }

  /** The path `read_silver_partition` reads, built from its own f-string. */
  function SilverPartition(l: Layout, dataset: string, season: int, gameDate: string): string {
    l.silver + "/" + dataset + "/season=" + Text.IntText(season) + "/game_date=" + gameDate + "/data.parquet"
  }

  /**
   * `read_silver_partition`: the season comes from the date (a date `strptime`
   * rejects raises ValueError), and a partition that does not exist reads as an
   * empty frame rather than an error.
   */
  function ReadSilverPartition(s: Store, l: Layout, dataset: string, gameDate: string): (r: Result<Frame, Failure>)
    ensures Silver.SeasonOf(gameDate).Err? ==> r.Err?
    ensures Silver.SeasonOf(gameDate).Ok? ==>
              var p := SilverPartition(l, dataset, Silver.SeasonOf(gameDate).value, gameDate);
              && (p !in s ==> r == Ok(EmptyFrame()))
              && (p in s ==> r == ReadParquet(s, p))
  {
    var season :- Silver.SeasonOf(gameDate);
    var path := SilverPartition(l, dataset, season, gameDate);
    if path !in s then Ok(EmptyFrame()) else ReadParquet(s, path)
  }

  /**
   * Writer and reader agree: after the silver run for a date, each kind that yielded
   * rows reads back with exactly the rows silver wrote, and a kind that yielded
   * nothing, with no earlier partition, reads as an empty frame.
   */
  lemma GoldReadsSilver(s: Store, l: Layout, gameDate: string, k: Kind)
    requires Silver.LoadManifest(s, l, gameDate).Ok? && Silver.LoadManifest(s, l, gameDate).value != []
    requires Silver.ProcessDate(s, l, gameDate).error.None?
    ensures Silver.SeasonOf(gameDate).Ok?
    ensures var gids := Silver.LoadManifest(s, l, gameDate).value;
            var r := ReadSilverPartition(Silver.ProcessDate(s, l, gameDate).store, l, k.Folder(), gameDate);
            && ((exists i :: 0 <= i < |gids| && Silver.Yields(s, l, k, gids[i])) ==>
                  r.Ok? && |r.value.rows| == Silver.YieldedRows(s, l, k, gids))
            && (!(exists i :: 0 <= i < |gids| && Silver.Yields(s, l, k, gids[i]))
                && Silver.KindPartition(l, k, Silver.SeasonOf(gameDate).value, gameDate) !in s
                ==> r == Ok(EmptyFrame()))
  {
    Silver.ProcessDatePartition(s, l, gameDate, k);
    var season := Silver.SeasonOf(gameDate).value;
    assert SilverPartition(l, k.Folder(), season, gameDate) == Silver.KindPartition(l, k, season, gameDate);
  }

  // ── Renaming and selecting columns ───────────────────────────────────

  /** `df.rename(columns={old: new, …})`'s mapping, as (old, new) pairs. */
  type Renames = seq<(string, string)>

  /** No two pairs rename to the same name (the mappings the loaders use). */
  predicate DistinctTargets(renames: Renames) {
    forall i, j :: 0 <= i < j < |renames| ==> renames[i].1 != renames[j].1
  }

  /** The first present column the mapping renames to `target`. */
  function RenamedFrom(renames: Renames, present: set<string>, target: string): (m: Option<string>)
    ensures m.Some? ==> m.value in present
    ensures m.Some? ==> exists i :: 0 <= i < |renames| && renames[i].1 == target
    decreases |renames|
  {
    if renames == [] then None
    else if renames[0].1 == target && renames[0].0 in present then Some(renames[0].0)
    else RenamedFrom(renames[1..], present, target)
  }

  /** After renaming, the present column that carries the name `target`, if any. */
  function SourceOf(renames: Renames, present: set<string>, target: string): (m: Option<string>)
    ensures m.Some? ==> m.value in present
    ensures (forall i :: 0 <= i < |renames| ==> renames[i].0 != target && renames[i].1 != target)
            ==> m == if target in present then Some(target) else None
  {
    match RenamedFrom(renames, present, target)
    case Some(c) => Some(c)
    case None =>
      if target in present && forall i :: 0 <= i < |renames| ==> renames[i].0 != target then Some(target)
      else None
  }

  lemma {:induction false} RenamedFromPair(renames: Renames, present: set<string>, i: nat)
    requires i < |renames| && DistinctTargets(renames) && renames[i].0 in present
    ensures RenamedFrom(renames, present, renames[i].1) == Some(renames[i].0)
    decreases i
  {
    if i > 0 {
      assert DistinctTargets(renames[1..]);
      RenamedFromPair(renames[1..], present, i - 1);
    }
  }

  /** A listed pair whose old name is present is where its new name comes from. */
  lemma SourceOfPair(renames: Renames, present: set<string>, i: nat)
    requires i < |renames| && DistinctTargets(renames) && renames[i].0 in present
    ensures SourceOf(renames, present, renames[i].1) == Some(renames[i].0)
  {
    RenamedFromPair(renames, present, i);
  }

  /** The first requested column no present column supplies. */
  function FirstUnsourced(renames: Renames, present: set<string>, cols: seq<string>): (m: Option<string>)
    ensures m.None? <==> forall j :: 0 <= j < |cols| ==> SourceOf(renames, present, cols[j]).Some?
    ensures m.Some? ==> m.value in cols
  {
    if cols == [] then None
    else if SourceOf(renames, present, cols[0]).None? then Some(cols[0])
    else FirstUnsourced(renames, present, cols[1..])
  }

  function ProjectRow(r: Row, renames: Renames, present: set<string>, cols: seq<string>): (out: Row)
    requires forall j :: 0 <= j < |cols| ==> SourceOf(renames, present, cols[j]).Some?
    ensures out.Keys == SetOf(cols)
    ensures forall j :: 0 <= j < |cols| ==> out[cols[j]] == Cell(r, SourceOf(renames, present, cols[j]).value)
  {
    map c | c in SetOf(cols) :: Cell(r, SourceOf(renames, present, c).value)
  }

  /**
   * `df.rename(columns=…)[cols]`: every requested name must exist after renaming,
   * otherwise KeyError; each kept cell is the one its source column held.
   */
  function RenameSelect(df: Frame, renames: Renames, cols: seq<string>): (r: Result<Frame, Failure>)
    ensures r.Ok? <==> forall j :: 0 <= j < |cols| ==> SourceOf(renames, df.columns, cols[j]).Some?
    ensures r.Err? ==> r.error.KeyError? && r.error.key in cols
    ensures r.Ok? ==> r.value.columns == SetOf(cols) && |r.value.rows| == |df.rows| && WellFormed(r.value)
    ensures r.Ok? ==> forall i, j :: 0 <= i < |df.rows| && 0 <= j < |cols| ==>
              Cell(r.value.rows[i], cols[j]) == Cell(df.rows[i], SourceOf(renames, df.columns, cols[j]).value)
  {
    match FirstUnsourced(renames, df.columns, cols)
    case Some(c) => Err(KeyError(c))
    case None =>
      Ok(Frame(SetOf(cols),
               seq(|df.rows|, i requires 0 <= i < |df.rows| => ProjectRow(df.rows[i], renames, df.columns, cols))))
  }

  /** Rows whose keys correspond one to one have the same key set and the same uniqueness. */
  lemma SameKeys(a: seq<Row>, ka: seq<string>, b: seq<Row>, kb: seq<string>)
    requires |a| == |b| && forall i :: 0 <= i < |a| ==> KeyOf(a[i], ka) == KeyOf(b[i], kb)
    ensures KeySet(a, ka) == KeySet(b, kb)
    ensures UniqueKeys(a, ka) <==> UniqueKeys(b, kb)
  {
    assert forall i :: 0 <= i < |a| ==> (IsFirst(a, ka, i) <==> IsFirst(b, kb, i));
  }

  /** Key cells agree, so keys agree. */
  lemma KeyCells(a: seq<Row>, b: seq<Row>, key: seq<string>)
    requires |a| == |b|
    requires forall i, j :: 0 <= i < |a| && 0 <= j < |key| ==> Cell(a[i], key[j]) == Cell(b[i], key[j])
    ensures forall i :: 0 <= i < |a| ==> KeyOf(a[i], key) == KeyOf(b[i], key)
  {
  }

  // ── Fact loaders ─────────────────────────────────────────────────────

  const PlayerStatsRenames: Renames := [
    ("GAME_ID", "game_id"), ("PERSON_ID", "player_id"), ("TEAM_ID", "team_id"),
    ("POSITION", "start_position"), ("COMMENT", "comment"), ("minutes", "minutes"),
    ("offensiveRating", "off_rating"), ("defensiveRating", "def_rating"),
    ("netRating", "net_rating"), ("usagePercentage", "usg_pct"),
    ("trueShootingPercentage", "ts_pct"), ("effectiveFieldGoalPercentage", "efg_pct"),
    ("PIE", "pie")]

  const PlayByPlayRenames: Renames := [
    ("GAME_ID", "game_id"), ("actionNumber", "action_number"), ("period", "period"),
    ("clock_seconds", "clock_seconds"), ("teamId", "team_id"), ("personId", "player_id"),
    ("actionType", "action_type"), ("subType", "sub_type"), ("description", "description"),
    ("shotDistance", "shot_distance"), ("scoreHome", "score_home"), ("scoreAway", "score_away"),
    ("isFieldGoal", "is_field_goal")]

  const ShotsRenames: Renames := [
    ("GAME_ID", "game_id"), ("GAME_EVENT_ID", "game_event_id"), ("PLAYER_ID", "player_id"),
    ("TEAM_ID", "team_id"), ("PERIOD", "period"), ("LOC_X", "loc_x"), ("LOC_Y", "loc_y"),
    ("SHOT_DISTANCE", "shot_distance"), ("SHOT_ATTEMPTED_FLAG", "shot_attempted_flag"),
    ("SHOT_MADE_FLAG", "shot_made_flag"), ("SHOT_ZONE_BASIC", "shot_zone_basic"),
    ("SHOT_ZONE_AREA", "shot_zone_area"), ("SHOT_ZONE_RANGE", "shot_zone_range")]

  lemma PlayerStatsRenamesDistinct()
    ensures DistinctTargets(PlayerStatsRenames)
  {
  }

  lemma PlayByPlayRenamesDistinct()
    ensures DistinctTargets(PlayByPlayRenames)
  {
  }

  lemma ShotsRenamesDistinct()
    ensures DistinctTargets(ShotsRenames)
  {
  }

  /** The three date-partitioned fact loaders. */
  datatype Fact = PlayerStats | PlayByPlay | Shots {
    /** The silver dataset the loader reads. */
    function Source(): Kind {
      match this
      case PlayerStats => Boxscore
      case PlayByPlay => Pbp
      case Shots => ShotChart
    }

    function Target(): (t: string)
      ensures t in Schema && t !in Dims
    {
      match this
      case PlayerStats => "fact_player_stats"
      case PlayByPlay => "fact_play_by_play"
      case Shots => "fact_shots"
    }

    /** The `drop_duplicates` subset and the `upsert` key: the target's primary key. */
    function Key(): (k: seq<string>)
      ensures k == Schema[Target()].pk
    {
      match this
      case PlayerStats => ["game_id", "player_id"]
      case PlayByPlay => ["game_id", "action_number"]
      case Shots => ["game_id", "game_event_id"]
    }

    /** The loader's `rename` mapping, old name to new. */
    function Mapping(): (m: Renames)
      ensures DistinctTargets(m)
    {
      match this
      case PlayerStats => PlayerStatsRenamesDistinct(); PlayerStatsRenames
      case PlayByPlay => PlayByPlayRenamesDistinct(); PlayByPlayRenames
      case Shots => ShotsRenamesDistinct(); ShotsRenames
    }

    /** The selected columns: exactly the target table's columns, the JOIN columns among them. */
    function Columns(): (cols: seq<string>)
      ensures SetOf(cols) == Schema[Target()].columns
      ensures forall j :: 0 <= j < |Key()| ==> Key()[j] in cols
      ensures forall i :: 0 <= i < |FkJoins(Target())| ==> FkJoins(Target())[i].col in cols
    {
      match this
      case PlayerStats => PlayerStatsColumns
      case PlayByPlay => PlayByPlayColumns
      case Shots => ShotsColumns
    }
  }

  /** `load_date`'s order. */
  const DateFacts: seq<Fact> := [PlayerStats, PlayByPlay, Shots]

  predicate IsZero(v: Value) {
    v == VInt(0) || v == VNum(0.0)
  }

  /** `replace(0, None)` on one cell: pandas compares numerically, so 0 and 0.0 both match. */
  function ZeroToNull(v: Value): (r: Value)
    ensures !IsZero(r)
    ensures !IsZero(v) ==> r == v
    ensures IsZero(v) ==> r == VNull
  {
    if IsZero(v) then VNull else v
  }

  /** What each loader guarantees of a staged row. */
  predicate Conforms(f: Fact, row: Row) {
    match f
    case PlayerStats =>
      var m := Cell(row, "minutes");
      m.VNull? || (m.VNum? && Round2(m.r) == m.r)
    case PlayByPlay => !IsZero(Cell(row, "team_id")) && !IsZero(Cell(row, "player_id"))
    case Shots => true
  }

  /**
   * One cell of a row after the loader's rewrite: player stats parse `minutes`,
   * play-by-play nulls a zero `team_id` or `player_id`, and every other cell,
   * and every shots cell, stays.
   */
  function AdjustedCell(f: Fact, row: Row, c: string): Value {
    match f
    case PlayerStats => if c == "minutes" then ParseMinutes(Cell(row, c)) else Cell(row, c)
    case PlayByPlay => if c == "team_id" || c == "player_id" then ZeroToNull(Cell(row, c)) else Cell(row, c)
    case Shots => Cell(row, c)
  }

  /** The per-loader cell rewrite: parsed minutes, or zero ids made null. Key cells are untouched. */
  function Adjust(f: Fact, gold: Frame): (out: Frame)
    ensures |out.rows| == |gold.rows|
    ensures SetOf(f.Columns()) <= gold.columns ==> out.columns == gold.columns
    ensures forall i, c :: 0 <= i < |gold.rows| ==> Cell(out.rows[i], c) == AdjustedCell(f, gold.rows[i], c)
    ensures f.Shots? ==> out == gold
    ensures forall i, j :: 0 <= i < |gold.rows| && 0 <= j < |f.Key()| ==>
              Cell(out.rows[i], f.Key()[j]) == Cell(gold.rows[i], f.Key()[j])
    ensures forall i :: 0 <= i < |out.rows| ==> Conforms(f, out.rows[i])
  {
    match f
    case PlayerStats => Assign(gold, "minutes", (row: Row) => ParseMinutes(Cell(row, "minutes")))
    case PlayByPlay =>
      var a := Assign(gold, "team_id", (row: Row) => ZeroToNull(Cell(row, "team_id")));
      Assign(a, "player_id", (row: Row) => ZeroToNull(Cell(row, "player_id")))
    case Shots => gold
  }

  /**
   * A fact loader's frame: rename and select (KeyError for a missing column), rewrite
   * cells, then keep the first row of each key. Staging never holds a key twice and
   * still holds every key the selection had.
   */
  function Prepare(f: Fact, df: Frame): (r: Result<Frame, Failure>)
    ensures r.Ok? <==> RenameSelect(df, f.Mapping(), f.Columns()).Ok?
    ensures r.Ok? ==> r.value.columns == SetOf(f.Columns()) && UniqueKeys(r.value.rows, f.Key())
    ensures r.Ok? ==> KeySet(r.value.rows, f.Key())
                      == KeySet(RenameSelect(df, f.Mapping(), f.Columns()).value.rows, f.Key())
    ensures r.Ok? ==> |r.value.rows| <= |df.rows|
    ensures r.Ok? ==> forall k :: 0 <= k < |r.value.rows| ==> Conforms(f, r.value.rows[k])
  {
    match RenameSelect(df, f.Mapping(), f.Columns())
    case Err(e) => Err(e)
    case Ok(gold) =>
      var adjusted := Adjust(f, gold);
      var kept := FirstOccurrences(adjusted.rows, f.Key());
      FirstOccurrencesUnique(adjusted.rows, f.Key());
      FirstOccurrencesKeys(adjusted.rows, f.Key());
      FirstOccurrencesCount(adjusted.rows, f.Key());
      KeyCells(adjusted.rows, gold.rows, f.Key());
      SameKeys(adjusted.rows, f.Key(), gold.rows, f.Key());
      FirstOccurrencesConform(f, adjusted.rows);
      Ok(Frame(adjusted.columns, kept))
  }

  /**
   * Each staged row is the rewritten form of a selected row that is the first
   * with its key: `drop_duplicates` keeps the first occurrence.
   */
  lemma PrepareRows(f: Fact, df: Frame, k: nat)
    requires Prepare(f, df).Ok? && k < |Prepare(f, df).value.rows|
    ensures var sel := RenameSelect(df, f.Mapping(), f.Columns()).value;
            exists i :: 0 <= i < |sel.rows| && IsFirst(sel.rows, f.Key(), i)
                        && forall c :: Cell(Prepare(f, df).value.rows[k], c) == AdjustedCell(f, sel.rows[i], c)
  {
    var sel := RenameSelect(df, f.Mapping(), f.Columns()).value;
    PrepareKeeps(f, df);
    FirstAdjusted(f, sel, k);
  }

  lemma PrepareKeeps(f: Fact, df: Frame)
    requires Prepare(f, df).Ok?
    ensures var sel := RenameSelect(df, f.Mapping(), f.Columns()).value;
            Prepare(f, df).value.rows == FirstOccurrences(Adjust(f, sel).rows, f.Key())
  {
  }

  /** The `k`-th first occurrence after the rewrite is the rewrite of a row first with its key before it. */
  lemma FirstAdjusted(f: Fact, sel: Frame, k: nat)
    requires k < |FirstOccurrences(Adjust(f, sel).rows, f.Key())|
    ensures exists i :: 0 <= i < |sel.rows| && IsFirst(sel.rows, f.Key(), i)
                        && forall c :: Cell(FirstOccurrences(Adjust(f, sel).rows, f.Key())[k], c) == AdjustedCell(f, sel.rows[i], c)
  {
    var adjusted := Adjust(f, sel).rows;
    FirstOccurrencesAreFirst(adjusted, f.Key(), k);
    var i :| 0 <= i < |adjusted| && FirstOccurrences(adjusted, f.Key())[k] == adjusted[i] && IsFirst(adjusted, f.Key(), i);
    KeyCells(adjusted, sel.rows, f.Key());
    assert IsFirst(sel.rows, f.Key(), i);
  }

  lemma FirstOccurrencesConform(f: Fact, rows: seq<Row>)
    requires forall i :: 0 <= i < |rows| ==> Conforms(f, rows[i])
    ensures forall k :: 0 <= k < |FirstOccurrences(rows, f.Key())| ==> Conforms(f, FirstOccurrences(rows, f.Key())[k])
  {
    forall k | 0 <= k < |FirstOccurrences(rows, f.Key())|
      ensures Conforms(f, FirstOccurrences(rows, f.Key())[k])
    {
      FirstOccurrencesAreFirst(rows, f.Key(), k);
    }
  }

  /**
   * `load_fact_*` for one date: a missing or empty partition loads nothing; otherwise
   * the prepared frame is upserted into the fact table and the other tables stay.
   */
  function LoadFact(db: Db, s: Store, l: Layout, f: Fact, gameDate: string): (r: Result<Db, Failure>)
    ensures r.Ok? ==> r.value.Keys == db.Keys
    ensures r.Ok? ==> forall n :: n in db && n != f.Target() ==> r.value[n] == db[n]
  {
    var df :- ReadSilverPartition(s, l, f.Source().Folder(), gameDate);
    if IsEmpty(df) then Ok(db)
    else
      var staged :- Prepare(f, df);
      var rep :- Upsert(db, staged, f.Target(), f.Key());
      Ok(rep.db)
  }

  /**
   * A fact load that succeeds on a non-empty partition writes each staged row
   * whose dimension references resolve under its key, with the staged cells.
   */
  lemma LoadFactLands(db: Db, s: Store, l: Layout, f: Fact, gameDate: string, df: Frame, k: nat)
    requires ReadSilverPartition(s, l, f.Source().Folder(), gameDate) == Ok(df) && !IsEmpty(df)
    requires Prepare(f, df).Ok? && LoadFact(db, s, l, f, gameDate).Ok?
    requires f.Target() in db && Keyed(db[f.Target()])
    requires k < |Prepare(f, df).value.rows|
    requires ResolvesAll(db, FkJoins(f.Target()), Staged(Prepare(f, df).value)[k])
    ensures var staged := Prepare(f, df).value;
            var out := LoadFact(db, s, l, f, gameDate).value[f.Target()].rows;
            var key := KeyOf(Staged(staged)[k], db[f.Target()].pk);
            && key in out
            && forall c :: c in staged.columns ==> Cell(out[key], c) == Cell(staged.rows[k], c)
  {
    var staged := Prepare(f, df).value;
    LoadFactUnfold(db, s, l, f, gameDate, df);
    assert LoadFact(db, s, l, f, gameDate).value == Upsert(db, staged, f.Target(), f.Key()).value.db;
    assert f.Key()[0] in f.Columns() && f.Key()[0] in staged.columns;
    UpsertStagedRow(db, staged, f.Target(), f.Key(), k);
  }

  /** Every schema table exists with its declared columns and key (after `init_schema`). */
  ghost predicate HasSchema(db: Db) {
    forall n :: n in Schema ==> n in db && ShapeOf(db[n]) == ShapeOf(Schema[n])
  }

  /**
   * Against the schema a fact load never fails on a name: it succeeds exactly when
   * no row that passes the JOINs has a null key cell, since the staged keys are unique.
   */
  lemma LoadFactOk(db: Db, s: Store, l: Layout, f: Fact, gameDate: string, df: Frame)
    requires HasSchema(db)
    requires ReadSilverPartition(s, l, f.Source().Folder(), gameDate) == Ok(df) && !IsEmpty(df)
    requires Prepare(f, df).Ok? && !IsEmpty(Prepare(f, df).value)
    ensures var staged := Prepare(f, df).value;
            LoadFact(db, s, l, f, gameDate).Ok?
            <==> NoNullKey(Proposed(db, staged, Statement(staged, f.Target(), f.Key())), f.Key())
  {
    LoadFactUnfold(db, s, l, f, gameDate, df);
    UpsertOnSchema(db, Prepare(f, df).value, f);
  }

  lemma UpsertOnSchema(db: Db, staged: Frame, f: Fact)
    requires HasSchema(db) && !IsEmpty(staged)
    requires staged.columns == SetOf(f.Columns()) && UniqueKeys(staged.rows, f.Key())
    ensures Upsert(db, staged, f.Target(), f.Key()).Ok?
        <==> NoNullKey(Proposed(db, staged, Statement(staged, f.Target(), f.Key())), f.Key())
  {
    PreparedOnSchema(db, staged, f);
    KeyCells(Staged(staged), staged.rows, f.Key());
    SameKeys(Staged(staged), f.Key(), staged.rows, f.Key());
    UpsertOfUniqueKeys(db, staged, f.Target(), f.Key());
  }

  lemma LoadFactUnfold(db: Db, s: Store, l: Layout, f: Fact, gameDate: string, df: Frame)
    requires ReadSilverPartition(s, l, f.Source().Folder(), gameDate) == Ok(df) && !IsEmpty(df)
    requires Prepare(f, df).Ok?
    ensures LoadFact(db, s, l, f, gameDate).Ok? <==> Upsert(db, Prepare(f, df).value, f.Target(), f.Key()).Ok?
  {
  }

  /** The statement a fact loader builds names only what the schema declares. */
  lemma PreparedOnSchema(db: Db, staged: Frame, f: Fact)
    requires HasSchema(db) && staged.columns == SetOf(f.Columns())
    ensures Prepared(db, staged, Statement(staged, f.Target(), f.Key()))
  {
    var t := f.Target();
    var m := Statement(staged, t, f.Key());
    assert ShapeOf(db[t]) == ShapeOf(Schema[t]);
    assert db[t].columns == staged.columns;
    assert db[t].pk == f.Key();
    forall i | 0 <= i < |m.joins|
      ensures m.joins[i].dim in db && m.joins[i].col in staged.columns
    {
      assert m.joins[i].dim in Dims;
      assert m.joins[i].col in f.Columns();
    }
  }

  /** A fact load reads only its own table and the dimensions. */
  lemma LoadFactLocal(db: Db, db2: Db, s: Store, l: Layout, f: Fact, gameDate: string)
    requires AgreeOn(db, db2, {f.Target()} + Dims)
    ensures LoadFact(db2, s, l, f, gameDate)
         == match LoadFact(db, s, l, f, gameDate)
            case Err(e) => Err(e)
            case Ok(d1) => Ok(Overlay(db2, d1, f.Target()))
  {
    var rd := ReadSilverPartition(s, l, f.Source().Folder(), gameDate);
    if rd.Ok? {
      if IsEmpty(rd.value) {
        assert Overlay(db2, db, f.Target()) == db2;
      } else if Prepare(f, rd.value).Ok? {
        UpsertLocal(db, db2, Prepare(f, rd.value).value, f.Target(), f.Key());
      }
    }
  }

  /** Loading the same date's fact twice is the same as loading it once. */
  lemma LoadFactIdempotent(db: Db, s: Store, l: Layout, f: Fact, gameDate: string)
    requires LoadFact(db, s, l, f, gameDate).Ok?
    ensures LoadFact(LoadFact(db, s, l, f, gameDate).value, s, l, f, gameDate) == LoadFact(db, s, l, f, gameDate)
  {
    var df := ReadSilverPartition(s, l, f.Source().Folder(), gameDate).value;
    if !IsEmpty(df) {
      UpsertIdempotent(db, Prepare(f, df).value, f.Target(), f.Key());
    }
  }

  // ── load_date ────────────────────────────────────────────────────────

  /** A sequence of loads: the database after the loads that ran, and the exception that stopped it. */
  datatype Progress = Progress(db: Db, error: Option<Failure>)

  function TargetsOf(facts: seq<Fact>): set<string> {
    set i | 0 <= i < |facts| :: facts[i].Target()
  }

  predicate DistinctFacts(facts: seq<Fact>) {
    forall i, j :: 0 <= i < j < |facts| ==> facts[i] != facts[j]
  }

  /**
   * The loaders one after another, each committing on its own; the first exception
   * stops the rest and propagates, leaving earlier loads in place.
   */
  function LoadFacts(db: Db, s: Store, l: Layout, facts: seq<Fact>, gameDate: string): (r: Progress)
    ensures r.db.Keys == db.Keys
    ensures forall n :: n in db && n !in TargetsOf(facts) ==> r.db[n] == db[n]
    decreases |facts|
  {
    if facts == [] then Progress(db, None)
    else
      match LoadFact(db, s, l, facts[0], gameDate)
      case Err(e) => Progress(db, Some(e))
      case Ok(db1) =>
        var r := LoadFacts(db1, s, l, facts[1..], gameDate);
        assert forall n :: n in TargetsOf(facts[1..]) ==> n in TargetsOf(facts) by {
          forall n | n in TargetsOf(facts[1..])
            ensures n in TargetsOf(facts)
          {
            var i :| 0 <= i < |facts[1..]| && facts[1..][i].Target() == n;
            assert facts[i + 1].Target() == n;
          }
        }
        r
  }

  /** `load_date`: player stats, then play-by-play, then shots. */
  function LoadDate(db: Db, s: Store, l: Layout, gameDate: string): (r: Progress)
    ensures r.db.Keys == db.Keys
    ensures forall n :: n in db && n !in TargetsOf(DateFacts) ==> r.db[n] == db[n]
  {
    LoadFacts(db, s, l, DateFacts, gameDate)
  }

  /** The first load, then the rest on what it left; a failure stops there. */
  lemma LoadFactsCons(db: Db, s: Store, l: Layout, f: Fact, rest: seq<Fact>, gameDate: string)
    ensures LoadFact(db, s, l, f, gameDate).Err? ==>
              LoadFacts(db, s, l, [f] + rest, gameDate) == Progress(db, Some(LoadFact(db, s, l, f, gameDate).error))
    ensures LoadFact(db, s, l, f, gameDate).Ok? ==>
              LoadFacts(db, s, l, [f] + rest, gameDate) == LoadFacts(LoadFact(db, s, l, f, gameDate).value, s, l, rest, gameDate)
  {
    assert ([f] + rest)[0] == f && ([f] + rest)[1..] == rest;
  }

  /**
   * The three loaders of `load_date` written out one after the other: each
   * runs on the database the previous one left, and an exception ends the
   * date with what committed before it.
   */
  function DateInOrder(db: Db, s: Store, l: Layout, gameDate: string): Progress {
    match LoadFact(db, s, l, PlayerStats, gameDate)
    case Err(e) => Progress(db, Some(e))
    case Ok(d1) => AfterPlayerStats(d1, s, l, gameDate)
  }

  function AfterPlayerStats(d1: Db, s: Store, l: Layout, gameDate: string): Progress {
    match LoadFact(d1, s, l, PlayByPlay, gameDate)
    case Err(e) => Progress(d1, Some(e))
    case Ok(d2) => AfterPlayByPlay(d2, s, l, gameDate)
  }

  function AfterPlayByPlay(d2: Db, s: Store, l: Layout, gameDate: string): Progress {
    match LoadFact(d2, s, l, Shots, gameDate)
    case Err(e) => Progress(d2, Some(e))
    case Ok(d3) => Progress(d3, None)
  }

  lemma ShotsInOrder(d2: Db, s: Store, l: Layout, gameDate: string)
    ensures LoadFacts(d2, s, l, [Shots], gameDate) == AfterPlayByPlay(d2, s, l, gameDate)
  {
    LoadFactsCons(d2, s, l, Shots, [], gameDate);
    assert [Shots] == [Shots] + [];
  }

  lemma PlayByPlayInOrder(d1: Db, s: Store, l: Layout, gameDate: string)
    ensures LoadFacts(d1, s, l, [PlayByPlay, Shots], gameDate) == AfterPlayerStats(d1, s, l, gameDate)
  {
    assert [PlayByPlay, Shots] == [PlayByPlay] + [Shots];
    LoadFactsCons(d1, s, l, PlayByPlay, [Shots], gameDate);
    if LoadFact(d1, s, l, PlayByPlay, gameDate).Ok? {
      ShotsInOrder(LoadFact(d1, s, l, PlayByPlay, gameDate).value, s, l, gameDate);
    }
  }

  /** `load_date` loads player stats, then play-by-play on what that left, then shots on what that left. */
  lemma LoadDateInOrder(db: Db, s: Store, l: Layout, gameDate: string)
    ensures LoadDate(db, s, l, gameDate) == DateInOrder(db, s, l, gameDate)
  {
    assert DateFacts == [PlayerStats] + [PlayByPlay, Shots];
    LoadFactsCons(db, s, l, PlayerStats, [PlayByPlay, Shots], gameDate);
    if LoadFact(db, s, l, PlayerStats, gameDate).Ok? {
      PlayByPlayInOrder(LoadFact(db, s, l, PlayerStats, gameDate).value, s, l, gameDate);
    }
  }

  /** A failed player-stats load ends `load_date` with its error and nothing written. */
  lemma PlayerStatsFailureStops(db: Db, s: Store, l: Layout, gameDate: string)
    requires LoadFact(db, s, l, PlayerStats, gameDate).Err?
    ensures LoadDate(db, s, l, gameDate) == Progress(db, Some(LoadFact(db, s, l, PlayerStats, gameDate).error))
  {
    LoadDateInOrder(db, s, l, gameDate);
  }

  /**
   * Re-running the loads on any database that already holds the first run's fact
   * tables and dimensions changes nothing and ends the same way.
   */
  lemma {:induction false} LoadFactsRerun(db: Db, x: Db, s: Store, l: Layout, facts: seq<Fact>, gameDate: string)
    requires DistinctFacts(facts)
    requires AgreeOn(x, LoadFacts(db, s, l, facts, gameDate).db, TargetsOf(facts) + Dims)
    ensures LoadFacts(x, s, l, facts, gameDate) == Progress(x, LoadFacts(db, s, l, facts, gameDate).error)
    decreases |facts|
  {
    if facts != [] {
      var f := facts[0];
      var rest := facts[1..];
      assert f.Target() in TargetsOf(facts);
      match LoadFact(db, s, l, f, gameDate)
      case Err(e) =>
        LoadFactLocal(db, x, s, l, f, gameDate);
      case Ok(d1) =>
        TargetsOfTail(facts);
        assert AgreeOn(d1, x, {f.Target()} + Dims);
        RerunFirst(db, d1, x, s, l, f, gameDate);
        LoadFactsRerun(d1, x, s, l, rest, gameDate);
    }
  }

  /** The first load, re-run where its table and the dimensions already hold its result, changes nothing. */
  lemma RerunFirst(db: Db, d1: Db, x: Db, s: Store, l: Layout, f: Fact, gameDate: string)
    requires LoadFact(db, s, l, f, gameDate) == Ok(d1)
    requires AgreeOn(d1, x, {f.Target()} + Dims)
    ensures LoadFact(x, s, l, f, gameDate) == Ok(x)
  {
    LoadFactIdempotent(db, s, l, f, gameDate);
    LoadFactLocal(d1, x, s, l, f, gameDate);
    assert Overlay(x, d1, f.Target()) == x;
  }

  lemma TargetsOfTail(facts: seq<Fact>)
    requires DistinctFacts(facts) && facts != []
    ensures DistinctFacts(facts[1..])
    ensures facts[0].Target() !in TargetsOf(facts[1..])
    ensures TargetsOf(facts[1..]) <= TargetsOf(facts)
    ensures forall n :: n in TargetsOf(facts) ==> n !in Dims
  {
    var rest := facts[1..];
    forall n | n in TargetsOf(rest)
      ensures n in TargetsOf(facts) && n != facts[0].Target()
    {
      var i :| 0 <= i < |rest| && rest[i].Target() == n;
      assert facts[i + 1] == rest[i];
    }
  }

  /** `load_date` is safe to re-run: the second run leaves the database as the first left it. */
  lemma LoadDateIdempotent(db: Db, s: Store, l: Layout, gameDate: string)
    ensures LoadDate(LoadDate(db, s, l, gameDate).db, s, l, gameDate) == LoadDate(db, s, l, gameDate)
  {
    LoadFactsRerun(db, LoadDate(db, s, l, gameDate).db, s, l, DateFacts, gameDate);
  }

  // ── Dimension loaders and the team-stats fact ────────────────────────

  function Sources(renames: Renames): (cols: seq<string>)
    ensures |cols| == |renames| && forall i :: 0 <= i < |renames| ==> cols[i] == renames[i].0
  {
    seq(|renames|, i requires 0 <= i < |renames| => renames[i].0)
  }

  function Targets(renames: Renames): (cols: seq<string>)
    ensures |cols| == |renames| && forall i :: 0 <= i < |renames| ==> cols[i] == renames[i].1
  {
    seq(|renames|, i requires 0 <= i < |renames| => renames[i].1)
  }

  /** Renaming a frame that has every old name succeeds, each new column carrying its old column's cells. */
  lemma RenameAll(df: Frame, renames: Renames)
    requires DistinctTargets(renames)
    requires forall i :: 0 <= i < |renames| ==> renames[i].0 in df.columns
    ensures RenameSelect(df, renames, Targets(renames)).Ok?
    ensures forall i, j :: 0 <= i < |df.rows| && 0 <= j < |renames| ==>
              Cell(RenameSelect(df, renames, Targets(renames)).value.rows[i], renames[j].1)
              == Cell(df.rows[i], renames[j].0)
  {
    forall j | 0 <= j < |renames|
      ensures SourceOf(renames, df.columns, renames[j].1) == Some(renames[j].0)
    {
      SourceOfPair(renames, df.columns, j);
    }
  }

  /**
   * `df[[old, …]].drop_duplicates(subset=[old key]).rename(columns={old: new, …})`:
   * KeyError when an old name is missing; otherwise the first row of each key,
   * under the new names, with every key of the input still present.
   */
  function SelectDedupRename(df: Frame, renames: Renames, key: nat): (r: Result<Frame, Failure>)
    requires key < |renames| && DistinctTargets(renames)
    ensures r.Ok? <==> forall i :: 0 <= i < |renames| ==> renames[i].0 in df.columns
    ensures r.Err? ==> r.error.KeyError?
    ensures r.Ok? ==> r.value.columns == SetOf(Targets(renames))
    ensures r.Ok? ==> UniqueKeys(r.value.rows, [renames[key].1])
    ensures r.Ok? ==> KeySet(r.value.rows, [renames[key].1]) == KeySet(df.rows, [renames[key].0])
  {
    var sk := [renames[key].0];
    PickSources(df, renames, key);
    match RenameSelect(df, [], Sources(renames))
    case Err(e) => Err(e)
    case Ok(picked) =>
      DedupRenamed(picked, renames, key);
      Ok(RenameSelect(Frame(picked.columns, FirstOccurrences(picked.rows, sk)), renames, Targets(renames)).value)
  }

  /** Selecting the old names succeeds exactly when all exist, and keeps the rows' keys. */
  lemma PickSources(df: Frame, renames: Renames, key: nat)
    requires key < |renames|
    ensures var p := RenameSelect(df, [], Sources(renames));
            && (p.Ok? <==> forall i :: 0 <= i < |renames| ==> renames[i].0 in df.columns)
            && (p.Err? ==> p.error.KeyError?)
            && (p.Ok? ==> (forall i :: 0 <= i < |renames| ==> renames[i].0 in p.value.columns)
                          && KeySet(p.value.rows, [renames[key].0]) == KeySet(df.rows, [renames[key].0]))
  {
    var sk := [renames[key].0];
    var p := RenameSelect(df, [], Sources(renames));
    if p.Ok? {
      SameKeys(p.value.rows, sk, df.rows, sk);
    }
  }

  lemma DedupRenamed(picked: Frame, renames: Renames, key: nat)
    requires key < |renames| && DistinctTargets(renames)
    requires forall i :: 0 <= i < |renames| ==> renames[i].0 in picked.columns
    ensures var kept := Frame(picked.columns, FirstOccurrences(picked.rows, [renames[key].0]));
            var r := RenameSelect(kept, renames, Targets(renames));
            && r.Ok?
            && r.value.columns == SetOf(Targets(renames))
            && UniqueKeys(r.value.rows, [renames[key].1])
            && KeySet(r.value.rows, [renames[key].1]) == KeySet(picked.rows, [renames[key].0])
  {
    var sk := [renames[key].0];
    var kept := Frame(picked.columns, FirstOccurrences(picked.rows, sk));
    RenameAll(kept, renames);
    var out := RenameSelect(kept, renames, Targets(renames)).value;
    FirstOccurrencesUnique(picked.rows, sk);
    FirstOccurrencesKeys(picked.rows, sk);
    assert forall i :: 0 <= i < |out.rows| ==> KeyOf(out.rows[i], [renames[key].1]) == KeyOf(kept.rows[i], sk);
    SameKeys(out.rows, [renames[key].1], kept.rows, sk);
  }

  /** `astype(str).str[-4:].astype(int)`'s `int()`: an optional sign, then decimal digits. */
  function IntOfText(t: string): (r: Option<int>)
    ensures |t| > 0 && Text.AllDigits(t) ==> r == Some(Text.ParseNat(t) as int)
  {
    if |t| > 0 && (t[0] == '-' || t[0] == '+') then
      if |t| > 1 && Text.AllDigits(t[1..]) then
        Some(if t[0] == '-' then -(Text.ParseNat(t[1..]) as int) else Text.ParseNat(t[1..]))
      else None
    else if |t| > 0 && Text.AllDigits(t) then Some(Text.ParseNat(t))
    else None
  }

  /** `int(str(i)) == i`: reading back the text `str` prints gives the integer again. */
  lemma IntOfIntText(i: int)
    ensures IntOfText(Text.IntText(i)) == Some(i)
  {
    if i < 0 {
      Text.ParseNatText(-i);
      assert Text.IntText(i)[1..] == Text.NatText(-i);
    } else {
      Text.ParseNatText(i);
    }
  }

  /**
   * `load_dim_games`' `season_id`: the last four characters of the cell printed as
   * text, read as an integer. Cells other than text and integers raise ValueError.
   */
  function SeasonIdOf(v: Value): (r: Result<Value, Failure>)
    ensures r.Ok? ==> r.value.VInt?
    ensures v.VStr? && |v.s| <= 4 ==> r.Ok? == IntOfText(v.s).Some?
  {
    var t :- match v
             case VStr(t) => Ok(t)
             case VInt(i) => Ok(Text.IntText(i))
             case _ => Err(ValueError("invalid literal for int()"));
    match IntOfText(Text.LastN(t, 4))
    case Some(n) => Ok(VInt(n))
    case None => Err(ValueError("invalid literal for int()"))
  }

  lemma ModOfShifted(q: nat, r: nat)
    requires r < 10000
    ensures (q * 10000 + r) % 10000 == r
  {
  }

  /**
   * A SEASON_ID of at least four digits, as an integer or as its text (the API's
   * `22023`), becomes the number its last four digits spell: the season's start year.
   */
  lemma SeasonIdOfNat(n: nat)
    requires n >= 1000
    ensures SeasonIdOf(VInt(n)) == Ok(VInt(n % 10000))
    ensures SeasonIdOf(VStr(Text.NatText(n))) == Ok(VInt(n % 10000))
  {
    LastFourDigits(n);
  }

  /** From four digits on, the last four characters of `str(n)` are digits spelling `n % 10000`. */
  lemma LastFourDigits(n: nat)
    requires n >= 1000
    ensures |Text.LastN(Text.NatText(n), 4)| == 4 && Text.AllDigits(Text.LastN(Text.NatText(n), 4))
    ensures Text.ParseNat(Text.LastN(Text.NatText(n), 4)) == n % 10000
  {
    var s := Text.NatText(n);
    assert Text.Pow10(3) == 1000;
    Text.NatTextLong(n, 3);
    var a := s[..|s| - 4];
    var b := s[|s| - 4..];
    assert s == a + b;
    assert Text.LastN(s, 4) == b;
    assert Text.AllDigits(a) && Text.AllDigits(b) by {
      assert forall i :: 0 <= i < |a| ==> a[i] == s[i];
      assert forall i :: 0 <= i < |b| ==> b[i] == s[|s| - 4 + i];
    }
    Text.ParseNatAppend(a, b);
    Text.ParseNatText(n);
    Text.ParseNatBound(b);
    assert Text.Pow10(4) == 10000;
    ModOfShifted(Text.ParseNat(a), Text.ParseNat(b));
  }

  /** The API's `22023` is season 2023. */
  lemma SeasonIdExample()
    ensures SeasonIdOf(VStr("22023")) == Ok(VInt(2023))
  {
    var t := "2023";
    assert Text.LastN("22023", 4) == t;
    assert Text.AllDigits(t);
    assert t[..3] == "202" && t[..3][..2] == "20" && t[..3][..2][..1] == "2";
    assert Text.ParseNat("2") == 2;
    assert Text.ParseNat("20") == 20;
    assert Text.ParseNat("202") == 202;
    assert Text.ParseNat(t) == 2023;
  }

  /** A season string such as `2023-24` ends in `3-24`, which `int()` rejects. */
  lemma SeasonIdRejectsSeasonText()
    ensures SeasonIdOf(VStr("2023-24")).Err?
  {
    assert Text.LastN("2023-24", 4) == "3-24";
    assert !Text.IsDigit("3-24"[1]);
  }

  /** One row with its `season_id` converted. */
  function SeasonIdSet(row: Row): (r: Result<Row, Failure>)
    ensures r.Ok? <==> SeasonIdOf(Cell(row, "season_id")).Ok?
    ensures r.Ok? ==> r.value == row["season_id" := SeasonIdOf(Cell(row, "season_id")).value]
  {
    var v :- SeasonIdOf(Cell(row, "season_id"));
    Ok(row["season_id" := v])
  }

  /** `games_df["season_id"] = …`: every row's `season_id` rewritten, the first bad cell raising. */
  function SeasonIds(rows: seq<Row>): (r: Result<seq<Row>, Failure>)
    ensures r.Ok? <==> forall i :: 0 <= i < |rows| ==> SeasonIdOf(Cell(rows[i], "season_id")).Ok?
    ensures r.Ok? ==> |r.value| == |rows|
    ensures r.Ok? ==> forall i :: 0 <= i < |rows| ==>
              r.value[i] == rows[i]["season_id" := SeasonIdOf(Cell(rows[i], "season_id")).value]
  {
    EachRow(SeasonIdSet, rows)
  }

  /** The loads `--dims` adds, in their order. */
  datatype Refresh = DimTeams | DimPlayers | DimGames | TeamStats {
    /** The unpartitioned silver file the loader reads. */
    function Path(l: Layout): string {
      if this == DimPlayers then l.silver + "/players/players.parquet" else l.silver + "/teams/teams.parquet"
    }

    function Target(): (t: string)
      ensures t in Schema
    {
      match this
      case DimTeams => "teams"
      case DimPlayers => "players"
      case DimGames => "games"
      case TeamStats => "fact_team_stats"
    }

    function Key(): (k: seq<string>)
      ensures k == Schema[Target()].pk
    {
      match this
      case DimTeams => ["id"]
      case DimPlayers => ["player_id"]
      case DimGames => ["game_id"]
      case TeamStats => ["game_id", "team_id"]
    }
  }

  const RefreshOrder: seq<Refresh> := [DimTeams, DimPlayers, DimGames, TeamStats]

  const TeamsMapping: Renames := [("TEAM_ID", "id"), ("TEAM_ABBREVIATION", "abbreviation"), ("TEAM_NAME", "team_name")]

  const GamesMapping: Renames := [("GAME_ID", "game_id"), ("SEASON_ID", "season_id"), ("GAME_DATE", "game_date")]

  const TeamStatsMapping: Renames :=
    [("GAME_ID", "game_id"), ("TEAM_ID", "team_id"), ("MATCHUP", "matchup"), ("WL", "wl"),
     ("MIN", "minutes"), ("PTS", "pts"), ("PLUS_MINUS", "plus_minus")]

  /** The renamed columns are the target tables' columns (all of them, but for team stats). */
  lemma MappingTargets()
    ensures Targets(TeamsMapping) == TeamsColumns
    ensures Targets(GamesMapping) == GamesColumns
    ensures SetOf(Targets(TeamStatsMapping)) <= SetOf(TeamStatsColumns)
    ensures Targets(TeamStatsMapping) == ["game_id", "team_id", "matchup", "wl", "minutes", "pts", "plus_minus"]
  {
    assert Targets(TeamStatsMapping) == ["game_id", "team_id", "matchup", "wl", "minutes", "pts", "plus_minus"];
  }

  /** The cells `pd.to_numeric(…, errors="coerce")` can leave. */
  predicate IsNumeric(v: Value) {
    v.VNull? || v.VInt? || v.VNum? || v.VBool?
  }

  /** `to_numeric` on one column of every row. */
  function Numeric(df: Frame, c: string): (out: Frame)
    ensures out.columns == df.columns + {c} && SameExcept(df, out, c)
    ensures forall i :: 0 <= i < |out.rows| ==> IsNumeric(Cell(out.rows[i], c))
  {
    Assign(df, c, (row: Row) => ToNumeric(Cell(row, c)))
  }

  /** `load_dim_teams`' frame: one row per TEAM_ID, renamed to the `teams` columns. */
  function TeamsFrame(df: Frame): (r: Result<Frame, Failure>)
    ensures r.Ok? <==> forall i :: 0 <= i < |TeamsMapping| ==> TeamsMapping[i].0 in df.columns
    ensures r.Ok? ==> r.value.columns == Schema["teams"].columns && UniqueKeys(r.value.rows, ["id"])
    ensures r.Ok? ==> KeySet(r.value.rows, ["id"]) == KeySet(df.rows, ["TEAM_ID"])
  {
    MappingTargets();
    SelectDedupRename(df, TeamsMapping, 0)
  }

  /** `load_dim_players`' frame: `id` renamed to `player_id`, four columns, one row per player. */
  function PlayersFrame(df: Frame): (r: Result<Frame, Failure>)
    ensures r.Ok? <==> RenameSelect(df, [("id", "player_id")], PlayersColumns).Ok?
    ensures r.Ok? ==> r.value.columns == Schema["players"].columns && UniqueKeys(r.value.rows, ["player_id"])
    ensures r.Ok? ==> KeySet(r.value.rows, ["player_id"])
                      == KeySet(RenameSelect(df, [("id", "player_id")], PlayersColumns).value.rows, ["player_id"])
  {
    match RenameSelect(df, [("id", "player_id")], PlayersColumns)
    case Err(e) => Err(e)
    case Ok(picked) =>
      FirstOccurrencesUnique(picked.rows, ["player_id"]);
      FirstOccurrencesKeys(picked.rows, ["player_id"]);
      Ok(Frame(picked.columns, FirstOccurrences(picked.rows, ["player_id"])))
  }

  /** `load_dim_games`' frame: one row per GAME_ID, with an integer `season_id`. */
  function GamesFrame(df: Frame): (r: Result<Frame, Failure>)
    ensures r.Ok? ==> r.value.columns == Schema["games"].columns && UniqueKeys(r.value.rows, ["game_id"])
    ensures r.Ok? ==> KeySet(r.value.rows, ["game_id"]) == KeySet(df.rows, ["GAME_ID"])
    ensures r.Ok? ==> forall i :: 0 <= i < |r.value.rows| ==> Cell(r.value.rows[i], "season_id").VInt?
  {
    MappingTargets();
    match SelectDedupRename(df, GamesMapping, 0)
    case Err(e) => Err(e)
    case Ok(games) =>
      match SeasonIds(games.rows)
      case Err(e) => Err(e)
      case Ok(rows) =>
        SeasonIdsKeys(games.rows, "game_id");
        Ok(Frame(games.columns, rows))
  }

  /** Converting `season_id` leaves every row's key, on any key column other than it, unchanged. */
  lemma SeasonIdsKeys(rows: seq<Row>, k: string)
    requires SeasonIds(rows).Ok? && k != "season_id"
    ensures KeySet(SeasonIds(rows).value, [k]) == KeySet(rows, [k])
    ensures UniqueKeys(SeasonIds(rows).value, [k]) <==> UniqueKeys(rows, [k])
  {
    var out := SeasonIds(rows).value;
    forall i | 0 <= i < |out| ensures KeyOf(out[i], [k]) == KeyOf(rows[i], [k]) {
      assert out[i] == rows[i]["season_id" := SeasonIdOf(Cell(rows[i], "season_id")).value];
    }
    SameKeys(out, [k], rows, [k]);
  }

  /** `load_fact_team_stats`' frame: seven columns, three made numeric, one row per (game, team). */
  function TeamStatsFrame(df: Frame): (r: Result<Frame, Failure>)
    ensures r.Ok? <==> RenameSelect(df, TeamStatsMapping, Targets(TeamStatsMapping)).Ok?
    ensures r.Ok? ==> r.value.columns <= Schema["fact_team_stats"].columns
    ensures r.Ok? ==> r.value.columns == SetOf(Targets(TeamStatsMapping))
    ensures r.Ok? ==> UniqueKeys(r.value.rows, ["game_id", "team_id"])
    ensures r.Ok? ==> KeySet(r.value.rows, ["game_id", "team_id"])
                      == KeySet(RenameSelect(df, TeamStatsMapping, Targets(TeamStatsMapping)).value.rows, ["game_id", "team_id"])
    ensures r.Ok? ==> forall i, c :: 0 <= i < |r.value.rows| && c in {"pts", "plus_minus", "minutes"}
                                     ==> IsNumeric(Cell(r.value.rows[i], c))
  {
    match RenameSelect(df, TeamStatsMapping, Targets(TeamStatsMapping))
    case Err(e) => Err(e)
    case Ok(picked) =>
      MappingTargets();
      var numeric := Numeric(Numeric(Numeric(picked, "pts"), "plus_minus"), "minutes");
      var key := ["game_id", "team_id"];
      FirstOccurrencesUnique(numeric.rows, key);
      FirstOccurrencesNumeric(numeric.rows, key);
      NumericKeepsKeys(picked);
      Ok(Frame(numeric.columns, FirstOccurrences(numeric.rows, key)))
  }

  /** The three statistics made numeric are among the selected columns. */
  lemma StatsTargetsPresent()
    ensures "pts" in SetOf(Targets(TeamStatsMapping))
    ensures "plus_minus" in SetOf(Targets(TeamStatsMapping))
    ensures "minutes" in SetOf(Targets(TeamStatsMapping))
  {
    MappingTargets();
    var targets := Targets(TeamStatsMapping);
    assert targets[5] == "pts" && targets[6] == "plus_minus" && targets[4] == "minutes";
  }

  /** Making a non-key column numeric keeps every row's key. */
  lemma NumericKeepsKey(df: Frame, c: string, key: seq<string>)
    requires c !in key
    ensures |Numeric(df, c).rows| == |df.rows|
    ensures forall i :: 0 <= i < |df.rows| ==> KeyOf(Numeric(df, c).rows[i], key) == KeyOf(df.rows[i], key)
  {
    KeyCells(Numeric(df, c).rows, df.rows, key);
  }

  /** Making a column that is already there numeric adds no column. */
  lemma NumericSameColumns(df: Frame, c: string)
    requires c in df.columns
    ensures Numeric(df, c).columns == df.columns
  {
  }

  /** Making the three statistics numeric keeps the columns present and every (game, team) key. */
  lemma NumericKeepsKeys(picked: Frame)
    requires picked.columns == SetOf(Targets(TeamStatsMapping))
    ensures var numeric := Numeric(Numeric(Numeric(picked, "pts"), "plus_minus"), "minutes");
            && numeric.columns == picked.columns
            && KeySet(FirstOccurrences(numeric.rows, ["game_id", "team_id"]), ["game_id", "team_id"])
               == KeySet(picked.rows, ["game_id", "team_id"])
  {
    var key := ["game_id", "team_id"];
    var a := Numeric(picked, "pts");
    var b := Numeric(a, "plus_minus");
    var numeric := Numeric(b, "minutes");
    StatsTargetsPresent();
    NumericSameColumns(picked, "pts");
    NumericSameColumns(a, "plus_minus");
    NumericSameColumns(b, "minutes");
    NumericKeepsKey(picked, "pts", key);
    NumericKeepsKey(a, "plus_minus", key);
    NumericKeepsKey(b, "minutes", key);
    SameKeys(numeric.rows, key, picked.rows, key);
    FirstOccurrencesKeys(numeric.rows, key);
  }

  /** The frame each `--dims` loader upserts. */
  function RefreshFrame(x: Refresh, df: Frame): (r: Result<Frame, Failure>)
    ensures r.Ok? ==> UniqueKeys(r.value.rows, x.Key())
    ensures r.Ok? ==> r.value.columns <= Schema[x.Target()].columns
  {
    match x
    case DimTeams => TeamsFrame(df)
    case DimPlayers => PlayersFrame(df)
    case DimGames => GamesFrame(df)
    case TeamStats => TeamStatsFrame(df)
  }

  lemma FirstOccurrencesNumeric(rows: seq<Row>, key: seq<string>)
    requires forall i, c :: 0 <= i < |rows| && c in {"pts", "plus_minus", "minutes"} ==> IsNumeric(Cell(rows[i], c))
    ensures forall k, c :: 0 <= k < |FirstOccurrences(rows, key)| && c in {"pts", "plus_minus", "minutes"}
                           ==> IsNumeric(Cell(FirstOccurrences(rows, key)[k], c))
  {
    forall k | 0 <= k < |FirstOccurrences(rows, key)|
      ensures FirstOccurrences(rows, key)[k] in rows
    {
      FirstOccurrencesAreFirst(rows, key, k);
    }
  }

  /** `load_dim_*` / `load_fact_team_stats`: read, shape, upsert. A missing file raises. */
  function LoadRefresh(db: Db, s: Store, l: Layout, x: Refresh): (r: Result<Db, Failure>)
    ensures r.Ok? ==> r.value.Keys == db.Keys
    ensures r.Ok? ==> forall n :: n in db && n != x.Target() ==> r.value[n] == db[n]
    ensures x.Path(l) !in s ==> r == Err(FileNotFound(x.Path(l)))
  {
    var df :- ReadParquet(s, x.Path(l));
    var staged :- RefreshFrame(x, df);
    var rep :- Upsert(db, staged, x.Target(), x.Key());
    Ok(rep.db)
  }

  function RefreshTargets(xs: seq<Refresh>): set<string> {
    set i | 0 <= i < |xs| :: xs[i].Target()
  }

  /** The `--dims` loads one after another, the first exception stopping the rest. */
  function Refreshes(db: Db, s: Store, l: Layout, xs: seq<Refresh>): (r: Progress)
    ensures r.db.Keys == db.Keys
    ensures forall n :: n in db && n !in RefreshTargets(xs) ==> r.db[n] == db[n]
    decreases |xs|
  {
    if xs == [] then Progress(db, None)
    else
      match LoadRefresh(db, s, l, xs[0])
      case Err(e) => Progress(db, Some(e))
      case Ok(db1) =>
        assert forall n :: n in RefreshTargets(xs[1..]) ==> n in RefreshTargets(xs) by {
          forall n | n in RefreshTargets(xs[1..])
            ensures n in RefreshTargets(xs)
          {
            var i :| 0 <= i < |xs[1..]| && xs[1..][i].Target() == n;
            assert xs[i + 1].Target() == n;
          }
        }
        Refreshes(db1, s, l, xs[1..])
  }

  /**
   * The command line: the schema first, then with `--dims` the dimensions and team
   * stats, then the date's facts; an exception ends the run with what committed so far.
   */
  function Cli(db: Db, s: Store, l: Layout, gameDate: string, dims: bool): (r: Progress)
    ensures r.db.Keys == db.Keys + Schema.Keys
    ensures !dims ==> forall n :: n in Dims ==> r.db[n] == InitSchema(db)[n]
  {
    var db0 := InitSchema(db);
    if !dims then LoadDate(db0, s, l, gameDate)
    else
      var p := Refreshes(db0, s, l, RefreshOrder);
      if p.error.Some? then p else LoadDate(p.db, s, l, gameDate)
  }

  /**
   * The command's order: after the schema, without `--dims` the date's facts in
   * order; with it the dimension refreshes, and the facts only when every
   * refresh succeeded, on the database the refreshes left.
   */
  lemma CliOrder(db: Db, s: Store, l: Layout, gameDate: string, dims: bool)
    ensures !dims ==> Cli(db, s, l, gameDate, dims) == DateInOrder(InitSchema(db), s, l, gameDate)
    ensures var p := Refreshes(InitSchema(db), s, l, RefreshOrder);
            dims && p.error.Some? ==> Cli(db, s, l, gameDate, dims) == p
    ensures var p := Refreshes(InitSchema(db), s, l, RefreshOrder);
            dims && p.error.None? ==> Cli(db, s, l, gameDate, dims) == DateInOrder(p.db, s, l, gameDate)
  {
    var db0 := InitSchema(db);
    if dims {
      LoadDateInOrder(Refreshes(db0, s, l, RefreshOrder).db, s, l, gameDate);
    } else {
      LoadDateInOrder(db0, s, l, gameDate);
    }
  }

  /** Running the command twice for a date, without `--dims`, is the same as running it once. */
  lemma CliIdempotent(db: Db, s: Store, l: Layout, gameDate: string)
    ensures Cli(Cli(db, s, l, gameDate, false).db, s, l, gameDate, false) == Cli(db, s, l, gameDate, false)
  {
    var db0 := InitSchema(db);
    var once := Cli(db, s, l, gameDate, false).db;
    assert InitSchema(once) == once;
    LoadDateIdempotent(db0, s, l, gameDate);
  }
}

=== FILE: legacy_extraction.dfy ===
/**
 * The older silver step (src/data_extraction.py): the same converters and
 * `process_date` as the current extraction, without the data contracts.
 * The season rule, the manifest reader, `_game_id_from_file` and the clock
 * parser are the same code and are shared with the Silver module. Two things
 * differ: the shot converter casts an empty table instead of returning it,
 * and `process_date` has no early return for an empty manifest, so it
 * computes the season even when the manifest lists no games.
 */
module LegacyExtraction {
  import opened Wrappers
  import opened Frames
  import opened Store
  import Silver

  // ── Converters ──────────────────────────────────────────────────────

  /**
   * `convert_boxscore` without validation. It returns the same frame as the
   * current converter and raises exactly when that one does.
   */
  function ConvertBoxscore(gid: string, data: Json): (r: Result<Frame, Failure>)
    ensures r.Ok? <==> Silver.ConvertBoxscore(gid, data).Ok?
    ensures r.Ok? ==> r.value == Silver.ConvertBoxscore(gid, data).value.frame
  {
    match Index(data, "boxScoreAdvanced")
    case Err(_) => Ok(EmptyFrame())
    case Ok(bs) =>
      var records :- Silver.Flatten(bs);
      if records == [] then Ok(EmptyFrame())
      else
        var df :- Silver.BoxscoreFrame(gid, records);
        DropDuplicates(df, Silver.BoxscorePk)
  }

  /**
   * `convert_pbp` without validation. It returns the same frame as the
   * current converter and raises exactly when that one does.
   */
  function ConvertPbp(gid: string, data: Json): (r: Result<Frame, Failure>)
    ensures r.Ok? <==> Silver.ConvertPbp(gid, data).Ok?
    ensures r.Ok? ==> r.value == Silver.ConvertPbp(gid, data).value.frame
  {
    match Silver.Actions(data)
    case Err(_) => Ok(EmptyFrame())
    case Ok(actions) =>
      if !JTruthy(actions) then Ok(EmptyFrame())
      else
        var records :- Silver.ActionRecords(actions);
        var df :- Silver.PbpFrame(gid, records);
        DropDuplicates(df, Silver.PbpPk)
  }

  /**
   * `convert_shotchart` without validation. An empty table is stamped, cast
   * and de-duplicated like any other, so a missing cast column raises
   * KeyError where the current converter returns the empty table. A
   * non-empty table gives the current converter's frame.
   */
  function ConvertShotchart(gid: string, data: Json): (r: Result<Frame, Failure>)
    ensures Silver.ConvertShotchart(gid, data).Err? ==> r.Err?
    ensures r.Ok? ==> Silver.ConvertShotchart(gid, data).Ok?
    ensures r.Ok? ==> (IsEmpty(r.value) <==> IsEmpty(Silver.ConvertShotchart(gid, data).value.frame))
    ensures r.Ok? && !IsEmpty(r.value) ==> r.value == Silver.ConvertShotchart(gid, data).value.frame
  {
    match Silver.FirstResultSet(data)
    case Err(_) => Ok(EmptyFrame())
    case Ok(results) =>
      var df0 :- Silver.ShotTable(results);
      var df1 := Silver.Stamp(df0, gid);
      var df2 :- Silver.ApplyCasts(df1, Silver.ShotCasts);
      var out := DropDuplicates(df2, Silver.ShotPk);
      assert Silver.ShotCasts[0].col == "PLAYER_ID";
      assert out.Ok? && IsEmpty(df0) ==> IsEmpty(out.value) by {
        if out.Ok? && |df0.rows| == 0 {
          assert FirstOccurrences(df2.rows, Silver.ShotPk) == [];
        }
      }
      out
  }

  /** An empty table without a PLAYER_ID column: the older converter raises, the current one returns it. */
  lemma EmptyShotTableRaises(gid: string)
    ensures var results := JObj(map["headers" := JArr([JStr("GAME_EVENT_ID")]), "rowSet" := JArr([])]);
            var data := JObj(map["resultSets" := JArr([results])]);
            && ConvertShotchart(gid, data) == Err(KeyError("PLAYER_ID"))
            && Silver.ConvertShotchart(gid, data).Ok?
  {
    var results := JObj(map["headers" := JArr([JStr("GAME_EVENT_ID")]), "rowSet" := JArr([])]);
    var data := JObj(map["resultSets" := JArr([results])]);
    assert Silver.FirstResultSet(data) == Ok(results);
    var df0 := Silver.ShotTable(results).value;
    var names: seq<string> := ["GAME_EVENT_ID"];
    assert Silver.TextList(JArr([JStr("GAME_EVENT_ID")])).value == names;
    assert Distinct(names);
    assert Silver.ColumnNames(JArr([JStr("GAME_EVENT_ID")])) == Ok(names);
    assert Silver.CellRows(JArr([])) == Ok([]);
    assert df0 == FromTable(["GAME_EVENT_ID"], []).value;
    assert "PLAYER_ID" !in Silver.Stamp(df0, gid).columns;
  }

  /** One bronze file through its kind's older converter. */
  function ConvertFile(k: Kind, path: string, f: File): (r: Result<Frame, Failure>)
    ensures Silver.ConvertFile(k, path, f).Err? ==> r.Err?
    ensures r.Ok? ==> Silver.ConvertFile(k, path, f).Ok?
    ensures r.Ok? ==> (IsEmpty(r.value) <==> IsEmpty(Silver.ConvertFile(k, path, f).value.frame))
    ensures r.Ok? && !IsEmpty(r.value) ==> r.value == Silver.ConvertFile(k, path, f).value.frame
    ensures k != ShotChart ==> (r.Ok? <==> Silver.ConvertFile(k, path, f).Ok?)
  {
    var data :- AsJson(f);
    var gid := Silver.GameIdFromFile(path);
    match k
    case Boxscore => ConvertBoxscore(gid, data)
    case Pbp => ConvertPbp(gid, data)
    case ShotChart => ConvertShotchart(gid, data)
  }

  // ── process_date ────────────────────────────────────────────────────

  /** The older converter's outcome on the game's artifact of kind `k`; None when the file is absent. */
  function Attempt(s: Store, l: Layout, k: Kind, gid: string): Option<Result<Frame, Failure>> {
    var path := ArtifactPath(l, k, gid);
    if path in s then Some(ConvertFile(k, path, s[path])) else None
  }

  /**
   * One kind's loop over the manifest: the non-empty frames in manifest
   * order, or the first converter exception.
   */
  function ConvertGames(s: Store, l: Layout, k: Kind, gids: seq<string>): (r: Result<seq<Frame>, Failure>)
    ensures r.Ok? ==> forall i :: 0 <= i < |r.value| ==> !IsEmpty(r.value[i])
    decreases |gids|
  {
    if gids == [] then Ok([])
    else
      match Attempt(s, l, k, gids[0])
      case None => ConvertGames(s, l, k, gids[1..])
      case Some(Err(e)) => Err(e)
      case Some(Ok(df)) =>
        var rest :- ConvertGames(s, l, k, gids[1..]);
        if IsEmpty(df) then Ok(rest) else Ok([df] + rest)
  }

  /** The older loop finishing means the current one finishes too, with the same frames. */
  lemma {:induction false} ConvertGamesAgree(s: Store, l: Layout, k: Kind, gids: seq<string>)
    requires ConvertGames(s, l, k, gids).Ok?
    ensures Silver.ConvertGames(s, l, k, gids).error.None?
    ensures Silver.ConvertGames(s, l, k, gids).frames == ConvertGames(s, l, k, gids).value
    decreases |gids|
  {
    if gids != [] {
      ConvertGamesAgree(s, l, k, gids[1..]);
      Silver.OutcomesTail(s, l, k, gids);
    }
  }

  /** Partition writes and the exception that ended the loop over kinds. */
  datatype Writes = Writes(files: map<string, File>, error: Option<Failure>)

  /** The loop over kinds: each kind with a frame has its partition written; an exception stops the loop. */
  function ProcessKinds(s: Store, l: Layout, season: int, gameDate: string, gids: seq<string>, kinds: seq<Kind>): (o: Writes)
    decreases |kinds|
  {
    if kinds == [] then Writes(map[], None)
    else
      match ConvertGames(s, l, kinds[0], gids)
      case Err(e) => Writes(map[], Some(e))
      case Ok(frames) =>
        var w: map<string, File> :=
          if frames == [] then map[] else map[Silver.KindPartition(l, kinds[0], season, gameDate) := Parquet(Concat(frames))];
        var rest := ProcessKinds(s, l, season, gameDate, gids, kinds[1..]);
        Writes(w + rest.files, rest.error)
  }

  /** The older loop over kinds finishing means the current one finishes too, with the same writes. */
  lemma {:induction false} ProcessKindsAgree(s: Store, l: Layout, season: int, gameDate: string, gids: seq<string>,
                                             kinds: seq<Kind>)
    requires ProcessKinds(s, l, season, gameDate, gids, kinds).error.None?
    ensures Silver.ProcessKinds(s, l, season, gameDate, gids, kinds).error.None?
    ensures Silver.ProcessKinds(s, l, season, gameDate, gids, kinds).writes
            == ProcessKinds(s, l, season, gameDate, gids, kinds).files
    decreases |kinds|
  {
    if kinds != [] {
      ConvertGamesAgree(s, l, kinds[0], gids);
      ProcessKindsAgree(s, l, season, gameDate, gids, kinds[1..]);
    }
  }

  /** The store a run leaves and the exception it raised, if any. */
  datatype RunState = RunState(store: Store, error: Option<Failure>)

  /**
   * `process_date` of the older copy: the manifest's absence raises; the
   * season is computed next, so a day that is not `YYYY-MM-DD` raises even
   * on an empty manifest; then each kind's partition is written from the
   * bronze files that yield rows.
   */
  function ProcessDate(s: Store, l: Layout, gameDate: string): (r: RunState)
    ensures ManifestPath(l, gameDate) !in s ==> r == RunState(s, Some(FileNotFound(ManifestPath(l, gameDate))))
    ensures Silver.LoadManifest(s, l, gameDate) == Ok([]) ==>
              r.store == s && (r.error.None? <==> Silver.SeasonOf(gameDate).Ok?)
  {
    match Silver.LoadManifest(s, l, gameDate)
    case Err(e) => RunState(s, Some(e))
    case Ok(gids) =>
      match Silver.SeasonOf(gameDate)
      case Err(e) => RunState(s, Some(e))
      case Ok(season) =>
        var o := ProcessKinds(s, l, season, gameDate, gids, Kinds);
        assert gids == [] ==> o.files == map[] by {
          if gids == [] {
            assert ConvertGames(s, l, Boxscore, gids) == Ok([]);
          }
        }
        RunState(s + o.files, o.error)
  }

  /**
   * A day the older copy finishes is one the current copy finishes too,
   * leaving the same store: the two differ only in what they raise and in
   * the validations the current one registers.
   */
  lemma ProcessDateAgrees(s: Store, l: Layout, gameDate: string)
    requires ProcessDate(s, l, gameDate).error.None?
    ensures Silver.ProcessDate(s, l, gameDate).error.None?
    ensures Silver.ProcessDate(s, l, gameDate).store == ProcessDate(s, l, gameDate).store
  {
    var gids := Silver.LoadManifest(s, l, gameDate).value;
    if gids != [] {
      ProcessKindsAgree(s, l, Silver.SeasonOf(gameDate).value, gameDate, gids, Kinds);
    }
  }

  /**
   * A day the older copy finishes writes a kind's partition exactly when one
   * of the manifest's games yields rows of that kind, holding all their rows;
   * otherwise the file is left as it was. An empty manifest writes nothing.
   */
  lemma ProcessDatePartition(s: Store, l: Layout, gameDate: string, k: Kind)
    requires ProcessDate(s, l, gameDate).error.None?
    ensures Silver.SeasonOf(gameDate).Ok? && Silver.LoadManifest(s, l, gameDate).Ok?
    ensures var r := ProcessDate(s, l, gameDate);
            var gids := Silver.LoadManifest(s, l, gameDate).value;
            var p := Silver.KindPartition(l, k, Silver.SeasonOf(gameDate).value, gameDate);
            && ((exists i :: 0 <= i < |gids| && Silver.Yields(s, l, k, gids[i])) ==>
                  p in r.store && r.store[p].Parquet? && |r.store[p].frame.rows| == Silver.YieldedRows(s, l, k, gids))
            && (!(exists i :: 0 <= i < |gids| && Silver.Yields(s, l, k, gids[i])) ==>
                  (p in r.store <==> p in s) && (p in s ==> r.store[p] == s[p]))
  {
    ProcessDateAgrees(s, l, gameDate);
    var gids := Silver.LoadManifest(s, l, gameDate).value;
    if gids != [] {
      Silver.ProcessDatePartition(s, l, gameDate, k);
    }
  }
}

=== FILE: legacy_ingestion.dfy ===
/**
 * The older bronze step (src/ingestion.py). Discovery, the write-once
 * per-game downloads and the dimension downloads are the same code as the
 * current ingestion and are shared with the Bronze module; `ingest_date`
 * differs in one branch: a day without games returns before any manifest
 * is written.
 */
module LegacyIngestion {
  import opened Wrappers
  import opened Frames
  import opened Store
  import Bronze
  import Silver
  import Backfill

  /**
   * `ingest_date` of the older copy: discovery raises before anything is
   * written; a day without games writes nothing at all; otherwise every
   * game's three artifacts are attempted and a manifest listing every
   * discovered id is written.
   */
  function IngestDate(s: Store, l: Layout, gameDate: string, scoreboard: Result<Json, Failure>,
                      fetch: Bronze.Fetch): (r: Result<Store, Failure>)
    ensures scoreboard.Err? || Bronze.GameIdsForDate(scoreboard.value).Err? <==> r.Err?
    ensures r.Ok? && Bronze.GameIdsForDate(scoreboard.value).value == [] ==> r.value == s
    ensures r.Ok? && Bronze.GameIdsForDate(scoreboard.value).value != [] ==>
              ManifestPath(l, gameDate) in r.value
              && r.value[ManifestPath(l, gameDate)] == Manifest(gameDate, Bronze.GameIdsForDate(scoreboard.value).value)
  {
    var doc :- scoreboard;
    var ids :- Bronze.GameIdsForDate(doc);
    if ids == [] then Ok(s)
    else Ok(Bronze.DownloadGames(s, l, ids, fetch)[ManifestPath(l, gameDate) := Manifest(gameDate, ids)])
  }

  /**
   * The two copies agree on every day with games; on a day without games the
   * current one writes the empty manifest the older one leaves out.
   */
  lemma IngestDateAgrees(s: Store, l: Layout, gameDate: string, scoreboard: Result<Json, Failure>, fetch: Bronze.Fetch)
    ensures var r := IngestDate(s, l, gameDate, scoreboard, fetch);
            var b := Bronze.IngestDate(s, l, gameDate, scoreboard, fetch);
            && (r.Ok? <==> b.Ok?)
            && (r.Ok? && Bronze.GameIdsForDate(scoreboard.value).value != [] ==> r == b)
            && (r.Ok? && Bronze.GameIdsForDate(scoreboard.value).value == [] ==>
                  b.value == r.value[ManifestPath(l, gameDate) := Manifest(gameDate, [])])
  {
  }

  /** Ingestion never overwrites a stored file other than the day's manifest. */
  lemma IngestDateKeepsFiles(s: Store, l: Layout, gameDate: string, scoreboard: Result<Json, Failure>, fetch: Bronze.Fetch)
    requires IngestDate(s, l, gameDate, scoreboard, fetch).Ok?
    ensures forall p :: p in s && p != ManifestPath(l, gameDate) ==>
              p in IngestDate(s, l, gameDate, scoreboard, fetch).value
              && IngestDate(s, l, gameDate, scoreboard, fetch).value[p] == s[p]
  {
    var ids := Bronze.GameIdsForDate(scoreboard.value).value;
    Bronze.DownloadGamesMonotone(s, l, ids, fetch);
  }

  /** Re-running a day with the same endpoint answers leaves the store exactly as the first run did. */
  lemma IngestDateIdempotent(s: Store, l: Layout, gameDate: string, scoreboard: Result<Json, Failure>, fetch: Bronze.Fetch)
    requires IngestDate(s, l, gameDate, scoreboard, fetch).Ok?
    ensures IngestDate(IngestDate(s, l, gameDate, scoreboard, fetch).value, l, gameDate, scoreboard, fetch)
         == IngestDate(s, l, gameDate, scoreboard, fetch)
  {
    var ids := Bronze.GameIdsForDate(scoreboard.value).value;
    if ids != [] {
      Bronze.IngestDateIdempotent(s, l, gameDate, scoreboard, fetch);
    }
  }

  /**
   * Downstream, a day without games that never had a manifest stays without
   * one: the silver step raises FileNotFoundError for it, and the backfill
   * never counts it as done.
   */
  lemma NoGameDayLeavesNoManifest(s: Store, l: Layout, gameDate: string, scoreboard: Result<Json, Failure>,
                                  fetch: Bronze.Fetch)
    requires ManifestPath(l, gameDate) !in s
    requires IngestDate(s, l, gameDate, scoreboard, fetch).Ok?
    requires Bronze.GameIdsForDate(scoreboard.value).value == []
    ensures var r := IngestDate(s, l, gameDate, scoreboard, fetch).value;
            && Silver.ProcessDate(r, l, gameDate).error == Some(FileNotFound(ManifestPath(l, gameDate)))
            && Backfill.IsAlreadyDone(r, l, gameDate) == Ok(false)
  {
  }
}

=== FILE: legacy_pipeline.dfy ===
/**
 * The first, single-file pipeline (etl_pipeline.py): wait for the database,
 * pull the team and player lists and every team's game log, trim and clean
 * them, and upsert the three frames into `teams`, `players` and `games`
 * through a staging table and `INSERT … ON CONFLICT … DO UPDATE`.
 *
 * The endpoints are parameters: the two static lists arrive as frames, the
 * per-team game finder as a function from team id to its answer. Whether the
 * database accepts the schema on a given attempt is an oracle, and the schema
 * file itself is a database of empty tables.
 */
module LegacyPipeline {
  import opened Wrappers
  import opened Frames
  import opened Tables
  import Text
  import Calendar
  import Gold

  // ── Column lists ─────────────────────────────────────────────────────

  const TeamColumns: seq<string> := ["id", "full_name", "abbreviation", "nickname", "city", "state", "year_founded"]
  const PlayerColumns: seq<string> := ["id", "full_name", "first_name", "last_name", "is_active"]
  const GameColumns: seq<string> := ["GAME_ID", "TEAM_ID", "GAME_DATE", "MATCHUP", "WL", "PTS", "AST", "REB"]

  /** The game columns after `columns = [col.lower() …]`, as (old, new) pairs. */
  const GameRenames: Gold.Renames :=
    [("GAME_ID", "game_id"), ("TEAM_ID", "team_id"), ("GAME_DATE", "game_date"), ("MATCHUP", "matchup"),
     ("WL", "wl"), ("PTS", "pts"), ("AST", "ast"), ("REB", "reb")]

  /** The key the game log is cleaned on, before and after lower-casing. */
  const SourceKey: seq<string> := ["GAME_ID", "TEAM_ID"]
  const GameKey: seq<string> := ["game_id", "team_id"]

  /** The renaming is exactly Python's `str.lower()` applied to each selected column, in order. */
  lemma GameRenamesLower()
    ensures forall i :: 0 <= i < |GameRenames| ==> GameRenames[i].1 == Text.ToLower(GameRenames[i].0)
  {
    forall i | 0 <= i < |GameRenames|
      ensures GameRenames[i].1 == Text.ToLower(GameRenames[i].0)
    {
      Text.LowerLetters(GameRenames[i].0, GameRenames[i].1);
    }
  }

  /** The selected columns, and where the key and the date land after renaming. */
  lemma GameRenamesShape()
    ensures Gold.Sources(GameRenames) == GameColumns
    ensures Gold.DistinctTargets(GameRenames)
    ensures Gold.Targets(GameRenames)[..2] == GameKey && Gold.Targets(GameRenames)[2] == "game_date"
  {
    GameTargetsDistinct();
  }

  /** The third pair renames the date, and no other pair produces `game_date`. */
  lemma DateColumn()
    ensures GameRenames[2] == ("GAME_DATE", "game_date")
    ensures forall k :: 0 <= k < |GameRenames| && k != 2 ==> GameRenames[k].1 != "game_date"
  {
    GameTargetsDistinct();
  }

  /** No two lower-cased names coincide: their lengths and first letters already differ. */
  lemma GameTargetsDistinct()
    ensures Gold.DistinctTargets(GameRenames)
  {
    var sig := seq(|GameRenames|, i requires 0 <= i < |GameRenames| => (|GameRenames[i].1|, GameRenames[i].1[0]));
    assert sig == [(7, 'g'), (7, 't'), (9, 'g'), (7, 'm'), (2, 'w'), (3, 'p'), (3, 'a'), (3, 'r')];
    forall i, j | 0 <= i < j < |GameRenames|
      ensures GameRenames[i].1 != GameRenames[j].1
    {
      assert sig[i] != sig[j];
    }
  }

  // ── Cleaning ─────────────────────────────────────────────────────────

  /** `dropna(subset=cols)`: the rows with no null among `cols`, in their order. */
  function DropNa(rows: seq<Row>, cols: seq<string>): (out: seq<Row>)
    ensures |out| <= |rows|
    ensures forall r :: r in out <==> r in rows && VNull !in KeyOf(r, cols)
    ensures NoNullKey(out, cols)
  {
    if rows == [] then []
    else
      var n := |rows| - 1;
      assert rows == rows[..n] + [rows[n]];
      DropNa(rows[..n], cols) + (if VNull !in KeyOf(rows[n], cols) then [rows[n]] else [])
  }

  /** The keys of `rows` that have no null part. */
  function CompleteKeys(rows: seq<Row>, cols: seq<string>): set<Key> {
    set k | k in KeySet(rows, cols) && VNull !in k
  }

  /** Dropping the incomplete rows keeps exactly the complete keys. */
  lemma DropNaKeys(rows: seq<Row>, cols: seq<string>)
    ensures KeySet(DropNa(rows, cols), cols) == CompleteKeys(rows, cols)
  {
    var out := DropNa(rows, cols);
    forall k | k in KeySet(out, cols)
      ensures k in CompleteKeys(rows, cols)
    {
      var i :| 0 <= i < |out| && KeyOf(out[i], cols) == k;
      assert out[i] in rows;
      var j :| 0 <= j < |rows| && rows[j] == out[i];
    }
    forall k | k in CompleteKeys(rows, cols)
      ensures k in KeySet(out, cols)
    {
      var j :| 0 <= j < |rows| && KeyOf(rows[j], cols) == k;
      assert rows[j] in out;
      var i :| 0 <= i < |out| && out[i] == rows[j];
    }
  }

  /** Rows without a null key cell pass `dropna` unchanged. */
  lemma {:induction false} DropNaOfComplete(rows: seq<Row>, cols: seq<string>)
    requires NoNullKey(rows, cols)
    ensures DropNa(rows, cols) == rows
  {
    if rows != [] {
      var n := |rows| - 1;
      assert NoNullKey(rows[..n], cols) by {
        forall i | 0 <= i < n
          ensures VNull !in KeyOf(rows[..n][i], cols)
        {
          assert rows[..n][i] == rows[i];
        }
      }
      DropNaOfComplete(rows[..n], cols);
      assert rows == rows[..n] + [rows[n]];
    }
  }

  /**
   * `pd.to_datetime` on one cell: null stays null (NaT); a `YYYY-MM-DD` text
   * becomes that day, written back in the same canonical form; anything else
   * raises ValueError.
   */
  function ParseGameDate(v: Value): (r: Result<Value, Failure>)
    ensures r.Err? ==> r.error.ValueError?
    ensures v.VNull? ==> r == Ok(VNull)
    ensures r.Ok? && !v.VNull? ==>
              exists d :: Calendar.Valid(d) && d.year <= 9999 && r.value == VStr(Calendar.DateText(d))
    ensures r.Ok? && !v.VNull? ==> v.VStr? && Calendar.ParseDateText(v.s).Some?
  {
    match v
    case VNull => Ok(VNull)
    case VStr(s) =>
      (match Calendar.ParseDateText(s)
       case Some(d) =>
         Calendar.ParsedYear(s);
         Ok(VStr(Calendar.DateText(d)))
       case None => Err(ValueError("game_date")))
    case _ => Err(ValueError("game_date"))
  }

  /** A converted date converts to itself: the column is already in its parsed form. */
  lemma ParseGameDateIdempotent(v: Value)
    requires ParseGameDate(v).Ok?
    ensures ParseGameDate(ParseGameDate(v).value) == ParseGameDate(v)
  {
    if v.VStr? {
      var d := Calendar.ParseDateText(v.s).value;
      Calendar.ParsedYear(v.s);
      Calendar.ParseDateTextRoundTrip(d);
      assert ParseGameDate(v) == Ok(VStr(Calendar.DateText(d)));
    }
  }

  /** One row with its `game_date` cell converted. */
  function DateRow(row: Row): Result<Row, Failure> {
    var d :- ParseGameDate(Cell(row, "game_date"));
    Ok(row["game_date" := d])
  }

  /** `df['game_date'] = pd.to_datetime(df['game_date'])`: one unparsable cell fails the whole column. */
  function ParseDates(rows: seq<Row>): (r: Result<seq<Row>, Failure>)
    ensures r.Ok? <==> forall i :: 0 <= i < |rows| ==> ParseGameDate(Cell(rows[i], "game_date")).Ok?
    ensures r.Err? ==> r.error.ValueError?
    ensures r.Ok? ==> |r.value| == |rows|
    ensures r.Ok? ==> forall i :: 0 <= i < |rows| ==>
              r.value[i] == rows[i]["game_date" := ParseGameDate(Cell(rows[i], "game_date")).value]
  {
    EachRow(DateRow, rows)
  }

  /** Converting the dates leaves every other cell, and so the key, as it was. */
  lemma ParseDatesKeys(rows: seq<Row>)
    requires ParseDates(rows).Ok?
    ensures forall i, c :: 0 <= i < |rows| && c != "game_date" ==> Cell(ParseDates(rows).value[i], c) == Cell(rows[i], c)
    ensures forall i :: 0 <= i < |rows| ==> KeyOf(ParseDates(rows).value[i], GameKey) == KeyOf(rows[i], GameKey)
  {
    var out := ParseDates(rows).value;
    forall i | 0 <= i < |rows|
      ensures KeyOf(out[i], GameKey) == KeyOf(rows[i], GameKey)
      ensures forall c :: c != "game_date" ==> Cell(out[i], c) == Cell(rows[i], c)
    {
      DateUpdateKeeps(rows[i], ParseGameDate(Cell(rows[i], "game_date")).value);
    }
  }

  /** Overwriting the date leaves every other cell, and so the key, as it was. */
  lemma DateUpdateKeeps(r: Row, d: Value)
    ensures KeyOf(r["game_date" := d], GameKey) == KeyOf(r, GameKey)
    ensures forall c :: c != "game_date" ==> Cell(r["game_date" := d], c) == Cell(r, c)
  {
    KeyAvoidsDate();
  }

  lemma KeyAvoidsDate()
    ensures forall j :: 0 <= j < |GameKey| ==> GameKey[j] != "game_date"
  {
    assert GameKey[0][..5] == "game_" && "game_date"[..5] == "game_";
    assert GameKey[0][5] == 'i' && "game_date"[5] == 'd';
    assert GameKey[1][0] == 't';
  }

  /**
   * The games half of `transform_data`: select the eight columns (KeyError
   * when one is missing), lower-case them, drop rows with a null key, keep the
   * first row of each (game, team), then convert the dates.
   */
  function CleanGames(games: Frame): (r: Result<Frame, Failure>)
    ensures (exists c :: c in GameColumns && c !in games.columns) ==> r.Err? && r.error.KeyError?
    ensures r.Err? ==> (r.error.KeyError? && r.error.key in GameColumns) || r.error.ValueError?
    ensures (forall c :: c in GameColumns ==> c in games.columns)
            && (forall i :: 0 <= i < |games.rows| ==> ParseGameDate(Cell(games.rows[i], "GAME_DATE")).Ok?)
            ==> r.Ok?
    ensures r.Ok? ==> r.value.columns == SetOf(Gold.Targets(GameRenames)) && WellFormed(r.value)
    ensures r.Ok? ==> NoNullKey(r.value.rows, GameKey) && UniqueKeys(r.value.rows, GameKey)
    ensures r.Ok? ==> KeySet(r.value.rows, GameKey) == CompleteKeys(games.rows, SourceKey)
    ensures r.Ok? ==> forall i :: 0 <= i < |r.value.rows| ==>
              exists j :: 0 <= j < |games.rows| && GameFrom(r.value.rows[i], games.rows[j])
  {
    match Gold.RenameSelect(games, [], GameColumns)
    case Err(e) => Err(e)
    case Ok(picked) => CleanPicked(games, picked)
  }

  /** The cleaning after the eight columns were selected: only date conversion can fail. */
  function CleanPicked(games: Frame, picked: Frame): (r: Result<Frame, Failure>)
    requires Gold.RenameSelect(games, [], GameColumns) == Ok(picked)
    ensures r.Err? ==> r.error.ValueError?
    ensures (forall i :: 0 <= i < |games.rows| ==> ParseGameDate(Cell(games.rows[i], "GAME_DATE")).Ok?) ==> r.Ok?
    ensures r.Ok? ==> r.value.columns == SetOf(Gold.Targets(GameRenames)) && WellFormed(r.value)
    ensures r.Ok? ==> NoNullKey(r.value.rows, GameKey) && UniqueKeys(r.value.rows, GameKey)
    ensures r.Ok? ==> KeySet(r.value.rows, GameKey) == CompleteKeys(games.rows, SourceKey)
    ensures r.Ok? ==> forall i :: 0 <= i < |r.value.rows| ==>
              exists j :: 0 <= j < |games.rows| && GameFrom(r.value.rows[i], games.rows[j])
  {
    var lowered := Lowered(picked);
    var deduped := FirstOccurrences(DropNa(lowered.rows, GameKey), GameKey);
    DatesConvert(games, picked, lowered, deduped);
    match ParseDates(deduped)
    case Err(e) => Err(e)
    case Ok(dated) =>
      Cleaned(games, picked, lowered, deduped, dated);
      Ok(Frame(lowered.columns, dated))
  }

  lemma DatesConvert(games: Frame, picked: Frame, lowered: Frame, deduped: seq<Row>)
    requires Gold.RenameSelect(games, [], GameColumns) == Ok(picked)
    requires lowered == Lowered(picked)
    requires deduped == FirstOccurrences(DropNa(lowered.rows, GameKey), GameKey)
    ensures (forall i :: 0 <= i < |games.rows| ==> ParseGameDate(Cell(games.rows[i], "GAME_DATE")).Ok?)
            ==> ParseDates(deduped).Ok?
  {
    GameRenamesShape();
    DateColumn();
    LoweredMatches(games, picked, lowered);
    Deduped(games, lowered, deduped, GameRenames);
    DatesOfInput(games, deduped, GameRenames, 2);
  }

  lemma Cleaned(games: Frame, picked: Frame, lowered: Frame, deduped: seq<Row>, dated: seq<Row>)
    requires Gold.RenameSelect(games, [], GameColumns) == Ok(picked)
    requires lowered == Lowered(picked)
    requires deduped == FirstOccurrences(DropNa(lowered.rows, GameKey), GameKey)
    requires ParseDates(deduped) == Ok(dated)
    ensures WellFormed(Frame(lowered.columns, dated))
    ensures NoNullKey(dated, GameKey) && UniqueKeys(dated, GameKey)
    ensures KeySet(dated, GameKey) == CompleteKeys(games.rows, SourceKey)
    ensures forall i :: 0 <= i < |dated| ==> exists j :: 0 <= j < |games.rows| && GameFrom(dated[i], games.rows[j])
  {
    GameRenamesShape();
    DateColumn();
    LoweredMatches(games, picked, lowered);
    Deduped(games, lowered, deduped, GameRenames);
    assert "game_date" in lowered.columns by {
      assert Gold.Targets(GameRenames)[2] == "game_date";
    }
    CleanResult(games, lowered.columns, deduped, dated);
    CleanRows(games, deduped, dated, GameRenames, 2);
  }

  /** An output game row is an input row under the lower-case names, its date converted. */
  ghost predicate GameFrom(out: Row, src: Row) {
    ConvertedFrom(out, src, GameRenames, 2)
  }

  /** `out` is `src` renamed by `rn`, with the cell of pair `d` converted by `to_datetime`. */
  ghost predicate ConvertedFrom(out: Row, src: Row, rn: Gold.Renames, d: nat) {
    d < |rn|
    && ParseGameDate(Cell(src, rn[d].0)).Ok?
    && Cell(out, rn[d].1) == ParseGameDate(Cell(src, rn[d].0)).value
    && forall i :: 0 <= i < |rn| && i != d ==> Cell(out, rn[i].1) == Cell(src, rn[i].0)
  }

  /** `out` is `src` renamed by `rn`. */
  ghost predicate Renamed(out: Row, src: Row, rn: Gold.Renames) {
    forall i :: 0 <= i < |rn| ==> Cell(out, rn[i].1) == Cell(src, rn[i].0)
  }

  /** The first two pairs rename the source key to the cleaned key. */
  predicate KeyPairs(rn: Gold.Renames) {
    |rn| >= 2 && rn[0] == (SourceKey[0], GameKey[0]) && rn[1] == (SourceKey[1], GameKey[1])
  }

  /** `games_df.columns = [col.lower() …]` on the eight selected columns. */
  function Lowered(picked: Frame): (lowered: Frame)
    requires forall c :: c in GameColumns ==> c in picked.columns
    ensures lowered.columns == SetOf(Gold.Targets(GameRenames)) && WellFormed(lowered)
    ensures |lowered.rows| == |picked.rows|
    ensures forall i :: 0 <= i < |picked.rows| ==> Renamed(lowered.rows[i], picked.rows[i], GameRenames)
  {
    GameRenamesShape();
    Gold.RenameAll(picked, GameRenames);
    Gold.RenameSelect(picked, GameRenames, Gold.Targets(GameRenames)).value
  }

  lemma LoweredMatches(games: Frame, picked: Frame, lowered: Frame)
    requires Gold.RenameSelect(games, [], GameColumns) == Ok(picked)
    requires lowered == Lowered(picked)
    ensures |lowered.rows| == |games.rows|
    ensures forall i :: 0 <= i < |games.rows| ==> Renamed(lowered.rows[i], games.rows[i], GameRenames)
  {
    GameRenamesShape();
    SelectedCells(games, picked, GameRenames);
  }

  /** Selecting columns without renaming keeps each selected cell. */
  lemma SelectedCells(games: Frame, picked: Frame, rn: Gold.Renames)
    requires Gold.RenameSelect(games, [], Gold.Sources(rn)) == Ok(picked)
    ensures forall i, j :: 0 <= i < |games.rows| && 0 <= j < |rn| ==> Cell(picked.rows[i], rn[j].0) == Cell(games.rows[i], rn[j].0)
  {
    forall i, j | 0 <= i < |games.rows| && 0 <= j < |rn|
      ensures Cell(picked.rows[i], rn[j].0) == Cell(games.rows[i], rn[j].0)
    {
      assert Gold.Sources(rn)[j] == rn[j].0;
      assert Gold.SourceOf([], games.columns, rn[j].0) == Some(rn[j].0);
    }
  }

  /** Lower-cased rows carry the source key under the new names. */
  lemma RenamedKey(out: Row, src: Row, rn: Gold.Renames)
    requires KeyPairs(rn) && Renamed(out, src, rn)
    ensures KeyOf(out, GameKey) == KeyOf(src, SourceKey)
  {
    assert Cell(out, rn[0].1) == Cell(src, rn[0].0);
    assert Cell(out, rn[1].1) == Cell(src, rn[1].0);
  }

  /**
   * After `dropna` and `drop_duplicates` the keys are complete and unique, they
   * are the input's complete keys, and each row is an input row renamed.
   */
  lemma Deduped(games: Frame, lowered: Frame, deduped: seq<Row>, rn: Gold.Renames)
    requires KeyPairs(rn)
    requires |lowered.rows| == |games.rows|
    requires forall i :: 0 <= i < |games.rows| ==> Renamed(lowered.rows[i], games.rows[i], rn)
    requires deduped == FirstOccurrences(DropNa(lowered.rows, GameKey), GameKey)
    requires WellFormed(lowered)
    ensures NoNullKey(deduped, GameKey) && UniqueKeys(deduped, GameKey)
    ensures KeySet(deduped, GameKey) == CompleteKeys(games.rows, SourceKey)
    ensures forall i :: 0 <= i < |deduped| ==> deduped[i].Keys == lowered.columns
    ensures forall i :: 0 <= i < |deduped| ==> exists j :: 0 <= j < |games.rows| && Renamed(deduped[i], games.rows[j], rn)
  {
    var kept := DropNa(lowered.rows, GameKey);
    forall i | 0 <= i < |games.rows|
      ensures KeyOf(lowered.rows[i], GameKey) == KeyOf(games.rows[i], SourceKey)
    {
      RenamedKey(lowered.rows[i], games.rows[i], rn);
    }
    Gold.SameKeys(lowered.rows, GameKey, games.rows, SourceKey);
    DropNaKeys(lowered.rows, GameKey);
    FirstOccurrencesKeys(kept, GameKey);
    FirstOccurrencesUnique(kept, GameKey);
    FirstOccurrencesComplete(kept, GameKey);
    DedupedRows(lowered, kept, deduped, games, rn);
  }

  /** De-duplicating rows whose keys are complete leaves them complete. */
  lemma FirstOccurrencesComplete(rows: seq<Row>, cols: seq<string>)
    requires NoNullKey(rows, cols)
    ensures NoNullKey(FirstOccurrences(rows, cols), cols)
  {
    forall i | 0 <= i < |FirstOccurrences(rows, cols)|
      ensures VNull !in KeyOf(FirstOccurrences(rows, cols)[i], cols)
    {
      FirstOccurrencesAreFirst(rows, cols, i);
    }
  }

  lemma DedupedRows(lowered: Frame, kept: seq<Row>, deduped: seq<Row>, games: Frame, rn: Gold.Renames)
    requires |lowered.rows| == |games.rows|
    requires forall i :: 0 <= i < |games.rows| ==> Renamed(lowered.rows[i], games.rows[i], rn)
    requires kept == DropNa(lowered.rows, GameKey)
    requires deduped == FirstOccurrences(kept, GameKey)
    requires WellFormed(lowered)
    ensures forall i :: 0 <= i < |deduped| ==> deduped[i].Keys == lowered.columns
    ensures forall i :: 0 <= i < |deduped| ==> exists j :: 0 <= j < |games.rows| && Renamed(deduped[i], games.rows[j], rn)
  {
    forall i | 0 <= i < |deduped|
      ensures deduped[i].Keys == lowered.columns
      ensures exists j :: 0 <= j < |games.rows| && Renamed(deduped[i], games.rows[j], rn)
    {
      FirstOccurrencesAreFirst(kept, GameKey, i);
      assert deduped[i] in kept;
      var j :| 0 <= j < |lowered.rows| && lowered.rows[j] == deduped[i];
    }
  }

  /** The cleaned rows' dates are input dates, so they convert when every input date does. */
  lemma DatesOfInput(games: Frame, deduped: seq<Row>, rn: Gold.Renames, d: nat)
    requires d < |rn| && rn[d] == ("GAME_DATE", "game_date")
    requires forall i :: 0 <= i < |deduped| ==> exists j :: 0 <= j < |games.rows| && Renamed(deduped[i], games.rows[j], rn)
    ensures (forall i :: 0 <= i < |games.rows| ==> ParseGameDate(Cell(games.rows[i], "GAME_DATE")).Ok?)
            ==> ParseDates(deduped).Ok?
  {
    if forall i :: 0 <= i < |games.rows| ==> ParseGameDate(Cell(games.rows[i], "GAME_DATE")).Ok? {
      forall i | 0 <= i < |deduped|
        ensures ParseGameDate(Cell(deduped[i], "game_date")).Ok?
      {
        var j :| 0 <= j < |games.rows| && Renamed(deduped[i], games.rows[j], rn);
        assert Cell(deduped[i], rn[d].1) == Cell(games.rows[j], rn[d].0);
      }
    }
  }

  /** Converting the dates of the cleaned rows keeps them rectangular, with the same complete, unique keys. */
  lemma CleanResult(games: Frame, cols: set<string>, deduped: seq<Row>, dated: seq<Row>)
    requires "game_date" in cols
    requires forall i :: 0 <= i < |deduped| ==> deduped[i].Keys == cols
    requires NoNullKey(deduped, GameKey) && UniqueKeys(deduped, GameKey)
    requires ParseDates(deduped) == Ok(dated)
    ensures WellFormed(Frame(cols, dated))
    ensures NoNullKey(dated, GameKey) && UniqueKeys(dated, GameKey)
    ensures KeySet(dated, GameKey) == KeySet(deduped, GameKey)
  {
    ParseDatesKeys(deduped);
    Gold.SameKeys(dated, GameKey, deduped, GameKey);
  }

  /** Each converted row is an input row renamed, with its date converted. */
  lemma CleanRows(games: Frame, deduped: seq<Row>, dated: seq<Row>, rn: Gold.Renames, d: nat)
    requires d < |rn| && rn[d].1 == "game_date" && forall k :: 0 <= k < |rn| && k != d ==> rn[k].1 != "game_date"
    requires forall i :: 0 <= i < |deduped| ==> exists j :: 0 <= j < |games.rows| && Renamed(deduped[i], games.rows[j], rn)
    requires ParseDates(deduped) == Ok(dated)
    ensures forall i :: 0 <= i < |dated| ==> exists j :: 0 <= j < |games.rows| && ConvertedFrom(dated[i], games.rows[j], rn, d)
  {
    forall i | 0 <= i < |dated|
      ensures exists j :: 0 <= j < |games.rows| && ConvertedFrom(dated[i], games.rows[j], rn, d)
    {
      var j :| 0 <= j < |games.rows| && Renamed(deduped[i], games.rows[j], rn);
      RowFrom(deduped[i], dated[i], games.rows[j], rn, d);
    }
  }

  lemma RowFrom(row: Row, out: Row, src: Row, rn: Gold.Renames, d: nat)
    requires d < |rn| && rn[d].1 == "game_date" && forall k :: 0 <= k < |rn| && k != d ==> rn[k].1 != "game_date"
    requires Renamed(row, src, rn)
    requires ParseGameDate(Cell(row, "game_date")).Ok?
    requires out == row["game_date" := ParseGameDate(Cell(row, "game_date")).value]
    ensures ConvertedFrom(out, src, rn, d)
  {
    assert Cell(row, rn[d].1) == Cell(src, rn[d].0);
    forall k | 0 <= k < |rn| && k != d
      ensures Cell(out, rn[k].1) == Cell(src, rn[k].0)
    {
      assert Cell(row, rn[k].1) == Cell(src, rn[k].0);
    }
  }

  // ── transform_data ───────────────────────────────────────────────────

  /** Some listed column is missing from the frame. */
  predicate Lacks(df: Frame, cols: seq<string>) {
    exists c :: c in cols && c !in df.columns
  }

  datatype Transformed = Transformed(teams: Frame, players: Frame, games: Frame)

  /** Selecting listed columns without renaming: the frame keeps its rows and each listed cell. */
  ghost predicate Selected(df: Frame, out: Frame, cols: seq<string>) {
    out.columns == SetOf(cols) && WellFormed(out) && |out.rows| == |df.rows|
    && forall i, j :: 0 <= i < |df.rows| && 0 <= j < |cols| ==> Cell(out.rows[i], cols[j]) == Cell(df.rows[i], cols[j])
  }

  /** `df[cols]`: KeyError naming a listed column when one is missing. */
  lemma SelectColumns(df: Frame, cols: seq<string>)
    ensures Gold.RenameSelect(df, [], cols).Ok? <==> !Lacks(df, cols)
    ensures Gold.RenameSelect(df, [], cols).Err? ==>
              Gold.RenameSelect(df, [], cols).error.KeyError? && Gold.RenameSelect(df, [], cols).error.key in cols
    ensures Gold.RenameSelect(df, [], cols).Ok? ==> Selected(df, Gold.RenameSelect(df, [], cols).value, cols)
  {
    if Lacks(df, cols) {
      var c :| c in cols && c !in df.columns;
      var j :| 0 <= j < |cols| && cols[j] == c;
      assert Gold.SourceOf([], df.columns, cols[j]).None?;
    }
  }

  /**
   * `transform_data`: the team and player columns are selected, then the games
   * are cleaned; the first missing column or unparsable date raises.
   */
  function TransformData(teams: Frame, players: Frame, games: Frame): (r: Result<Transformed, Failure>)
    ensures Lacks(teams, TeamColumns) ==> r.Err? && r.error.KeyError? && r.error.key in TeamColumns
    ensures !Lacks(teams, TeamColumns) && Lacks(players, PlayerColumns) ==>
              r.Err? && r.error.KeyError? && r.error.key in PlayerColumns
    ensures !Lacks(teams, TeamColumns) && !Lacks(players, PlayerColumns) && Lacks(games, GameColumns) ==>
              r.Err? && r.error.KeyError? && r.error.key in GameColumns
    ensures !Lacks(teams, TeamColumns) && !Lacks(players, PlayerColumns) && !Lacks(games, GameColumns)
            && (forall i :: 0 <= i < |games.rows| ==> ParseGameDate(Cell(games.rows[i], "GAME_DATE")).Ok?)
            ==> r.Ok?
    ensures r.Ok? ==> Selected(teams, r.value.teams, TeamColumns) && Selected(players, r.value.players, PlayerColumns)
    ensures r.Ok? ==> r.value.games.columns == SetOf(Gold.Targets(GameRenames)) && WellFormed(r.value.games)
    ensures r.Ok? ==> NoNullKey(r.value.games.rows, GameKey) && UniqueKeys(r.value.games.rows, GameKey)
    ensures r.Ok? ==> KeySet(r.value.games.rows, GameKey) == CompleteKeys(games.rows, SourceKey)
  {
    SelectColumns(teams, TeamColumns);
    SelectColumns(players, PlayerColumns);
    var t :- Gold.RenameSelect(teams, [], TeamColumns);
    var p :- Gold.RenameSelect(players, [], PlayerColumns);
    var g :- CleanGames(games);
    Ok(Transformed(t, p, g))
  }

  // ── _upsert_via_staging and load_data ────────────────────────────────

  /** The statement `_upsert_via_staging` builds: every frame column inserted, no JOINs, `SET u = EXCLUDED.u`. */
  function Statement(target: string, conflict: seq<string>, update: seq<string>): Merge {
    Merge(target, conflict, [], DoUpdate(SetOf(update)))
  }

  /**
   * `_upsert_via_staging`: the frame is staged and merged into `target`. It
   * fails when a name does not resolve, a staged key cell is null, or two
   * staged rows share a key; otherwise only `target` changes, it gains every
   * staged key, and keys nobody staged keep their rows.
   */
  function UpsertViaStaging(db: Db, df: Frame, target: string, conflict: seq<string>, update: seq<string>)
    : (r: Result<Db, Failure>)
    ensures r.Ok? ==> target in db
    ensures r.Ok? ==> r.value.Keys == db.Keys && forall n :: n in db && n != target ==> r.value[n] == db[n]
    ensures r.Ok? ==> r.value[target].rows.Keys == db[target].rows.Keys + KeySet(Staged(df), db[target].pk)
    ensures r.Ok? ==> forall k :: k in db[target].rows && k !in KeySet(Staged(df), db[target].pk)
                                  ==> r.value[target].rows[k] == db[target].rows[k]
  {
    match Execute(db, df, Statement(target, conflict, update))
    case Err(e) => Err(e)
    case Ok(l) =>
      assert Proposed(db, df, Statement(target, conflict, update)) == Staged(df);
      Ok(l.db)
  }

  /** The upsert succeeds exactly when its names resolve and the staged keys are complete and unique. */
  lemma UpsertOk(db: Db, df: Frame, target: string, conflict: seq<string>, update: seq<string>)
    ensures UpsertViaStaging(db, df, target, conflict, update).Ok?
        <==> Prepared(db, df, Statement(target, conflict, update))
             && NoNullKey(Staged(df), db[target].pk) && UniqueKeys(Staged(df), db[target].pk)
  {
    var m := Statement(target, conflict, update);
    ExecuteOk(db, df, m);
    assert Proposed(db, df, m) == Staged(df);
  }

  /**
   * Each staged row is stored under its key: a new key gets the row (columns
   * the frame lacks NULL); an existing key gets the SET columns from the
   * frame and keeps its other cells.
   */
  lemma UpsertStagedRow(db: Db, df: Frame, target: string, conflict: seq<string>, update: seq<string>, i: nat)
    requires UpsertViaStaging(db, df, target, conflict, update).Ok?
    requires i < |df.rows|
    ensures var before := db[target].rows;
            var after := UpsertViaStaging(db, df, target, conflict, update).value[target].rows;
            var k := KeyOf(Staged(df)[i], db[target].pk);
            && k in after
            && (k !in before ==> forall c :: c in db[target].columns ==>
                  Cell(after[k], c) == if c in df.columns then Cell(df.rows[i], c) else VNull)
            && (k in before ==> forall c :: c in update && c in df.columns ==> Cell(after[k], c) == Cell(df.rows[i], c))
            && (k in before ==> forall c :: c in before[k] && c !in update ==> Cell(after[k], c) == before[k][c])
  {
    var t := db[target];
    var r := Staged(df)[i];
    UpsertLanded(db, df, target, conflict, update, i);
    StagedRowCells(df, i);
    LandedCells(t.rows, ShapeOf(t), r, update);
  }

  lemma StagedRowCells(df: Frame, i: nat)
    requires i < |df.rows|
    ensures forall c :: Cell(Staged(df)[i], c) == if c in df.columns then Cell(df.rows[i], c) else VNull
  {
    assert Staged(df)[i] == Normalize(df.rows[i], df.columns);
  }

  /** DO UPDATE's row: a fresh key gets the staged row; an existing one the SET cells over its old ones. */
  lemma LandedCells(rows: map<Key, Row>, t: Shape, r: Row, update: seq<string>)
    ensures var k := KeyOf(r, t.pk);
            var l := Landed(rows, t, r, DoUpdate(SetOf(update)));
            && (k !in rows ==> forall c :: c in t.columns ==> Cell(l, c) == Cell(r, c))
            && (k in rows ==> forall c :: c in update ==> Cell(l, c) == Cell(r, c))
            && (k in rows ==> forall c :: c in rows[k] && c !in update ==> Cell(l, c) == rows[k][c])
  {
    assert forall c :: c in update <==> c in SetOf(update);
  }

  /** What the staged row leaves under its key is `Landed`'s row for DO UPDATE. */
  lemma UpsertLanded(db: Db, df: Frame, target: string, conflict: seq<string>, update: seq<string>, i: nat)
    requires UpsertViaStaging(db, df, target, conflict, update).Ok?
    requires i < |df.rows|
    ensures var after := UpsertViaStaging(db, df, target, conflict, update).value[target].rows;
            var k := KeyOf(Staged(df)[i], db[target].pk);
            && k in after
            && after[k] == Landed(db[target].rows, ShapeOf(db[target]), Staged(df)[i], DoUpdate(SetOf(update)))
  {
    var m := Statement(target, conflict, update);
    var t := db[target];
    ExecuteOk(db, df, m);
    UpsertOk(db, df, target, conflict, update);
    ExecutePrepared(db, df, m);
    assert Proposed(db, df, m) == Staged(df);
    RunLanded(Pass(t.rows, {}, 0), ShapeOf(t), m.onConflict, target, Staged(df), i);
  }

  /** Running the same upsert again leaves the database as the first run left it. */
  lemma UpsertIdempotent(db: Db, df: Frame, target: string, conflict: seq<string>, update: seq<string>)
    requires UpsertViaStaging(db, df, target, conflict, update).Ok?
    ensures UpsertViaStaging(UpsertViaStaging(db, df, target, conflict, update).value, df, target, conflict, update)
         == UpsertViaStaging(db, df, target, conflict, update)
  {
    ExecuteIdempotent(db, df, Statement(target, conflict, update));
  }

  /** The upsert reads only its target: on a database with the same target it does the same. */
  lemma UpsertLocal(db: Db, x: Db, df: Frame, target: string, conflict: seq<string>, update: seq<string>)
    requires AgreeOn(db, x, {target})
    ensures UpsertViaStaging(x, df, target, conflict, update)
         == match UpsertViaStaging(db, df, target, conflict, update)
            case Err(e) => Err(e)
            case Ok(d) => Ok(Overlay(x, d, target))
  {
    var m := Statement(target, conflict, update);
    assert DimsOf(m.joins) == {};
    ExecuteLocal(db, x, df, m);
  }

  /** The three upserts of `load_data`. */
  datatype Load = Teams | Players | Games {
    function Table(): string {
      match this
      case Teams => "teams"
      case Players => "players"
      case Games => "games"
    }

    function Conflict(): seq<string> {
      match this
      case Teams => ["id"]
      case Players => ["id"]
      case Games => GameKey
    }

    function Updates(): seq<string> {
      match this
      case Teams => ["full_name", "abbreviation", "nickname", "city", "state", "year_founded"]
      case Players => ["full_name", "first_name", "last_name", "is_active"]
      case Games => ["game_date", "matchup", "wl", "pts", "ast", "reb"]
    }
  }

  /** One of the three upserts: only its table changes, and no table loses a key. */
  function Upsert(db: Db, ld: Load, df: Frame): (r: Result<Db, Failure>)
    ensures r.Ok? ==> Grows(db, r.value) && ld.Table() in db
    ensures r.Ok? ==> forall n :: n in db && n != ld.Table() ==> r.value[n] == db[n]
    ensures r.Ok? ==> KeySet(Staged(df), db[ld.Table()].pk) <= r.value[ld.Table()].rows.Keys
  {
    match UpsertViaStaging(db, df, ld.Table(), ld.Conflict(), ld.Updates())
    case Err(e) => Err(e)
    case Ok(d) =>
      UpsertGrows(db, df, ld.Table(), ld.Conflict(), ld.Updates());
      Ok(d)
  }

  /** `b` has the tables of `a`, with the same keys and at least the same rows. */
  ghost predicate Grows(a: Db, b: Db) {
    a.Keys == b.Keys && forall n :: n in a ==> a[n].pk == b[n].pk && a[n].rows.Keys <= b[n].rows.Keys
  }

  lemma UpsertGrows(db: Db, df: Frame, target: string, conflict: seq<string>, update: seq<string>)
    requires UpsertViaStaging(db, df, target, conflict, update).Ok?
    ensures Grows(db, UpsertViaStaging(db, df, target, conflict, update).value)
  {
    ExecuteOk(db, df, Statement(target, conflict, update));
  }

  /** The names the three upserts write. */
  const Loaded: set<string> := {"teams", "players", "games"}

  /** The upserts a `load_data` call runs, in order: games only when the frame is not empty. */
  function Steps(teams: Frame, players: Frame, games: Frame): seq<(Load, Frame)> {
    [(Teams, teams), (Players, players)] + GamesStep(games)
  }

  /** The games upsert, or nothing when the frame is empty. */
  function GamesStep(games: Frame): seq<(Load, Frame)> {
    if IsEmpty(games) then [] else [(Games, games)]
  }

  function TablesOf(steps: seq<(Load, Frame)>): set<string> {
    set i | 0 <= i < |steps| :: steps[i].0.Table()
  }

  predicate DistinctLoads(steps: seq<(Load, Frame)>) {
    forall i, j :: 0 <= i < j < |steps| ==> steps[i].0 != steps[j].0
  }

  /** Upserts in order; the first that raises stops the rest, the earlier ones staying committed. */
  function LoadAll(db: Db, steps: seq<(Load, Frame)>): (r: Gold.Progress)
    ensures Grows(db, r.db)
    ensures forall n :: n in db && n !in TablesOf(steps) ==> r.db[n] == db[n]
    decreases |steps|
  {
    if steps == [] then Gold.Progress(db, None)
    else
      match Upsert(db, steps[0].0, steps[0].1)
      case Err(e) => Gold.Progress(db, Some(e))
      case Ok(d1) =>
        TablesOfTail(steps);
        LoadAll(d1, steps[1..])
  }

  lemma TablesOfTail(steps: seq<(Load, Frame)>)
    requires steps != []
    ensures TablesOf(steps) == {steps[0].0.Table()} + TablesOf(steps[1..])
  {
    forall n | n in TablesOf(steps)
      ensures n in {steps[0].0.Table()} + TablesOf(steps[1..])
    {
      var i :| 0 <= i < |steps| && steps[i].0.Table() == n;
      if i > 0 {
        assert steps[1..][i - 1] == steps[i];
      }
    }
    forall n | n in TablesOf(steps[1..])
      ensures n in TablesOf(steps)
    {
      var i :| 0 <= i < |steps[1..]| && steps[1..][i].0.Table() == n;
      assert steps[i + 1] == steps[1..][i];
    }
  }

  /** Different loads write different tables. */
  lemma TableInjective(a: Load, b: Load)
    requires a != b
    ensures a.Table() != b.Table()
  {
  }

  /**
   * `load_data`: teams, then players, then games unless the games frame is
   * empty. Each upsert commits by itself, so a failure keeps the earlier ones
   * and is re-raised.
   */
  function LoadData(db: Db, teams: Frame, players: Frame, games: Frame): (r: Gold.Progress)
    ensures Grows(db, r.db)
    ensures forall n :: n in db && n !in Loaded ==> r.db[n] == db[n]
    ensures IsEmpty(games) && "games" in db ==> r.db["games"] == db["games"]
  {
    var steps := Steps(teams, players, games);
    StepsTables(teams, players, games);
    LoadAll(db, steps)
  }

  lemma StepsTables(teams: Frame, players: Frame, games: Frame)
    ensures DistinctLoads(Steps(teams, players, games))
    ensures TablesOf(Steps(teams, players, games)) <= Loaded
    ensures IsEmpty(games) ==> "games" !in TablesOf(Steps(teams, players, games))
  {
    var steps := Steps(teams, players, games);
    assert forall i :: 0 <= i < |steps| ==> steps[i].0.Table() in Loaded;
  }

  /**
   * A failed upsert stops the load with nothing more written; an upsert that
   * succeeded keeps its table as it left it whatever happens after.
   */
  lemma {:induction false} LoadAllCommits(db: Db, steps: seq<(Load, Frame)>)
    requires DistinctLoads(steps) && steps != []
    ensures Upsert(db, steps[0].0, steps[0].1).Err? ==>
              LoadAll(db, steps) == Gold.Progress(db, Some(Upsert(db, steps[0].0, steps[0].1).error))
    ensures Upsert(db, steps[0].0, steps[0].1).Ok? ==>
              LoadAll(db, steps).db[steps[0].0.Table()] == Upsert(db, steps[0].0, steps[0].1).value[steps[0].0.Table()]
  {
    if Upsert(db, steps[0].0, steps[0].1).Ok? {
      forall i | 0 <= i < |steps[1..]|
        ensures steps[1..][i].0.Table() != steps[0].0.Table()
      {
        TableInjective(steps[1..][i].0, steps[0].0);
      }
    }
  }

  /** A failed teams upsert stops `load_data` with nothing written; once it succeeds, its table stays as it left it. */
  lemma LoadDataCommits(db: Db, teams: Frame, players: Frame, games: Frame)
    ensures var r := LoadData(db, teams, players, games);
            && (Upsert(db, Teams, teams).Err? ==> r == Gold.Progress(db, Some(Upsert(db, Teams, teams).error)))
            && (Upsert(db, Teams, teams).Ok? ==> r.db["teams"] == Upsert(db, Teams, teams).value["teams"])
  {
    StepsTables(teams, players, games);
    LoadAllCommits(db, Steps(teams, players, games));
  }

  /** A load that raises nothing leaves every key it staged in the table it staged it into. */
  lemma {:induction false} LoadAllStaged(db: Db, steps: seq<(Load, Frame)>, i: nat)
    requires LoadAll(db, steps).error.None? && i < |steps|
    ensures steps[i].0.Table() in db
    ensures KeySet(Staged(steps[i].1), db[steps[i].0.Table()].pk) <= LoadAll(db, steps).db[steps[i].0.Table()].rows.Keys
    decreases |steps|
  {
    var d1 := Upsert(db, steps[0].0, steps[0].1).value;
    if i > 0 {
      LoadAllStaged(d1, steps[1..], i - 1);
      assert steps[1..][i - 1] == steps[i];
    }
  }

  /**
   * The three upserts of `load_data` written out one after the other: a
   * failure re-raises at once, leaving what the earlier upserts committed.
   */
  function LoadInOrder(db: Db, teams: Frame, players: Frame, games: Frame): Gold.Progress {
    match Upsert(db, Teams, teams)
    case Err(e) => Gold.Progress(db, Some(e))
    case Ok(d1) => LoadAfterTeams(d1, players, games)
  }

  function LoadAfterTeams(d1: Db, players: Frame, games: Frame): Gold.Progress {
    match Upsert(d1, Players, players)
    case Err(e) => Gold.Progress(d1, Some(e))
    case Ok(d2) => LoadAfterPlayers(d2, games)
  }

  function LoadAfterPlayers(d2: Db, games: Frame): Gold.Progress {
    if IsEmpty(games) then Gold.Progress(d2, None)
    else
      match Upsert(d2, Games, games)
      case Err(e) => Gold.Progress(d2, Some(e))
      case Ok(d3) => Gold.Progress(d3, None)
  }

  /** One upsert, then the rest on what it left. */
  lemma LoadAllCons(db: Db, ld: Load, df: Frame, rest: seq<(Load, Frame)>)
    ensures Upsert(db, ld, df).Err? ==>
              LoadAll(db, [(ld, df)] + rest) == Gold.Progress(db, Some(Upsert(db, ld, df).error))
    ensures Upsert(db, ld, df).Ok? ==> LoadAll(db, [(ld, df)] + rest) == LoadAll(Upsert(db, ld, df).value, rest)
  {
    assert ([(ld, df)] + rest)[1..] == rest;
  }

  lemma LoadGamesInOrder(d2: Db, games: Frame)
    ensures LoadAll(d2, GamesStep(games)) == LoadAfterPlayers(d2, games)
  {
    if !IsEmpty(games) {
      LoadAllCons(d2, Games, games, []);
      assert GamesStep(games) == [(Games, games)] + [];
    }
  }

  lemma LoadPlayersInOrder(d1: Db, players: Frame, games: Frame)
    ensures LoadAll(d1, [(Players, players)] + GamesStep(games)) == LoadAfterTeams(d1, players, games)
  {
    LoadAllCons(d1, Players, players, GamesStep(games));
    if Upsert(d1, Players, players).Ok? {
      LoadGamesInOrder(Upsert(d1, Players, players).value, games);
    }
  }

  /** `load_data` runs the teams upsert, then players on what it left, then games on what that left. */
  lemma LoadDataInOrder(db: Db, teams: Frame, players: Frame, games: Frame)
    ensures LoadData(db, teams, players, games) == LoadInOrder(db, teams, players, games)
  {
    assert Steps(teams, players, games) == [(Teams, teams)] + ([(Players, players)] + GamesStep(games));
    LoadAllCons(db, Teams, teams, [(Players, players)] + GamesStep(games));
    if Upsert(db, Teams, teams).Ok? {
      LoadPlayersInOrder(Upsert(db, Teams, teams).value, players, games);
    }
  }

  /**
   * A failed players upsert ends `load_data` with its error, the teams upsert
   * committed, and the games table as it was.
   */
  lemma PlayersFailureStops(db: Db, teams: Frame, players: Frame, games: Frame)
    requires Upsert(db, Teams, teams).Ok?
    requires Upsert(Upsert(db, Teams, teams).value, Players, players).Err?
    ensures var d1 := Upsert(db, Teams, teams).value;
            LoadData(db, teams, players, games) == Gold.Progress(d1, Some(Upsert(d1, Players, players).error))
    ensures "games" in db ==> LoadData(db, teams, players, games).db["games"] == db["games"]
  {
    LoadDataInOrder(db, teams, players, games);
  }

  /** The frame `load_data` hands to each upsert. */
  function FrameFor(ld: Load, teams: Frame, players: Frame, games: Frame): Frame {
    match ld
    case Teams => teams
    case Players => players
    case Games => games
  }

  /**
   * A `load_data` that raises nothing leaves every staged team, player and
   * (game, team) key in its table; the games only when there were any.
   */
  lemma LoadDataStaged(db: Db, teams: Frame, players: Frame, games: Frame, ld: Load)
    requires LoadData(db, teams, players, games).error.None?
    requires ld.Games? ==> !IsEmpty(games)
    ensures ld.Table() in db
    ensures KeySet(Staged(FrameFor(ld, teams, players, games)), db[ld.Table()].pk)
            <= LoadData(db, teams, players, games).db[ld.Table()].rows.Keys
  {
    var steps := Steps(teams, players, games);
    var i := match ld case Teams => 0 case Players => 1 case Games => 2;
    assert steps[i] == (ld, FrameFor(ld, teams, players, games));
    LoadAllStaged(db, steps, i);
  }

  /** An upsert, re-run where its table already holds what the first run wrote, changes nothing. */
  lemma RerunUpsert(db: Db, d1: Db, x: Db, ld: Load, df: Frame)
    requires Upsert(db, ld, df) == Ok(d1)
    requires AgreeOn(d1, x, {ld.Table()})
    ensures Upsert(x, ld, df) == Ok(x)
  {
    UpsertIdempotent(db, df, ld.Table(), ld.Conflict(), ld.Updates());
    UpsertLocal(d1, x, df, ld.Table(), ld.Conflict(), ld.Updates());
    assert Overlay(x, d1, ld.Table()) == x;
  }

  /** A failed upsert fails the same way on any database with the same target table. */
  lemma RerunFailure(db: Db, x: Db, ld: Load, df: Frame)
    requires Upsert(db, ld, df).Err?
    requires AgreeOn(db, x, {ld.Table()})
    ensures Upsert(x, ld, df) == Upsert(db, ld, df)
  {
    UpsertLocal(db, x, df, ld.Table(), ld.Conflict(), ld.Updates());
  }

  /**
   * Re-running the upserts on any database that already holds the first run's
   * tables changes nothing and ends the same way.
   */
  lemma {:induction false} LoadAllRerun(db: Db, x: Db, steps: seq<(Load, Frame)>)
    requires DistinctLoads(steps)
    requires AgreeOn(x, LoadAll(db, steps).db, TablesOf(steps))
    ensures LoadAll(x, steps) == Gold.Progress(x, LoadAll(db, steps).error)
    decreases |steps|
  {
    if steps != [] {
      var ld := steps[0].0;
      var df := steps[0].1;
      TablesOfTail(steps);
      assert DistinctLoads(steps[1..]);
      match Upsert(db, ld, df)
      case Err(_) =>
        RerunFailure(db, x, ld, df);
      case Ok(d1) =>
        LoadAllCommits(db, steps);
        RerunUpsert(db, d1, x, ld, df);
        LoadAllRerun(d1, x, steps[1..]);
    }
  }

  /** `load_data` is safe to re-run: the second run changes nothing and ends the same way. */
  lemma LoadDataIdempotent(db: Db, teams: Frame, players: Frame, games: Frame)
    ensures LoadData(LoadData(db, teams, players, games).db, teams, players, games) == LoadData(db, teams, players, games)
  {
    StepsTables(teams, players, games);
    LoadAllRerun(db, LoadData(db, teams, players, games).db, Steps(teams, players, games));
  }

  // ── Extraction and the run ───────────────────────────────────────────

  /** `teams_df['id'].tolist()`. */
  function TeamIds(teams: Frame): (r: Result<seq<Value>, Failure>)
    ensures r.Err? <==> "id" !in teams.columns
    ensures r.Err? ==> r.error == KeyError("id")
    ensures r.Ok? ==> |r.value| == |teams.rows| && forall i :: 0 <= i < |teams.rows| ==> r.value[i] == Cell(teams.rows[i], "id")
  {
    if "id" !in teams.columns then Err(KeyError("id"))
    else Ok(seq(|teams.rows|, i requires 0 <= i < |teams.rows| => Cell(teams.rows[i], "id")))
  }

  /** `LeagueGameFinder(team_id_nullable=id).get_data_frames()[0]`, or what it raises. */
  type Finder = Value -> Result<Frame, Failure>

  /** The game logs of the teams in order; the first request that raises stops the loop. */
  function FetchLogs(ids: seq<Value>, finder: Finder): (r: Result<seq<Frame>, Failure>)
    ensures r.Ok? <==> forall i :: 0 <= i < |ids| ==> finder(ids[i]).Ok?
    ensures r.Ok? ==> |r.value| == |ids| && forall i :: 0 <= i < |ids| ==> r.value[i] == finder(ids[i]).value
    ensures r.Err? ==> exists i :: 0 <= i < |ids| && finder(ids[i]) == Err(r.error)
                                  && forall j :: 0 <= j < i ==> finder(ids[j]).Ok?
  {
    if ids == [] then Ok([])
    else
      match finder(ids[0])
      case Err(e) => Err(e)
      case Ok(first) =>
        match FetchLogs(ids[1..], finder)
        case Err(e) =>
          assert forall j :: 0 <= j < |ids| - 1 ==> ids[1..][j] == ids[j + 1];
          Err(e)
        case Ok(rest) =>
          Ok([first] + rest)
  }

  /** `extract_games`: every team's log, concatenated; `pd.concat([])` raises when there are no teams. */
  function ExtractGames(ids: seq<Value>, finder: Finder): (r: Result<Frame, Failure>)
    ensures ids == [] ==> r == Err(ValueError("No objects to concatenate"))
    ensures ids != [] ==> (r.Ok? <==> forall i :: 0 <= i < |ids| ==> finder(ids[i]).Ok?)
    ensures r.Ok? ==> WellFormed(r.value) && |r.value.rows| == TotalRows(FetchLogs(ids, finder).value)
    ensures r.Ok? ==> forall i :: 0 <= i < |ids| ==> finder(ids[i]).value.columns <= r.value.columns
  {
    if ids == [] then Err(ValueError("No objects to concatenate"))
    else
      var logs :- FetchLogs(ids, finder);
      AllColumnsCover(logs);
      Ok(Concat(logs))
  }

  /**
   * Row `k` of team `i`'s log lands in the extracted frame after every row of
   * the teams before it, widened to all the logs' columns.
   */
  lemma ExtractGamesRow(ids: seq<Value>, finder: Finder, i: nat, k: nat)
    requires ExtractGames(ids, finder).Ok?
    requires i < |ids| && k < |finder(ids[i]).value.rows|
    ensures var logs := FetchLogs(ids, finder).value;
            var df := ExtractGames(ids, finder).value;
            TotalRows(logs[..i]) + k < |df.rows|
            && df.rows[TotalRows(logs[..i]) + k] == Normalize(finder(ids[i]).value.rows[k], df.columns)
  {
    var logs := FetchLogs(ids, finder).value;
    assert logs[i] == finder(ids[i]).value;
    ConcatRow(logs, i, k);
  }

  lemma {:induction false} AllColumnsCover(fs: seq<Frame>)
    ensures forall i :: 0 <= i < |fs| ==> fs[i].columns <= AllColumns(fs)
  {
    if fs != [] {
      AllColumnsCover(fs[..|fs| - 1]);
      assert forall i :: 0 <= i < |fs| - 1 ==> fs[..|fs| - 1][i] == fs[i];
    }
  }

  /** `schema.sql` creates its tables only where they do not exist yet. */
  function CreateTables(db: Db, schema: Db): (out: Db)
    ensures out.Keys == db.Keys + schema.Keys
    ensures forall n :: n in db ==> out[n] == db[n]
    ensures forall n :: n in schema && n !in db ==> out[n] == schema[n]
  {
    db + map n | n in schema.Keys && n !in db :: schema[n]
  }

  /** A database that already has every schema table is left alone. */
  lemma CreateTablesPresent(db: Db, schema: Db)
    requires schema.Keys <= db.Keys
    ensures CreateTables(db, schema) == db
  {
  }

  /** How many times `init_db` is tried before the run gives up waiting. */
  const Retries: nat := 5
  /** Seconds slept after each failed try. */
  const RetryDelay: nat := 5

  /** The wait for the database: whether `init_db` succeeded, how often it was tried, and the seconds slept. */
  datatype Init = Init(ready: bool, attempts: nat, slept: nat)

  /**
   * The retry loop from try `k` on; `ready(k)` says whether the k-th `init_db`
   * succeeds. It stops at the first success and gives up silently after the
   * last try, sleeping after every failure, the last included.
   */
  function InitFrom(ready: nat -> bool, k: nat): (r: Init)
    requires 1 <= k <= Retries + 1
    ensures r.attempts <= Retries + 1 - k
    ensures r.ready <==> exists j :: k <= j <= Retries && ready(j)
    ensures r.ready ==> r.attempts >= 1 && ready(k + r.attempts - 1)
    ensures forall j :: k <= j < k + r.attempts - (if r.ready then 1 else 0) ==> !ready(j)
    ensures !r.ready ==> r.attempts == Retries + 1 - k
    ensures r.slept == RetryDelay * (r.attempts - if r.ready then 1 else 0)
    decreases Retries + 1 - k
  {
    if k > Retries then Init(false, 0, 0)
    else if ready(k) then Init(true, 1, 0)
    else
      var rest := InitFrom(ready, k + 1);
      Init(rest.ready, rest.attempts + 1, rest.slept + RetryDelay)
  }

  /** The whole run: the wait, the database after it, and the exception that ended it. */
  datatype Run = Run(init: Init, db: Db, error: Option<Failure>)

  /**
   * The part of `run_pipeline` that touches no database: the team ids, the
   * extracted game logs and the transformed frames. The first failure wins.
   */
  function Prepare(teams: Frame, players: Frame, finder: Finder): (r: Result<Transformed, Failure>)
    ensures TeamIds(teams).Err? ==> r == Err(KeyError("id"))
    ensures TeamIds(teams).Ok? && ExtractGames(TeamIds(teams).value, finder).Err? ==>
              r == Err(ExtractGames(TeamIds(teams).value, finder).error)
    ensures r.Ok? <==> TeamIds(teams).Ok? && ExtractGames(TeamIds(teams).value, finder).Ok?
                       && TransformData(teams, players, ExtractGames(TeamIds(teams).value, finder).value).Ok?
  {
    var ids :- TeamIds(teams);
    var games :- ExtractGames(ids, finder);
    TransformData(teams, players, games)
  }

  /**
   * `run_pipeline`: wait for the database (carrying on even when it never
   * answers), extract, transform, load. An extraction or transform failure
   * raises before anything is loaded.
   */
  function RunPipeline(db: Db, schema: Db, ready: nat -> bool, teams: Frame, players: Frame, finder: Finder)
    : (r: Run)
    ensures 1 <= r.init.attempts <= Retries
    ensures r.init.ready <==> exists j :: 1 <= j <= Retries && ready(j)
    ensures !r.init.ready ==> r.init.attempts == Retries && r.init.slept == Retries * RetryDelay
    ensures r.db.Keys == db.Keys + (if r.init.ready then schema.Keys else {})
    ensures forall n :: n in db && n !in Loaded ==> r.db[n] == db[n]
    ensures Prepare(teams, players, finder).Err? ==>
              r.error == Some(Prepare(teams, players, finder).error)
              && r.db == if r.init.ready then CreateTables(db, schema) else db
  {
    var init := InitFrom(ready, 1);
    var db1 := if init.ready then CreateTables(db, schema) else db;
    match Prepare(teams, players, finder)
    case Err(e) => Run(init, db1, Some(e))
    case Ok(t) =>
      var p := LoadData(db1, t.teams, t.players, t.games);
      Run(init, p.db, p.error)
  }

  /**
   * Once extraction and transformation succeed, the run ends as the three
   * upserts do, in order, on the database the wait left: it is clean exactly
   * when each of them is.
   */
  lemma RunPipelineLoads(db: Db, schema: Db, ready: nat -> bool, teams: Frame, players: Frame, finder: Finder)
    requires Prepare(teams, players, finder).Ok?
    ensures var t := Prepare(teams, players, finder).value;
            var r := RunPipeline(db, schema, ready, teams, players, finder);
            var db1 := if r.init.ready then CreateTables(db, schema) else db;
            Gold.Progress(r.db, r.error) == LoadInOrder(db1, t.teams, t.players, t.games)
  {
    var t := Prepare(teams, players, finder).value;
    var r := RunPipeline(db, schema, ready, teams, players, finder);
    var db1 := if r.init.ready then CreateTables(db, schema) else db;
    assert Gold.Progress(r.db, r.error) == LoadData(db1, t.teams, t.players, t.games);
    LoadDataInOrder(db1, t.teams, t.players, t.games);
  }

  /**
   * A run that raises nothing leaves every transformed team, player and
   * (game, team) key in its table; the games only when there were any.
   */
  lemma RunPipelineStaged(db: Db, schema: Db, ready: nat -> bool, teams: Frame, players: Frame, finder: Finder, ld: Load)
    requires Prepare(teams, players, finder).Ok?
    requires RunPipeline(db, schema, ready, teams, players, finder).error.None?
    requires ld.Games? ==> !IsEmpty(Prepare(teams, players, finder).value.games)
    ensures var t := Prepare(teams, players, finder).value;
            var r := RunPipeline(db, schema, ready, teams, players, finder);
            var db1 := if r.init.ready then CreateTables(db, schema) else db;
            && ld.Table() in db1
            && KeySet(Staged(FrameFor(ld, t.teams, t.players, t.games)), db1[ld.Table()].pk)
               <= r.db[ld.Table()].rows.Keys
  {
    var t := Prepare(teams, players, finder).value;
    var r := RunPipeline(db, schema, ready, teams, players, finder);
    var db1 := if r.init.ready then CreateTables(db, schema) else db;
    assert r.db == LoadData(db1, t.teams, t.players, t.games).db;
    LoadDataStaged(db1, t.teams, t.players, t.games, ld);
  }

  /**
   * Running the whole pipeline again against the same sources and a database
   * that answers at once changes nothing: the tables exist, and every upsert
   * rewrites the rows it wrote before.
   */
  lemma RunPipelineIdempotent(db: Db, schema: Db, ready: nat -> bool, teams: Frame, players: Frame, finder: Finder)
    requires ready(1)
    ensures var r := RunPipeline(db, schema, ready, teams, players, finder);
            RunPipeline(r.db, schema, ready, teams, players, finder) == r
  {
    var r := RunPipeline(db, schema, ready, teams, players, finder);
    var db1 := CreateTables(db, schema);
    assert InitFrom(ready, 1) == Init(true, 1, 0);
    CreateTablesPresent(r.db, schema);
    match Prepare(teams, players, finder)
    case Err(e) =>
      CreateTablesPresent(db1, schema);
    case Ok(t) =>
      LoadDataIdempotent(db1, t.teams, t.players, t.games);
  }
}

=== FILE: season_ingest.dfy ===
/**
 * The season-at-a-time ingester (ingest.py): the season labels a year range
 * turns into, and the split of one season's league game log (one row per
 * team and game) into a `games` frame with one row per game and a
 * `team_stats` frame with one row per team and game.
 *
 * The league game finder, the database and the CSV copy are left to the
 * caller: the log arrives as a frame.
 */
module SeasonIngest {
  import opened Wrappers
  import opened Frames
  import Text
  import Tables
  import Gold
  import LegacyPipeline

  // ── Season labels ────────────────────────────────────────────────────

  /** The label of the season starting in `year`: the year, a dash and the last two characters of `year + 1`. */
  function SeasonString(year: int): string {
    Text.IntText(year) + "-" + Text.LastN(Text.IntText(year + 1), 2)
  }

  /** `generate_season_strings`: one label per year from `start` to `end`, both included, in order. */
  function GenerateSeasonStrings(start: int, end: int): (r: seq<string>)
    ensures |r| == if start <= end then end - start + 1 else 0
    ensures forall i :: 0 <= i < |r| ==> r[i] == SeasonString(start + i)
  {
    seq(if start <= end then end - start + 1 else 0, i => SeasonString(start + i))
  }

  /** Two decimal digits, the tens first. */
  function TwoDigits(n: nat): (s: string)
    requires n < 100
  {
    [Text.DigitChar(n / 10), Text.DigitChar(n % 10)]
  }

  /** The tens and units digits of `n % 100` are those of `n`. */
  lemma TensAndUnits(n: nat)
    ensures (n % 100) / 10 == (n / 10) % 10
    ensures (n % 100) % 10 == n % 10
  {
    var q, t, u := n / 100, (n / 10) % 10, n % 10;
    assert n / 10 == 10 * q + t;
    assert n == 100 * q + (10 * t + u);
  }

  /** The last character of `str(n)` is its units digit. */
  lemma LastDigit(n: nat)
    ensures Text.NatText(n)[|Text.NatText(n)| - 1] == Text.DigitChar(n % 10)
  {
  }

  /** From two digits on, the last two characters of `str(n)` are `n % 100` written with two digits. */
  lemma {:induction false} LastTwoDigits(n: nat)
    requires n >= 10
    ensures Text.LastN(Text.NatText(n), 2) == TwoDigits(n % 100)
  {
    var s := Text.NatText(n);
    var h := Text.NatText(n / 10);
    assert s == h + [Text.DigitChar(n % 10)];
    LastDigit(n / 10);
    TensAndUnits(n);
    assert s[|s| - 2..] == [h[|h| - 1], Text.DigitChar(n % 10)];
  }

  /**
   * For every season from 9 on the label is the familiar "2006-07": the
   * starting year, a dash, and the ending year modulo 100 on two digits.
   */
  lemma SeasonStringShape(year: int)
    requires year >= 9
    ensures SeasonString(year) == Text.NatText(year) + "-" + TwoDigits((year + 1) % 100)
  {
    LastTwoDigits(year + 1);
  }

  /** Splitting a label at its dashes, the first piece is the starting year as `str` printed it. */
  lemma SeasonStringStart(year: nat)
    ensures Text.Split(SeasonString(year), '-')[0] == Text.NatText(year)
  {
    var t := Text.NatText(year);
    Text.DigitsExclude(t, '-');
    Text.SplitAfterPiece(t, '-', Text.LastN(Text.IntText(year + 1), 2));
  }

  /** Different starting years give different labels. */
  lemma SeasonStringInjective(a: nat, b: nat)
    requires SeasonString(a) == SeasonString(b)
    ensures a == b
  {
    SeasonStringStart(a);
    SeasonStringStart(b);
    Text.ParseNatText(a);
    Text.ParseNatText(b);
  }

  /** A year range never yields the same season twice. */
  lemma GenerateSeasonStringsDistinct(start: nat, end: int)
    ensures var r := GenerateSeasonStrings(start, end);
            forall i, j :: 0 <= i < j < |r| ==> r[i] != r[j]
  {
    var r := GenerateSeasonStrings(start, end);
    forall i, j | 0 <= i < j < |r|
      ensures r[i] != r[j]
    {
      SeasonsAtDiffer(start, end, i, j);
    }
  }

  lemma SeasonsAtDiffer(start: nat, end: int, i: nat, j: nat)
    requires i < j < |GenerateSeasonStrings(start, end)|
    ensures GenerateSeasonStrings(start, end)[i] != GenerateSeasonStrings(start, end)[j]
  {
    SeasonStringsDiffer(start + i, start + j);
  }

  lemma SeasonStringsDiffer(a: nat, b: nat)
    requires a != b
    ensures SeasonString(a) != SeasonString(b)
  {
    if SeasonString(a) == SeasonString(b) {
      SeasonStringInjective(a, b);
    }
  }

  // ── Splitting a season's game log ────────────────────────────────────

  /** The game-log columns a team-stats record reads, in the order it reads them. */
  const StatSources: seq<string> :=
    ["GAME_ID", "TEAM_ID", "MATCHUP", "WL", "PTS", "FGM", "FGA", "FG_PCT", "FG3M", "FG3A", "FG3_PCT",
     "FTM", "FTA", "FT_PCT", "OREB", "DREB", "REB", "AST", "STL", "BLK", "TOV", "PF", "PLUS_MINUS"]

  /** The fields of a team-stats record, in the order of the columns they read. */
  const StatNames: seq<string> :=
    ["game_id", "team_id", "matchup", "wl", "pts", "fgm", "fga", "fg_pct", "fg3m", "fg3a", "fg3_pct",
     "ftm", "fta", "ft_pct", "oreb", "dreb", "reb", "ast", "stl", "blk", "tov", "pf", "plus_minus"]

  /** The columns of a team-stats record. */
  const StatFields: set<string> := set n | n in StatNames

  /** The columns of a `games` record. */
  const GameFields: set<string> :=
    {"game_id", "season", "season_type", "game_date", "home_team_id", "away_team_id",
     "home_team_score", "away_team_score", "game_status"}

  /** The row whose field `names[i]` holds the `sources[i]` cell of `row`. */
  function Fields(row: Row, names: seq<string>, sources: seq<string>): (out: Row)
    requires |names| == |sources|
    requires forall i, j :: 0 <= i < j < |names| ==> names[i] != names[j]
    ensures out.Keys == set n | n in names
    ensures forall i :: 0 <= i < |names| ==> Cell(out, names[i]) == Cell(row, sources[i])
  {
    var out := map i | 0 <= i < |names| :: names[i] := Cell(row, sources[i]);
    assert forall i :: 0 <= i < |names| ==> names[i] in out && out[names[i]] == Cell(row, sources[i]);
    out
  }

  /** A team-stats record: each game-log column under its lower-case name. */
  function Record(row: Row): (out: Row)
    ensures out.Keys == StatFields
    ensures Cell(out, "game_id") == Cell(row, "GAME_ID") && Cell(out, "team_id") == Cell(row, "TEAM_ID")
  {
    StatNamesDistinct();
    var out := Fields(row, StatNames, StatSources);
    assert StatNames[0] == "game_id" && StatSources[0] == "GAME_ID";
    assert StatNames[1] == "team_id" && StatSources[1] == "TEAM_ID";
    out
  }

  lemma StatNamesDistinct()
    ensures |StatNames| == |StatSources|
    ensures forall i, j :: 0 <= i < j < |StatNames| ==> StatNames[i] != StatNames[j]
  {
  }

  lemma StatNamesLowerFront()
    ensures forall i :: 0 <= i < 8 ==> StatNames[i] == Text.ToLower(StatSources[i])
  {
    forall i | 0 <= i < 8
      ensures StatNames[i] == Text.ToLower(StatSources[i])
    {
      Text.LowerLetters(StatSources[i], StatNames[i]);
    }
  }

  lemma StatNamesLowerMiddle()
    ensures forall i :: 8 <= i < 16 ==> StatNames[i] == Text.ToLower(StatSources[i])
  {
    forall i | 8 <= i < 16
      ensures StatNames[i] == Text.ToLower(StatSources[i])
    {
      Text.LowerLetters(StatSources[i], StatNames[i]);
    }
  }

  lemma StatNamesLowerBack()
    ensures forall i :: 16 <= i < |StatSources| ==> StatNames[i] == Text.ToLower(StatSources[i])
  {
    forall i | 16 <= i < |StatSources|
      ensures StatNames[i] == Text.ToLower(StatSources[i])
    {
      Text.LowerLetters(StatSources[i], StatNames[i]);
    }
  }

  /** Each field name is Python's `str.lower()` of the column it reads. */
  lemma StatNamesLower()
    ensures |StatNames| == |StatSources|
    ensures forall i :: 0 <= i < |StatSources| ==> StatNames[i] == Text.ToLower(StatSources[i])
  {
    StatNamesLowerFront();
    StatNamesLowerMiddle();
    StatNamesLowerBack();
  }

  /** A team-stats record holds every game-log column it reads under that column's lower-case name. */
  lemma RecordLowersSources(row: Row)
    ensures forall i :: 0 <= i < |StatSources| ==> Cell(Record(row), Text.ToLower(StatSources[i])) == Cell(row, StatSources[i])
  {
    StatNamesDistinct();
    StatNamesLower();
  }

  /**
   * `games_df[games_df[c] == v]`: the rows whose `c` equals `v`, in order. A
   * null never equals anything, itself included.
   */
  function Matching(rows: seq<Row>, c: string, v: Value): (out: seq<Row>)
    ensures |out| <= |rows|
    ensures forall r :: r in out <==> r in rows && v != VNull && Cell(r, c) == v
  {
    if rows == [] then []
    else
      var n := |rows| - 1;
      Matching(rows[..n], c, v) + (if v != VNull && Cell(rows[n], c) == v then [rows[n]] else [])
  }

  /** The team-id and score pairs of one game. */
  datatype Sides = Sides(homeTeam: Value, awayTeam: Value, homeScore: Value, awayScore: Value)

  /**
   * Home and away for a game with the given rows: with exactly two rows, the
   * first is the away side when its MATCHUP has an '@' and the home side
   * otherwise; with any other count the row itself is home and the away side
   * is unknown. `'@' in x` raises TypeError when x is not a string.
   */
  function SidesOf(row: Row, game: seq<Row>): (r: Result<Sides, Failure>)
  {
    if |game| == 2 then
      match Cell(game[0], "MATCHUP")
      case VStr(m) =>
        if '@' in m then Ok(Sides(Cell(game[1], "TEAM_ID"), Cell(game[0], "TEAM_ID"), Cell(game[1], "PTS"), Cell(game[0], "PTS")))
        else Ok(Sides(Cell(game[0], "TEAM_ID"), Cell(game[1], "TEAM_ID"), Cell(game[0], "PTS"), Cell(game[1], "PTS")))
      case _ => Err(TypeError("MATCHUP"))
    else Ok(Sides(Cell(row, "TEAM_ID"), VNull, Cell(row, "PTS"), VNull))
  }

  /**
   * When exactly one of a game's two rows is the visitor's ("@" in its
   * MATCHUP), that row's team and points are the away side and the other's
   * are home, whichever of the two comes first.
   */
  lemma SidesFollowMatchup(row: Row, a: Row, b: Row)
    requires Cell(a, "MATCHUP").VStr? && Cell(b, "MATCHUP").VStr?
    requires '@' in Cell(a, "MATCHUP").s && '@' !in Cell(b, "MATCHUP").s
    ensures SidesOf(row, [a, b]) == Ok(Sides(Cell(b, "TEAM_ID"), Cell(a, "TEAM_ID"), Cell(b, "PTS"), Cell(a, "PTS")))
    ensures SidesOf(row, [b, a]) == Ok(Sides(Cell(b, "TEAM_ID"), Cell(a, "TEAM_ID"), Cell(b, "PTS"), Cell(a, "PTS")))
  {
  }

  /** A two-row game's home and away teams are its two rows' teams, one each. */
  lemma SidesAreTheTeams(row: Row, game: seq<Row>)
    requires |game| == 2 && SidesOf(row, game).Ok?
    ensures var s := SidesOf(row, game).value;
            var one := Sides(Cell(game[0], "TEAM_ID"), Cell(game[1], "TEAM_ID"), Cell(game[0], "PTS"), Cell(game[1], "PTS"));
            var other := Sides(Cell(game[1], "TEAM_ID"), Cell(game[0], "TEAM_ID"), Cell(game[1], "PTS"), Cell(game[0], "PTS"));
            s == one || s == other
  {
  }

  /** The nine columns of a `games` record. */
  function GameOf(id: Value, season: string, seasonType: Value, date: Value, sides: Sides): (m: Row)
    ensures m.Keys == GameFields
    ensures Cell(m, "game_id") == id && Cell(m, "season") == VStr(season) && Cell(m, "game_status") == VStr("Final")
    ensures Cell(m, "season_type") == seasonType && Cell(m, "game_date") == date
    ensures Cell(m, "home_team_id") == sides.homeTeam && Cell(m, "away_team_id") == sides.awayTeam
    ensures Cell(m, "home_team_score") == sides.homeScore && Cell(m, "away_team_score") == sides.awayScore
  {
    map["game_id" := id, "season" := VStr(season), "season_type" := seasonType,
        "game_date" := date, "home_team_id" := sides.homeTeam, "away_team_id" := sides.awayTeam,
        "home_team_score" := sides.homeScore, "away_team_score" := sides.awayScore,
        "game_status" := VStr("Final")]
  }

  /**
   * `pd.to_datetime(v).date()`: a null cell converts to None, and calling
   * `.date()` on None raises AttributeError; any other cell is parsed as a
   * date and so is never null.
   */
  function GameDate(v: Value): (r: Result<Value, Failure>)
    ensures v.VNull? ==> r == Err(AttributeError("date"))
    ensures r.Ok? ==> r.value.VStr? && r == LegacyPipeline.ParseGameDate(v)
    ensures !v.VNull? && r.Err? ==> r == LegacyPipeline.ParseGameDate(v) && r.error.ValueError?
  {
    if v.VNull? then Err(AttributeError("date")) else LegacyPipeline.ParseGameDate(v)
  }

  /**
   * One `games` record, built from the first row of its game: the MATCHUP
   * test, the home/away split, then SEASON_ID and GAME_DATE are read and the
   * date is parsed; the first failure raises. The record's sides are the
   * split's.
   */
  function GameRecord(df: Frame, row: Row, season: string): (r: Result<Row, Failure>)
    ensures r.Err? ==> r.error.KeyError? || r.error.TypeError? || r.error.ValueError? || r.error.AttributeError?
    ensures r.Ok? <==> Cell(row, "MATCHUP").VStr? && SidesOf(row, Matching(df.rows, "GAME_ID", Cell(row, "GAME_ID"))).Ok?
                       && "SEASON_ID" in df.columns && "GAME_DATE" in df.columns
                       && GameDate(Cell(row, "GAME_DATE")).Ok?
    ensures Cell(row, "MATCHUP").VStr? && SidesOf(row, Matching(df.rows, "GAME_ID", Cell(row, "GAME_ID"))).Ok?
            && "SEASON_ID" in df.columns && "GAME_DATE" in df.columns && Cell(row, "GAME_DATE").VNull?
            ==> r == Err(AttributeError("date"))
    ensures r.Ok? ==> r.value.Keys == GameFields
    ensures r.Ok? ==> Cell(r.value, "game_date") == GameDate(Cell(row, "GAME_DATE")).value
                      && Cell(r.value, "game_date").VStr?
    ensures r.Ok? ==> Cell(r.value, "game_id") == Cell(row, "GAME_ID") && Cell(r.value, "season") == VStr(season)
                      && Cell(r.value, "game_status") == VStr("Final")
    ensures r.Ok? ==> var sides := SidesOf(row, Matching(df.rows, "GAME_ID", Cell(row, "GAME_ID"))).value;
                      && Cell(r.value, "home_team_id") == sides.homeTeam && Cell(r.value, "away_team_id") == sides.awayTeam
                      && Cell(r.value, "home_team_score") == sides.homeScore
                      && Cell(r.value, "away_team_score") == sides.awayScore
  {
    if !Cell(row, "MATCHUP").VStr? then Err(TypeError("MATCHUP"))
    else
      var sides :- SidesOf(row, Matching(df.rows, "GAME_ID", Cell(row, "GAME_ID")));
      if "SEASON_ID" !in df.columns then Err(KeyError("SEASON_ID"))
      else if "GAME_DATE" !in df.columns then Err(KeyError("GAME_DATE"))
      else
        var date :- GameDate(Cell(row, "GAME_DATE"));
        Ok(GameOf(Cell(row, "GAME_ID"), season, Cell(row, "SEASON_ID"), date, sides))
  }

  /** Every row's `games` record builds. */
  predicate RecordsBuild(df: Frame, rows: seq<Row>, season: string) {
    forall k :: 0 <= k < |rows| ==> GameRecord(df, rows[k], season).Ok?
  }

  /** `out` holds every row's `games` record, in order. */
  predicate RecordsAre(df: Frame, rows: seq<Row>, season: string, out: seq<Row>) {
    |out| == |rows| && forall k :: 0 <= k < |rows| ==> GameRecord(df, rows[k], season) == Ok(out[k])
  }

  /** The `games` records, one per GAME_ID from its first row, in order; the first failing record raises. */
  function GameRows(df: Frame, season: string): (r: Result<seq<Row>, Failure>)
    ensures r.Ok? <==> RecordsBuild(df, FirstOccurrences(df.rows, ["GAME_ID"]), season)
    ensures r.Ok? ==> RecordsAre(df, FirstOccurrences(df.rows, ["GAME_ID"]), season, r.value)
    ensures r.Err? ==> r.error.KeyError? || r.error.TypeError? || r.error.ValueError? || r.error.AttributeError?
  {
    GameRecords(df, season, FirstOccurrences(df.rows, ["GAME_ID"]));
    EachRow(GameRecordOf(df, season), FirstOccurrences(df.rows, ["GAME_ID"]))
  }

  function GameRecordOf(df: Frame, season: string): Row -> Result<Row, Failure> {
    row => GameRecord(df, row, season)
  }

  /** Building a record per row: every row's record, or the exception of the first that fails. */
  lemma GameRecords(df: Frame, season: string, rows: seq<Row>)
    ensures EachRow(GameRecordOf(df, season), rows).Ok? <==> RecordsBuild(df, rows, season)
    ensures EachRow(GameRecordOf(df, season), rows).Ok? ==> RecordsAre(df, rows, season, EachRow(GameRecordOf(df, season), rows).value)
    ensures var r := EachRow(GameRecordOf(df, season), rows);
            r.Err? ==> r.error.KeyError? || r.error.TypeError? || r.error.ValueError? || r.error.AttributeError?
  {
    var f := GameRecordOf(df, season);
    var r := EachRow(f, rows);
    assert forall k :: 0 <= k < |rows| ==> f(rows[k]) == GameRecord(df, rows[k], season);
    if r.Err? {
      var k :| 0 <= k < |rows| && f(rows[k]).Err? && r.error == f(rows[k]).error;
      assert !GameRecord(df, rows[k], season).Ok?;
    }
  }

  /** What `process_games_data` returns: the per-game frame and the per-team frame. */
  datatype Split = Split(games: Frame, teamStats: Frame)

  /** One team-stats record per game-log row, in the log's order. */
  function StatRows(rows: seq<Row>): (out: seq<Row>)
    ensures |out| == |rows|
    ensures forall i :: 0 <= i < |rows| ==> out[i] == Record(rows[i])
  {
    if rows == [] then [] else [Record(rows[0])] + StatRows(rows[1..])
  }

  /**
   * `process_games_data`: an empty log gives two empty frames. Otherwise
   * every row becomes a team-stats record (KeyError naming the first stat
   * column the log lacks), and the first row of each GAME_ID becomes a
   * `games` record.
   */
  function ProcessGamesData(df: Frame, season: string): (r: Result<Split, Failure>)
    ensures IsEmpty(df) ==> r == Ok(Split(EmptyFrame(), EmptyFrame()))
    ensures !IsEmpty(df) && FirstMissing(StatSources, df.columns).Some? ==>
              r == Err(KeyError(FirstMissing(StatSources, df.columns).value))
    ensures r.Err? ==> r.error.KeyError? || r.error.TypeError? || r.error.ValueError? || r.error.AttributeError?
    ensures r.Ok? && !IsEmpty(df) ==>
              && |r.value.teamStats.rows| == |df.rows|
              && forall i :: 0 <= i < |df.rows| ==> r.value.teamStats.rows[i] == Record(df.rows[i])
    ensures r.Ok? && !IsEmpty(df) ==>
              var firsts := FirstOccurrences(df.rows, ["GAME_ID"]);
              && |r.value.games.rows| == |firsts|
              && forall k :: 0 <= k < |firsts| ==> GameRecord(df, firsts[k], season) == Ok(r.value.games.rows[k])
  {
    if IsEmpty(df) then Ok(Split(EmptyFrame(), EmptyFrame()))
    else
      match FirstMissing(StatSources, df.columns)
      case Some(c) => Err(KeyError(c))
      case None =>
        var stats := Frame(StatFields, StatRows(df.rows));
        var games :- GameRows(df, season);
        Ok(Split(Frame(GameFields, games), stats))
  }

  /**
   * `process_games_data` succeeds exactly for an empty log, or for one that
   * has every stat column and a well-formed record for each game.
   */
  lemma ProcessGamesDataOk(df: Frame, season: string)
    ensures var firsts := FirstOccurrences(df.rows, ["GAME_ID"]);
            ProcessGamesData(df, season).Ok? <==>
              IsEmpty(df)
              || ((forall i :: 0 <= i < |StatSources| ==> StatSources[i] in df.columns)
                  && forall k :: 0 <= k < |firsts| ==> GameRecord(df, firsts[k], season).Ok?)
  {
  }

  /** A team-stats record carries its row's game and team ids under the lower-case names. */
  lemma RecordKey(row: Row)
    ensures KeyOf(Record(row), ["game_id", "team_id"]) == KeyOf(row, ["GAME_ID", "TEAM_ID"])
    ensures KeyOf(Record(row), ["game_id"]) == KeyOf(row, ["GAME_ID"])
  {
  }

  /** The team-stats records hold exactly the log's (game, team) pairs, and its game ids. */
  lemma StatRowsKeys(rows: seq<Row>)
    ensures KeySet(StatRows(rows), ["game_id", "team_id"]) == KeySet(rows, ["GAME_ID", "TEAM_ID"])
    ensures KeySet(StatRows(rows), ["game_id"]) == KeySet(rows, ["GAME_ID"])
  {
    var out := StatRows(rows);
    forall i | 0 <= i < |rows|
      ensures KeyOf(out[i], ["game_id", "team_id"]) == KeyOf(rows[i], ["GAME_ID", "TEAM_ID"])
      ensures KeyOf(out[i], ["game_id"]) == KeyOf(rows[i], ["GAME_ID"])
    {
      RecordKey(rows[i]);
    }
    Gold.SameKeys(out, ["game_id", "team_id"], rows, ["GAME_ID", "TEAM_ID"]);
    Gold.SameKeys(out, ["game_id"], rows, ["GAME_ID"]);
  }

  /** The `games` records hold every game id of the log once, and no other. */
  lemma GameRowsKeys(df: Frame, season: string)
    requires GameRows(df, season).Ok?
    ensures KeySet(GameRows(df, season).value, ["game_id"]) == KeySet(df.rows, ["GAME_ID"])
    ensures UniqueKeys(GameRows(df, season).value, ["game_id"])
  {
    var games := GameRows(df, season).value;
    var firsts := FirstOccurrences(df.rows, ["GAME_ID"]);
    forall k | 0 <= k < |firsts|
      ensures KeyOf(games[k], ["game_id"]) == KeyOf(firsts[k], ["GAME_ID"])
    {
      assert GameRecord(df, firsts[k], season) == Ok(games[k]);
    }
    Gold.SameKeys(games, ["game_id"], firsts, ["GAME_ID"]);
    FirstOccurrencesKeys(df.rows, ["GAME_ID"]);
    FirstOccurrencesUnique(df.rows, ["GAME_ID"]);
  }

  /**
   * The two frames `process_games_data` returns speak of the same games:
   * each game id has exactly one `games` row and at least one team-stats row.
   */
  lemma SplitCoversSameGames(df: Frame, season: string)
    requires GameRows(df, season).Ok?
    ensures KeySet(GameRows(df, season).value, ["game_id"]) == KeySet(StatRows(df.rows), ["game_id"])
    ensures UniqueKeys(GameRows(df, season).value, ["game_id"])
  {
    GameRowsKeys(df, season);
    StatRowsKeys(df.rows);
  }

  /**
   * For a game whose two log rows are one visitor row (an '@' in its
   * MATCHUP) and one host row, in either order, the record names the host
   * as home and the visitor as away, each with its own points.
   */
  lemma GameHomeAway(df: Frame, season: string, k: nat, host: Row, visitor: Row)
    requires GameRows(df, season).Ok?
    requires k < |FirstOccurrences(df.rows, ["GAME_ID"])|
    requires var id := Cell(FirstOccurrences(df.rows, ["GAME_ID"])[k], "GAME_ID");
             Matching(df.rows, "GAME_ID", id) in {[host, visitor], [visitor, host]}
    requires Cell(host, "MATCHUP").VStr? && '@' !in Cell(host, "MATCHUP").s
    requires Cell(visitor, "MATCHUP").VStr? && '@' in Cell(visitor, "MATCHUP").s
    ensures var g := GameRows(df, season).value[k];
            && Cell(g, "home_team_id") == Cell(host, "TEAM_ID") && Cell(g, "home_team_score") == Cell(host, "PTS")
            && Cell(g, "away_team_id") == Cell(visitor, "TEAM_ID") && Cell(g, "away_team_score") == Cell(visitor, "PTS")
  {
    var row := FirstOccurrences(df.rows, ["GAME_ID"])[k];
    SidesFollowMatchup(row, visitor, host);
    assert GameRecord(df, row, season) == Ok(GameRows(df, season).value[k]);
  }

  /**
   * A game the log does not hold exactly two rows for keeps its first row's
   * team and points as home, and an unknown away side.
   */
  lemma GameWithoutPair(df: Frame, season: string, k: nat)
    requires GameRows(df, season).Ok?
    requires k < |FirstOccurrences(df.rows, ["GAME_ID"])|
    requires var id := Cell(FirstOccurrences(df.rows, ["GAME_ID"])[k], "GAME_ID");
             |Matching(df.rows, "GAME_ID", id)| != 2
    ensures var row := FirstOccurrences(df.rows, ["GAME_ID"])[k];
            var g := GameRows(df, season).value[k];
            && Cell(g, "home_team_id") == Cell(row, "TEAM_ID") && Cell(g, "home_team_score") == Cell(row, "PTS")
            && Cell(g, "away_team_id") == VNull && Cell(g, "away_team_score") == VNull
  {
    var row := FirstOccurrences(df.rows, ["GAME_ID"])[k];
    assert GameRecord(df, row, season) == Ok(GameRows(df, season).value[k]);
  }
}

=== FILE: silver.dfy ===
/**
 * Bronze JSON to silver partitions (src/nba_etl/silver/extraction.py): the
 * three per-game converters with their data contracts, and `process_date`,
 * which decides which `season=/game_date=` partitions get written.
 */
module Silver {
  import opened Wrappers
  import opened Frames
  import opened Validation
  import opened Store
  import Text
  import Calendar

  // ── Season, manifest and file names ─────────────────────────────────

  /** `get_nba_season(game_date)`: ValueError when the text is not a `YYYY-MM-DD` day. */
  function SeasonOf(gameDate: string): (r: Result<int, Failure>)
    ensures r.Err? <==> Calendar.ParseDateText(gameDate).None?
    ensures r.Ok? ==> r.value == Calendar.Season(Calendar.ParseDateText(gameDate).value)
  {
    match Calendar.ParseDateText(gameDate)
    case None => Err(ValueError("time data does not match format '%Y-%m-%d'"))
    case Some(d) => Ok(Calendar.Season(d))
  }

  /** The season of a printed day is the season of the day: October opens a new one. */
  lemma SeasonOfDateText(d: Calendar.Date)
    requires Calendar.Valid(d) && d.year <= 9999
    ensures SeasonOf(Calendar.DateText(d)) == Ok(if d.month >= 10 then d.year else d.year - 1)
  {
    Calendar.ParseDateTextRoundTrip(d);
    SeasonOfParsed(Calendar.DateText(d), d);
  }

  lemma SeasonOfParsed(t: string, d: Calendar.Date)
    requires Calendar.ParseDateText(t) == Some(d)
    ensures SeasonOf(t) == Ok(if d.month >= 10 then d.year else d.year - 1)
  {
  }

  /** A JSON list of text (a manifest's `game_ids`, a result set's `headers`). */
  function TextList(j: Json): (r: Result<seq<string>, Failure>)
    ensures r.Ok? <==> j.JArr? && forall i :: 0 <= i < |j.items| ==> j.items[i].JStr?
    ensures r.Ok? ==> |r.value| == |j.items| && forall i :: 0 <= i < |j.items| ==> j.items[i] == JStr(r.value[i])
  {
    match j
    case JArr(items) =>
      if forall i :: 0 <= i < |items| ==> items[i].JStr? then
        Ok(seq(|items|, i requires 0 <= i < |items| => items[i].s))
      else Err(TypeError("list element is not text"))
    case _ => Err(TypeError("not a list"))
  }

  /**
   * `load_manifest`: FileNotFoundError when the day's manifest is absent,
   * otherwise its `game_ids`. A stored document must be an object whose
   * `game_ids` is a list of text (KeyError or TypeError otherwise); bytes that
   * are not JSON fail to decode.
   */
  function LoadManifest(s: Store, l: Layout, gameDate: string): (r: Result<seq<string>, Failure>)
    ensures ManifestPath(l, gameDate) !in s <==> r == Err(FileNotFound(ManifestPath(l, gameDate)))
    ensures ManifestPath(l, gameDate) in s && s[ManifestPath(l, gameDate)].Manifest? ==>
              r == Ok(s[ManifestPath(l, gameDate)].gameIds)
    ensures ManifestPath(l, gameDate) in s && s[ManifestPath(l, gameDate)].Doc? ==>
              var j := s[ManifestPath(l, gameDate)].json;
              (r.Ok? <==> Index(j, "game_ids").Ok? && TextList(Index(j, "game_ids").value).Ok?)
              && (r.Ok? ==> r.value == TextList(Index(j, "game_ids").value).value)
              && (r.Err? ==> r.error.KeyError? || r.error.TypeError?)
    ensures ManifestPath(l, gameDate) in s && s[ManifestPath(l, gameDate)].Parquet? ==> r.Err?
  {
    var path := ManifestPath(l, gameDate);
    if path !in s then Err(FileNotFound(path))
    else
      var f := s[path];
      var j :- AsJson(f);
      var ids :- Index(j, "game_ids");
      var r := TextList(ids);
      assert f.Manifest? ==> r == Ok(f.gameIds) by {
        if f.Manifest? {
          assert r.Ok?;
          assert r.value == f.gameIds;
        }
      }
      r
  }

  /** `_game_id_from_file`: the basename with every `.json` removed. */
  function GameIdFromFile(path: string): string {
    Text.RemoveAll(Text.Basename(path), ".json")
  }

  /** The id recovered from an artifact's path is the id it was saved under. */
  lemma GameIdOfArtifact(l: Layout, k: Kind, gid: string)
    requires '/' !in gid && !Text.Contains(gid, ".json")
    ensures GameIdFromFile(ArtifactPath(l, k, gid)) == gid
  {
    var name := gid + ".json";
    assert '/' !in name by {
      assert forall i :: |gid| <= i < |name| ==> name[i] == ".json"[i - |gid|];
      assert forall i :: 0 <= i < |gid| ==> name[i] == gid[i];
    }
    assert ArtifactPath(l, k, gid) == (l.bronze + "/" + k.Folder()) + "/" + name;
    Text.BasenameOfJoin(l.bronze + "/" + k.Folder(), name);
    assert ".json"[1..] == "json";
    Text.RemoveAllSuffix(gid, ".json");
  }

  // ── The PT…M…S clock ────────────────────────────────────────────────

  /** The text after `PT`: minutes before the one 'M', seconds after it with trailing `S` stripped. */
  function ClockBody(t: string): (r: Option<real>)
    ensures Text.Count(t, 'M') != 1 ==> r.None?
    ensures r.Some? ==> r.value >= 0.0
  {
    var parts := Text.Split(t, 'M');
    Text.SplitShape(t, 'M');
    if |parts| != 2 then None
    else
      var mins :- Text.ParseDecimal(parts[0]);
      var secs :- Text.ParseDecimal(Text.RStrip(parts[1], 'S'));
      Some(mins * 60.0 + secs)
  }

  /**
   * `_parse_clock`: `"PT" + m + "M" + s` gives m·60 + s with trailing `S`
   * stripped from s; anything else gives None and nothing raises.
   */
  function ParseClock(v: Value): (r: Option<real>)
    ensures !v.VStr? || !Text.StartsWith(v.s, "PT") ==> r.None?
    ensures v.VStr? && Text.StartsWith(v.s, "PT") && Text.Count(v.s[2..], 'M') != 1 ==> r.None?
    ensures r.Some? ==> r.value >= 0.0
  {
    match v
    case VStr(s) => if Text.StartsWith(s, "PT") then ClockBody(s[2..]) else None
    case _ => None
  }

  /** The clock column's cell: the parsed seconds, or null. */
  function ClockCell(v: Value): Value {
    match ParseClock(v)
    case Some(x) => VNum(x)
    case None => VNull
  }

  /** `m + "M" + rest` splits on 'M' into its two sides. */
  lemma SplitMinutes(m: string, rest: string)
    requires 'M' !in m && 'M' !in rest
    ensures Text.Split(m + "M" + rest, 'M') == [m, rest]
  {
    assert Text.Join([m, rest], 'M') == m + "M" + rest by {
      assert [m, rest][1..] == [rest];
    }
    Text.SplitJoin([m, rest], 'M');
  }

  /** `ClockBody` unfolded on a text with exactly one 'M'. */
  lemma ClockBodySteps(t: string, m: string, rest: string, secs: string)
    requires Text.Split(t, 'M') == [m, rest]
    requires Text.RStrip(rest, 'S') == secs
    requires Text.ParseDecimal(m).Some? && Text.ParseDecimal(secs).Some?
    ensures ClockBody(t) == Some(Text.ParseDecimal(m).value * 60.0 + Text.ParseDecimal(secs).value)
  {
  }

  /**
   * The API's clock text `PT<m>M<secs>S` reads as `float(m)` minutes plus
   * `float(secs)` seconds, whenever both pieces are decimals and neither holds
   * an 'M' nor the seconds a trailing 'S'.
   */
  lemma ParseClockOfParts(m: string, secs: string)
    requires 'M' !in m && 'M' !in secs && (secs == [] || secs[|secs| - 1] != 'S')
    requires Text.ParseDecimal(m).Some? && Text.ParseDecimal(secs).Some?
    ensures ParseClock(VStr("PT" + m + "M" + secs + "S"))
         == Some(Text.ParseDecimal(m).value * 60.0 + Text.ParseDecimal(secs).value)
  {
    ClockTextShape(m, secs);
    var rest := secs + "S";
    assert 'M' !in rest;
    SplitMinutes(m, rest);
    Text.RStripAppended(secs, 'S', 1);
    assert secs + seq(1, _ => 'S') == rest;
    ClockBodySteps(m + "M" + rest, m, rest, secs);
    ParseClockOfBody("PT" + m + "M" + secs + "S", m + "M" + rest);
  }

  /** The clock text splits into the `PT` prefix and the minutes-and-seconds body. */
  lemma ClockTextShape(m: string, secs: string)
    ensures Text.StartsWith("PT" + m + "M" + secs + "S", "PT")
    ensures ("PT" + m + "M" + secs + "S")[2..] == m + "M" + (secs + "S")
  {
    var s := "PT" + m + "M" + secs + "S";
    assert s[..2] == "PT";
    assert |s[2..]| == |m + "M" + (secs + "S")|;
    forall i | 0 <= i < |s[2..]|
      ensures s[2..][i] == (m + "M" + (secs + "S"))[i]
    {
    }
  }

  lemma ParseClockOfBody(s: string, body: string)
    requires Text.StartsWith(s, "PT") && s[2..] == body
    ensures ParseClock(VStr(s)) == ClockBody(body)
  {
  }

  lemma TwoDigits(a: char, b: char)
    requires Text.IsDigit(a) && Text.IsDigit(b)
    ensures Text.AllDigits([a, b])
    ensures Text.ParseNat([a, b]) == Text.DigitValue(a) * 10 + Text.DigitValue(b)
  {
    var s := [a, b];
    assert s[..|s| - 1] == [a];
    assert [a][..0] == [];
    assert Text.ParseNat([a]) == Text.DigitValue(a);
  }

  /** A quarter's opening clock, as the play-by-play feed prints it. */
  lemma ParseClockExample()
    ensures ParseClock(VStr("PT12M34.50S")) == Some(754.5)
  {
    ExampleDecimals();
    assert 'M' !in "12" && 'M' !in "34.50";
    ParseClockOfParts("12", "34.50");
    assert "PT" + "12" + "M" + "34.50" + "S" == "PT12M34.50S";
  }

  lemma ExampleDecimals()
    ensures Text.ParseDecimal("12") == Some(12.0)
    ensures Text.ParseDecimal("34.50") == Some(34.5)
  {
    TwoDigits('1', '2');
    TwoDigits('3', '4');
    TwoDigits('5', '0');
    assert "12" == ['1', '2'] && "34" == ['3', '4'] && "50" == ['5', '0'];
    Text.DecimalOfDigits("12");
    assert Text.Pow10(2) == 100;
    Text.DecimalOfFraction("34", "50");
    assert "34" + "." + "50" == "34.50";
  }

  // ── Data contracts ──────────────────────────────────────────────────

  /** One of a converter's checks after its PK check. */
  datatype Check =
    | NotNull(cols: seq<string>)
    | MinRows(minRows: nat)
    | InRange(col: string, lo: Option<real>, hi: Option<real>)

  function ApplyCheck(v: ValidationResult, df: Frame, c: Check): (r: ValidationResult)
    ensures Extends(v, r)
    ensures forall k :: 0 <= k < |Added(v, r)| ==> !Added(v, r)[k].DuplicatePk?
  {
    match c
    case NotNull(cols) =>
      FlaggedIssuesExact(df, cols);
      CheckNotNull(v, df, cols)
    case MinRows(n) => CheckMinRows(v, df, n)
    case InRange(col, lo, hi) => CheckRange(v, df, col, lo, hi)
  }

  /** No DUPLICATE PK issue was recorded. */
  predicate NoDuplicateIssue(v: ValidationResult) {
    forall k :: 0 <= k < |v.issues| ==> !v.issues[k].DuplicatePk?
  }

  /** Adding only other issues keeps a result free of DUPLICATE PK issues. */
  lemma KeepsNoDuplicate(v: ValidationResult, r: ValidationResult)
    requires Extends(v, r) && forall k :: 0 <= k < |Added(v, r)| ==> !Added(v, r)[k].DuplicatePk?
    ensures NoDuplicateIssue(v) ==> NoDuplicateIssue(r)
  {
    assert r.issues == v.issues + Added(v, r);
  }

  /** Runs the checks in order; none of them records a DUPLICATE PK issue. */
  function RunChecks(v: ValidationResult, df: Frame, checks: seq<Check>): (r: ValidationResult)
    ensures Extends(v, r)
    ensures NoDuplicateIssue(v) ==> NoDuplicateIssue(r)
    decreases |checks|
  {
    if checks == [] then v
    else
      var step := ApplyCheck(v, df, checks[0]);
      KeepsNoDuplicate(v, step);
      var r := RunChecks(step, df, checks[1..]);
      ExtendsTransitive(v, step, r);
      r
  }

  /**
   * `_validate(source)` then the PK check and the other checks. The only
   * DUPLICATE PK issue can come from the PK check, so the result is free of
   * one exactly when the keys are unique.
   */
  function Validate(source: string, df: Frame, pk: seq<string>, checks: seq<Check>): (r: Result<ValidationResult, Failure>)
    ensures r.Err? <==> FirstMissing(pk, df.columns).Some?
    ensures r.Ok? ==> r.value.source == source
    ensures r.Ok? ==> (NoDuplicateIssue(r.value) <==> UniqueKeys(df.rows, pk))
  {
    var v0 := Fresh(source);
    var v1 :- CheckPkUnique(v0, df, pk);
    assert NoDuplicateIssue(v1) <==> UniqueKeys(df.rows, pk) by {
      if !UniqueKeys(df.rows, pk) {
        assert v1.issues[0] == Added(v0, v1)[0];
      }
    }
    var r := RunChecks(v1, df, checks);
    assert !NoDuplicateIssue(v1) ==> !NoDuplicateIssue(r) by {
      if !NoDuplicateIssue(v1) {
        var k :| 0 <= k < |v1.issues| && v1.issues[k].DuplicatePk?;
        assert r.issues[k] == v1.issues[k];
      }
    }
    Ok(r)
  }

  /** What a converter returns: its frame, and the validation it registered if it got that far. */
  datatype Converted = Converted(frame: Frame, validation: Option<ValidationResult>)

  /** A converter's early return: `pd.DataFrame()` with nothing registered. */
  function Skipped(): Converted {
    Converted(EmptyFrame(), None)
  }

  /** Every row of the frame carries `gid` as its GAME_ID. */
  ghost predicate Stamped(df: Frame, gid: string) {
    forall i :: 0 <= i < |df.rows| ==> Cell(df.rows[i], "GAME_ID") == VStr(gid)
  }

  /** `df["GAME_ID"] = game_id`. */
  function Stamp(df: Frame, gid: string): (out: Frame)
    ensures Stamped(out, gid) && "GAME_ID" in out.columns
    ensures out.columns == df.columns + {"GAME_ID"} && SameExcept(df, out, "GAME_ID")
  {
    Assign(df, "GAME_ID", _ => VStr(gid))
  }

  /** A step that changes one other column keeps the stamp. */
  lemma StampKept(df: Frame, out: Frame, c: string, gid: string)
    requires Stamped(df, gid) && SameExcept(df, out, c) && c != "GAME_ID"
    ensures Stamped(out, gid)
  {
    forall i | 0 <= i < |out.rows|
      ensures Cell(out.rows[i], "GAME_ID") == VStr(gid)
    {
      assert Cell(out.rows[i], "GAME_ID") == Cell(df.rows[i], "GAME_ID");
    }
  }

  /**
   * A frame that reached its data contract: de-duplicated on its PK, validated
   * under its source name without a duplicate-key issue, non-empty, and stamped
   * with its game id.
   */
  ghost predicate Contracted(c: Converted, source: string, pk: seq<string>, gid: string) {
    c.validation.Some? && c.validation.value.source == source
    && UniqueKeys(c.frame.rows, pk) && NoDuplicateIssue(c.validation.value)
    && Stamped(c.frame, gid) && !IsEmpty(c.frame)
  }

  /**
   * The common tail of every converter: keep-first de-duplication on the PK,
   * then the data contract, which therefore never reports a duplicate key.
   */
  function DedupAndValidate(source: string, df: Frame, pk: seq<string>, checks: seq<Check>): (r: Result<Converted, Failure>)
    ensures r.Err? <==> FirstMissing(pk, df.columns).Some?
    ensures r.Ok? ==> r.value.frame == Frame(df.columns, FirstOccurrences(df.rows, pk))
    ensures r.Ok? ==> r.value.validation.Some? && r.value.validation.value.source == source
    ensures r.Ok? ==> UniqueKeys(r.value.frame.rows, pk) && NoDuplicateIssue(r.value.validation.value)
    ensures r.Ok? && |df.rows| > 0 ==> |r.value.frame.rows| > 0
  {
    var out :- DropDuplicates(df, pk);
    FirstOccurrencesUnique(df.rows, pk);
    FirstOccurrencesKeys(df.rows, pk);
    assert |df.rows| > 0 ==> |out.rows| > 0 by {
      if |df.rows| > 0 {
        assert KeyOf(df.rows[0], pk) in KeySet(df.rows, pk);
      }
    }
    var v := Validate(source, out, pk, checks);
    Ok(Converted(out, Some(v.value)))
  }

  /** De-duplication keeps the stamp: every kept row is an input row. */
  lemma DedupKeepsStamp(df: Frame, pk: seq<string>, gid: string)
    requires Stamped(df, gid)
    ensures Stamped(Frame(df.columns, FirstOccurrences(df.rows, pk)), gid)
  {
    var rows := FirstOccurrences(df.rows, pk);
    forall k | 0 <= k < |rows|
      ensures Cell(rows[k], "GAME_ID") == VStr(gid)
    {
      FirstOccurrencesAreFirst(df.rows, pk, k);
    }
  }

  /** The tail applied to a stamped, non-empty frame meets the data contract. */
  lemma TailContracted(source: string, df: Frame, pk: seq<string>, checks: seq<Check>, gid: string)
    requires Stamped(df, gid) && |df.rows| > 0 && "GAME_ID" in df.columns
    requires DedupAndValidate(source, df, pk, checks).Ok?
    ensures Contracted(DedupAndValidate(source, df, pk, checks).value, source, pk, gid)
  {
    DedupKeepsStamp(df, pk, gid);
  }

  // ── Column casts ────────────────────────────────────────────────────

  /** One of the converters' in-place column casts. */
  datatype Cast =
    | AsInt64(col: string)      // to_numeric(errors="coerce").astype("Int64")
    | AsNumber(col: string)     // to_numeric(errors="coerce")
    | AsFlag(col: string)       // astype(bool)
    | AsGameDate(col: string)   // to_datetime(format="%Y%m%d", errors="coerce")

  /** `to_datetime(v, format="%Y%m%d", errors="coerce")`, the day kept as its ISO text. */
  function DateCell(v: Value): (r: Value)
    ensures r.VNull? || r.VStr?
  {
    match v
    case VStr(s) =>
      (match Calendar.ParseCompactText(s)
       case Some(d) => VStr(Calendar.DateText(d))
       case None => VNull)
    case _ => VNull
  }

  /** An API date reads as the day it names, for four-digit years. */
  lemma DateCellOfCompact(d: Calendar.Date)
    requires Calendar.Valid(d) && d.year <= 9999
    ensures DateCell(VStr(Calendar.CompactText(d))) == VStr(Calendar.DateText(d))
  {
    Calendar.ParseCompactTextRoundTrip(d);
  }

  function ApplyCast(df: Frame, c: Cast): (r: Result<Frame, Failure>)
    ensures c.col !in df.columns ==> r == Err(KeyError(c.col))
    ensures r.Ok? ==> r.value.columns == df.columns && SameExcept(df, r.value, c.col)
    ensures r.Err? ==> r.error.KeyError? || (c.AsInt64? && r.error.TypeError?)
  {
    match c
    case AsInt64(col) => CastInt64(df, col)
    case AsNumber(col) => Recast(df, col, ToNumeric)
    case AsFlag(col) => Recast(df, col, AsBool)
    case AsGameDate(col) => Recast(df, col, DateCell)
  }

  /** No cast of the plan touches column `d`. */
  predicate Untouched(cs: seq<Cast>, d: string) {
    forall k :: 0 <= k < |cs| ==> cs[k].col != d
  }

  /**
   * A cast plan run in order, stopping at the first failure. Every column the
   * plan does not name keeps its cells, and a plan naming an absent column
   * fails.
   */
  function ApplyCasts(df: Frame, cs: seq<Cast>): (r: Result<Frame, Failure>)
    ensures (exists k :: 0 <= k < |cs| && cs[k].col !in df.columns) ==> r.Err?
    ensures r.Ok? ==> r.value.columns == df.columns && |r.value.rows| == |df.rows|
    ensures r.Ok? ==> forall i, d :: 0 <= i < |df.rows| && Untouched(cs, d) ==>
              Cell(r.value.rows[i], d) == Cell(df.rows[i], d)
    decreases |cs|
  {
    if cs == [] then Ok(df)
    else
      var next :- ApplyCast(df, cs[0]);
      var r := ApplyCasts(next, cs[1..]);
      assert forall d :: Untouched(cs, d) ==> Untouched(cs[1..], d) && d != cs[0].col by {
        forall d | Untouched(cs, d)
          ensures Untouched(cs[1..], d) && d != cs[0].col
        {
          assert forall k :: 0 <= k < |cs[1..]| ==> cs[1..][k] == cs[k + 1];
        }
      }
      assert (exists k :: 0 <= k < |cs| && cs[k].col !in df.columns) ==> r.Err? by {
        if exists k :: 0 <= k < |cs| && cs[k].col !in df.columns {
          var k :| 0 <= k < |cs| && cs[k].col !in df.columns;
          if k > 0 {
            assert cs[1..][k - 1] == cs[k];
          }
        }
      }
      r
  }

  /** A stamped frame stays stamped through a plan that leaves GAME_ID alone. */
  lemma CastsKeepStamp(df: Frame, cs: seq<Cast>, gid: string)
    requires Stamped(df, gid) && Untouched(cs, "GAME_ID") && ApplyCasts(df, cs).Ok?
    ensures Stamped(ApplyCasts(df, cs).value, gid)
  {
  }

  // ── convert_boxscore ────────────────────────────────────────────────

  /** `d.get(key, default)` on a dict's fields. */
  function Field(fields: map<string, Json>, key: string, default: Json): Json {
    if key in fields then fields[key] else default
  }

  /** A player's `statistics` object, `{}` when absent; null for a non-dict player. */
  function Stats(player: Json): Json {
    if player.JObj? then Field(player.fields, "statistics", JObj(map[])) else JNull
  }

  /** The player's statistics carry a column named `key`. */
  predicate HasStat(player: Json, key: string) {
    Stats(player).JObj? && key in Stats(player).fields
  }

  /** The identity columns of one player row. */
  function Identity(fields: map<string, Json>, teamId: Value, tricode: Value, teamType: string): Row {
    map["PERSON_ID" := CellOf(Field(fields, "personId", JNull)),
        "FIRST_NAME" := CellOf(Field(fields, "firstName", JStr(""))),
        "FAMILY_NAME" := CellOf(Field(fields, "familyName", JStr(""))),
        "NAME_I" := CellOf(Field(fields, "nameI", JStr(""))),
        "POSITION" := CellOf(Field(fields, "position", JStr(""))),
        "COMMENT" := CellOf(Field(fields, "comment", JStr(""))),
        "JERSEY_NUM" := CellOf(Field(fields, "jerseyNum", JStr(""))),
        "TEAM_ID" := teamId,
        "TEAM_TRICODE" := tricode,
        "TEAM_TYPE" := VStr(teamType)]
  }

  /**
   * One player's record: the identity fields and the team's, then every
   * statistic, which overwrites an identity field of the same name. A player
   * that is not a dict, or whose statistics are not a dict, raises
   * AttributeError (`.get` / `.items`).
   */
  function PlayerRecord(player: Json, teamId: Value, tricode: Value, teamType: string): (r: Result<Row, Failure>)
    ensures r.Ok? <==> player.JObj? && Stats(player).JObj?
    ensures r.Err? ==> r.error.AttributeError?
    ensures r.Ok? ==> "PERSON_ID" in r.value && "TEAM_ID" in r.value && "TEAM_TYPE" in r.value
    ensures r.Ok? ==> forall k :: HasStat(player, k) ==> k in r.value && r.value[k] == CellOf(Stats(player).fields[k])
    ensures r.Ok? && !HasStat(player, "TEAM_TYPE") ==> r.value["TEAM_TYPE"] == VStr(teamType)
    ensures r.Ok? && !HasStat(player, "TEAM_ID") ==> r.value["TEAM_ID"] == teamId
    ensures r.Ok? && !HasStat(player, "PERSON_ID") ==>
              r.value["PERSON_ID"] == CellOf(Field(player.fields, "personId", JNull))
  {
    if !player.JObj? then Err(AttributeError("object has no attribute 'get'"))
    else
      var stats := Stats(player);
      if !stats.JObj? then Err(AttributeError("object has no attribute 'items'"))
      else Ok(Identity(player.fields, teamId, tricode, teamType) + RecordOf(stats.fields))
  }

  /** One record per player, in list order; the first bad player's error otherwise. */
  function PlayerRecords(players: seq<Json>, teamId: Value, tricode: Value, teamType: string): (r: Result<seq<Row>, Failure>)
    ensures r.Ok? <==> forall i :: 0 <= i < |players| ==> PlayerRecord(players[i], teamId, tricode, teamType).Ok?
    ensures r.Ok? ==> |r.value| == |players|
    ensures r.Ok? ==> forall i :: 0 <= i < |players| ==>
              r.value[i] == PlayerRecord(players[i], teamId, tricode, teamType).value
    decreases |players|
  {
    if players == [] then Ok([])
    else
      var row :- PlayerRecord(players[0], teamId, tricode, teamType);
      var rest :- PlayerRecords(players[1..], teamId, tricode, teamType);
      assert forall i :: 1 <= i < |players| ==> players[i] == players[1..][i - 1];
      Ok([row] + rest)
  }

  /**
   * `bs.get(team_key, {})` and its `players` list: a missing team has no
   * players; iterating a non-empty dict or string yields text, whose `.get`
   * raises AttributeError.
   */
  function TeamPlayers(bs: Json, teamKey: string): (r: Result<seq<Json>, Failure>)
    ensures !bs.JObj? ==> r.Err?
    ensures bs.JObj? && teamKey !in bs.fields ==> r == Ok([])
    ensures r.Ok? ==> bs.JObj? && Field(bs.fields, teamKey, JObj(map[])).JObj?
  {
    var team :- Get(bs, teamKey, JObj(map[]));
    var players :- Get(team, "players", JArr([]));
    Iterate(players, AttributeError("'str' object has no attribute 'get'"))
  }

  /** Every row has both id columns, so the id casts never raise KeyError. */
  predicate HasIds(rows: seq<Row>) {
    forall i :: 0 <= i < |rows| ==> "PERSON_ID" in rows[i] && "TEAM_ID" in rows[i]
  }

  lemma HasIdsConcat(a: seq<Row>, b: seq<Row>)
    requires HasIds(a) && HasIds(b)
    ensures HasIds(a + b)
  {
    assert forall i :: |a| <= i < |a| + |b| ==> (a + b)[i] == b[i - |a|];
  }

  /** The rows of one side of the box score, every one tagged with `teamType`. */
  function TeamRecords(bs: Json, teamKey: string, teamType: string): (r: Result<seq<Row>, Failure>)
    ensures !bs.JObj? ==> r.Err?
    ensures bs.JObj? && teamKey !in bs.fields ==> r == Ok([])
    ensures r.Ok? ==> TeamPlayers(bs, teamKey).Ok? && |r.value| == |TeamPlayers(bs, teamKey).value|
    ensures r.Ok? ==> forall i :: 0 <= i < |r.value| ==>
              "TEAM_TYPE" in r.value[i]
              && (!HasStat(TeamPlayers(bs, teamKey).value[i], "TEAM_TYPE") ==> r.value[i]["TEAM_TYPE"] == VStr(teamType))
    ensures r.Ok? ==> HasIds(r.value)
  {
    var players :- TeamPlayers(bs, teamKey);
    var team := Field(bs.fields, teamKey, JObj(map[]));
    PlayerRecords(players, CellOf(Field(team.fields, "teamId", JNull)),
                  CellOf(Field(team.fields, "teamTricode", JStr(""))), teamType)
  }

  /** The flattened players: the home side's rows, then the away side's. */
  function Flatten(bs: Json): (r: Result<seq<Row>, Failure>)
    ensures r.Ok? <==> TeamRecords(bs, "homeTeam", "HOME").Ok? && TeamRecords(bs, "awayTeam", "AWAY").Ok?
    ensures r.Ok? ==> r.value == TeamRecords(bs, "homeTeam", "HOME").value + TeamRecords(bs, "awayTeam", "AWAY").value
    ensures r.Ok? ==> HasIds(r.value)
  {
    var home :- TeamRecords(bs, "homeTeam", "HOME");
    var away :- TeamRecords(bs, "awayTeam", "AWAY");
    HasIdsConcat(home, away);
    Ok(home + away)
  }

  /**
   * One row per player, home first: the first rows are tagged HOME, the rest
   * AWAY (unless a player's statistics carry a TEAM_TYPE of their own).
   */
  lemma FlattenHomeThenAway(bs: Json)
    requires Flatten(bs).Ok?
    ensures var home := TeamPlayers(bs, "homeTeam").value;
            var away := TeamPlayers(bs, "awayTeam").value;
            |Flatten(bs).value| == |home| + |away|
            && (forall i :: 0 <= i < |home| && !HasStat(home[i], "TEAM_TYPE") ==>
                  Flatten(bs).value[i]["TEAM_TYPE"] == VStr("HOME"))
            && (forall i :: 0 <= i < |away| && !HasStat(away[i], "TEAM_TYPE") ==>
                  Flatten(bs).value[|home| + i]["TEAM_TYPE"] == VStr("AWAY"))
  {
    var h := TeamRecords(bs, "homeTeam", "HOME").value;
    var a := TeamRecords(bs, "awayTeam", "AWAY").value;
    assert Flatten(bs).value == h + a;
    assert forall i :: 0 <= i < |h| ==> (h + a)[i] == h[i];
    assert forall i :: 0 <= i < |a| ==> (h + a)[|h| + i] == a[i];
  }

  /** The columns `convert_boxscore` leaves alone; every other one goes through `to_numeric`. */
  const BoxscoreKept: set<string> := {"GAME_ID", "PERSON_ID", "FIRST_NAME", "FAMILY_NAME", "NAME_I",
    "POSITION", "COMMENT", "JERSEY_NUM", "TEAM_ID", "TEAM_TRICODE", "TEAM_TYPE", "minutes"}

  const BoxscorePk: seq<string> := ["GAME_ID", "PERSON_ID"]

  const BoxscoreChecks: seq<Check> := [
    NotNull(["GAME_ID", "PERSON_ID", "TEAM_ID"]),
    MinRows(10),
    InRange("offensiveRating", Some(0.0), Some(300.0)),
    InRange("defensiveRating", Some(0.0), Some(300.0)),
    InRange("usagePercentage", Some(0.0), Some(1.0)),
    InRange("trueShootingPercentage", Some(0.0), Some(2.0)),
    InRange("PIE", Some(-1.0), Some(1.0))]

  /**
   * The typed player frame: stamped with the game id, ids cast to Int64, every
   * other non-identity column to numbers. KeyError cannot occur (every record
   * has both id columns); TypeError does, for an id with a fractional part.
   */
  function BoxscoreFrame(gid: string, records: seq<Row>): (r: Result<Frame, Failure>)
    requires HasIds(records)
    ensures r.Ok? ==> |r.value.rows| == |records| && "GAME_ID" in r.value.columns && Stamped(r.value, gid)
    ensures r.Ok? ==> forall i :: 0 <= i < |records| ==>
              Cell(r.value.rows[i], "PERSON_ID") == ToInt64(Cell(records[i], "PERSON_ID"))
              && Cell(r.value.rows[i], "TEAM_ID") == ToInt64(Cell(records[i], "TEAM_ID"))
  {
    var df1 := Stamp(FromRecords(records), gid);
    var df2 :- CastInt64(df1, "PERSON_ID");
    var df3 :- CastInt64(df2, "TEAM_ID");
    BoxscoreIdCells(records, gid, df1, df2, df3);
    Ok(NumericExcept(df3, BoxscoreKept))
  }

  /** The two id casts keep the stamp and leave each id the Int64 reading of its record's. */
  lemma BoxscoreIdCells(records: seq<Row>, gid: string, df1: Frame, df2: Frame, df3: Frame)
    requires df1 == Stamp(FromRecords(records), gid)
    requires CastInt64(df1, "PERSON_ID") == Ok(df2) && CastInt64(df2, "TEAM_ID") == Ok(df3)
    ensures |df3.rows| == |records| && "GAME_ID" in df3.columns && Stamped(df3, gid)
    ensures forall i :: 0 <= i < |records| ==>
              Cell(df3.rows[i], "PERSON_ID") == ToInt64(Cell(records[i], "PERSON_ID"))
              && Cell(df3.rows[i], "TEAM_ID") == ToInt64(Cell(records[i], "TEAM_ID"))
  {
    StampKept(df1, df2, "PERSON_ID", gid);
    StampKept(df2, df3, "TEAM_ID", gid);
  }

  /**
   * `convert_boxscore`: no `boxScoreAdvanced` (or a document that cannot be
   * subscripted) and no players both give an empty, unvalidated frame;
   * otherwise the typed player frame is de-duplicated and validated.
   */
  function ConvertBoxscore(gid: string, data: Json): (r: Result<Converted, Failure>)
    ensures Index(data, "boxScoreAdvanced").Err? ==> r == Ok(Skipped())
    ensures Index(data, "boxScoreAdvanced").Ok? && Flatten(Index(data, "boxScoreAdvanced").value) == Ok([]) ==>
              r == Ok(Skipped())
    ensures r.Ok? && r.value.validation.None? ==> r.value == Skipped()
    ensures r.Ok? && r.value.validation.Some? ==> Contracted(r.value, "boxscore/" + gid, BoxscorePk, gid)
  {
    match Index(data, "boxScoreAdvanced")
    case Err(_) => Ok(Skipped())
    case Ok(bs) =>
      var records :- Flatten(bs);
      if records == [] then Ok(Skipped())
      else
        var df :- BoxscoreFrame(gid, records);
        var c :- DedupAndValidate("boxscore/" + gid, df, BoxscorePk, BoxscoreChecks);
        TailContracted("boxscore/" + gid, df, BoxscorePk, BoxscoreChecks, gid);
        Ok(c)
  }

  // ── convert_pbp ─────────────────────────────────────────────────────

  /** `pd.DataFrame(actions)` for a list of action objects, one record each. */
  function ActionRecords(actions: Json): (r: Result<seq<Row>, Failure>)
    ensures r.Ok? <==> actions.JArr? && forall i :: 0 <= i < |actions.items| ==> actions.items[i].JObj?
    ensures r.Ok? ==> |r.value| == |actions.items|
    ensures r.Ok? ==> forall i :: 0 <= i < |actions.items| ==> r.value[i] == RecordOf(actions.items[i].fields)
  {
    match actions
    case JArr(items) =>
      if forall i :: 0 <= i < |items| ==> items[i].JObj? then
        Ok(seq(|items|, i requires 0 <= i < |items| => RecordOf(items[i].fields)))
      else Err(ValueError("actions are not records"))
    case _ => Err(ValueError("DataFrame constructor not properly called"))
  }

  /** `convert_pbp`'s casts, in the source's order. */
  const PbpCasts: seq<Cast> := [AsInt64("period"), AsInt64("teamId"), AsInt64("personId"),
    AsNumber("shotDistance"), AsFlag("isFieldGoal"), AsInt64("scoreHome"), AsInt64("scoreAway")]

  /**
   * The typed action frame: stamped with the game id, cast by the plan, and
   * `clock_seconds` parsed from `clock`. A missing column raises KeyError.
   */
  function PbpFrame(gid: string, records: seq<Row>): (r: Result<Frame, Failure>)
    ensures r.Ok? ==> |r.value.rows| == |records| && "GAME_ID" in r.value.columns && Stamped(r.value, gid)
    ensures r.Ok? ==> forall i :: 0 <= i < |records| ==>
              Cell(r.value.rows[i], "clock_seconds") == ClockCell(Cell(records[i], "clock"))
  {
    var df1 := Stamp(FromRecords(records), gid);
    var df2 :- ApplyCasts(df1, PbpCasts);
    ClockSurvivesCasts(records, gid, df2);
    var df3 :- Derive(df2, "clock", "clock_seconds", ClockCell);
    StampKept(df2, df3, "clock_seconds", gid);
    Ok(df3)
  }

  lemma ClockSurvivesCasts(records: seq<Row>, gid: string, df: Frame)
    requires ApplyCasts(Stamp(FromRecords(records), gid), PbpCasts) == Ok(df)
    ensures |df.rows| == |records| && "GAME_ID" in df.columns && Stamped(df, gid)
    ensures forall i :: 0 <= i < |records| ==> Cell(df.rows[i], "clock") == Cell(records[i], "clock")
  {
    PbpCastsSpare();
    var df0 := FromRecords(records);
    var df1 := Stamp(df0, gid);
    CastsKeepStamp(df1, PbpCasts, gid);
    forall i | 0 <= i < |records|
      ensures Cell(df.rows[i], "clock") == Cell(records[i], "clock")
    {
      assert Cell(df.rows[i], "clock") == Cell(df1.rows[i], "clock");
      assert Cell(df1.rows[i], "clock") == Cell(df0.rows[i], "clock");
    }
  }

  lemma PbpCastsSpare()
    ensures Untouched(PbpCasts, "clock") && Untouched(PbpCasts, "GAME_ID")
  {
  }

  const PbpPk: seq<string> := ["GAME_ID", "actionNumber"]

  const PbpChecks: seq<Check> := [
    NotNull(["GAME_ID", "actionNumber", "period", "actionType"]),
    MinRows(100),
    InRange("period", Some(1.0), Some(10.0)),
    InRange("clock_seconds", Some(0.0), Some(720.0)),
    InRange("shotDistance", Some(0.0), Some(94.0)),
    InRange("scoreHome", Some(0.0), None),
    InRange("scoreAway", Some(0.0), None)]

  /**
   * `convert_pbp`: a document without `game.actions`, or with falsy actions,
   * gives an empty, unvalidated frame; otherwise the typed action frame is
   * de-duplicated and validated.
   */
  function ConvertPbp(gid: string, data: Json): (r: Result<Converted, Failure>)
    ensures Actions(data).Err? ==> r == Ok(Skipped())
    ensures Actions(data).Ok? && !JTruthy(Actions(data).value) ==> r == Ok(Skipped())
    ensures r.Ok? && r.value.validation.None? ==> r.value == Skipped()
    ensures r.Ok? && r.value.validation.Some? ==> Contracted(r.value, "pbp/" + gid, PbpPk, gid)
  {
    match Actions(data)
    case Err(_) => Ok(Skipped())
    case Ok(actions) =>
      if !JTruthy(actions) then Ok(Skipped())
      else
        var records :- ActionRecords(actions);
        var df :- PbpFrame(gid, records);
        var c :- DedupAndValidate("pbp/" + gid, df, PbpPk, PbpChecks);
        TailContracted("pbp/" + gid, df, PbpPk, PbpChecks, gid);
        Ok(c)
  }

  /** `data["game"]["actions"]`; its KeyError or TypeError is what `convert_pbp` catches. */
  function Actions(data: Json): (r: Result<Json, Failure>)
    ensures r.Ok? <==> (data.JObj? && "game" in data.fields
                        && data.fields["game"].JObj? && "actions" in data.fields["game"].fields)
    ensures r.Ok? ==> r.value == data.fields["game"].fields["actions"]
  {
    var game :- Index(data, "game");
    Index(game, "actions")
  }

  // ── convert_shotchart ───────────────────────────────────────────────

  /** `data["resultSets"][0]`; its KeyError, IndexError or TypeError is what `convert_shotchart` catches. */
  function FirstResultSet(data: Json): (r: Result<Json, Failure>)
    ensures (data.JObj? && "resultSets" in data.fields && data.fields["resultSets"].JArr?
             && |data.fields["resultSets"].items| > 0) ==> r == Ok(data.fields["resultSets"].items[0])
    ensures r.Err? ==> r.error.KeyError? || r.error.IndexError? || r.error.TypeError?
  {
    var sets :- Index(data, "resultSets");
    Item(sets, 0)
  }

  /** `columns=headers`: distinct names of text. */
  function ColumnNames(headers: Json): (r: Result<seq<string>, Failure>)
    ensures r.Ok? <==> TextList(headers).Ok? && Distinct(TextList(headers).value)
    ensures r.Ok? ==> r.value == TextList(headers).value
  {
    var names :- TextList(headers);
    if Distinct(names) then Ok(names) else Err(ValueError("duplicate column names"))
  }

  /** `rowSet`: a list of rows, each a list of scalar cells. */
  function CellRows(rowSet: Json): (r: Result<seq<seq<Value>>, Failure>)
    ensures r.Ok? <==> rowSet.JArr? && forall i :: 0 <= i < |rowSet.items| ==> rowSet.items[i].JArr?
    ensures r.Ok? ==> |r.value| == |rowSet.items|
    ensures r.Ok? ==> forall i :: 0 <= i < |rowSet.items| ==>
              |r.value[i]| == |rowSet.items[i].items|
              && forall j :: 0 <= j < |r.value[i]| ==> r.value[i][j] == CellOf(rowSet.items[i].items[j])
  {
    match rowSet
    case JArr(items) =>
      if forall i :: 0 <= i < |items| ==> items[i].JArr? then
        Ok(seq(|items|, i requires 0 <= i < |items| =>
             seq(|items[i].items|, j requires 0 <= j < |items[i].items| => CellOf(items[i].items[j]))))
      else Err(ValueError("rows are not lists"))
    case _ => Err(ValueError("rowSet is not a list"))
  }

  /** `convert_shotchart`'s casts, in the source's order. */
  const ShotCasts: seq<Cast> := [AsInt64("PLAYER_ID"), AsInt64("TEAM_ID"), AsInt64("PERIOD"),
    AsNumber("SHOT_DISTANCE"), AsNumber("LOC_X"), AsNumber("LOC_Y"),
    AsFlag("SHOT_ATTEMPTED_FLAG"), AsFlag("SHOT_MADE_FLAG"), AsGameDate("GAME_DATE")]

  lemma ShotCastsSpare()
    ensures Untouched(ShotCasts, "GAME_ID")
  {
  }

  const ShotPk: seq<string> := ["GAME_ID", "GAME_EVENT_ID"]

  const ShotChecks: seq<Check> := [
    NotNull(["GAME_ID", "GAME_EVENT_ID", "PLAYER_ID", "TEAM_ID", "PERIOD"]),
    InRange("PERIOD", Some(1.0), Some(10.0)),
    InRange("LOC_X", Some(-250.0), Some(250.0)),
    InRange("LOC_Y", Some(-50.0), Some(900.0)),
    InRange("SHOT_DISTANCE", Some(0.0), Some(94.0))]

  /** The result set as a frame: `pd.DataFrame(rowSet, columns=headers)`. */
  function ShotTable(results: Json): (r: Result<Frame, Failure>)
    ensures Index(results, "rowSet").Err? ==> r.Err?
    ensures r.Ok? ==> WellFormed(r.value)
  {
    var rowSet :- Index(results, "rowSet");
    var headers :- Index(results, "headers");
    var names :- ColumnNames(headers);
    var rows :- CellRows(rowSet);
    FromTable(names, rows)
  }

  /**
   * `convert_shotchart`: no first result set gives an empty, unvalidated
   * frame, and so does an empty table (returned with its columns); otherwise
   * the shots are stamped, cast, de-duplicated and validated.
   */
  function ConvertShotchart(gid: string, data: Json): (r: Result<Converted, Failure>)
    ensures FirstResultSet(data).Err? ==> r == Ok(Skipped())
    ensures FirstResultSet(data).Ok? && Index(FirstResultSet(data).value, "rowSet").Err? ==> r.Err?
    ensures r.Ok? && r.value.validation.None? ==> IsEmpty(r.value.frame)
    ensures r.Ok? && r.value.validation.Some? ==> Contracted(r.value, "shots/" + gid, ShotPk, gid)
  {
    match FirstResultSet(data)
    case Err(_) => Ok(Skipped())
    case Ok(results) =>
      var df0 :- ShotTable(results);
      if IsEmpty(df0) then Ok(Converted(df0, None))
      else
        var df1 := Stamp(df0, gid);
        var df2 :- ApplyCasts(df1, ShotCasts);
        ShotCastsSpare();
        CastsKeepStamp(df1, ShotCasts, gid);
        var c :- DedupAndValidate("shots/" + gid, df2, ShotPk, ShotChecks);
        TailContracted("shots/" + gid, df2, ShotPk, ShotChecks, gid);
        Ok(c)
  }

  // ── process_date ────────────────────────────────────────────────────

  /** The name a kind's converter registers its validation under. */
  function Source(k: Kind, gid: string): string {
    match k
    case Boxscore => "boxscore/" + gid
    case Pbp => "pbp/" + gid
    case ShotChart => "shots/" + gid
  }

  function Pk(k: Kind): seq<string> {
    match k
    case Boxscore => BoxscorePk
    case Pbp => PbpPk
    case ShotChart => ShotPk
  }

  /**
   * One bronze file through its kind's converter: `json.load`, then the
   * converter on the id the file name gives. A converter validates exactly the
   * frames it returns non-empty.
   */
  function ConvertFile(k: Kind, path: string, f: File): (r: Result<Converted, Failure>)
    ensures f.Parquet? ==> r.Err?
    ensures r.Ok? ==> (r.value.validation.Some? <==> !IsEmpty(r.value.frame))
    ensures r.Ok? && r.value.validation.Some? ==>
              Contracted(r.value, Source(k, GameIdFromFile(path)), Pk(k), GameIdFromFile(path))
  {
    var data :- AsJson(f);
    var gid := GameIdFromFile(path);
    match k
    case Boxscore => ConvertBoxscore(gid, data)
    case Pbp => ConvertPbp(gid, data)
    case ShotChart => ConvertShotchart(gid, data)
  }

  /** What one kind's loop over the manifest gathered, and the exception that ended it, if any. */
  datatype Batch = Batch(frames: seq<Frame>, validations: seq<ValidationResult>, error: Option<Failure>)

  /** A game's outcome for one kind: no file, the converter's exception, or what it returned. */
  type Attempted = Option<Result<Converted, Failure>>

  /** The artifact was present and its converter raised. */
  predicate Raised(a: Attempted) {
    a.Some? && a.value.Err?
  }

  /** The artifact was present and converted to a non-empty frame. */
  predicate Yielded(a: Attempted) {
    a.Some? && a.value.Ok? && !IsEmpty(a.value.value.frame)
  }

  /** A converter validates exactly the frames it returns non-empty. */
  predicate Coherent(a: Attempted) {
    a.Some? && a.value.Ok? ==> (a.value.value.validation.Some? <==> !IsEmpty(a.value.value.frame))
  }

  /** The rows an outcome contributes to its kind's partition. */
  function OutcomeRows(a: Attempted): nat {
    if Yielded(a) then |a.value.value.frame.rows| else 0
  }

  /** Reference count: the rows a sequence of outcomes contributes. */
  function SumRows(outs: seq<Attempted>): nat
    decreases |outs|
  {
    if outs == [] then 0 else OutcomeRows(outs[0]) + SumRows(outs[1..])
  }

  /**
   * The inner loop of `process_date` over the games' outcomes, in manifest
   * order: a non-empty frame is kept with its validation, an empty one and a
   * missing file are passed over, and the first exception ends the loop.
   */
  function Gather(outs: seq<Attempted>): (b: Batch)
    requires forall i :: 0 <= i < |outs| ==> Coherent(outs[i])
    ensures b.error.None? <==> forall i :: 0 <= i < |outs| ==> !Raised(outs[i])
    ensures forall i :: 0 <= i < |b.frames| ==> !IsEmpty(b.frames[i])
    ensures |b.validations| == |b.frames|
    decreases |outs|
  {
    if outs == [] then Batch([], [], None)
    else
      assert forall i :: 1 <= i < |outs| ==> outs[i] == outs[1..][i - 1];
      var rest := Gather(outs[1..]);
      match outs[0]
      case None => rest
      case Some(Err(e)) => Batch([], [], Some(e))
      case Some(Ok(c)) =>
        if IsEmpty(c.frame) then rest
        else
          assert Coherent(outs[0]);
          Batch([c.frame] + rest.frames, [c.validation.value] + rest.validations, rest.error)
  }

  /** Without an exception, the loop keeps a frame exactly when some outcome yields one. */
  lemma {:induction false} GatherFrames(outs: seq<Attempted>)
    requires forall i :: 0 <= i < |outs| ==> Coherent(outs[i])
    requires Gather(outs).error.None?
    ensures Gather(outs).frames != [] <==> exists i :: 0 <= i < |outs| && Yielded(outs[i])
    decreases |outs|
  {
    if outs != [] {
      assert forall i :: 1 <= i < |outs| ==> outs[i] == outs[1..][i - 1];
      GatherFrames(outs[1..]);
      if exists i :: 0 <= i < |outs| && Yielded(outs[i]) {
        var i :| 0 <= i < |outs| && Yielded(outs[i]);
        if i > 0 {
          assert Yielded(outs[1..][i - 1]);
        }
      }
    }
  }

  /** Without an exception, the kept frames hold every yielded row. */
  lemma {:induction false} GatherRows(outs: seq<Attempted>)
    requires forall i :: 0 <= i < |outs| ==> Coherent(outs[i])
    requires Gather(outs).error.None?
    ensures TotalRows(Gather(outs).frames) == SumRows(outs)
    decreases |outs|
  {
    if outs != [] {
      assert forall i :: 1 <= i < |outs| ==> outs[i] == outs[1..][i - 1];
      GatherRows(outs[1..]);
      if Yielded(outs[0]) {
        TotalRowsCons(Gather(outs).frames[0], Gather(outs[1..]).frames);
      }
    }
  }

  lemma {:induction false} TotalRowsCons(f: Frame, fs: seq<Frame>)
    ensures TotalRows([f] + fs) == |f.rows| + TotalRows(fs)
    decreases |fs|
  {
    if fs != [] {
      var n := |fs| - 1;
      assert ([f] + fs)[..|[f] + fs| - 1] == [f] + fs[..n];
      TotalRowsCons(f, fs[..n]);
    }
  }

  /** The converter's outcome on the game's artifact of kind `k`; None when the file is absent. */
  function Attempt(s: Store, l: Layout, k: Kind, gid: string): Attempted {
    var path := ArtifactPath(l, k, gid);
    if path in s then Some(ConvertFile(k, path, s[path])) else None
  }

  lemma AttemptCoherent(s: Store, l: Layout, k: Kind, gid: string)
    ensures Coherent(Attempt(s, l, k, gid))
  {
  }

  lemma AttemptsCoherent(s: Store, l: Layout, k: Kind, gids: seq<string>)
    ensures forall i :: 0 <= i < |gids| ==> Coherent(Attempt(s, l, k, gids[i]))
  {
    forall i | 0 <= i < |gids| ensures Coherent(Attempt(s, l, k, gids[i])) {
      AttemptCoherent(s, l, k, gids[i]);
    }
  }

  /** The game's artifact is present and its converter raises. */
  predicate Raises(s: Store, l: Layout, k: Kind, gid: string) {
    Raised(Attempt(s, l, k, gid))
  }

  /** The game's artifact is present and converts to a non-empty frame. */
  predicate Yields(s: Store, l: Layout, k: Kind, gid: string) {
    Yielded(Attempt(s, l, k, gid))
  }

  /** Every game's outcome for kind `k`, in manifest order. */
  function Outcomes(s: Store, l: Layout, k: Kind, gids: seq<string>): (outs: seq<Attempted>)
    ensures |outs| == |gids|
    ensures forall i :: 0 <= i < |gids| ==> outs[i] == Attempt(s, l, k, gids[i]) && Coherent(outs[i])
  {
    AttemptsCoherent(s, l, k, gids);
    seq(|gids|, i requires 0 <= i < |gids| => Attempt(s, l, k, gids[i]))
  }

  /** The outcomes of a manifest's tail are the tail of its outcomes. */
  lemma OutcomesTail(s: Store, l: Layout, k: Kind, gids: seq<string>)
    requires gids != []
    ensures Outcomes(s, l, k, gids[1..]) == Outcomes(s, l, k, gids)[1..]
  {
    assert forall i :: 0 <= i < |gids[1..]| ==> gids[1..][i] == gids[i + 1];
  }

  /** Reference count: the rows every game of the manifest contributes to kind `k`'s partition. */
  function YieldedRows(s: Store, l: Layout, k: Kind, gids: seq<string>): nat {
    SumRows(Outcomes(s, l, k, gids))
  }

  /**
   * The inner loop of `process_date` for one kind: each present artifact is
   * converted in manifest order and kept when non-empty; the first converter
   * exception ends the loop (and the run).
   */
  function ConvertGames(s: Store, l: Layout, k: Kind, gids: seq<string>): (b: Batch)
    ensures b.error.None? <==> forall i :: 0 <= i < |gids| ==> !Raises(s, l, k, gids[i])
    ensures forall i :: 0 <= i < |b.frames| ==> !IsEmpty(b.frames[i])
    ensures |b.validations| == |b.frames|
  {
    Gather(Outcomes(s, l, k, gids))
  }

  /** Without an exception, a kind has frames exactly when some game yields one. */
  lemma ConvertGamesFrames(s: Store, l: Layout, k: Kind, gids: seq<string>)
    requires ConvertGames(s, l, k, gids).error.None?
    ensures ConvertGames(s, l, k, gids).frames != [] <==> exists i :: 0 <= i < |gids| && Yields(s, l, k, gids[i])
  {
    var outs := Outcomes(s, l, k, gids);
    GatherFrames(outs);
    if exists i :: 0 <= i < |outs| && Yielded(outs[i]) {
      var i :| 0 <= i < |outs| && Yielded(outs[i]);
      assert Yields(s, l, k, gids[i]);
    }
  }

  /** Without an exception, the kind's frames hold every yielded row. */
  lemma ConvertGamesRows(s: Store, l: Layout, k: Kind, gids: seq<string>)
    requires ConvertGames(s, l, k, gids).error.None?
    ensures TotalRows(ConvertGames(s, l, k, gids).frames) == YieldedRows(s, l, k, gids)
  {
    GatherRows(Outcomes(s, l, k, gids));
  }

  /** Conversion reads only `.json` files, so stores that agree on them convert alike. */
  lemma ConvertGamesReadsJson(s: Store, t: Store, l: Layout, k: Kind, gids: seq<string>)
    requires SameJson(s, t)
    ensures ConvertGames(s, l, k, gids) == ConvertGames(t, l, k, gids)
  {
    forall i | 0 <= i < |gids| ensures Attempt(s, l, k, gids[i]) == Attempt(t, l, k, gids[i]) {
      assert EndsWith(ArtifactPath(l, k, gids[i]), ".json");
    }
    assert Outcomes(s, l, k, gids) == Outcomes(t, l, k, gids);
  }

  /** The silver writes of a run, the validations it registered, and the exception that ended it. */
  datatype Outcome = Outcome(writes: map<string, File>, validations: seq<ValidationResult>, error: Option<Failure>)

  /** `_save_partitioned`'s file for a kind: `{SILVER}/{dataset}/season=…/game_date=…/data.parquet`. */
  function KindPartition(l: Layout, k: Kind, season: int, gameDate: string): (p: string)
    ensures EndsWith(p, ".parquet")
  {
    PartitionPath(l, k.Folder(), season, gameDate)
  }

  /** `p` is one of the day's partition files. */
  ghost predicate IsPartition(p: string, l: Layout, season: int, gameDate: string) {
    exists k: Kind :: p == KindPartition(l, k, season, gameDate)
  }

  /** The three kinds write to three different files. */
  lemma KindPartitionsDistinct(l: Layout, a: Kind, b: Kind, season: int, gameDate: string)
    requires a != b
    ensures KindPartition(l, a, season, gameDate) != KindPartition(l, b, season, gameDate)
  {
    PartitionPathDataset(l, a.Folder(), season, gameDate);
    PartitionPathDataset(l, b.Folder(), season, gameDate);
  }

  /**
   * The loop over kinds: each kind's games are converted and, when any frame
   * came back, their concatenation is written to the kind's partition. An
   * exception stops the run with the earlier kinds' partitions already written.
   */
  function ProcessKinds(s: Store, l: Layout, season: int, gameDate: string, gids: seq<string>, kinds: seq<Kind>): (o: Outcome)
    ensures forall p :: p in o.writes ==> IsPartition(p, l, season, gameDate) && o.writes[p].Parquet?
    decreases |kinds|
  {
    if kinds == [] then Outcome(map[], [], None)
    else
      var b := ConvertGames(s, l, kinds[0], gids);
      if b.error.Some? then Outcome(map[], b.validations, b.error)
      else
        var w: map<string, File> :=
          if b.frames == [] then map[] else map[KindPartition(l, kinds[0], season, gameDate) := Parquet(Concat(b.frames))];
        var rest := ProcessKinds(s, l, season, gameDate, gids, kinds[1..]);
        Outcome(w + rest.writes, b.validations + rest.validations, rest.error)
  }

  /** The state a run leaves: the store, the registered validations, and the exception it raised, if any. */
  datatype RunState = RunState(store: Store, validations: seq<ValidationResult>, error: Option<Failure>)

  /**
   * `process_date`: the manifest's absence raises; an empty manifest writes
   * nothing; otherwise each kind's partition is written from the bronze files.
   * Conversion reads the store as it was before the run: silver writes are
   * Parquet, and conversion reads only `.json` files (ConvertGamesReadsJson).
   */
  function ProcessDate(s: Store, l: Layout, gameDate: string): (r: RunState)
    ensures ManifestPath(l, gameDate) !in s ==> r == RunState(s, [], Some(FileNotFound(ManifestPath(l, gameDate))))
    ensures LoadManifest(s, l, gameDate) == Ok([]) ==> r == RunState(s, [], None)
    ensures SameJson(s, r.store)
  {
    match LoadManifest(s, l, gameDate)
    case Err(e) => RunState(s, [], Some(e))
    case Ok(gids) =>
      if gids == [] then RunState(s, [], None)
      else
        match SeasonOf(gameDate)
        case Err(e) => RunState(s, [], Some(e))
        case Ok(season) =>
          var o := ProcessKinds(s, l, season, gameDate, gids, Kinds);
          ParquetWritesKeepJson(s, o.writes);
          RunState(s + o.writes, o.validations, o.error)
  }

  /** No kind is listed twice. */
  predicate DistinctKinds(kinds: seq<Kind>) {
    forall a, b :: 0 <= a < b < |kinds| ==> kinds[a] != kinds[b]
  }

  /**
   * Without an exception, a listed kind's partition is written exactly when
   * its loop gathered a frame, and holds their concatenation.
   */
  lemma {:induction false} ProcessKindsWrite(s: Store, l: Layout, season: int, gameDate: string, gids: seq<string>,
                                             kinds: seq<Kind>, j: nat)
    requires DistinctKinds(kinds) && j < |kinds|
    requires ProcessKinds(s, l, season, gameDate, gids, kinds).error.None?
    ensures var o := ProcessKinds(s, l, season, gameDate, gids, kinds);
            var p := KindPartition(l, kinds[j], season, gameDate);
            var b := ConvertGames(s, l, kinds[j], gids);
            (p in o.writes <==> b.frames != []) && (p in o.writes ==> o.writes[p] == Parquet(Concat(b.frames)))
    decreases |kinds|
  {
    ProcessKindsStep(s, l, season, gameDate, gids, kinds);
    var rest := ProcessKinds(s, l, season, gameDate, gids, kinds[1..]);
    var p0 := KindPartition(l, kinds[0], season, gameDate);
    assert DistinctKinds(kinds[1..]) by {
      assert forall a :: 0 <= a < |kinds[1..]| ==> kinds[1..][a] == kinds[a + 1];
    }
    if j == 0 {
      assert p0 !in rest.writes by {
        forall a | 0 <= a < |kinds[1..]|
          ensures p0 != KindPartition(l, kinds[1..][a], season, gameDate)
        {
          KindPartitionsDistinct(l, kinds[0], kinds[1..][a], season, gameDate);
        }
        if p0 in rest.writes {
          KindPartitionOnly(l, season, gameDate, gids, kinds[1..], s, p0);
        }
      }
    } else {
      assert kinds[j] == kinds[1..][j - 1];
      ProcessKindsWrite(s, l, season, gameDate, gids, kinds[1..], j - 1);
      KindPartitionsDistinct(l, kinds[0], kinds[j], season, gameDate);
    }
  }

  /** A kind not in the list has no partition among the list's writes. */
  lemma KindPartitionOnly(l: Layout, season: int, gameDate: string, gids: seq<string>, kinds: seq<Kind>, s: Store, p: string)
    requires p in ProcessKinds(s, l, season, gameDate, gids, kinds).writes
    ensures exists j :: 0 <= j < |kinds| && p == KindPartition(l, kinds[j], season, gameDate)
    decreases |kinds|
  {
    if kinds != [] {
      var b := ConvertGames(s, l, kinds[0], gids);
      if p != KindPartition(l, kinds[0], season, gameDate) {
        KindPartitionOnly(l, season, gameDate, gids, kinds[1..], s, p);
        var j :| 0 <= j < |kinds[1..]| && p == KindPartition(l, kinds[1..][j], season, gameDate);
        assert kinds[1..][j] == kinds[j + 1];
      }
    }
  }

  lemma KindsDistinct()
    ensures DistinctKinds(Kinds)
    ensures Kinds[0] == Boxscore && Kinds[1] == Pbp && Kinds[2] == ShotChart && |Kinds| == 3
  {
  }

  function IndexOfKind(k: Kind): (j: nat)
    ensures j < |Kinds| && Kinds[j] == k
  {
    match k
    case Boxscore => 0
    case Pbp => 1
    case ShotChart => 2
  }

  /**
   * A run that raised nothing on a non-empty manifest writes a kind's partition
   * exactly when one of the manifest's games yields a frame of that kind; the
   * partition then holds the sum of their rows. Otherwise the file is left as
   * it was.
   */
  lemma ProcessDatePartition(s: Store, l: Layout, gameDate: string, k: Kind)
    requires LoadManifest(s, l, gameDate).Ok? && LoadManifest(s, l, gameDate).value != []
    requires ProcessDate(s, l, gameDate).error.None?
    ensures SeasonOf(gameDate).Ok?
    ensures var r := ProcessDate(s, l, gameDate);
            var gids := LoadManifest(s, l, gameDate).value;
            var p := KindPartition(l, k, SeasonOf(gameDate).value, gameDate);
            && ((exists i :: 0 <= i < |gids| && Yields(s, l, k, gids[i])) ==>
                  p in r.store && r.store[p].Parquet? && |r.store[p].frame.rows| == YieldedRows(s, l, k, gids))
            && (!(exists i :: 0 <= i < |gids| && Yields(s, l, k, gids[i])) ==>
                  (p in r.store <==> p in s) && (p in s ==> r.store[p] == s[p]))
  {
    var gids := LoadManifest(s, l, gameDate).value;
    var season := SeasonOf(gameDate).value;
    var o := ProcessKinds(s, l, season, gameDate, gids, Kinds);
    KindsDistinct();
    ProcessKindsWrite(s, l, season, gameDate, gids, Kinds, IndexOfKind(k));
    assert o.error.None?;
    assert ConvertGames(s, l, k, gids).error.None? by {
      ConvertGamesClean(s, l, season, gameDate, gids, Kinds, IndexOfKind(k));
    }
    ConvertGamesFrames(s, l, k, gids);
    ConvertGamesRows(s, l, k, gids);
  }

  /** A run over the kinds that raised nothing raised nothing in any kind's loop. */
  lemma {:induction false} ConvertGamesClean(s: Store, l: Layout, season: int, gameDate: string, gids: seq<string>,
                                             kinds: seq<Kind>, j: nat)
    requires j < |kinds| && ProcessKinds(s, l, season, gameDate, gids, kinds).error.None?
    ensures ConvertGames(s, l, kinds[j], gids).error.None?
    decreases |kinds|
  {
    ProcessKindsStep(s, l, season, gameDate, gids, kinds);
    if j > 0 {
      assert kinds[j] == kinds[1..][j - 1];
      ConvertGamesClean(s, l, season, gameDate, gids, kinds[1..], j - 1);
    }
  }

  /**
   * A run over the kinds that raised nothing raised nothing in its first kind,
   * nor in the rest, and its writes are the first kind's partition, if any, over the rest's.
   */
  lemma ProcessKindsStep(s: Store, l: Layout, season: int, gameDate: string, gids: seq<string>, kinds: seq<Kind>)
    requires kinds != [] && ProcessKinds(s, l, season, gameDate, gids, kinds).error.None?
    ensures ConvertGames(s, l, kinds[0], gids).error.None?
    ensures ProcessKinds(s, l, season, gameDate, gids, kinds[1..]).error.None?
    ensures var b := ConvertGames(s, l, kinds[0], gids);
            var w: map<string, File> :=
              if b.frames == [] then map[] else map[KindPartition(l, kinds[0], season, gameDate) := Parquet(Concat(b.frames))];
            ProcessKinds(s, l, season, gameDate, gids, kinds).writes == w + ProcessKinds(s, l, season, gameDate, gids, kinds[1..]).writes
  {
  }

  /** A run deletes nothing, and every file it adds or replaces is one of the day's partitions. */
  lemma ProcessDateTouchesPartitions(s: Store, l: Layout, gameDate: string)
    ensures var r := ProcessDate(s, l, gameDate);
            (forall p :: p in s ==> p in r.store)
            && forall p :: p in r.store && (p !in s || r.store[p] != s[p]) ==>
                 SeasonOf(gameDate).Ok? && IsPartition(p, l, SeasonOf(gameDate).value, gameDate)
  {
  }

  /** The manifest is a `.json` file, so stores that agree on those read the same one. */
  lemma LoadManifestReadsJson(s: Store, t: Store, l: Layout, gameDate: string)
    requires SameJson(s, t)
    ensures LoadManifest(s, l, gameDate) == LoadManifest(t, l, gameDate)
  {
    assert EndsWith(ManifestPath(l, gameDate), ".json");
  }

  lemma {:induction false} ProcessKindsReadsJson(s: Store, t: Store, l: Layout, season: int, gameDate: string,
                                                 gids: seq<string>, kinds: seq<Kind>)
    requires SameJson(s, t)
    ensures ProcessKinds(s, l, season, gameDate, gids, kinds) == ProcessKinds(t, l, season, gameDate, gids, kinds)
    decreases |kinds|
  {
    if kinds != [] {
      ConvertGamesReadsJson(s, t, l, kinds[0], gids);
      ProcessKindsReadsJson(s, t, l, season, gameDate, gids, kinds[1..]);
    }
  }

  /**
   * Re-running a day on the store a run left behind changes nothing and
   * reproduces the same validations and the same exception.
   */
  lemma ProcessDateIdempotent(s: Store, l: Layout, gameDate: string)
    ensures ProcessDate(ProcessDate(s, l, gameDate).store, l, gameDate) == ProcessDate(s, l, gameDate)
  {
    var r := ProcessDate(s, l, gameDate);
    LoadManifestReadsJson(s, r.store, l, gameDate);
    match LoadManifest(s, l, gameDate)
    case Err(_) =>
    case Ok(gids) =>
      if gids != [] && SeasonOf(gameDate).Ok? {
        var season := SeasonOf(gameDate).value;
        var o := ProcessKinds(s, l, season, gameDate, gids, Kinds);
        ProcessKindsReadsJson(s, r.store, l, season, gameDate, gids, Kinds);
        assert r.store + o.writes == r.store;
      }
  }
}

=== FILE: store.dfy ===
/**
 * The data lake as a map from path to file. Bronze holds raw API payloads and
 * per-day manifests as JSON, silver holds Parquet partitions. Paths are built by
 * string formatting from two roots, exactly as the pipeline formats them.
 */
module Store {
  import opened Wrappers
  import opened Frames
  import Text
  import Calendar

  /** A decoded JSON document. */
  datatype Json =
    | JNull
    | JBool(b: bool)
    | JInt(i: int)
    | JNum(r: real)
    | JStr(s: string)
    | JArr(items: seq<Json>)
    | JObj(fields: map<string, Json>)

  /** Python's `j[key]` on a decoded document. */
  function Index(j: Json, key: string): (r: Result<Json, Failure>)
    ensures r.Ok? <==> j.JObj? && key in j.fields
    ensures r.Ok? ==> r.value == j.fields[key]
    ensures j.JObj? && key !in j.fields ==> r == Err(KeyError(key))
    ensures !j.JObj? ==> r.Err? && r.error.TypeError?
  {
    match j
    case JObj(fields) => if key in fields then Ok(fields[key]) else Err(KeyError(key))
    case _ => Err(TypeError("not subscriptable by a string"))
  }

  /** Python's `j[i]` for a non-negative position: lists and strings index, dicts look the number up as a key. */
  function Item(j: Json, i: nat): (r: Result<Json, Failure>)
    ensures j.JArr? ==> (r.Ok? <==> i < |j.items|)
    ensures j.JArr? && i < |j.items| ==> r == Ok(j.items[i])
    ensures j.JArr? && i >= |j.items| ==> r.Err? && r.error.IndexError?
    ensures j.JObj? ==> r == Err(KeyError(Text.NatText(i)))
    ensures j.JNull? || j.JBool? || j.JInt? || j.JNum? ==> r.Err? && r.error.TypeError?
  {
    match j
    case JArr(items) => if i < |items| then Ok(items[i]) else Err(IndexError("list index out of range"))
    case JStr(s) => if i < |s| then Ok(JStr([s[i]])) else Err(IndexError("string index out of range"))
    case JObj(_) => Err(KeyError(Text.NatText(i)))
    case _ => Err(TypeError("not subscriptable"))
  }

  /** Python's `j.get(key, default)`: only dicts have `.get`. */
  function Get(j: Json, key: string, default: Json): (r: Result<Json, Failure>)
    ensures r.Ok? <==> j.JObj?
    ensures j.JObj? ==> r.value == if key in j.fields then j.fields[key] else default
    ensures !j.JObj? ==> r.Err? && r.error.AttributeError?
  {
    match j
    case JObj(fields) => Ok(if key in fields then fields[key] else default)
    case _ => Err(AttributeError("object has no attribute 'get'"))
  }

  /** Python truthiness of a decoded value (`if not actions`). */
  predicate JTruthy(j: Json) {
    match j
    case JNull => false
    case JBool(b) => b
    case JInt(i) => i != 0
    case JNum(x) => x != 0.0
    case JStr(s) => s != ""
    case JArr(items) => items != []
    case JObj(fields) => fields != map[]
  }

  /**
   * The cell pandas builds from a scalar JSON value. Nested arrays and objects
   * are carried as null: no modelled step reads them.
   */
  function CellOf(j: Json): (v: Value)
    ensures j.JNull? || j.JArr? || j.JObj? <==> v.VNull?
  {
    match j
    case JNull => VNull
    case JBool(b) => VBool(b)
    case JInt(i) => VInt(i)
    case JNum(x) => VNum(x)
    case JStr(s) => VStr(s)
    case _ => VNull
  }

  /**
   * What a `for` loop over a decoded value hands its body: a list's items.
   * Iterating a non-empty dict or string yields text, on which the loop body
   * raises `onText`; iterating an empty one yields nothing; scalars are not
   * iterable.
   */
  function Iterate(j: Json, onText: Failure): (r: Result<seq<Json>, Failure>)
    ensures j.JArr? ==> r == Ok(j.items)
    ensures r.Ok? && !j.JArr? ==> r.value == []
    ensures (j.JNull? || j.JBool? || j.JInt? || j.JNum?) ==> r.Err? && r.error.TypeError?
  {
    match j
    case JArr(items) => Ok(items)
    case JObj(fields) => if fields == map[] then Ok([]) else Err(onText)
    case JStr(s) => if s == "" then Ok([]) else Err(onText)
    case _ => Err(TypeError("object is not iterable"))
  }

  /** A JSON object as a frame record. */
  function RecordOf(fields: map<string, Json>): (r: Row)
    ensures r.Keys == fields.Keys
    ensures forall k :: k in fields ==> r[k] == CellOf(fields[k])
  {
    map k | k in fields :: CellOf(fields[k])
  }

  // ── Files and the store ──────────────────────────────────────────────

  datatype File =
    | Doc(json: Json)                                     // a saved API payload
    | Manifest(gameDate: string, gameIds: seq<string>)    // `{"game_date": …, "game_ids": [...]}`
    | Parquet(frame: Frame)                               // a silver partition or dimension file

  type Store = map<string, File>

  /** `json.load` on a stored file: a manifest reads as the object it was saved as; Parquet bytes do not decode. */
  function AsJson(f: File): (r: Result<Json, Failure>)
    ensures f.Doc? ==> r == Ok(f.json)
    ensures f.Manifest? ==> r.Ok? && Index(r.value, "game_ids").Ok?
    ensures f.Parquet? <==> r.Err?
  {
    match f
    case Doc(j) => Ok(j)
    case Manifest(d, ids) =>
      Ok(JObj(map["game_date" := JStr(d),
                  "game_ids" := JArr(seq(|ids|, i requires 0 <= i < |ids| => JStr(ids[i])))]))
    case Parquet(_) => Err(ValueError("Expecting value"))
  }

  /** The three per-game artifacts, with their bronze folder and silver dataset name. */
  datatype Kind = Boxscore | Pbp | ShotChart {
    function Folder(): (f: string)
      ensures |f| > 0
    {
      match this
      case Boxscore => "boxscores"
      case Pbp => "pbp"
      case ShotChart => "shot_chart"
    }
  }

  /** `process_date`'s processing order. */
  const Kinds: seq<Kind> := [Boxscore, Pbp, ShotChart]

  /** The bronze and silver roots (`settings.bronze_path`, `settings.silver_path`). */
  datatype Layout = Layout(bronze: string, silver: string)

  predicate EndsWith(s: string, suffix: string) {
    |suffix| <= |s| && s[|s| - |suffix|..] == suffix
  }

  lemma EndsWithConcat(a: string, suffix: string)
    ensures EndsWith(a + suffix, suffix)
  {
    assert (a + suffix)[|a + suffix| - |suffix|..] == suffix;
  }

  /** A `.json` path is never a `.parquet` path: silver writes cannot touch bronze files. */
  lemma JsonIsNotParquet(p: string, q: string)
    requires EndsWith(p, ".json") && EndsWith(q, ".parquet")
    ensures p != q
  {
    assert p[|p| - 1] == ".json"[4];
    assert q[|q| - 1] == ".parquet"[7];
  }

  /** `{BRONZE}/{folder}/{game_id}.json`. */
  function ArtifactPath(l: Layout, k: Kind, gid: string): (p: string)
    ensures EndsWith(p, ".json")
  {
    EndsWithConcat(l.bronze + "/" + k.Folder() + "/" + gid, ".json");
    l.bronze + "/" + k.Folder() + "/" + gid + ".json"
  }

  /** `{BRONZE}/manifests/{game_date}.json`. */
  function ManifestPath(l: Layout, gameDate: string): (p: string)
    ensures EndsWith(p, ".json")
  {
    EndsWithConcat(l.bronze + "/manifests/" + gameDate, ".json");
    l.bronze + "/manifests/" + gameDate + ".json"
  }

  /** `{BRONZE}/teams/{team_id}.json`. */
  function TeamHistoryPath(l: Layout, teamId: int): (p: string)
    ensures EndsWith(p, ".json")
  {
    EndsWithConcat(l.bronze + "/teams/" + Text.IntText(teamId), ".json");
    l.bronze + "/teams/" + Text.IntText(teamId) + ".json"
  }

  /** `{BRONZE}/players/players.json`. */
  function PlayersPath(l: Layout): (p: string)
    ensures EndsWith(p, ".json")
  {
    EndsWithConcat(l.bronze + "/players/players", ".json");
    l.bronze + "/players/players.json"
  }

  /** The directory `_save_partitioned` creates. */
  function PartitionDir(l: Layout, dataset: string, season: int, gameDate: string): string {
    l.silver + "/" + dataset + "/season=" + Text.IntText(season) + "/game_date=" + gameDate
  }

  /** `_save_partitioned`'s output file: the directory, then `/data.parquet`. */
  function PartitionPath(l: Layout, dataset: string, season: int, gameDate: string): (p: string)
    ensures EndsWith(p, ".parquet")
  {
    EndsWithConcat(PartitionDir(l, dataset, season, gameDate) + "/data", ".parquet");
    PartitionDir(l, dataset, season, gameDate) + "/data.parquet"
  }

  /** The dataset's name starts right after the silver root and its slash. */
  lemma PartitionPathDataset(l: Layout, dataset: string, season: int, gameDate: string)
    requires |dataset| > 0
    ensures |PartitionPath(l, dataset, season, gameDate)| > |l.silver| + 1
    ensures PartitionPath(l, dataset, season, gameDate)[|l.silver| + 1] == dataset[0]
  {
    var k := |l.silver| + 1;
    var x := l.silver + "/" + dataset;
    var d1 := x + "/season=";
    var d2 := d1 + Text.IntText(season);
    var d3 := d2 + "/game_date=";
    var d4 := d3 + gameDate;
    assert d4 == PartitionDir(l, dataset, season, gameDate);
    assert x[k] == dataset[0];
    assert d1[k] == x[k] && d2[k] == d1[k] && d3[k] == d2[k] && d4[k] == d3[k];
    assert (d4 + "/data.parquet")[k] == d4[k];
  }

  /** Two stores hold the same `.json` files: everything bronze reads is the same in both. */
  ghost predicate SameJson(s: Store, t: Store) {
    forall p :: EndsWith(p, ".json") ==> (p in s <==> p in t) && (p in s ==> s[p] == t[p])
  }

  /** Writing Parquet partitions leaves every `.json` file as it was. */
  lemma ParquetWritesKeepJson(s: Store, w: map<string, File>)
    requires forall p :: p in w ==> EndsWith(p, ".parquet")
    ensures SameJson(s, s + w)
  {
    forall p | EndsWith(p, ".json")
      ensures (p in s <==> p in s + w) && (p in s ==> s[p] == (s + w)[p])
    {
      if p in w {
        JsonIsNotParquet(p, p);
      }
    }
  }
}

=== FILE: tables.dfy ===
/**
 * PostgreSQL tables as values, and the one statement both database loaders
 * run once a frame sits in a staging table:
 *
 *   INSERT INTO t (cols) SELECT cols FROM staging s [JOIN dim d ON s.c = d.key …]
 *   ON CONFLICT (key) DO UPDATE SET c = EXCLUDED.c, … | DO NOTHING
 *
 * The statement runs in one transaction, so an error leaves the database as it was.
 */
module Tables {
  import opened Wrappers
  import opened Frames

  type Key = seq<Value>

  /**
   * A table: its columns, its primary key, and every row filed under its key.
   * A stored row carries every column; a NULL cell is an explicit `VNull`.
   */
  datatype Table = Table(columns: set<string>, pk: seq<string>, rows: map<Key, Row>)

  type Db = map<string, Table>

  /** What the INSERT needs to know about its target besides the rows: columns and key. */
  datatype Shape = Shape(columns: set<string>, pk: seq<string>)

  function ShapeOf(t: Table): Shape {
    Shape(t.columns, t.pk)
  }

  function SetOf(xs: seq<string>): set<string> {
    set x | x in xs
  }

  /** The primary key's invariant: each row sits under its own key and has every column. */
  ghost predicate Keyed(t: Table) {
    SetOf(t.pk) <= t.columns
    && forall k :: k in t.rows ==> KeyOf(t.rows[k], t.pk) == k && t.rows[k].Keys == t.columns
  }

  // ── Foreign-key JOINs ────────────────────────────────────────────────

  /** `JOIN dim ON s.col = dim.<key>`, the dimension's primary key being that one column. */
  datatype Join = Join(dim: string, col: string)

  /** The staged row finds its dimension row. NULL equals nothing, so a null cell never joins. */
  predicate Resolves(db: Db, j: Join, r: Row) {
    j.dim in db && Cell(r, j.col) != VNull && [Cell(r, j.col)] in db[j.dim].rows
  }

  predicate ResolvesAll(db: Db, joins: seq<Join>, r: Row) {
    forall i :: 0 <= i < |joins| ==> Resolves(db, joins[i], r)
  }

  /** The staged rows that survive the inner JOINs, in staging order. */
  function Joined(db: Db, joins: seq<Join>, rows: seq<Row>): (out: seq<Row>)
    ensures |out| <= |rows|
    ensures forall r :: r in out <==> r in rows && ResolvesAll(db, joins, r)
    ensures |out| == |rows| <==> forall i :: 0 <= i < |rows| ==> ResolvesAll(db, joins, rows[i])
    ensures joins == [] ==> out == rows
  {
    if rows == [] then []
    else
      var n := |rows| - 1;
      var front := Joined(db, joins, rows[..n]);
      assert rows == rows[..n] + [rows[n]];
      assert (forall i :: 0 <= i < |rows| ==> ResolvesAll(db, joins, rows[i]))
         <==> (forall i :: 0 <= i < n ==> ResolvesAll(db, joins, rows[..n][i])) && ResolvesAll(db, joins, rows[n]);
      front + (if ResolvesAll(db, joins, rows[n]) then [rows[n]] else [])
  }

  // ── The conflict clause ──────────────────────────────────────────────

  datatype OnConflict = DoUpdate(cols: set<string>) | DoNothing

  /** `SET c = EXCLUDED.c` for each `c` in `cols`; the other columns keep their old cells. */
  function Updated(prev: Row, r: Row, cols: set<string>): (u: Row)
    ensures u.Keys == prev.Keys + cols
    ensures forall c :: c in cols ==> u[c] == Cell(r, c)
    ensures forall c :: c in prev && c !in cols ==> u[c] == prev[c]
  {
    prev + map c | c in cols :: Cell(r, c)
  }

  /**
   * What a staged row leaves under its key: a fresh row (absent columns NULL),
   * the old row under DO NOTHING, or the old row with the SET columns rewritten.
   */
  function Landed(rows: map<Key, Row>, t: Shape, r: Row, oc: OnConflict): Row {
    var k := KeyOf(r, t.pk);
    if k !in rows then Normalize(r, t.columns)
    else
      match oc
      case DoNothing => rows[k]
      case DoUpdate(u) => Updated(rows[k], r, u)
  }

  // ── Executing the INSERT row by row ──────────────────────────────────

  /** The statement's progress: the table's rows, the keys it has reached, and `rowcount`. */
  datatype Pass = Pass(rows: map<Key, Row>, touched: set<Key>, count: nat)

  /**
   * One proposed row. A NULL key cell breaks the key's NOT NULL constraint; DO UPDATE
   * may not reach a key a second time (PostgreSQL's cardinality violation); DO NOTHING
   * skips a key already present, and a skipped row does not count.
   */
  function Step(p: Pass, t: Shape, oc: OnConflict, name: string, r: Row): Result<Pass, Failure> {
    var k := KeyOf(r, t.pk);
    if VNull in k then Err(NotNullViolation(name))
    else if oc.DoUpdate? && k in p.touched then Err(CardinalityViolation(name))
    else if oc.DoNothing? && k in p.rows then Ok(p.(touched := p.touched + {k}))
    else Ok(Pass(p.rows[k := Landed(p.rows, t, r, oc)], p.touched + {k}, p.count + 1))
  }

  /** The staged rows, proposed in staging order. */
  function Run(p0: Pass, t: Shape, oc: OnConflict, name: string, staged: seq<Row>): (r: Result<Pass, Failure>)
    ensures r.Ok? ==> r.value.rows.Keys == p0.rows.Keys + KeySet(staged, t.pk)
    ensures r.Ok? ==> r.value.touched == p0.touched + KeySet(staged, t.pk)
    ensures r.Ok? ==> p0.count <= r.value.count <= p0.count + |staged|
    ensures r.Ok? ==> forall k :: k in p0.rows && k !in KeySet(staged, t.pk) ==> r.value.rows[k] == p0.rows[k]
    decreases |staged|
  {
    if staged == [] then
      assert KeySet(staged, t.pk) == {};
      Ok(p0)
    else
      var n := |staged| - 1;
      KeySetExtend(staged, t.pk, n);
      assert staged[..n + 1] == staged;
      var p :- Run(p0, t, oc, name, staged[..n]);
      Step(p, t, oc, name, staged[n])
  }

  /** No staged row has a NULL key cell. */
  predicate NoNullKey(rows: seq<Row>, pk: seq<string>) {
    forall i :: 0 <= i < |rows| ==> VNull !in KeyOf(rows[i], pk)
  }

  /** The INSERT fails exactly when a key cell is NULL, or when DO UPDATE meets a key twice. */
  lemma {:induction false} RunOk(p0: Pass, t: Shape, oc: OnConflict, name: string, staged: seq<Row>)
    requires p0.touched == {}
    ensures Run(p0, t, oc, name, staged).Ok?
        <==> NoNullKey(staged, t.pk) && (oc.DoNothing? || UniqueKeys(staged, t.pk))
  {
    if staged != [] {
      var n := |staged| - 1;
      var pre := staged[..n];
      RunOk(p0, t, oc, name, pre);
      IsFirstIffNew(staged, t.pk);
      NoNullKeyExtend(staged, t.pk);
      UniqueKeysExtend(staged, t.pk);
    }
  }

  /** A row list has no NULL key cell exactly when its prefix has none and its last row has none. */
  lemma NoNullKeyExtend(rows: seq<Row>, pk: seq<string>)
    requires |rows| > 0
    ensures NoNullKey(rows, pk)
        <==> NoNullKey(rows[..|rows| - 1], pk) && VNull !in KeyOf(rows[|rows| - 1], pk)
  {
    var n := |rows| - 1;
    assert forall i :: 0 <= i < n ==> rows[..n][i] == rows[i];
  }

  /** A row list has unique keys exactly when its prefix has and its last row is first with its key. */
  lemma UniqueKeysExtend(rows: seq<Row>, pk: seq<string>)
    requires |rows| > 0
    ensures UniqueKeys(rows, pk)
        <==> UniqueKeys(rows[..|rows| - 1], pk) && IsFirst(rows, pk, |rows| - 1)
  {
    var n := |rows| - 1;
    forall i | 0 <= i < n
      ensures IsFirst(rows[..n], pk, i) <==> IsFirst(rows, pk, i)
    {
      IsFirstPrefix(rows, pk, n, i);
    }
  }

  /** Some row is the first to carry any key the rows carry. */
  lemma {:induction false} FirstIndex(rows: seq<Row>, cols: seq<string>, k: Key) returns (i: nat)
    requires k in KeySet(rows, cols)
    ensures i < |rows| && KeyOf(rows[i], cols) == k && IsFirst(rows, cols, i)
  {
    var n := |rows| - 1;
    KeySetExtend(rows, cols, n);
    assert rows[..n + 1] == rows;
    if k in KeySet(rows[..n], cols) {
      i := FirstIndex(rows[..n], cols, k);
      assert rows[..n][i] == rows[i];
      IsFirstPrefix(rows, cols, n, i);
    } else {
      i := n;
      IsFirstIffNew(rows, cols);
    }
  }

  /**
   * The row the statement leaves under a key is what the first staged row with
   * that key makes of the row the table had before.
   */
  lemma {:induction false} RunLanded(p0: Pass, t: Shape, oc: OnConflict, name: string, staged: seq<Row>, i: nat)
    requires p0.touched == {}
    requires Run(p0, t, oc, name, staged).Ok?
    requires i < |staged| && IsFirst(staged, t.pk, i)
    ensures KeyOf(staged[i], t.pk) in Run(p0, t, oc, name, staged).value.rows
    ensures Run(p0, t, oc, name, staged).value.rows[KeyOf(staged[i], t.pk)] == Landed(p0.rows, t, staged[i], oc)
  {
    var n := |staged| - 1;
    var pre := staged[..n];
    KeySetExtend(staged, t.pk, n);
    assert staged[..n + 1] == staged;
    var p := Run(p0, t, oc, name, pre).value;
    var k := KeyOf(staged[n], t.pk);
    var q := Run(p0, t, oc, name, staged).value;
    assert Step(p, t, oc, name, staged[n]) == Ok(q);
    if i < n {
      IsFirstPrefix(staged, t.pk, n, i);
      assert pre[i] == staged[i];
      RunLanded(p0, t, oc, name, pre, i);
      var ki := KeyOf(staged[i], t.pk);
      assert ki in KeySet(pre, t.pk);
      if k == ki {
        assert k in p.touched;
      }
    } else {
      IsFirstIffNew(staged, t.pk);
      assert k !in p.touched;
    }
  }

  /** `rowcount` under DO UPDATE: every proposed row counts. */
  lemma {:induction false} RunCountUpdate(p0: Pass, t: Shape, u: set<string>, name: string, staged: seq<Row>)
    requires p0.touched == {}
    requires Run(p0, t, DoUpdate(u), name, staged).Ok?
    ensures Run(p0, t, DoUpdate(u), name, staged).value.count == p0.count + |staged|
  {
    if staged != [] {
      var n := |staged| - 1;
      assert staged[..n + 1] == staged;
      RunCountUpdate(p0, t, u, name, staged[..n]);
      var p := Run(p0, t, DoUpdate(u), name, staged[..n]).value;
      assert Step(p, t, DoUpdate(u), name, staged[n]) == Ok(Run(p0, t, DoUpdate(u), name, staged).value);
    }
  }

  /** `rowcount` under DO NOTHING: one per staged key the table did not have. */
  lemma {:induction false} RunCountNothing(p0: Pass, t: Shape, name: string, staged: seq<Row>)
    requires p0.touched == {}
    requires Run(p0, t, DoNothing, name, staged).Ok?
    ensures Run(p0, t, DoNothing, name, staged).value.count == p0.count + |KeySet(staged, t.pk) - p0.rows.Keys|
  {
    if staged == [] {
      assert KeySet(staged, t.pk) == {};
    } else {
      var n := |staged| - 1;
      var pre := staged[..n];
      KeySetExtend(staged, t.pk, n);
      assert staged[..n + 1] == staged;
      RunCountNothing(p0, t, name, pre);
      var p := Run(p0, t, DoNothing, name, pre).value;
      StepCountNothing(p, t, name, staged[n], Run(p0, t, DoNothing, name, staged).value);
      NewKeysAdd(KeySet(pre, t.pk), p0.rows.Keys, KeyOf(staged[n], t.pk));
    }
  }

  lemma StepCountNothing(p: Pass, t: Shape, name: string, r: Row, q: Pass)
    requires Step(p, t, DoNothing, name, r) == Ok(q)
    ensures q.count == p.count + (if KeyOf(r, t.pk) in p.rows then 0 else 1)
  {
  }

  lemma NewKeysAdd(a: set<Key>, old0: set<Key>, k: Key)
    ensures |(a + {k}) - old0| == |a - old0| + (if k in a || k in old0 then 0 else 1)
  {
    if k in a || k in old0 {
      assert (a + {k}) - old0 == a - old0;
    } else {
      assert (a + {k}) - old0 == (a - old0) + {k};
    }
  }

  /** A row DO UPDATE has already written is left alone by writing it again. */
  lemma UpdatedAbsorbs(x: Row, r: Row, u: set<string>, cols: set<string>)
    requires u <= cols
    ensures Updated(Updated(x, r, u), r, u) == Updated(x, r, u)
    ensures Updated(Normalize(r, cols), r, u) == Normalize(r, cols)
  {
  }

  /** Running the same INSERT again over its own result changes nothing. */
  lemma RunIdempotent(rows: map<Key, Row>, t: Shape, oc: OnConflict, name: string, staged: seq<Row>)
    requires Run(Pass(rows, {}, 0), t, oc, name, staged).Ok?
    requires oc.DoUpdate? ==> oc.cols <= t.columns
    ensures Run(Pass(Run(Pass(rows, {}, 0), t, oc, name, staged).value.rows, {}, 0), t, oc, name, staged).Ok?
    ensures Run(Pass(Run(Pass(rows, {}, 0), t, oc, name, staged).value.rows, {}, 0), t, oc, name, staged).value.rows
         == Run(Pass(rows, {}, 0), t, oc, name, staged).value.rows
  {
    var once := Run(Pass(rows, {}, 0), t, oc, name, staged).value.rows;
    RunOk(Pass(rows, {}, 0), t, oc, name, staged);
    RunOk(Pass(once, {}, 0), t, oc, name, staged);
    var twice := Run(Pass(once, {}, 0), t, oc, name, staged).value.rows;
    forall k | k in once
      ensures twice[k] == once[k]
    {
      if k in KeySet(staged, t.pk) {
        var i := FirstIndex(staged, t.pk, k);
        RunLanded(Pass(rows, {}, 0), t, oc, name, staged, i);
        RunLanded(Pass(once, {}, 0), t, oc, name, staged, i);
        if oc.DoUpdate? {
          UpdatedAbsorbs(if k in rows then rows[k] else map[], staged[i], oc.cols, t.columns);
        }
      }
    }
  }

  /** A landed row keeps the table's invariant. */
  lemma LandedKeyed(t: Table, r: Row, oc: OnConflict)
    requires Keyed(t)
    requires oc.DoUpdate? ==> oc.cols <= t.columns
    ensures KeyOf(Landed(t.rows, ShapeOf(t), r, oc), t.pk) == KeyOf(r, t.pk)
    ensures Landed(t.rows, ShapeOf(t), r, oc).Keys == t.columns
  {
    var k := KeyOf(r, t.pk);
    assert forall j :: 0 <= j < |t.pk| ==> t.pk[j] in SetOf(t.pk);
    if k in t.rows {
      assert KeyOf(t.rows[k], t.pk) == k;
    }
  }

  /** The INSERT keeps every row under its own key. */
  lemma RunKeyed(t: Table, oc: OnConflict, name: string, staged: seq<Row>)
    requires Keyed(t)
    requires oc.DoUpdate? ==> oc.cols <= t.columns
    requires Run(Pass(t.rows, {}, 0), ShapeOf(t), oc, name, staged).Ok?
    ensures Keyed(t.(rows := Run(Pass(t.rows, {}, 0), ShapeOf(t), oc, name, staged).value.rows))
  {
    var out := Run(Pass(t.rows, {}, 0), ShapeOf(t), oc, name, staged).value.rows;
    forall k | k in out
      ensures KeyOf(out[k], t.pk) == k && out[k].Keys == t.columns
    {
      if k in KeySet(staged, t.pk) {
        var i := FirstIndex(staged, t.pk, k);
        RunLanded(Pass(t.rows, {}, 0), ShapeOf(t), oc, name, staged, i);
        LandedKeyed(t, staged[i], oc);
      }
    }
  }

  // ── The whole statement ──────────────────────────────────────────────

  /** `INSERT INTO table … SELECT … FROM staging s <joins> ON CONFLICT (conflict) <onConflict>`. */
  datatype Merge = Merge(table: string, conflict: seq<string>, joins: seq<Join>, onConflict: OnConflict)

  /** The first dimension table a JOIN names that the database lacks. */
  function MissingDim(db: Db, joins: seq<Join>): (m: Option<string>)
    ensures m.None? <==> forall i :: 0 <= i < |joins| ==> joins[i].dim in db
    ensures m.Some? ==> m.value !in db
  {
    if joins == [] then None
    else if joins[0].dim !in db then Some(joins[0].dim)
    else MissingDim(db, joins[1..])
  }

  /** The staging columns the JOIN conditions read. */
  function JoinColumns(joins: seq<Join>): (cols: seq<string>)
    ensures |cols| == |joins| && forall i :: 0 <= i < |joins| ==> cols[i] == joins[i].col
  {
    seq(|joins|, i requires 0 <= i < |joins| => joins[i].col)
  }

  /** The staging table's rows: `to_sql` writes exactly the frame's columns. */
  function Staged(df: Frame): (rows: seq<Row>)
    ensures |rows| == |df.rows|
    ensures forall i, c :: 0 <= i < |df.rows| && c in df.columns ==> Cell(rows[i], c) == Cell(df.rows[i], c)
  {
    NormalizeAll(df.rows, df.columns)
  }

  /** The names the statement mentions all exist, and the conflict columns are the target's key. */
  ghost predicate Prepared(db: Db, df: Frame, m: Merge) {
    m.table in db
    && df.columns <= db[m.table].columns
    && (m.onConflict.DoUpdate? ==> m.onConflict.cols <= db[m.table].columns)
    && SetOf(m.conflict) == SetOf(db[m.table].pk)
    && (forall i :: 0 <= i < |m.joins| ==> m.joins[i].dim in db && m.joins[i].col in df.columns)
  }

  /** The rows the statement proposes: the staged rows that pass every JOIN. */
  function Proposed(db: Db, df: Frame, m: Merge): seq<Row> {
    Joined(db, m.joins, Staged(df))
  }

  /** The database and `rowcount` after the statement commits. */
  datatype Loaded = Loaded(db: Db, count: nat)

  /**
   * The statement. Name resolution fails first (unknown table or column, a conflict
   * target that is not the key); then the proposed rows are inserted one by one.
   */
  function Execute(db: Db, df: Frame, m: Merge): (r: Result<Loaded, Failure>)
    ensures r.Ok? ==> Prepared(db, df, m)
    ensures r.Ok? ==> r.value.count <= |Proposed(db, df, m)| <= |df.rows|
    ensures r.Ok? ==> r.value.db.Keys == db.Keys
    ensures r.Ok? ==> forall n :: n in db && n != m.table ==> r.value.db[n] == db[n]
    ensures r.Ok? ==> ShapeOf(r.value.db[m.table]) == ShapeOf(db[m.table])
    ensures r.Ok? ==> r.value.db[m.table].rows.Keys
                      == db[m.table].rows.Keys + KeySet(Proposed(db, df, m), db[m.table].pk)
    ensures r.Ok? ==> forall k :: k in db[m.table].rows && k !in KeySet(Proposed(db, df, m), db[m.table].pk)
                                  ==> r.value.db[m.table].rows[k] == db[m.table].rows[k]
  {
    if m.table !in db then Err(UndefinedTable(m.table))
    else
      var t := db[m.table];
      if !(df.columns <= t.columns) then Err(UndefinedColumn(m.table))
      else if m.onConflict.DoUpdate? && !(m.onConflict.cols <= t.columns) then Err(UndefinedColumn(m.table))
      else if SetOf(m.conflict) != SetOf(t.pk) then Err(InvalidConflictTarget(m.table))
      else
        match MissingDim(db, m.joins)
        case Some(d) => Err(UndefinedTable(d))
        case None =>
          match FirstMissing(JoinColumns(m.joins), df.columns)
          case Some(c) => Err(UndefinedColumn(c))
          case None =>
            assert forall i :: 0 <= i < |m.joins| ==> JoinColumns(m.joins)[i] in df.columns;
            var p :- Run(Pass(t.rows, {}, 0), ShapeOf(t), m.onConflict, m.table, Proposed(db, df, m));
            Ok(Loaded(db[m.table := t.(rows := p.rows)], p.count))
  }

  /** The statement succeeds exactly when its names resolve, no proposed key is NULL, and DO UPDATE meets each key once. */
  lemma ExecuteOk(db: Db, df: Frame, m: Merge)
    ensures Execute(db, df, m).Ok?
        <==> Prepared(db, df, m)
             && NoNullKey(Proposed(db, df, m), db[m.table].pk)
             && (m.onConflict.DoNothing? || UniqueKeys(Proposed(db, df, m), db[m.table].pk))
  {
    if Prepared(db, df, m) {
      var t := db[m.table];
      assert MissingDim(db, m.joins).None?;
      assert FirstMissing(JoinColumns(m.joins), df.columns).None?;
      RunOk(Pass(t.rows, {}, 0), ShapeOf(t), m.onConflict, m.table, Proposed(db, df, m));
    }
  }

  /** The target table keeps every row under its own key. */
  lemma ExecuteKeyed(db: Db, df: Frame, m: Merge)
    requires Execute(db, df, m).Ok?
    requires Keyed(db[m.table])
    ensures Keyed(Execute(db, df, m).value.db[m.table])
  {
    var t := db[m.table];
    RunKeyed(t, m.onConflict, m.table, Proposed(db, df, m));
  }

  /**
   * Every staged row that passes the JOINs is in the table under its key, and under
   * DO UPDATE the stored row holds its SET cells.
   */
  lemma ExecuteStagedRow(db: Db, df: Frame, m: Merge, i: nat)
    requires Execute(db, df, m).Ok?
    requires i < |df.rows| && ResolvesAll(db, m.joins, Staged(df)[i])
    ensures KeyOf(Staged(df)[i], db[m.table].pk) in Execute(db, df, m).value.db[m.table].rows
    ensures m.onConflict.DoUpdate? ==>
      forall c :: c in m.onConflict.cols ==>
        Cell(Execute(db, df, m).value.db[m.table].rows[KeyOf(Staged(df)[i], db[m.table].pk)], c) == Cell(Staged(df)[i], c)
  {
    var t := db[m.table];
    var rows := Proposed(db, df, m);
    var r := Staged(df)[i];
    assert r in rows;
    var j :| 0 <= j < |rows| && rows[j] == r;
    assert KeyOf(r, t.pk) in KeySet(rows, t.pk);
    if m.onConflict.DoUpdate? {
      ExecuteOk(db, df, m);
      RunLanded(Pass(t.rows, {}, 0), ShapeOf(t), m.onConflict, m.table, rows, j);
    }
  }

  /** The rows of the dimension tables a list of JOINs reads are the same in two databases. */
  ghost predicate SameDims(db: Db, db2: Db, joins: seq<Join>) {
    forall i :: 0 <= i < |joins| ==>
      (joins[i].dim in db <==> joins[i].dim in db2)
      && (joins[i].dim in db ==> db[joins[i].dim].rows == db2[joins[i].dim].rows)
  }

  lemma JoinedSameDims(db: Db, db2: Db, joins: seq<Join>, rows: seq<Row>)
    requires SameDims(db, db2, joins)
    ensures Joined(db, joins, rows) == Joined(db2, joins, rows)
  {
    assert forall r :: ResolvesAll(db, joins, r) == ResolvesAll(db2, joins, r);
  }

  /** Once the names resolve, the statement is the row-by-row INSERT committed into the target. */
  lemma ExecutePrepared(db: Db, df: Frame, m: Merge)
    requires Prepared(db, df, m)
    ensures Execute(db, df, m)
         == match Run(Pass(db[m.table].rows, {}, 0), ShapeOf(db[m.table]), m.onConflict, m.table, Proposed(db, df, m))
            case Err(e) => Err(e)
            case Ok(p) => Ok(Loaded(db[m.table := db[m.table].(rows := p.rows)], p.count))
  {
    assert MissingDim(db, m.joins).None?;
    assert FirstMissing(JoinColumns(m.joins), df.columns).None?;
  }

  /** Running the same statement on its own result leaves the database as it is. */
  lemma ExecuteIdempotent(db: Db, df: Frame, m: Merge)
    requires Execute(db, df, m).Ok?
    requires forall i :: 0 <= i < |m.joins| ==> m.joins[i].dim != m.table
    ensures Execute(Execute(db, df, m).value.db, df, m).Ok?
    ensures Execute(Execute(db, df, m).value.db, df, m).value.db == Execute(db, df, m).value.db
  {
    var t := db[m.table];
    var rows := Proposed(db, df, m);
    var once := Run(Pass(t.rows, {}, 0), ShapeOf(t), m.onConflict, m.table, rows);
    ExecutePrepared(db, df, m);
    var db2 := Execute(db, df, m).value.db;
    assert db2 == db[m.table := t.(rows := once.value.rows)];
    var t2 := db2[m.table];
    assert ShapeOf(t2) == ShapeOf(t);
    JoinedSameDims(db, db2, m.joins, Staged(df));
    assert Proposed(db2, df, m) == rows;
    assert Prepared(db2, df, m);
    ExecutePrepared(db2, df, m);
    RunIdempotent(t.rows, ShapeOf(t), m.onConflict, m.table, rows);
    assert db2[m.table := t2.(rows := t2.rows)] == db2;
  }

  /** Every non-null reference in a table's rows finds its dimension row. */
  ghost predicate ForeignKeysHold(db: Db, table: string, joins: seq<Join>) {
    table in db
    && forall k, i :: k in db[table].rows && 0 <= i < |joins| && Cell(db[table].rows[k], joins[i].col) != VNull
         ==> Resolves(db, joins[i], db[table].rows[k])
  }

  /**
   * The JOINs stand in for the FOREIGN KEY constraints they mirror: when the table
   * satisfied them before, it satisfies them after.
   */
  lemma ExecuteKeepsForeignKeys(db: Db, df: Frame, m: Merge)
    requires Execute(db, df, m).Ok?
    requires forall i :: 0 <= i < |m.joins| ==> m.joins[i].dim != m.table
    requires ForeignKeysHold(db, m.table, m.joins)
    ensures ForeignKeysHold(Execute(db, df, m).value.db, m.table, m.joins)
  {
    var t := db[m.table];
    var db2 := Execute(db, df, m).value.db;
    var rows := Proposed(db, df, m);
    var out := db2[m.table].rows;
    ExecuteOk(db, df, m);
    forall k, i | k in out && 0 <= i < |m.joins| && Cell(out[k], m.joins[i].col) != VNull
      ensures Resolves(db2, m.joins[i], out[k])
    {
      var j := m.joins[i];
      assert db2[j.dim] == db[j.dim];
      if k in KeySet(rows, t.pk) {
        var n := FirstIndex(rows, t.pk, k);
        RunLanded(Pass(t.rows, {}, 0), ShapeOf(t), m.onConflict, m.table, rows, n);
        assert rows[n] in rows;
        assert ResolvesAll(db, m.joins, rows[n]);
        assert Resolves(db, j, rows[n]);
      }
    }
  }

  /** A JOIN only drops rows, so unique staged keys stay unique. */
  lemma {:induction false} JoinedUnique(db: Db, joins: seq<Join>, rows: seq<Row>, pk: seq<string>)
    requires UniqueKeys(rows, pk)
    ensures UniqueKeys(Joined(db, joins, rows), pk)
  {
    if rows != [] {
      var n := |rows| - 1;
      var pre := rows[..n];
      assert UniqueKeys(pre, pk) by {
        forall i | 0 <= i < n
          ensures IsFirst(pre, pk, i)
        {
          IsFirstPrefix(rows, pk, n, i);
        }
      }
      JoinedUnique(db, joins, pre, pk);
      var front := Joined(db, joins, pre);
      if !ResolvesAll(db, joins, rows[n]) {
        assert Joined(db, joins, rows) == front + [];
        assert front + [] == front;
      } else {
        var out := front + [rows[n]];
        assert Joined(db, joins, rows) == out;
        assert IsFirst(rows, pk, n);
        forall i | 0 <= i < |out|
          ensures IsFirst(out, pk, i)
        {
          if i < |front| {
            assert out[..|front|] == front;
            IsFirstPrefix(out, pk, |front|, i);
          } else {
            forall j | 0 <= j < |front|
              ensures KeyOf(out[j], pk) != KeyOf(out[i], pk)
            {
              assert out[j] in pre;
              var m :| 0 <= m < n && pre[m] == out[j];
              assert rows[m] == out[j];
              assert out[i] == rows[n];
            }
          }
        }
      }
    }
  }

  /** Two databases hold the same tables under the given names. */
  ghost predicate AgreeOn(a: Db, b: Db, names: set<string>) {
    forall n :: n in names ==> (n in a <==> n in b) && (n in a ==> a[n] == b[n])
  }

  /** The names a list of JOINs reads. */
  function DimsOf(joins: seq<Join>): set<string> {
    set i | 0 <= i < |joins| :: joins[i].dim
  }

  /** `into` with table `t` replaced by `from`'s copy, when `from` has one. */
  function Overlay(into: Db, from: Db, t: string): Db {
    if t in from then into[t := from[t]] else into
  }

  lemma {:induction false} MissingDimSame(db: Db, db2: Db, joins: seq<Join>)
    requires forall i :: 0 <= i < |joins| ==> (joins[i].dim in db <==> joins[i].dim in db2)
    ensures MissingDim(db, joins) == MissingDim(db2, joins)
  {
    if joins != [] {
      MissingDimSame(db, db2, joins[1..]);
    }
  }

  /**
   * The statement reads only its target table and the dimensions it joins: on any
   * database that agrees on those, it fails the same way or writes the same rows.
   */
  lemma ExecuteLocal(db: Db, db2: Db, df: Frame, m: Merge)
    requires AgreeOn(db, db2, {m.table} + DimsOf(m.joins))
    ensures Execute(db2, df, m)
         == match Execute(db, df, m)
            case Err(e) => Err(e)
            case Ok(l) => Ok(Loaded(Overlay(db2, l.db, m.table), l.count))
  {
    assert forall i :: 0 <= i < |m.joins| ==> m.joins[i].dim in DimsOf(m.joins);
    assert SameDims(db, db2, m.joins);
    MissingDimSame(db, db2, m.joins);
    if Prepared(db, df, m) {
      assert Prepared(db2, df, m);
      JoinedSameDims(db, db2, m.joins, Staged(df));
      ExecutePrepared(db, df, m);
      ExecutePrepared(db2, df, m);
    } else {
      assert !Prepared(db2, df, m);
      ExecuteUnprepared(db, db2, df, m);
    }
  }

  lemma ExecuteUnprepared(db: Db, db2: Db, df: Frame, m: Merge)
    requires !Prepared(db, df, m)
    requires AgreeOn(db, db2, {m.table})
    requires MissingDim(db, m.joins) == MissingDim(db2, m.joins)
    ensures Execute(db, df, m).Err?
    ensures Execute(db2, df, m) == Execute(db, df, m)
  {
    if m.table in db && df.columns <= db[m.table].columns
       && (m.onConflict.DoUpdate? ==> m.onConflict.cols <= db[m.table].columns)
       && SetOf(m.conflict) == SetOf(db[m.table].pk)
       && MissingDim(db, m.joins).None? {
      assert FirstMissing(JoinColumns(m.joins), df.columns).Some?;
    }
  }
}

=== FILE: text.dfy ===
/**
 * String helpers with Python's meaning: `str.split` on one character, `str.rstrip`,
 * `str.replace(pat, "")`, `os.path.basename`, slicing from the end, `str(int)` and
 * `float()` restricted to plain decimal-digit text.
 */
module Text {
  import opened Wrappers

  predicate IsDigit(c: char) {
    '0' <= c <= '9'
  }

  predicate AllDigits(s: string) {
    forall i :: 0 <= i < |s| ==> IsDigit(s[i])
  }

  function DigitValue(c: char): nat
    requires IsDigit(c)
  {
    c as int - '0' as int
  }

  function DigitChar(n: nat): (c: char)
    requires n < 10
    ensures IsDigit(c) && DigitValue(c) == n
  {
    ('0' as int + n) as char
  }

  function Pow10(n: nat): (p: nat)
    ensures p >= 1
  {
    if n == 0 then 1 else 10 * Pow10(n - 1)
  }

  /** `int(s)` for a string of decimal digits (the empty string reads as 0). */
  function ParseNat(s: string): nat
    requires AllDigits(s)
  {
    if s == [] then 0 else ParseNat(s[..|s| - 1]) * 10 + DigitValue(s[|s| - 1])
  }

  /** `str(n)` for a non-negative integer. */
  function NatText(n: nat): (s: string)
    ensures |s| > 0 && AllDigits(s)
  {
    if n < 10 then [DigitChar(n)] else NatText(n / 10) + [DigitChar(n % 10)]
  }

  /** Reading back what `str` printed gives the number again. */
  lemma {:induction false} ParseNatText(n: nat)
    ensures ParseNat(NatText(n)) == n
  {
    if n >= 10 {
      var s := NatText(n);
      assert s[..|s| - 1] == NatText(n / 10);
      ParseNatText(n / 10);
    }
  }

  /** Reading a concatenation of digit strings: the left part is shifted by the right part's width. */
  lemma DigitsConcat(a: string, b: string)
    requires AllDigits(a) && AllDigits(b)
    ensures AllDigits(a + b)
  {
    forall i | 0 <= i < |a + b|
      ensures IsDigit((a + b)[i])
    {
      if i < |a| {
        assert (a + b)[i] == a[i];
      } else {
        assert (a + b)[i] == b[i - |a|];
      }
    }
  }

  lemma ShiftDigit(pa: int, p: int, x: int, d: int)
    ensures (pa * p + x) * 10 + d == pa * (10 * p) + (x * 10 + d)
  {
  }

  lemma {:induction false} ParseNatAppend(a: string, b: string)
    requires AllDigits(a) && AllDigits(b)
    ensures AllDigits(a + b)
    ensures ParseNat(a + b) == ParseNat(a) * Pow10(|b|) + ParseNat(b)
  {
    DigitsConcat(a, b);
    if b == [] {
      assert a + b == a;
    } else {
      var n := |b| - 1;
      var c := b[n];
      assert (a + b)[..|a + b| - 1] == a + b[..n];
      assert b[..n] + [c] == b;
      DigitsConcat(a, b[..n]);
      ParseNatAppend(a, b[..n]);
      assert ParseNat(a + b) == ParseNat(a + b[..n]) * 10 + DigitValue(c);
      assert ParseNat(b) == ParseNat(b[..n]) * 10 + DigitValue(c);
      ShiftDigit(ParseNat(a), Pow10(n), ParseNat(b[..n]), DigitValue(c));
    }
  }

  /** Zero-padding does not change the number a digit string denotes. */
  lemma {:induction false} ParseNatPadded(s: string, width: nat)
    requires AllDigits(s)
    ensures AllDigits(PadLeft(s, width))
    ensures ParseNat(PadLeft(s, width)) == ParseNat(s)
    decreases width - |s|
  {
    if |s| < width {
      ParseNatLeadingZero(s);
      ParseNatPadded("0" + s, width);
    }
  }

  /** A leading zero does not change the number. */
  lemma ParseNatLeadingZero(s: string)
    requires AllDigits(s)
    ensures AllDigits("0" + s) && ParseNat("0" + s) == ParseNat(s)
  {
    ParseNatAppend("0", s);
    assert ParseNat("0") == 0 by {
      assert "0"[..0] == [];
    }
  }

  /** A number below 10^k prints in at most k digits. */
  lemma {:induction false} NatTextLength(n: nat, k: nat)
    requires 1 <= k && n < Pow10(k)
    ensures |NatText(n)| <= k
  {
    if n >= 10 {
      NatTextLength(n / 10, k - 1);
    }
  }

  /** `str(i)` for any integer: a minus sign in front of the magnitude when negative. */
  function IntText(i: int): (s: string)
    ensures |s| > 0 && (s[0] == '-' <==> i < 0)
    ensures i < 0 ==> |s| > 1 && AllDigits(s[1..])
    ensures i >= 0 ==> AllDigits(s)
  {
    if i < 0 then "-" + NatText(-i) else NatText(i)
  }

  /** Left-pads with '0' up to `width` characters (strftime's `%Y`, `%m`, `%d`). */
  function PadLeft(s: string, width: nat): (r: string)
    ensures |r| == if |s| >= width then |s| else width
    ensures r[|r| - |s|..] == s
    ensures forall i :: 0 <= i < |r| - |s| ==> r[i] == '0'
    decreases width - |s|
  {
    if |s| >= width then s else PadLeft("0" + s, width)
  }

  /** Python's `s[-n:]`: the last `n` characters, or all of `s` when it is shorter. */
  function LastN(s: string, n: nat): (r: string)
    ensures |r| == if |s| <= n then |s| else n
    ensures r == s[|s| - |r|..]
  {
    if |s| <= n then s else s[|s| - n..]
  }

  predicate StartsWith(s: string, prefix: string) {
    |prefix| <= |s| && s[..|prefix|] == prefix
  }

  /** `p` occurs in `s` starting at index `i`. */
  predicate OccursAt(s: string, p: string, i: int) {
    0 <= i && i + |p| <= |s| && s[i..i + |p|] == p
  }

  /** Python's substring test `p in s`. */
  predicate Contains(s: string, p: string) {
    exists i :: 0 <= i <= |s| - |p| && OccursAt(s, p, i)
  }

  /** A string of digits holds no non-digit character. */
  lemma DigitsExclude(s: string, c: char)
    requires AllDigits(s) && !IsDigit(c)
    ensures c !in s
  {
    forall i | 0 <= i < |s|
      ensures s[i] != c
    {
      assert IsDigit(s[i]);
    }
  }

  /** Number of occurrences of character `c` in `s`. */
  function Count(s: string, c: char): nat {
    multiset(s)[c]
  }

  /**
   * Python's `s.split(sep)` for a one-character separator: the pieces between
   * separators, always at least one.
   */
  function Split(s: string, sep: char): (parts: seq<string>)
    ensures |parts| >= 1
  {
    if s == [] then [""]
    else
      var tail := Split(s[1..], sep);
      if s[0] == sep then [""] + tail else [[s[0]] + tail[0]] + tail[1..]
  }

  /** Python's `sep.join(parts)`. */
  function Join(parts: seq<string>, sep: char): string
    requires |parts| >= 1
  {
    if |parts| == 1 then parts[0] else parts[0] + [sep] + Join(parts[1..], sep)
  }

  /** Splitting yields one more piece than there are separators, and no piece holds one. */
  lemma {:induction false} SplitShape(s: string, sep: char)
    ensures |Split(s, sep)| == Count(s, sep) + 1
    ensures forall k :: 0 <= k < |Split(s, sep)| ==> sep !in Split(s, sep)[k]
  {
    if s != [] {
      SplitShape(s[1..], sep);
      assert s == [s[0]] + s[1..];
      assert multiset(s) == multiset{s[0]} + multiset(s[1..]);
      var tail := Split(s[1..], sep);
      if s[0] != sep {
        var parts := Split(s, sep);
        forall k | 0 <= k < |parts|
          ensures sep !in parts[k]
        {
          if k == 0 {
            assert parts[0] == [s[0]] + tail[0];
          } else {
            assert parts[k] == tail[k];
          }
        }
      }
    }
  }

  /** Joining the pieces back with the separator restores the string. */
  lemma {:induction false} JoinSplit(s: string, sep: char)
    ensures Join(Split(s, sep), sep) == s
  {
    if s != [] {
      JoinSplit(s[1..], sep);
      var tail := Split(s[1..], sep);
      if s[0] != sep {
        var parts := Split(s, sep);
        if |tail| == 1 {
          assert Join(parts, sep) == [s[0]] + tail[0];
        } else {
          assert parts[1..] == tail[1..];
          assert Join(parts, sep) == [s[0]] + tail[0] + [sep] + Join(tail[1..], sep);
          assert Join(tail, sep) == tail[0] + [sep] + Join(tail[1..], sep);
        }
      }
      assert s == [s[0]] + s[1..];
    }
  }

  /** A string without the separator splits into itself alone. */
  lemma {:induction false} SplitNoSep(a: string, sep: char)
    requires sep !in a
    ensures Split(a, sep) == [a]
  {
    if a != [] {
      SplitNoSep(a[1..], sep);
      assert a == [a[0]] + a[1..];
    }
  }

  /** A separator-free piece followed by the separator splits off as the first piece. */
  lemma {:induction false} SplitAfterPiece(a: string, sep: char, rest: string)
    requires sep !in a
    ensures Split(a + [sep] + rest, sep) == [a] + Split(rest, sep)
  {
    if a == [] {
      assert a + [sep] + rest == [sep] + rest;
      assert ([sep] + rest)[1..] == rest;
    } else {
      var s := a + [sep] + rest;
      assert s[1..] == a[1..] + [sep] + rest;
      SplitAfterPiece(a[1..], sep, rest);
      assert a == [a[0]] + a[1..];
    }
  }

  /** Splitting undoes joining when no piece holds the separator. */
  lemma {:induction false} SplitJoin(parts: seq<string>, sep: char)
    requires |parts| >= 1
    requires forall k :: 0 <= k < |parts| ==> sep !in parts[k]
    ensures Split(Join(parts, sep), sep) == parts
  {
    if |parts| == 1 {
      SplitNoSep(parts[0], sep);
    } else {
      SplitJoin(parts[1..], sep);
      SplitAfterPiece(parts[0], sep, Join(parts[1..], sep));
      assert [parts[0]] + parts[1..] == parts;
    }
  }

  /** Python's `s.rstrip(c)`: drops every trailing `c`. */
  function RStrip(s: string, c: char): (r: string)
    ensures StartsWith(s, r)
    ensures |r| == 0 || r[|r| - 1] != c
    ensures forall i :: |r| <= i < |s| ==> s[i] == c
  {
    if s != [] && s[|s| - 1] == c then RStrip(s[..|s| - 1], c) else s
  }

  /** Trailing copies of `c` after a string that does not end in `c` are exactly what rstrip removes. */
  lemma {:induction false} RStripAppended(s: string, c: char, n: nat)
    requires s == [] || s[|s| - 1] != c
    ensures RStrip(s + seq(n, _ => c), c) == s
  {
    if n > 0 {
      var t := s + seq(n, _ => c);
      assert t[..|t| - 1] == s + seq(n - 1, _ => c);
      RStripAppended(s, c, n - 1);
    } else {
      assert s + seq(0, _ => c) == s;
    }
  }

  /**
   * Python's `s.replace(pat, "")` for a non-empty pattern: occurrences are found
   * left to right without overlapping and removed.
   */
  function RemoveAll(s: string, pat: string): string
    requires |pat| > 0
    decreases |s|
  {
    if |s| < |pat| then s
    else if s[..|pat|] == pat then RemoveAll(s[|pat|..], pat)
    else [s[0]] + RemoveAll(s[1..], pat)
  }

  /**
   * A pattern whose first character does not recur in it cannot start inside
   * a non-empty string that holds no occurrence of it and end in a copy of it.
   */
  lemma NoStraddle(a: string, pat: string)
    requires |pat| > 0 && pat[0] !in pat[1..]
    requires !Contains(a, pat) && a != []
    ensures (a + pat)[..|pat|] != pat
  {
    var s := a + pat;
    if |a| >= |pat| {
      assert !OccursAt(a, pat, 0);
      assert s[..|pat|] == a[..|pat|];
    } else {
      assert s[|a|] == pat[0];
      assert pat[|a|] == pat[1..][|a| - 1];
    }
  }

  /**
   * Removing such a pattern from `a + pat` gives `a` back when `a` holds no
   * occurrence of its own.
   */
  lemma {:induction false} RemoveAllSuffix(a: string, pat: string)
    requires |pat| > 0 && pat[0] !in pat[1..]
    requires !Contains(a, pat)
    ensures RemoveAll(a + pat, pat) == a
    decreases |a|
  {
    var s := a + pat;
    if a == [] {
      assert s == pat;
      assert s[|pat|..] == [];
    } else {
      NoStraddle(a, pat);
      assert !Contains(a[1..], pat) by {
        if Contains(a[1..], pat) {
          var i :| 0 <= i <= |a[1..]| - |pat| && OccursAt(a[1..], pat, i);
          assert a[i + 1..i + 1 + |pat|] == a[1..][i..i + |pat|];
          assert OccursAt(a, pat, i + 1);
        }
      }
      RemoveAllSuffix(a[1..], pat);
      assert s[1..] == a[1..] + pat;
      assert [a[0]] + a[1..] == a;
    }
  }

  /** `os.path.basename`: what follows the last '/'. */
  function Basename(path: string): (b: string)
    ensures '/' !in b
  {
    if path == [] then []
    else if path[|path| - 1] == '/' then []
    else Basename(path[..|path| - 1]) + [path[|path| - 1]]
  }

  /** The basename of `dir/name` is `name` when `name` has no '/'. */
  lemma {:induction false} BasenameOfJoin(dir: string, name: string)
    requires '/' !in name
    ensures Basename(dir + "/" + name) == name
  {
    if name != [] {
      var p := dir + "/" + name;
      assert p[..|p| - 1] == dir + "/" + name[..|name| - 1];
      BasenameOfJoin(dir, name[..|name| - 1]);
      assert name == name[..|name| - 1] + [name[|name| - 1]];
    } else {
      var p := dir + "/";
      assert p[|p| - 1] == '/';
    }
  }

  /**
   * `float(s)` for plain decimal text: digits with at most one '.', at least one digit.
   * Signs, exponents, whitespace, underscores, `inf` and `nan` are outside this model.
   */
  function ParseDecimal(s: string): (r: Option<real>)
    ensures r.Some? ==> r.value >= 0.0
  {
    var parts := Split(s, '.');
    if |parts| == 1 then
      if |s| > 0 && AllDigits(s) then Some(ParseNat(s) as real) else None
    else if |parts| == 2 && AllDigits(parts[0]) && AllDigits(parts[1])
            && |parts[0]| + |parts[1]| > 0 then
      Some(ParseNat(parts[0]) as real + ParseNat(parts[1]) as real / Pow10(|parts[1]|) as real)
    else None
  }

  /** `float` of a plain digit string is the integer it spells. */
  lemma DecimalOfDigits(s: string)
    requires |s| > 0 && AllDigits(s)
    ensures ParseDecimal(s) == Some(ParseNat(s) as real)
  {
    DigitsExclude(s, '.');
    SplitNoSep(s, '.');
  }

  /** The decimal reading of printed digits is the number printed. */
  lemma {:induction false} DecimalOfNatText(n: nat)
    ensures ParseDecimal(NatText(n)) == Some(n as real)
  {
    var s := NatText(n);
    DigitsExclude(s, '.');
    SplitNoSep(s, '.');
    ParseNatText(n);
  }

  /** `float("w.f")` is the whole part plus the fraction scaled by its digit count. */
  lemma {:induction false} DecimalOfFraction(w: string, f: string)
    requires AllDigits(w) && AllDigits(f) && |w| + |f| > 0
    ensures ParseDecimal(w + "." + f)
         == Some(ParseNat(w) as real + ParseNat(f) as real / Pow10(|f|) as real)
  {
    DigitsExclude(w, '.');
    DigitsExclude(f, '.');
    var parts := [w, f];
    assert parts[1..] == [f];
    assert Join(parts, '.') == w + "." + f;
    SplitJoin(parts, '.');
    assert Split(w + "." + f, '.') == parts;
  }

  function ToLowerChar(c: char): char {
    if 'A' <= c <= 'Z' then (c as int - 'A' as int + 'a' as int) as char else c
  }

  /** Python's `str.lower()` on ASCII text. */
  function ToLower(s: string): (r: string)
    ensures |r| == |s|
    ensures forall i :: 0 <= i < |s| ==> r[i] == ToLowerChar(s[i])
  {
    if s == [] then [] else [ToLowerChar(s[0])] + ToLower(s[1..])
  }

  /** Lower-casing a name, checked letter by letter. */
  lemma LowerLetters(s: string, t: string)
    requires |s| == |t| && forall k :: 0 <= k < |s| ==> t[k] == ToLowerChar(s[k])
    ensures t == ToLower(s)
  {
  }

  /** A number at least 10^k prints in more than k digits. */
  lemma {:induction false} NatTextLong(n: nat, k: nat)
    requires n >= Pow10(k)
    ensures |NatText(n)| >= k + 1
  {
    if k > 0 {
      assert n / 10 >= Pow10(k - 1);
      NatTextLong(n / 10, k - 1);
    }
  }

  /** k digits spell a number below 10^k. */
  lemma {:induction false} ParseNatBound(s: string)
    requires AllDigits(s)
    ensures ParseNat(s) < Pow10(|s|)
  {
    if s != [] {
      var init := s[..|s| - 1];
      ParseNatBound(init);
      assert ParseNat(init) + 1 <= Pow10(|init|);
      assert (ParseNat(init) + 1) * 10 <= Pow10(|init|) * 10;
    }
  }
}

=== FILE: validation.dfy ===
/**
 * The silver layer's data contracts: a `ValidationResult` collects issues for one
 * converted frame, each check only ever appends, and the run ends with a report
 * over every result registered during the run.
 */
module Validation {
  import opened Wrappers
  import opened Frames

  /** One recorded issue; the source's message text is rendered from these fields. */
  datatype Issue =
    | DuplicatePk(count: nat, pkCols: seq<string>)
    | MissingColumn(col: string)
    | Nulls(col: string, nulls: nat, total: nat)
    | Below(col: string, count: nat, bound: real)
    | Above(col: string, count: nat, bound: real)
    | RowCount(rows: nat, minRows: nat)

  datatype ValidationResult = ValidationResult(source: string, issues: seq<Issue>) {
    /** `passed`: no issue was recorded. */
    predicate Passed() {
      |issues| == 0
    }
  }

  /** `r` is `v` with zero or more issues appended, and the same source. */
  predicate Extends(v: ValidationResult, r: ValidationResult) {
    r.source == v.source && |v.issues| <= |r.issues| && r.issues[..|v.issues|] == v.issues
  }

  /** The issues `r` gained over `v`. */
  function Added(v: ValidationResult, r: ValidationResult): seq<Issue>
    requires Extends(v, r)
  {
    r.issues[|v.issues|..]
  }

  lemma ExtendsTransitive(a: ValidationResult, b: ValidationResult, c: ValidationResult)
    requires Extends(a, b) && Extends(b, c)
    ensures Extends(a, c)
    ensures Added(a, c) == Added(a, b) + Added(b, c)
  {
    assert c.issues[..|a.issues|] == c.issues[..|b.issues|][..|a.issues|];
    assert c.issues[|a.issues|..] == c.issues[|a.issues|..|b.issues|] + c.issues[|b.issues|..];
    assert c.issues[|a.issues|..|b.issues|] == b.issues[|a.issues|..];
  }

  /** `_validate(source)`: a fresh result with no issues. */
  function Fresh(source: string): (v: ValidationResult)
    ensures v.source == source && v.Passed()
  {
    ValidationResult(source, [])
  }

  /** A passing result turns failing once a check appends anything. */
  lemma PassedIffNothingAdded(v: ValidationResult, r: ValidationResult)
    requires v.Passed() && Extends(v, r)
    ensures r.Passed() <==> Added(v, r) == []
  {
  }

  /**
   * `check_pk_unique`: one DUPLICATE PK issue, carrying pandas' duplicate
   * count, exactly when some row repeats the key of an earlier row. Selecting
   * an absent key column raises KeyError.
   */
  function CheckPkUnique(v: ValidationResult, df: Frame, pkCols: seq<string>): (r: Result<ValidationResult, Failure>)
    ensures FirstMissing(pkCols, df.columns).Some? <==> r.Err?
    ensures r.Ok? ==> Extends(v, r.value)
    ensures r.Ok? && UniqueKeys(df.rows, pkCols) ==> r.value == v
    ensures r.Ok? && !UniqueKeys(df.rows, pkCols) ==>
              Added(v, r.value) == [DuplicatePk(DuplicateCount(df.rows, pkCols), pkCols)]
  {
    DuplicateCountZero(df.rows, pkCols);
    match FirstMissing(pkCols, df.columns)
    case Some(c) => Err(KeyError(c))
    case None =>
      var dupes := DuplicateCount(df.rows, pkCols);
      if dupes > 0 then Ok(ValidationResult(v.source, v.issues + [DuplicatePk(dupes, pkCols)]))
      else Ok(v)
  }

  /** Number of rows whose cell in `col` is null. */
  function NullCount(rows: seq<Row>, col: string): nat {
    if rows == [] then 0
    else NullCount(rows[..|rows| - 1], col) + (if Cell(rows[|rows| - 1], col).VNull? then 1 else 0)
  }

  lemma {:induction false} NullCountPositive(rows: seq<Row>, col: string)
    ensures NullCount(rows, col) > 0 <==> exists i :: 0 <= i < |rows| && Cell(rows[i], col).VNull?
  {
    if rows != [] {
      var n := |rows| - 1;
      NullCountPositive(rows[..n], col);
      if NullCount(rows[..n], col) > 0 {
        var i :| 0 <= i < n && Cell(rows[..n][i], col).VNull?;
        assert rows[..n][i] == rows[i];
      }
    }
  }

  /** A listed column is flagged when it is absent or holds a null. */
  predicate Flagged(df: Frame, col: string) {
    col !in df.columns || exists i :: 0 <= i < |df.rows| && Cell(df.rows[i], col).VNull?
  }

  /** The issue `check_not_null` records for a flagged column. */
  function NotNullIssue(df: Frame, col: string): Issue {
    if col !in df.columns then MissingColumn(col) else Nulls(col, NullCount(df.rows, col), |df.rows|)
  }

  /** Reference definition: the issues of the flagged columns, in list order. */
  function FlaggedIssues(df: Frame, cols: seq<string>): seq<Issue> {
    if cols == [] then []
    else (if Flagged(df, cols[0]) then [NotNullIssue(df, cols[0])] else []) + FlaggedIssues(df, cols[1..])
  }

  /** One iteration of `check_not_null`'s loop. */
  function NotNullStep(v: ValidationResult, df: Frame, col: string): (r: ValidationResult)
    ensures Extends(v, r)
    ensures Added(v, r) == if Flagged(df, col) then [NotNullIssue(df, col)] else []
  {
    NullCountPositive(df.rows, col);
    if col !in df.columns then ValidationResult(v.source, v.issues + [MissingColumn(col)])
    else
      var nulls := NullCount(df.rows, col);
      if nulls > 0 then ValidationResult(v.source, v.issues + [Nulls(col, nulls, |df.rows|)])
      else v
  }

  /**
   * `check_not_null`: walks the columns in order, appending MISSING COLUMN for
   * an absent one and otherwise NULL when it holds a null.
   */
  function CheckNotNull(v: ValidationResult, df: Frame, cols: seq<string>): (r: ValidationResult)
    ensures Extends(v, r)
    ensures Added(v, r) == FlaggedIssues(df, cols)
    decreases |cols|
  {
    if cols == [] then v
    else
      var step := NotNullStep(v, df, cols[0]);
      var r := CheckNotNull(step, df, cols[1..]);
      ExtendsTransitive(v, step, r);
      r
  }

  /** A listed column gets an issue exactly when it is flagged, and no other issue is added. */
  lemma {:induction false} FlaggedIssuesExact(df: Frame, cols: seq<string>)
    ensures forall c :: c in cols ==> (Flagged(df, c) <==> NotNullIssue(df, c) in FlaggedIssues(df, cols))
    ensures forall k :: 0 <= k < |FlaggedIssues(df, cols)| ==>
              exists c :: c in cols && Flagged(df, c) && FlaggedIssues(df, cols)[k] == NotNullIssue(df, c)
  {
    if cols != [] {
      FlaggedIssuesExact(df, cols[1..]);
      var tail := FlaggedIssues(df, cols[1..]);
      var head := if Flagged(df, cols[0]) then [NotNullIssue(df, cols[0])] else [];
      assert FlaggedIssues(df, cols) == head + tail;
      forall c | c in cols && !Flagged(df, c)
        ensures NotNullIssue(df, c) !in FlaggedIssues(df, cols)
      {
        if NotNullIssue(df, c) in head {
          assert NotNullIssue(df, c) == NotNullIssue(df, cols[0]);
          NotNullIssueNamesColumn(df, c, cols[0]);
        } else if NotNullIssue(df, c) in tail {
          var k :| 0 <= k < |tail| && tail[k] == NotNullIssue(df, c);
          var d :| d in cols[1..] && Flagged(df, d) && tail[k] == NotNullIssue(df, d);
          NotNullIssueNamesColumn(df, c, d);
        }
      }
      forall k | 0 <= k < |FlaggedIssues(df, cols)|
        ensures exists c :: c in cols && Flagged(df, c) && FlaggedIssues(df, cols)[k] == NotNullIssue(df, c)
      {
        if k >= |head| {
          assert FlaggedIssues(df, cols)[k] == tail[k - |head|];
          var d :| d in cols[1..] && Flagged(df, d) && tail[k - |head|] == NotNullIssue(df, d);
          assert d in cols;
        } else {
          assert FlaggedIssues(df, cols)[k] == NotNullIssue(df, cols[0]);
        }
      }
    } else {
      assert FlaggedIssues(df, cols) == [];
    }
  }

  /** An issue names its column, so two columns never share one. */
  lemma NotNullIssueNamesColumn(df: Frame, c: string, d: string)
    requires NotNullIssue(df, c) == NotNullIssue(df, d)
    ensures c == d
  {
  }

  // ── check_range ──────────────────────────────────────────────────────

  function NumericCount(rows: seq<Row>, col: string): nat {
    if rows == [] then 0
    else NumericCount(rows[..|rows| - 1], col) + (if NumericOf(Cell(rows[|rows| - 1], col)).Some? then 1 else 0)
  }

  /** Rows whose numeric reading in `col` lies strictly below `bound`. */
  function CountBelow(rows: seq<Row>, col: string, bound: real): nat {
    if rows == [] then 0
    else
      var x := NumericOf(Cell(rows[|rows| - 1], col));
      CountBelow(rows[..|rows| - 1], col, bound) + (if x.Some? && x.value < bound then 1 else 0)
  }

  /** Rows whose numeric reading in `col` lies strictly above `bound`. */
  function CountAbove(rows: seq<Row>, col: string, bound: real): nat {
    if rows == [] then 0
    else
      var x := NumericOf(Cell(rows[|rows| - 1], col));
      CountAbove(rows[..|rows| - 1], col, bound) + (if x.Some? && x.value > bound then 1 else 0)
  }

  predicate SomeBelow(rows: seq<Row>, col: string, bound: real) {
    exists i :: 0 <= i < |rows| && NumericOf(Cell(rows[i], col)).Some? && NumericOf(Cell(rows[i], col)).value < bound
  }

  predicate SomeAbove(rows: seq<Row>, col: string, bound: real) {
    exists i :: 0 <= i < |rows| && NumericOf(Cell(rows[i], col)).Some? && NumericOf(Cell(rows[i], col)).value > bound
  }

  lemma {:induction false} CountBelowPositive(rows: seq<Row>, col: string, bound: real)
    ensures CountBelow(rows, col, bound) > 0 <==> SomeBelow(rows, col, bound)
  {
    if rows != [] {
      var n := |rows| - 1;
      CountBelowPositive(rows[..n], col, bound);
      if SomeBelow(rows[..n], col, bound) {
        var i :| 0 <= i < n && NumericOf(Cell(rows[..n][i], col)).Some? && NumericOf(Cell(rows[..n][i], col)).value < bound;
        assert rows[..n][i] == rows[i];
      }
      if SomeBelow(rows, col, bound) {
        var i :| 0 <= i < |rows| && NumericOf(Cell(rows[i], col)).Some? && NumericOf(Cell(rows[i], col)).value < bound;
        if i < n {
          assert rows[..n][i] == rows[i];
        }
      }
    }
  }

  lemma {:induction false} CountAbovePositive(rows: seq<Row>, col: string, bound: real)
    ensures CountAbove(rows, col, bound) > 0 <==> SomeAbove(rows, col, bound)
  {
    if rows != [] {
      var n := |rows| - 1;
      CountAbovePositive(rows[..n], col, bound);
      if SomeAbove(rows[..n], col, bound) {
        var i :| 0 <= i < n && NumericOf(Cell(rows[..n][i], col)).Some? && NumericOf(Cell(rows[..n][i], col)).value > bound;
        assert rows[..n][i] == rows[i];
      }
      if SomeAbove(rows, col, bound) {
        var i :| 0 <= i < |rows| && NumericOf(Cell(rows[i], col)).Some? && NumericOf(Cell(rows[i], col)).value > bound;
        if i < n {
          assert rows[..n][i] == rows[i];
        }
      }
    }
  }

  /**
   * `check_range`: nothing when the column is absent or has no numeric value;
   * otherwise a RANGE issue for values strictly below `lo` and one for values
   * strictly above `hi`, so both bounds are inclusive.
   */
  function CheckRange(v: ValidationResult, df: Frame, col: string, lo: Option<real>, hi: Option<real>): (r: ValidationResult)
    ensures Extends(v, r)
    ensures col !in df.columns || NumericCount(df.rows, col) == 0 ==> r == v
    ensures col in df.columns && NumericCount(df.rows, col) > 0 ==>
              Added(v, r)
              == (if lo.Some? && SomeBelow(df.rows, col, lo.value)
                  then [Below(col, CountBelow(df.rows, col, lo.value), lo.value)] else [])
               + (if hi.Some? && SomeAbove(df.rows, col, hi.value)
                  then [Above(col, CountAbove(df.rows, col, hi.value), hi.value)] else [])
  {
    if col !in df.columns || NumericCount(df.rows, col) == 0 then v
    else
      var low :=
        if lo.Some? && CountBelow(df.rows, col, lo.value) > 0
        then [Below(col, CountBelow(df.rows, col, lo.value), lo.value)] else [];
      var high :=
        if hi.Some? && CountAbove(df.rows, col, hi.value) > 0
        then [Above(col, CountAbove(df.rows, col, hi.value), hi.value)] else [];
      assert lo.Some? ==> (CountBelow(df.rows, col, lo.value) > 0 <==> SomeBelow(df.rows, col, lo.value)) by {
        if lo.Some? {
          CountBelowPositive(df.rows, col, lo.value);
        }
      }
      assert hi.Some? ==> (CountAbove(df.rows, col, hi.value) > 0 <==> SomeAbove(df.rows, col, hi.value)) by {
        if hi.Some? {
          CountAbovePositive(df.rows, col, hi.value);
        }
      }
      assert (v.issues + low + high)[..|v.issues|] == v.issues;
      assert (v.issues + low + high)[|v.issues|..] == low + high;
      ValidationResult(v.source, v.issues + low + high)
  }

  /** Values on the bounds themselves never produce a RANGE issue. */
  lemma RangeBoundsInclusive(v: ValidationResult, df: Frame, col: string, lo: real, hi: real)
    requires forall i :: 0 <= i < |df.rows| && NumericOf(Cell(df.rows[i], col)).Some? ==>
               lo <= NumericOf(Cell(df.rows[i], col)).value <= hi
    ensures CheckRange(v, df, col, Some(lo), Some(hi)) == v
  {
    if col in df.columns && NumericCount(df.rows, col) > 0 {
      assert !SomeBelow(df.rows, col, lo);
      assert !SomeAbove(df.rows, col, hi);
      assert v.issues + [] + [] == v.issues;
    }
  }

  /** `check_min_rows`: a ROW COUNT issue exactly when the frame is shorter than `minRows`. */
  function CheckMinRows(v: ValidationResult, df: Frame, minRows: nat): (r: ValidationResult)
    ensures Extends(v, r)
    ensures |df.rows| >= minRows ==> r == v
    ensures |df.rows| < minRows ==> Added(v, r) == [RowCount(|df.rows|, minRows)]
  {
    if |df.rows| < minRows then ValidationResult(v.source, v.issues + [RowCount(|df.rows|, minRows)]) else v
  }

  // ── End-of-run report ────────────────────────────────────────────────

  /** One WARNING line of the report: the result's source and one of its issues. */
  datatype IssueLine = IssueLine(source: string, issue: Issue)

  datatype Report = Report(checked: nat, passed: nat, failed: nat, lines: seq<IssueLine>)

  function PassedCount(vs: seq<ValidationResult>): nat {
    if vs == [] then 0 else PassedCount(vs[..|vs| - 1]) + (if vs[|vs| - 1].Passed() then 1 else 0)
  }

  function FailedCount(vs: seq<ValidationResult>): nat {
    if vs == [] then 0 else FailedCount(vs[..|vs| - 1]) + (if vs[|vs| - 1].Passed() then 0 else 1)
  }

  function TotalIssues(vs: seq<ValidationResult>): nat {
    if vs == [] then 0 else TotalIssues(vs[..|vs| - 1]) + |vs[|vs| - 1].issues|
  }

  /** The issue lines of the failed results, result by result, issue by issue. */
  function IssueLines(vs: seq<ValidationResult>): (ls: seq<IssueLine>)
    ensures |ls| == TotalIssues(vs)
    ensures forall k :: 0 <= k < |ls| ==>
              exists j :: 0 <= j < |vs| && ls[k].source == vs[j].source && ls[k].issue in vs[j].issues
  {
    if vs == [] then []
    else
      var last := vs[|vs| - 1];
      var rest := IssueLines(vs[..|vs| - 1]);
      var mine := seq(|last.issues|, i requires 0 <= i < |last.issues| => IssueLine(last.source, last.issues[i]));
      assert forall k :: 0 <= k < |mine| ==> mine[k].issue in last.issues;
      rest + mine
  }

  lemma {:induction false} CountsAddUp(vs: seq<ValidationResult>)
    ensures PassedCount(vs) + FailedCount(vs) == |vs|
    ensures FailedCount(vs) == 0 <==> TotalIssues(vs) == 0
  {
    if vs != [] {
      CountsAddUp(vs[..|vs| - 1]);
    }
  }

  /** The positions of the results that found no issue. */
  function PassedIndices(vs: seq<ValidationResult>): set<int> {
    set i | 0 <= i < |vs| && vs[i].Passed()
  }

  /** The positions of the results that found at least one issue. */
  function FailedIndices(vs: seq<ValidationResult>): set<int> {
    set i | 0 <= i < |vs| && !vs[i].Passed()
  }

  /** The running counts are the number of results that passed and failed. */
  lemma {:induction false} CountsAreIndices(vs: seq<ValidationResult>)
    ensures PassedCount(vs) == |PassedIndices(vs)|
    ensures FailedCount(vs) == |FailedIndices(vs)|
  {
    if vs != [] {
      var n := |vs| - 1;
      var pre := vs[..n];
      CountsAreIndices(pre);
      assert forall i :: 0 <= i < n ==> vs[i] == pre[i];
      if vs[n].Passed() {
        assert PassedIndices(vs) == PassedIndices(pre) + {n};
        assert FailedIndices(vs) == FailedIndices(pre);
      } else {
        assert PassedIndices(vs) == PassedIndices(pre);
        assert FailedIndices(vs) == FailedIndices(pre) + {n};
      }
    }
  }

  /**
   * `print_validation_report`: nothing when no result was registered; otherwise
   * the counts, and one line per issue of every failed result.
   */
  function ValidationReport(vs: seq<ValidationResult>): (r: Option<Report>)
    ensures r.None? <==> vs == []
    ensures r.Some? ==> r.value.checked == |vs| && r.value.passed + r.value.failed == r.value.checked
    ensures r.Some? ==> (r.value.failed == 0 <==> r.value.lines == [])
    ensures r.Some? ==> |r.value.lines| == TotalIssues(vs)
    ensures r.Some? ==> r.value.passed == |PassedIndices(vs)| && r.value.failed == |FailedIndices(vs)|
  {
    if vs == [] then None
    else
      CountsAddUp(vs);
      CountsAreIndices(vs);
      Some(Report(|vs|, PassedCount(vs), FailedCount(vs), IssueLines(vs)))
  }
}

=== FILE: wrappers.dfy ===
/** Failure-compatible wrappers shared by every layer of the pipeline model. */
module Wrappers {

  /** A value that may be absent: Python's `None`, or a lookup that found nothing. */
  datatype Option<+T> = None | Some(value: T) {

    predicate IsFailure() {
      None?
    }

    function PropagateFailure<U>(): Option<U>
      requires None?
    {
      None
    }

    function Extract(): T
      requires Some?
    {
      value
    }

    /** The value, or `default` when absent (`dict.get(key, default)`). */
    function GetOr(default: T): T {
      match this
      case Some(v) => v
      case None => default
    }
  }

  /** Either a value or the exception the source would have raised. */
  datatype Result<+T, +E> = Ok(value: T) | Err(error: E) {

    predicate IsFailure() {
      Err?
    }

    function PropagateFailure<U>(): Result<U, E>
      requires Err?
    {
      Err(error)
    }

    function Extract(): T
      requires Ok?
    {
      value
    }
  }
}
